=== FILE: README.md ===
# agentic-trek: a verified model of the simulation core

This project models the turn-based simulation at the heart of agentic-trek, a
Star Trek game. The Enterprise hunts Klingons across an 8x8 galaxy of
quadrants. Each quadrant is itself an 8x8 grid of sectors. The model covers
seven parts of the game, one Dafny module each, plus a shared module:

- `Galaxy` (`galaxy.dfy`) is the galaxy. Each quadrant has object counts and a
  map from sector to object kind (`K` Klingon, `B` starbase, `*` star). The
  module covers generation, the queries and the add/remove/move mutators. The
  mutators are proved to keep every quadrant's counts equal to the number of
  map entries of each kind.
- `Ship` (`ship.dfy`) is the Enterprise. It has energy, shields, torpedoes and
  a damage level for each of eight systems. The module covers damage (shields
  absorb first), repair, docking and the capability tests.
- `Combat` (`combat.dfy`) is the stateless combat resolver for phaser and
  torpedo attacks. It covers the energy split, hit probabilities, damage,
  destruction thresholds and the summary message.
- `KlingonAI` (`klingon_ai.dfy`) is the tactical AI. It keeps a state per
  Klingon, keyed by sector. It covers tactical analysis, emotional updates,
  the five personality strategies and combat bookkeeping.
- `StrategicAI` (`strategic_ai.dfy`) is the strategic advisor. It covers the
  scores, the threshold bands, urgent warnings in priority order, the greedy
  route and its energy estimate, and trends.
- `Events` (`events.dfy`) is the event manager. It covers the cooldown, active
  solar storms and anomalies, the weighted choice of a random event, the event
  effects and the contextual warnings.
- `Engine` (`engine.dfy`) is the game engine. It covers the game-state record
  and its dictionary form, the command handlers, the Klingons' turn, the
  clock, the end conditions and `process_turn`.
- `Common` (`common.dfy`) holds the shared pieces: `Option`, sector and
  quadrant coordinates, squared distances, the warp cost and Python's
  truncating conversions.

Objects whose fields the game updates in place are classes, with the game's
own mutators as methods. These are `Galaxy.Galaxy`, `Ship.Ship`,
`KlingonAI.KlingonAI`, `Events.EventManager` and `Engine.GameEngine`. Each
class has a `Valid()` invariant that its methods keep. Each method is
specified against value-level functions (`Galaxy.Removed`,
`Combat.Fired`, `StrategicAI.GreedyRoute` and so on), and the lemmas about
those functions state what the game promises.

The model makes the following modelling choices:

- Every random draw (`random.random`, `randint`, `choice`, `uniform`,
  `choices`) is a parameter.
- The stardate is counted in integer tenths. It starts at 2267.0, which is
  22670, and advances by one tenth per successful turn.
- Distances are compared as squared integers, which order cells exactly as
  their square roots do.
- A Euclidean distance that enters arithmetic is an input constrained to be
  exact (`IsDistance`: non-negative, with square equal to the squared
  distance). In the engine it comes from a square-root parameter `root`
  constrained by `IsRoot`.
- The warp cost `int(distance * 8)` is the largest `k` with
  `k * k <= 64 * d2`, where `d2` is the squared distance.
- Python's `int()` on a float truncates toward zero. It is written out as
  `Trunc` for reals and `TruncDiv` for integers, because Dafny's `/` is
  Euclidean.
- Probabilities and other fractional values are exact `real`s.

## Model

| member | source | states |
|---|---|---|
| Common.Dist2 | src/game/galaxy.py:283-287 | the squared distance is zero exactly for the same cell |
| Common.DistanceSymmetric | src/game/galaxy.py:283-287 | distance does not depend on the order of the two cells |
| Common.Chebyshev | src/game/galaxy.py:231-235 | the number of king moves bounds both coordinate differences and equals one of them |
| Common.WarpCost | src/game/engine.py:218-219 | `int(distance * 8)` is the largest k with k * k <= 64 * d2 |
| Common.WarpCostMonotone | src/game/engine.py:218-219 | a longer jump never costs less energy |
| Common.RandInt | src/game/galaxy.py:119-120 | `random.randint(lo, hi)` lies in [lo, hi] |
| Common.TruncDiv | src/ai/klingon_ai.py:450-451 | `int(a / b)` has the magnitude of the floor of abs(a) / b and the sign of a |
| Common.Trunc | src/game/combat.py:270 | `int(r)` truncates toward zero |
| Common.Clamp | src/game/combat.py:234 | `max(lo, min(hi, v))` lies in [lo, hi] and leaves a value inside unchanged |
| Ship.Lookup | src/game/ship.py:138 | a name that resolves denotes the system whose field has that name |
| Ship.LookupName | src/game/ship.py:16-23 | every one of the eight system fields is found under its own name |
| Ship.AllSystemsListed | src/game/ship.py:122-125 | the list `_apply_system_damage` picks from names every system |
| Ship.NoDamage | src/game/ship.py:14-23 | a fresh damage record has every system at 0.0 |
| Ship.Efficiency | src/game/ship.py:162 | efficiency is never negative and is 1 - damage for a damage in [0, 1] |
| Ship.EfficiencyByName | src/game/ship.py:158-163 | an unknown name has efficiency 1.0; a known one has its system's efficiency |
| Ship.EfficiencyThreshold | src/game/ship.py:165-180 | efficiency above 0.1 holds exactly when damage is below 0.9 |
| Ship.EfficiencyMonotone | src/game/ship.py:158-163 | more damage never gives more efficiency |
| Ship.DamageChance | src/game/ship.py:118 | the system-damage chance never exceeds 0.8, is non-negative for a non-negative hit and is 0.8 from a hit of 80 on |
| Ship.Hit | src/game/ship.py:86-113 | a non-positive hit changes nothing; shields absorb first; the rest comes off energy floored at 0; the returned damage is what passed the shields |
| Ship.HitConserves | src/game/ship.py:90-93 | shields lost plus damage passed through add up to the whole hit |
| Ship.HitMayOverstateLoss | src/game/ship.py:98-113 | the returned damage can exceed the energy actually lost (50 reported, 10 lost) |
| Ship.Worsened | src/game/ship.py:131 | the new damage is capped at 1.0, never above current + severity, and equal to it below the cap |
| Ship.ConditionOf | src/game/ship.py:227-244 | DESTROYED exactly when destroyed; otherwise each of the five bands iff the average damage lies in it: EXCELLENT below 0.1, GOOD in [0.1, 0.3), FAIR in [0.3, 0.6), POOR in [0.6, 0.8), CRITICAL from 0.8 |
| Ship.ConditionMonotone | src/game/ship.py:235-244 | a higher average damage never reports a better condition |
| Ship.TotalDamageBounds | src/game/ship.py:232 | with every damage in [0, 1] the total lies between 0 and the number of systems |
| Ship.TotalDamageMonotone | src/game/ship.py:232 | the total grows with each system's damage |
| Ship.PriorityLabel | src/game/ship.py:262-264 | each label iff the damage lies in its band: CRITICAL above 0.8, HIGH in (0.5, 0.8], MEDIUM in (0.2, 0.5], LOW at most 0.2 |
| Ship.Damaged | src/game/ship.py:257-258 | a system is listed iff it is in the order and damaged |
| Ship.DamagedIsSubsequence | src/game/ship.py:251-258 | the damaged systems keep the priority order |
| Ship.RepairItemsSound | src/game/ship.py:256-267 | the repair list names exactly the damaged systems in priority order, each with its damage and label |
| Ship.Ship.constructor | src/game/ship.py:37-62 | full energy, shields and torpedoes, quadrant (1, 1), sector (4, 4), nothing visited, no damage, not docked or destroyed |
| Ship.Ship.ResetToFullStrength | src/game/ship.py:66-73 | resources at their maxima, damage cleared, not docked or destroyed, position unchanged |
| Ship.Ship.TakeDamage | src/game/ship.py:76-113 | shields, energy and the result follow `Hit`; destroyed once energy is gone; a system is damaged only when damage passed the shields |
| Ship.Ship.ApplySystemDamage | src/game/ship.py:115-134 | below the chance the picked system worsens by the severity capped at 1.0, otherwise nothing changes |
| Ship.Afflicted | src/game/ship.py:115-134 | the damage record one run leaves: below the damage chance the picked system worsens by the severity capped at 1.0 and every other system keeps its damage; at or above the chance nothing changes |
| Ship.SystemDamageDetermined | src/game/ship.py:115-134 | every damage record a run of `_apply_system_damage` can leave is the one `Afflicted` gives |
| Ship.SystemDamageBounded | src/game/ship.py:127-132 | at most one system changes, by at most 0.5, and all damage stays within [0, 1] |
| Ship.Ship.RepairSystem | src/game/ship.py:136-141 | the named system loses the repair amount floored at 0, the others are unchanged, an unknown name changes nothing |
| Ship.Ship.RepairAllDamage | src/game/ship.py:145-147 | every system back to no damage |
| Ship.Ship.DockWithStarbase | src/game/ship.py:269-275 | docked, resources at their maxima, all damage repaired, position unchanged |
| Ship.Ship.Undock | src/game/ship.py:278-280 | no longer docked |
| Ship.Ship.HasDamage | src/game/ship.py:150-152 | true iff some system has positive damage |
| Ship.Ship.SystemEfficiency | src/game/ship.py:158-163 | efficiency lies in [0, 1] and is 1.0 for an unknown name |
| Ship.Ship.CanUseWarp | src/game/ship.py:165-167 | warp damage below 0.9 and energy above 100 |
| Ship.Ship.CanUsePhasers | src/game/ship.py:169-171 | phaser damage below 0.9 and energy above 50 |
| Ship.Ship.CanUseTorpedoes | src/game/ship.py:173-176 | tube damage below 0.9 and a torpedo left |
| Ship.Ship.CanUseSensors | src/game/ship.py:178-180 | sensor damage below 0.9 |
| Ship.Ship.OverallCondition | src/game/ship.py:227-244 | DESTROYED iff flagged destroyed; otherwise each band iff the total damage of the eight systems lies in eight times its range (below 0.8, [0.8, 2.4), [2.4, 4.8), [4.8, 6.4), from 6.4) |
| Ship.Ship.RepairPriority | src/game/ship.py:246-267 | the damaged systems in priority order, each described by its damage and label |
| Galaxy.Removed | src/game/galaxy.py:362-377 | the object at the position is gone, every other object stays, and only the count of the removed kind drops, floored at 0 |
| Galaxy.Added | src/game/galaxy.py:379-398 | off-grid positions change nothing; otherwise the object replaces whatever was there and the counts are those after the removal plus one for the new kind |
| Galaxy.Moved | src/game/galaxy.py:400-409 | the object moves only when the source is occupied and the target free; counts never change; every other cell keeps its content |
| Galaxy.RemovedConsistent | src/game/galaxy.py:362-377 | removing an object keeps every count equal to the number of objects of its kind |
| Galaxy.AddedConsistent | src/game/galaxy.py:379-398 | adding an object keeps every count equal to the number of objects of its kind |
| Galaxy.MovedConsistent | src/game/galaxy.py:400-409 | moving an object keeps every count equal to the number of objects of its kind |
| Galaxy.Grid | src/game/galaxy.py:86-88 | the generation order visits 64 cells |
| Galaxy.GridCell | src/game/galaxy.py:86-88 | cell i of the x-major scan is (i / 8 + 1, i % 8 + 1), on the grid, and has index i |
| Galaxy.GridExact | src/game/galaxy.py:86-88 | the scan visits exactly the cells of the 8 x 8 grid |
| Galaxy.GridDistinct | src/game/galaxy.py:86-88 | the scan visits no cell twice |
| Galaxy.AllPositions | src/game/galaxy.py:152-157 | the set of available sector positions has the 64 grid cells and nothing else |
| Galaxy.PlaceObjects | src/game/galaxy.py:159-178 | each placement takes a free position; min(count, free) objects of the kind are placed on distinct free cells, the rest stay untouched |
| Galaxy.PlacementsLaidOut | src/game/galaxy.py:150-178 | after Klingons, starbases and stars are placed in an empty quadrant, each count of objects is its quota capped by the space left |
| Galaxy.MaxStars | src/game/galaxy.py:147-148 | the upper bound of the star draw is at least 1 |
| Galaxy.PopulateSteps | src/game/galaxy.py:97-104 | after the three distributions every quadrant is populated within its limits and the galaxy totals are the numbers placed |
| Galaxy.ConsistentWhenFresh | src/game/galaxy.py:150-178 | when no quadrant asks for more than 60 stars, every laid-out quadrant's counts equal its objects |
| Galaxy.Galaxy.constructor | src/game/galaxy.py:65-77 | no quadrants yet; the configured totals and star density are kept |
| Galaxy.Galaxy.DistributeKlingons | src/game/galaxy.py:112-126 | only Klingon counts change, never above 3 per quadrant, and the galaxy total rises by the number placed, which is the configured total unless the draws ran out |
| Galaxy.Galaxy.DistributeStarbases | src/game/galaxy.py:128-141 | only starbase counts change, each from 0 to 1, and the galaxy total rises by the number placed |
| Galaxy.Galaxy.DistributeStars | src/game/galaxy.py:143-148 | every quadrant gets a star count drawn from [1, MaxStars] and nothing else changes |
| Galaxy.Galaxy.GenerateQuadrantObjects | src/game/galaxy.py:150-178 | only this quadrant changes, its counts are kept, all new objects are on the grid, and an empty quadrant ends laid out |
| Galaxy.Galaxy.CreateEmptyQuadrants | src/game/galaxy.py:85-95 | the 64 quadrants exist, each empty, with no Klingons or starbases in total |
| Galaxy.Galaxy.LayOutQuadrants | src/game/galaxy.py:106-108 | every quadrant is laid out from its counts, consistent when the star bound allows, and the totals are unchanged |
| Galaxy.Galaxy.LayOutRow | src/game/galaxy.py:107-108 | one more column of quadrants is laid out from its counts, the other quadrants are untouched, and no count changes |
| Galaxy.Galaxy.Generate | src/game/galaxy.py:81-141 | a fresh galaxy: every quadrant laid out; the Klingon and starbase totals are at most the configured numbers and equal them unless the draws run out |
| Galaxy.Galaxy.Populate | src/game/galaxy.py:97-104 | every quadrant populated within its limits; the totals are the numbers placed, at most the configured ones, and reach them unless the draws run out |
| Galaxy.Galaxy.RemoveObject | src/game/galaxy.py:362-377 | the quadrant becomes `Removed` of itself, an unknown quadrant changes nothing, and consistency is kept |
| Galaxy.Galaxy.RemoveKlingonAt | src/game/galaxy.py:362-377 | removing a Klingon from a generated galaxy lowers the galaxy's Klingon total by exactly one and keeps it generated and consistent |
| Galaxy.Galaxy.AddObject | src/game/galaxy.py:379-398 | the quadrant becomes `Added` of itself, an unknown quadrant changes nothing, and consistency is kept |
| Galaxy.Galaxy.MoveObject | src/game/galaxy.py:400-409 | the quadrant becomes `Moved` of itself, an unknown quadrant changes nothing, and consistency is kept |
| Galaxy.Galaxy.QuadrantData | src/game/galaxy.py:180-193 | an unknown quadrant has no objects; for a consistent quadrant the summary counts are the counts of its objects |
| Galaxy.Galaxy.AdjacentData | src/game/galaxy.py:225-238 | exactly the on-grid quadrants within one step, each with its summary |
| Galaxy.Galaxy.SafeQuadrants | src/game/galaxy.py:314-329 | a quadrant is listed iff it has no Klingons and a starbase in it or next to it |
| Galaxy.Galaxy.FreeQuadrants | src/game/galaxy.py:335 | a quadrant is listed iff it has no Klingons |
| Galaxy.Galaxy.FindSafeStartingQuadrant | src/game/galaxy.py:310-340 | the start is on the grid, safe whenever a safe quadrant exists, and free of Klingons whenever such a quadrant exists |
| Galaxy.Galaxy.StarbaseQuadrants | src/game/galaxy.py:421-425 | a quadrant is listed iff it has a starbase |
| Galaxy.Galaxy.NearestStarbase | src/game/galaxy.py:419-440 | None iff no quadrant has a starbase; otherwise a starbase quadrant no farther than any other |
| Galaxy.NearestIndex | src/game/galaxy.py:431-438 | the scan keeps the first of the nearest candidates and yields -1 only for an empty list |
| Galaxy.ShiftedMembers | src/game/galaxy.py:231-236 | the scan of offsets yields exactly the valid quadrants at those offsets |
| Galaxy.OffsetsExact | src/game/galaxy.py:231-232 | the offsets scanned are exactly the steps of at most one in each direction |
| Galaxy.Neighbourhood | src/game/galaxy.py:225-238 | the quadrants scanned are exactly the valid ones within one step of the centre |
| Galaxy.RowLabel | src/game/galaxy.py:206 | a row label is four characters |
| Galaxy.RowCells | src/game/galaxy.py:208-218 | each cell adds four characters |
| Galaxy.DisplayLines | src/game/galaxy.py:198-223 | the display down to row n is 71 + 74 n characters long |
| Galaxy.RowCellsShow | src/game/galaxy.py:211-218 | cell x of a row shows the sector's symbol at offset 4x - 3 |
| Galaxy.DisplayShowsSectors | src/game/galaxy.py:198-223 | in the display, offset 74 y + 4 x - 1 shows what sector (x, y) holds: the ship, else its object, else '.' |
| Galaxy.DisplayKeepsEarlierRows | src/game/galaxy.py:220-221 | appending a row leaves the text above it unchanged |
| Galaxy.DisplayShowsLastRow | src/game/galaxy.py:205-221 | the newest row's cells sit right after the previous text and a newline |
| Galaxy.FormatQuadrantDisplay | src/game/galaxy.py:195-223 | the 663-character display, in which every sector shows its symbol at its offset |
| Galaxy.DisplayRow | src/game/galaxy.py:206-218 | a row is its label followed by its eight cells in order |
| Galaxy.DisplayShowsAllSectors | src/game/galaxy.py:195-223 | all 64 sectors appear in the finished display at their offsets |
| Combat.Failure | src/game/combat.py:52-66 | a refused attack reports failure with its message, no events, nothing destroyed and no damage |
| Combat.PhaserHitProbability | src/game/combat.py:217-234 | the phaser hit chance is clamped to [0.05, 0.95] |
| Combat.TorpedoHitProbability | src/game/combat.py:236-252 | the torpedo hit chance is clamped to [0.1, 0.9] |
| Combat.PhaserHitMonotone | src/game/combat.py:230-234 | a more efficient phaser bank never hits less often |
| Combat.TorpedoHitMonotone | src/game/combat.py:248-252 | more efficient torpedo tubes never hit less often |
| Combat.PhaserDamage | src/game/combat.py:254-270 | a phaser hit does at least 1 damage |
| Combat.TorpedoDamage | src/game/combat.py:272-288 | a torpedo hit does at least 10 damage |
| Combat.Critical | src/game/combat.py:103-104 | a critical hit doubles the damage |
| Combat.OptimalPhaserEnergy | src/game/combat.py:322-332 | the suggestion is at least 100, exactly 100 when at most 100 is available, and never above both 100 and what is available |
| Combat.OptimalPhaserEnergyMonotone | src/game/combat.py:326-332 | more available energy never lowers the suggestion |
| Combat.EnergyGivenPrefix | src/game/combat.py:77-86 | the first k targets get k shares plus the remainder |
| Combat.EnergySplitExact | src/game/combat.py:77-86 | the per-target shares add up to exactly the energy fired |
| Combat.PhaserShot | src/game/combat.py:84-115 | a target with no energy is skipped; otherwise it is hit iff the draw is within the hit chance, with at least 1 damage, critical iff the critical draw is within 0.1 |
| Combat.TorpedoShot | src/game/combat.py:177-199 | every candidate is fired at; hit iff the draw is within the hit chance, with at least 10 damage, critical iff the critical draw is within 0.1 |
| Combat.PhaserShots | src/game/combat.py:82-115 | one shot per target, in order |
| Combat.Events | src/game/combat.py:105-115 | every event names the weapon and a target of the volley |
| Combat.Destroyed | src/game/combat.py:111-112 | a target is destroyed iff one of its hits reached the weapon's threshold (50 for phasers, 75 for torpedoes) |
| Combat.DestroyedDistinct | src/game/combat.py:111-112 | with distinct targets, no target is reported destroyed twice |
| Combat.TotalDamageAtLeast | src/game/combat.py:107 | when each hit does at least `least`, the total is at least `least` times the hits |
| Combat.HitsAsWritten | src/game/combat.py:118 | the event-text hit count is bounded by the number of events |
| Combat.HitsAsWrittenAppend | src/game/combat.py:118-119 | the event-text counts add up over concatenated event lists |
| Combat.ShotEventCounts | src/game/combat.py:103-115 | a critical hit writes two events containing "hit", a plain hit one, a miss one "missed" event |
| Combat.HitsAsWrittenCountsCriticalsTwice | src/game/combat.py:118-119 | the summary's hit count is the hits plus the critical hits; its miss count is the misses |
| Combat.CriticalHitReportedTwice | src/game/combat.py:118 | one critical hit is summarised as 2 hits |
| Combat.ShotsPartition | src/game/combat.py:82-115 | hits and misses never exceed the shots, and equal them when no shot is skipped |
| Combat.Fired | src/game/combat.py:68-126 | a volley succeeds with the shots' total damage, events and destroyed list, and a summary counting each hit once |
| Combat.ExecutePhaserAttack | src/game/combat.py:38-126 | no targets and phasers at efficiency 0.1 or less are refused; otherwise the volley is fired at every target |
| Combat.FirePhasers | src/game/combat.py:76-126 | the phaser volley result is `Fired` over the shots at the targets |
| Combat.Trajectory | src/game/combat.py:313-318 | the path keeps each on-grid point once and nothing else |
| Combat.Candidates | src/game/combat.py:165-169 | the enemies hit are the distinct Klingon cells on the path |
| Combat.TorpedoTrajectory | src/game/combat.py:290-320 | the loop's path is `Trajectory` of the raw points |
| Combat.EnemiesOnPath | src/game/combat.py:165-169 | the loop's enemy list is `Candidates` of the path |
| Combat.TorpedoShots | src/game/combat.py:177-199 | one shot per candidate, in order |
| Combat.ExecuteTorpedoAttack | src/game/combat.py:128-209 | tubes at efficiency 0.1 or less are refused; an empty path succeeds with "Torpedo missed"; otherwise each candidate is fired at |
| Combat.FireTorpedoes | src/game/combat.py:176-209 | the torpedo volley result is `Fired` over the shots at the candidates |
| Combat.PhaserVolleySound | src/game/combat.py:76-126 | destroyed targets are distinct targets; total damage is at least the hits; hits plus misses never exceed the targets |
| Combat.TorpedoVolleySound | src/game/combat.py:176-209 | destroyed targets are distinct candidates; total damage is at least 10 per hit; every candidate is either hit or grazed |
| KlingonAI.DamageFraction | src/ai/klingon_ai.py:40-46 | the damage fraction lies in [0, 1] for a valid hull, is 0 exactly for an undamaged unit, and is positive exactly when the unit is damaged |
| KlingonAI.Spawned | src/ai/klingon_ai.py:140-179 | a new unit has full health of 80, 120, 110 or 100 by personality, 200 energy, no fear, last action "spawn", accuracy 0.5 and the personality's aggression |
| KlingonAI.ShieldRatio | src/ai/klingon_ai.py:213 | the shield ratio is 0 without shield capacity, within [0, 1] for a well-formed ship, and 1 at full shields |
| KlingonAI.PlayerThreat | src/ai/klingon_ai.py:418-433 | the threat is at most 1, non-negative for non-negative resources, at most 0.75 after five encounters, and 1 for a fully stocked ship before that |
| KlingonAI.OptimalRange | src/ai/klingon_ai.py:520-532 | the range is 4 above a 0.7 shield ratio, 2 below 0.3, 3 in between, and always within [1, 6] |
| KlingonAI.SampleLine | src/ai/klingon_ai.py:443-452 | the sampled line starts at the unit, ends at the player, and sample i is i king moves from the unit |
| KlingonAI.ScaledStep | src/ai/klingon_ai.py:450-451 | each truncated step offset is at most i, and exactly i along the long axis |
| KlingonAI.CheckForCover | src/ai/klingon_ai.py:435-458 | the loop answers `HasCover`: false within one step, otherwise true iff a sampled intermediate cell holds a star |
| KlingonAI.FlankingSymmetric | src/ai/klingon_ai.py:477-490 | flanking is symmetric in the two positions, and flanking positions differ from each other and from the target |
| KlingonAI.CheckFlankingOpportunity | src/ai/klingon_ai.py:460-475 | the loop answers `FlankingOpportunity`: some other Klingon is on the opposite side of the player |
| KlingonAI.RowScanMembers | src/ai/klingon_ai.py:500-516 | one column of the scan keeps exactly its in-range cells other than the unit that pass the test |
| KlingonAI.GridScanMembers | src/ai/klingon_ai.py:499-516 | the rows scanned so far keep exactly the passing neighbours in those rows, the centre excluded |
| KlingonAI.GridScanShape | src/ai/klingon_ai.py:499-516 | the rows scanned so far hold no cell twice, and at most three cells per row, the centre's row one fewer |
| KlingonAI.EscapeRoutesSound | src/ai/klingon_ai.py:492-518 | the escape routes are exactly the free on-grid neighbours strictly farther from the player, without duplicates, at most 8 |
| KlingonAI.FindEscapeRoutes | src/ai/klingon_ai.py:492-518 | the nested loop builds `EscapeRoutes` in scan order |
| KlingonAI.ScanRow | src/ai/klingon_ai.py:500-516 | the inner loop builds one column of the scan |
| KlingonAI.Emotions | src/ai/klingon_ai.py:216-240 | only fear and aggression change; fear is at most 1 and non-negative, at least 0.2 when alone; aggression is at least 0.1 |
| KlingonAI.AggressionNeverRises | src/ai/klingon_ai.py:226-240 | aggression does not rise except for a damaged berserker (+0.2 at most) and a commander |
| KlingonAI.RandomAdjacent | src/ai/klingon_ai.py:556-582 | a random move target is on the grid and within one step of an on-grid unit |
| KlingonAI.AttackDamage | src/ai/klingon_ai.py:534-546 | an attack does at least 1 damage, and exactly 1 below 10 power |
| KlingonAI.AttackDamageAtMost | src/ai/klingon_ai.py:537-546 | beyond distance 1 an attack does at most 1.2 times power / 10, or 1 |
| KlingonAI.RetreatDirection | src/ai/klingon_ai.py:548-560 | with escape routes the retreat target is one of them; otherwise a clamped random neighbour |
| KlingonAI.RetreatAsWritten | src/ai/klingon_ai.py:211 | given the route count, the retreat raises a TypeError exactly when the count is non-zero |
| KlingonAI.RetreatRaisesWhenRoutesExist | src/ai/klingon_ai.py:552-554 | a unit at (5, 5) with the player at (4, 4) has escape routes, so the retreat as written raises |
| KlingonAI.DefensiveStrategy | src/ai/klingon_ai.py:259-281 | retreat iff damage above 0.6; otherwise move away below 3, close in above 5, else attack with 30% of the energy |
| KlingonAI.BerserkerStrategy | src/ai/klingon_ai.py:283-299 | close in iff farther than 2, else attack with 80% of the energy; never retreat |
| KlingonAI.TacticalStrategy | src/ai/klingon_ai.py:326-348 | re-range iff more than 1 off the optimal range (away when too close), else attack with 50% of the energy scaled by 1 + threat / 2 |
| KlingonAI.AggressiveStrategy | src/ai/klingon_ai.py:350-366 | close in iff farther than 3, else attack with 70% of the energy |
| KlingonAI.FlankingAttack | src/ai/klingon_ai.py:394-410 | a flanking attack uses 60% of the energy and adds a quarter of the damage as a bonus |
| KlingonAI.CommanderStrategy | src/ai/klingon_ai.py:301-324 | flank when possible, else a coordinated 60% attack with allies, else the tactical strategy |
| KlingonAI.ChooseAction | src/ai/klingon_ai.py:242-257 | attacks do at least 1 damage; only a badly damaged defensive unit retreats; only commanders flank or coordinate; each personality attacks only within its range |
| KlingonAI.ActionStaysLocal | src/ai/klingon_ai.py:183-257 | every move or retreat the AI decides on targets an on-grid cell within one step |
| KlingonAI.ChosenTargetNear | src/ai/klingon_ai.py:368-392 | with nearby escape routes, any move or retreat target is a neighbour |
| KlingonAI.AttackPowerWithinEnergy | src/ai/klingon_ai.py:275-360 | an attack never uses more power than the unit's energy, nor negative power |
| KlingonAI.TacticalPowerWithinEnergy | src/ai/klingon_ai.py:340-341 | the tactical attack power lies within [0, energy] for a threat in [0, 1] |
| KlingonAI.ShieldUsageBlend | src/ai/klingon_ai.py:596-598 | the learned shield usage stays between its old value and the new sample |
| KlingonAI.KlingonAI.constructor | src/ai/klingon_ai.py:60-93 | no units, no encounters, shield usage 0.5 and all combat statistics at 0 |
| KlingonAI.KlingonAI.InitializeKlingonState | src/ai/klingon_ai.py:140-179 | the position now maps to a freshly spawned unit; nothing else changes |
| KlingonAI.KlingonAI.AnalyzeSituation | src/ai/klingon_ai.py:183-214 | the analysis of the unit's situation from the quadrant and the player's ship |
| KlingonAI.KlingonAI.UpdatePlayerBehavior | src/ai/klingon_ai.py:584-598 | one more encounter, and shield usage blended 0.9 / 0.1 with the current shield ratio |
| KlingonAI.KlingonAI.Current | src/ai/klingon_ai.py:112-115 | the unit decided for is the known one at the position or a freshly spawned one there; either is well-formed |
| KlingonAI.KlingonAI.Updated | src/ai/klingon_ai.py:117-123 | the unit after the emotional update stays at its position and stays well-formed for a well-formed player |
| KlingonAI.KlingonAI.Deliberate | src/ai/klingon_ai.py:111-126 | the unit (spawned when new) gets its emotions updated from the analysis, its action is `Decision` of the state before the call, and the statistics do not change |
| KlingonAI.KlingonAI.Learn | src/ai/klingon_ai.py:128-130 | the player model learns iff adaptation is enabled; the units do not change |
| KlingonAI.KlingonAI.DecideAction | src/ai/klingon_ai.py:97-138 | the action is `Decision` of the state before the call; the unit's entry becomes the updated unit with that action recorded, so that the units and the player model are `Remember` of those before the call; the player model learns iff adaptation is on; the combat statistics do not change |
| KlingonAI.Recorded | src/ai/klingon_ai.py:133-134 | the unit keeps every attribute except its last action, now the chosen action's name, and its turns since damage, one more |
| KlingonAI.KlingonAI.RecordAction | src/ai/klingon_ai.py:133-134 | the unit's last action and turns since damage are updated |
| KlingonAI.KlingonAI.ReportCombatResult | src/ai/klingon_ai.py:600-623 | an unknown unit changes nothing; otherwise the statistics grow, health drops floored at 0, and a unit at 0 health is removed and counted destroyed |
| KlingonAI.UnitIn | src/ai/klingon_ai.py:112-115 | the unit a decision is made for is the one remembered at the position or the one spawned there, with a positive hull maximum either way |
| KlingonAI.Remember | src/ai/klingon_ai.py:97-138 | after a decision the unit at the position is remembered with the chosen action recorded, every other unit is kept and none is added; the encounter count rises by one and the shield usage is blended 0.9 / 0.1 with the shield ratio iff adaptation is on |
| StrategicAI.ReadingsOf | src/ai/strategic_ai.py:276-312 | the advisor's readings agree with the ship on destroyed, damaged, and whether phasers and torpedoes can be used |
| StrategicAI.Ratio | src/ai/strategic_ai.py:282-283 | a resource ratio is at least 1 at or above the maximum, at most 0 when empty, and within [0, 1] in between |
| StrategicAI.PercentCompare | src/ai/strategic_ai.py:209-220 | comparing a percentage with a threshold is comparing current * 100 with threshold * maximum |
| StrategicAI.ShipCondition | src/ai/strategic_ai.py:276-293 | the ship condition lies in [0, 1] and is 0 when destroyed |
| StrategicAI.ConditionMonotoneInEnergy | src/ai/strategic_ai.py:282-293 | more energy never lowers the ship condition |
| StrategicAI.ThreatLevel | src/ai/strategic_ai.py:72-96 | the threat lies in [0, 1] with non-negative counts and time left; with ample time and no Klingons it is only the ship-condition term |
| StrategicAI.ThreatMonotone | src/ai/strategic_ai.py:72-96 | more Klingons, in the galaxy or locally, never lower the threat |
| StrategicAI.ThreatUnboundedWhenOverdue | src/ai/strategic_ai.py:72-96 | with negative time remaining the threat is not clamped and can exceed 1 |
| StrategicAI.CombatReadiness | src/ai/strategic_ai.py:295-312 | readiness lies in [0, 1] and is 0 when destroyed |
| StrategicAI.UnarmedReadinessAtMost | src/ai/strategic_ai.py:295-312 | with neither weapon usable and shields within their maximum, readiness is at most 0.6 |
| StrategicAI.TacticalAdvantage | src/ai/strategic_ai.py:314-330 | the advantage lies in [-1, 1] and is -1 against eight Klingons with no starbase |
| StrategicAI.AdvantageMonotone | src/ai/strategic_ai.py:314-330 | more local Klingons or losing the starbase never raise the advantage |
| StrategicAI.Efficiency | src/ai/strategic_ai.py:332-352 | the efficiency rating lies in [0, 1] |
| StrategicAI.EfficiencyRewardsKills | src/ai/strategic_ai.py:332-352 | one Klingon fewer remaining never lowers the rating |
| StrategicAI.BandOf | src/ai/strategic_ai.py:239-259 | a value is in the top band iff at least the high threshold, and in each lower band iff between its thresholds |
| StrategicAI.BandMonotone | src/ai/strategic_ai.py:239-259 | a larger value never falls in a worse band |
| StrategicAI.ResourceLevel | src/ai/strategic_ai.py:209-220 | each band iff the current value lies in its share of the maximum: excellent from 75%, good in [50%, 75%), low in [25%, 50%), critical below 25%; full is excellent and empty critical |
| StrategicAI.OverallResourceStatus | src/ai/strategic_ai.py:222-237 | each band iff the sum of the three ratios lies in three times its range (excellent from 2.25, good [1.5, 2.25), fair [0.75, 1.5), poor below 0.75); all full is excellent, all empty poor |
| StrategicAI.TimeStatus | src/ai/strategic_ai.py:239-248 | each band iff the percentage lies in it: ample from 75, adequate [50, 75), limited [25, 50), critical below 25 |
| StrategicAI.ProgressStatus | src/ai/strategic_ai.py:250-259 | each band iff the progress lies in it: excellent from 0.8, good [0.6, 0.8), fair [0.4, 0.6), poor below 0.4 |
| StrategicAI.UrgentWarning | src/ai/strategic_ai.py:188-207 | low energy first, then destroyed, then under 3 stardates left, then threat above 0.8, else no warning; each iff the earlier ones do not apply |
| StrategicAI.WarningPriority | src/ai/strategic_ai.py:188-207 | below 200 energy the warning ignores destruction, time and threat; a destroyed ship's warning ignores time and threat; under 3 stardates the warning ignores the threat |
| StrategicAI.Nearest | src/ai/strategic_ai.py:371-375 | the chosen target is no farther than any other, and strictly nearer than every earlier one |
| StrategicAI.RemoveAt | src/ai/strategic_ai.py:380 | removing one target leaves one fewer, and exactly the other targets |
| StrategicAI.GreedyStep | src/ai/strategic_ai.py:366-380 | one turn of the loop moves the nearest remaining target onto the route without changing the route the loop will finish with |
| StrategicAI.GreedyRoutePermutes | src/ai/strategic_ai.py:354-382 | the route visits each target exactly as often as it is listed |
| StrategicAI.GreedyRouteNearestFirst | src/ai/strategic_ai.py:366-380 | each stop is a nearest remaining target from the previous stop |
| StrategicAI.GetOptimalRoute | src/ai/strategic_ai.py:354-382 | the loop builds the greedy nearest-neighbour route |
| StrategicAI.FindNearest | src/ai/strategic_ai.py:368-375 | the inner scan finds the first nearest remaining target |
| StrategicAI.RouteCostJoin | src/ai/strategic_ai.py:389-393 | the cost of two joined legs is their costs plus the jump between them |
| StrategicAI.EstimateEnergyNeeded | src/ai/strategic_ai.py:384-395 | the sum of the warp costs of consecutive jumps, 0 for fewer than two stops |
| StrategicAI.MeanShift | src/ai/strategic_ai.py:419-435 | shifting every value shifts the mean by the same amount |
| StrategicAI.CalculateTrend | src/ai/strategic_ai.py:419-422 | fewer than two values is stable |
| StrategicAI.TrendShiftInvariant | src/ai/strategic_ai.py:419-435 | the trend does not change when every value is shifted by a constant |
| StrategicAI.ConstantIsStable | src/ai/strategic_ai.py:419-435 | a constant series is stable |
| Events.Weight | src/game/events.py:146-185 | every weight is positive; reinforcements 0.15 above 10 Klingons, 0.05 below 5, else 0.1; malfunction doubled on a damaged ship; starbase emergency tripled with a starbase in the quadrant; discovery cut to 0.03 under 10 stardates left; the other kinds keep their base weight |
| Events.Weights | src/game/events.py:141-187 | one positive weight per event kind, in table order, each the weight of that kind |
| Events.Choose | src/game/events.py:134-136 | the weighted choice is the first kind whose running total exceeds the draw, and never past the last kind |
| Events.PrefixMonotone | src/game/events.py:134-136 | with positive weights the running totals never decrease |
| Events.ChosenBand | src/game/events.py:134-136 | a draw below the total lands between the running totals before and after the chosen kind |
| Events.Insert | src/game/events.py:224-228 | storing an active event keeps it, adds at most one entry, and keeps only it and the earlier entries |
| Events.StormTick | src/game/events.py:416-429 | a storm turn drains a quarter of its drain when the energy exceeds that, else takes all the energy, and never leaves it negative |
| Events.StormTakesAtMostItsDrain | src/game/events.py:416-429 | from non-negative energy a storm turn takes exactly the smaller of the energy and the quarter drain |
| Events.CountdownMember | src/game/events.py:100-117 | what one entry leaves after a pass is exactly a storm one turn shorter with turns left |
| Events.SurvivorsCountDown | src/game/events.py:97-121 | after a pass no entry is added, and an entry remains iff it is a storm with turns left that was one turn longer before |
| Events.DrainedNonNegative | src/game/events.py:97-121 | once a storm has been processed, or from non-negative energy, the energy is not negative |
| Events.ContextualEvents | src/game/events.py:442-462 | the low-energy, time-critical and few-Klingons warnings each appear iff their condition holds and their draw is below 0.1, 0.2 and 0.15 |
| Events.NearbyAsWritten | src/game/events.py:280-289 | every candidate distress quadrant lies in 1..8 and within one of the stardate in each coordinate; past stardate 9 there is none |
| Events.EventManager.constructor | src/game/events.py:34-48 | a new manager has cooldown 0, no active events and no history, and is valid |
| Events.EventManager.CheckForEvents | src/game/events.py:57-90 | the cooldown is reset iff it has reached 5 and the draw is below the chance; then the event of the kind drawn is created exactly as `EventCreated` says, after the active events have run out and drained the ship; otherwise the cooldown counts up, the active events are processed and nothing else changes (shields, torpedoes and system damage included); the messages are the active events' `TickMessages` first and the contextual warnings last, with the new event's messages between them iff one fires |
| Events.EventManager.RandomEvent | src/game/events.py:77-84 | when the cooldown has reached 5 and the draw is below the chance, the drawn kind is created as `EventCreated` says, its messages are non-empty and the cooldown resets; otherwise nothing changes |
| Events.EventManager.CountdownKeepsValid | src/game/events.py:97-121 | a pass keeps at most one active storm with at most 5 minus the new cooldown turns left, and no anomaly |
| Events.EventManager.ProcessActiveEvents | src/game/events.py:92-123 | the active events become the survivors of a pass, and the energy and messages are those of processing each entry in order |
| Events.EventManager.GenerateRandomEvent | src/game/events.py:125-139 | the event of the kind drawn by the weighted choice is created exactly as `EventCreated` says for that kind (its active entry, its history entry, its effect on the ship's resources, nothing else); it produces messages, adds at most one history entry and one active event, and keeps the resources non-negative |
| Events.EventManager.CreateSolarStorm | src/game/events.py:219-239 | a storm of 2 to 5 turns is stored and its full drain is taken at once, not below 0 |
| Events.EventManager.CreateSpaceAnomaly | src/game/events.py:241-273 | one of the four anomalies is stored and announced |
| Events.EventManager.CreateDistressCall | src/game/events.py:275-309 | one distress entry is appended for the drawn ship type; past stardate 9 its quadrant is the random fallback |
| Events.EventManager.CreateReinforcements | src/game/events.py:311-324 | 1 to 3 Klingons in a random quadrant are announced and nothing else changes |
| Events.EventManager.CreateStarbaseEmergency | src/game/events.py:326-348 | the drawn emergency is appended to the history and announced |
| Events.EventManager.CreateEquipmentMalfunction | src/game/events.py:350-368 | only the drawn system's damage changes, by the extra damage and capped at 1 |
| Events.EventManager.CreateDiscovery | src/game/events.py:370-395 | the drawn discovery adds 300 energy, 2 torpedoes, 200 shields or nothing, each capped at its maximum |
| Events.EventManager.CreateDiplomaticEncounter | src/game/events.py:397-414 | the drawn species and the stardate are appended to the history |
| Events.DiscoveryCapped | src/game/events.py:370-395 | a discovery never lowers a resource and never pushes one past its maximum |
| Events.MalfunctionBounded | src/game/events.py:356-360 | extra damage in [0.1, 0.3] keeps the damage within [0, 1], raising it by at most 0.3 and by at least 0.1 below 0.9 |
| Engine.AllFieldsListed | src/game/engine.py:24-38 | every field of the game state is among the twelve listed |
| Engine.ToDict | src/game/engine.py:40-42 | the dictionary has exactly one key per field of the game state |
| Engine.FromDict | src/game/engine.py:44-47 | a state is rebuilt iff the dictionary has every field, each with a value of its type |
| Engine.DictRoundTrip | src/game/engine.py:40-47 | rebuilding a state from its dictionary gives the same state back |
| Engine.DictDetermines | src/game/engine.py:40-47 | a dictionary a state can be rebuilt from is exactly that state's dictionary |
| Engine.AlertLevel | src/game/engine.py:560-567 | red iff shields are down and energy is below 1000; green iff energy is at least 2000 and nothing is damaged |
| Engine.AlertMonotone | src/game/engine.py:560-567 | more shields, more energy or less damage never worsen the condition |
| Engine.Verdict | src/game/engine.py:521-541 | victory iff no Klingons remain; ship lost iff Klingons remain and the ship is destroyed; time expired iff neither and the clock has reached the limit; ongoing otherwise |
| Engine.ClockEndsGame | src/game/engine.py:537-541 | once the clock reaches the limit the game is over, one way or another |
| Engine.EfficiencyRating | src/game/engine.py:629-639 | the rating lies in [0, 1] and is 0 before the first turn |
| Engine.EfficiencyMonotone | src/game/engine.py:629-639 | using less energy, firing fewer torpedoes or visiting more quadrants never lowers the rating |
| Engine.CombatNotes | src/game/engine.py:302-306 | one event line per combat event, in order |
| Engine.EventNotes | src/game/engine.py:185-186 | one event line per event message, in order |
| Engine.ListCells | src/game/engine.py:284 | the sectors holding a given object, each listed once |
| Engine.Without | src/game/engine.py:298-300 | removing the listed sectors keeps exactly the other objects, unchanged |
| Engine.KillStep | src/game/engine.py:298-300 | removing the destroyed sectors one at a time removes exactly those seen so far |
| Engine.KillsRemoveKlingons | src/game/engine.py:298-300 | the combat results remove only Klingons, and only those reported destroyed |
| Engine.UnchangedGalaxyIsLocal | src/game/engine.py:244-266 | a command that leaves the galaxy alone changes no quadrant |
| Engine.Distances | src/game/engine.py:290-292 | with an exact square root each distance is the true distance to that enemy |
| Engine.DistanceMap | src/game/engine.py:331-333 | the torpedo distances are keyed by exactly the trajectory's sectors |
| Engine.RootDistance | src/game/engine.py:290-292 | an exact square root of the squared distance is the distance |
| Engine.DistanceMapExact | src/game/engine.py:331-333 | every trajectory sector's distance is the true distance |
| Engine.ShotDraws | src/game/engine.py:290-292 | one shot draw per enemy, in order |
| Engine.PhaserOutcomeKills | src/game/engine.py:290-300 | the phaser result destroys only distinct Klingons of the quadrant and reports as many as it destroys |
| Engine.TorpedoOutcomeKills | src/game/engine.py:331-341 | the torpedo result destroys only distinct Klingons on the trajectory and reports as many as it destroys |
| Engine.ReportedKills | src/game/engine.py:298-300 | a result that is not a combat report counts no kills |
| Engine.LocateStarbase | src/game/engine.py:390-407 | whether the quadrant has a starbase, and one within one step of the ship iff there is such a starbase |
| Engine.FindAdjacentStarbase | src/game/engine.py:400-404 | a starbase at Manhattan distance at most 1 is found iff one exists |
| Engine.GameEngine.constructor | src/game/engine.py:59-106 | a new game at stardate 2267.0 with the tallies taken from the generated galaxy, a fully stocked ship in a safe quadrant, and the game active |
| Engine.GameEngine.SetUpNewGame | src/game/engine.py:108-134 | the galaxy is generated and counted, the ship is placed in a Klingon-free quadrant when one exists, and is brought to full strength |
| Engine.GameEngine.GenerateGalaxy | src/game/engine.py:112-117 | the galaxy is generated and the Klingon and starbase tallies are its own counts |
| Engine.GameEngine.Navigate | src/game/engine.py:197-242 | succeeds iff the destination is on the grid and the warp cost is affordable; then the cost is paid, the ship is at sector (4, 4) of the new quadrant and a first visit is counted; every failure names its cause and changes nothing |
| Engine.GameEngine.Travel | src/game/engine.py:224-233 | the warp is paid for and recorded and the quadrant is entered |
| Engine.GameEngine.SetShields | src/game/engine.py:352-386 | no level reports the shields; a negative or malformed level fails; otherwise the level, capped at the maximum, is set iff the energy covers the increase, which is the only energy spent |
| Engine.GameEngine.Dock | src/game/engine.py:388-419 | succeeds iff a starbase lies within one step of the ship; then energy, shields and torpedoes are full and all damage repaired; otherwise nothing changes |
| Engine.GameEngine.Computer | src/game/engine.py:421-463 | the menu, a distance with its warp cost, or the status report succeed; a missing or malformed destination and an unknown function fail; nothing changes |
| Engine.GameEngine.RemoveKlingon | src/game/engine.py:299-300 | one Klingon is removed from the ship's quadrant and from the tally, and no other quadrant changes |
| Engine.GameEngine.RemoveDestroyed | src/game/engine.py:298-300 | exactly the destroyed Klingons leave the quadrant and the tally drops by their number |
| Engine.GameEngine.FirePhasers | src/game/engine.py:268-309 | succeeds iff a positive amount within the energy is given and a Klingon is present; then the energy is spent, the tally drops by the reported kills, and the reply and the quadrant are those of `execute_phaser_attack` fired at the quadrant's Klingons in some listing order (`VolleyAtAll`); every failure names its cause and changes nothing |
| Engine.GameEngine.FireAtKlingons | src/game/engine.py:282-306 | with an affordable amount: fails with "No enemies" and changes nothing iff the quadrant holds no Klingon; otherwise the volley at every listed Klingon, as `VolleyAtAll` states |
| Engine.GameEngine.PhaserVolley | src/game/engine.py:289-306 | the reply carries the summary and one note per event of the resolver's result for these enemies (`Phasers`, which is `execute_phaser_attack` at the ship's position and phaser efficiency), the quadrant loses exactly that result's destroyed Klingons, the energy is spent and the tally drops by the reported kills |
| Engine.GameEngine.PhaserAttack | src/game/engine.py:290-292 | the result is `Phasers`: refused with damaged phasers, otherwise `Fired` over `PhaserShots` with the true distances and the turn's shot draws; it destroys only Klingons of the quadrant and reports as many as it destroys |
| Engine.GameEngine.SpendPhaserEnergy | src/game/engine.py:294-306 | the amount is spent, the quadrant loses exactly the destroyed Klingons, the tally drops by the reported kills, and the reply carries the summary and the combat notes |
| Engine.GameEngine.FireTorpedoes | src/game/engine.py:311-350 | succeeds iff course and spread are given, a torpedo is left, the course is within 0 to 360 and the spread positive; then one torpedo is spent, the reply and the quadrant are those of `execute_torpedo_attack` along the trajectory (`Torpedoes`), and only Klingons on the trajectory leave the quadrant and the tally |
| Engine.GameEngine.TorpedoVolley | src/game/engine.py:329-347 | the reply carries the summary and one note per event of the resolver's result (`Torpedoes`, which is `execute_torpedo_attack` along the trajectory), the quadrant loses exactly that result's destroyed Klingons, all on the trajectory, and one torpedo is spent |
| Engine.GameEngine.TorpedoAttack | src/game/engine.py:330-333 | the result is `Torpedoes`: refused with damaged tubes, a miss with no Klingon on the path, otherwise `Fired` over `TorpedoShots` at the path's Klingons; it destroys only Klingons on the trajectory and reports as many as it destroys |
| Engine.GameEngine.SpendTorpedo | src/game/engine.py:335-347 | one torpedo is spent, the quadrant loses exactly the destroyed Klingons, the tally drops by the reported kills, and the reply carries the summary and the combat notes |
| Engine.GameEngine.MoveKlingon | src/game/engine.py:503-506 | the Klingon moves within the ship's quadrant; no other quadrant and no tally changes |
| Engine.Struck | src/game/engine.py:493-498 | the attacks with positive damage, in order, can only lower the shields and keep the energy between 0 and where it was; with none, nothing changes |
| Engine.MovedAll | src/game/engine.py:500-507 | the moves to sectors empty at the start of the pass, in order, keep the quadrant's counts and coordinates; with none, nothing changes |
| Engine.StruckStep | src/game/engine.py:493-498 | one more action extends the ship's account by that action's `Ship.Hit` iff it strikes |
| Engine.MovedAllStep | src/game/engine.py:500-507 | one more action extends the quadrant's account by that Klingon's move iff it relocates |
| Engine.TurnEffect | src/game/engine.py:488-507 | a turn whose action had its effect extends both accounts by that action |
| Engine.TurnNote | src/game/engine.py:493-507 | one note iff the action strikes or relocates: the damage that passed the shields, or the move |
| Engine.PassNotes | src/game/engine.py:488-507 | at most one note per action, each an attack or a move note |
| Engine.PassNotesStep | src/game/engine.py:488-507 | one more Klingon's turn appends its `TurnNote` to the pass's notes |
| Engine.Worn | src/game/engine.py:493-498 | a pass without a striking attack leaves the damage record as it was |
| Engine.WornStep | src/game/engine.py:493-498 | one more action extends the damage record by `Ship.Afflicted` of the damage that passed the shields iff it strikes and some damage passes, and keeps it otherwise |
| Engine.AnyStrikeStep | src/game/engine.py:493-498 | a pass with one more action holds a striking attack iff the earlier actions or the new one do |
| Engine.Run | src/game/engine.py:488-491 | a run of n decisions yields n actions |
| Engine.RunExtend | src/game/engine.py:488-491 | a decision taken from the memory and ship the earlier ones left extends the run by one |
| Engine.RunPrefix | src/game/engine.py:488-491 | the first i actions of a longer run are the run of i decisions |
| Engine.Decisions | src/game/engine.py:488-491 | the pass decides once per Klingon taken so far: n decisions give n actions |
| Engine.DecisionsExtend | src/game/engine.py:488-491 | Klingon i's `Choice` and `Remember`, from the memory and ship the earlier decisions left, extend the pass's decisions by one |
| Engine.DecisionsStep | src/game/engine.py:488-491 | decision n is the step `Decide` takes from where the first n - 1 decisions left the memory and the ship |
| Engine.DecideFromValid | src/game/engine.py:488-491 | from a valid memory a listed Klingon's step is its `Choice` and `Remember`, and the memory stays valid |
| Engine.DecisionsValid | src/game/engine.py:488-491 | the pass's decisions keep every remembered unit's hull maximum positive |
| Engine.DecisionsCount | src/game/engine.py:488-491 | after n decisions the encounter count is n higher when adaptation is on, and unchanged otherwise |
| Engine.DecisionsKeep | src/game/engine.py:488-491 | a unit at a sector none of the first n Klingons holds is unchanged by their decisions |
| Engine.ChoiceReadsOwnUnit | src/ai/klingon_ai.py:97-126 | a decision depends on the memory only through the deciding unit's entry and the encounter count |
| Engine.DecisionsFromStart | src/game/engine.py:488-491 | with the Klingons distinct, Klingon i decides as its unit stood when the pass began, with the encounter count raised by the i earlier decisions when adaptation is on, against the ship as the i earlier attacks left it |
| Engine.GameEngine.StrikeShip | src/game/engine.py:496-498 | the ship takes `Ship.Hit` of the damage; its systems become `Ship.Afflicted` by the damage taken when some passed the shields and are unchanged otherwise; it is destroyed iff it was or its energy is gone; docking, position, torpedoes, visits and maxima are untouched |
| Engine.GameEngine.KlingonDecides | src/game/engine.py:488-491 | the action is the AI's `Decision` for that Klingon, from the ship as it stands and the objects listed when the pass began; the AI's units and player model become `Remember` of them; the combat statistics are unchanged |
| Engine.GameEngine.KlingonActs | src/game/engine.py:493-507 | an attack with positive damage hits the ship as `Ship.Hit` says, notes the damage taken, afflicts the systems when damage passed the shields and destroys the ship iff its energy is gone; a move to a sector empty when the pass began moves the Klingon and notes it; anything else changes nothing and notes nothing; docking, torpedoes and every other quadrant are untouched |
| Engine.GameEngine.KlingonTurn | src/game/engine.py:488-507 | the i-th Klingon's action and the AI's memory extend the pass's `Decisions` by one; its note is `TurnNote` against the ship as the earlier attacks left it; the ship's shields, energy and systems and the quadrant become `Struck`, `Worn` and `MovedAll` over the actions so far |
| Engine.GameEngine.DecidesInPass | src/game/engine.py:488-491 | the i-th Klingon's decision and the AI's memory after it extend the pass's `Decisions` by one; the combat statistics are unchanged |
| Engine.GameEngine.TurnTakesEffect | src/game/engine.py:493-507 | the i-th action extends the ship's `Struck` shields and energy, its `Worn` damage record and the quadrant's `MovedAll` by that action; the note is its `TurnNote`; a striking action that empties the energy destroys the ship |
| Engine.GameEngine.KlingonTurns | src/game/engine.py:488-507 | after the loop the actions and the AI's memory are `Decisions` over the Klingons listed; the ship's shields and energy are `Struck`, its systems `Worn` and the quadrant `MovedAll` over the actions; the ship is destroyed iff it was or an attack struck and its energy is gone; the notes are `PassNotes`, one per striking or relocating action in turn |
| Engine.GameEngine.StartPass | src/game/engine.py:481-485 | the objects and Klingons of the ship's quadrant are listed, and one combat encounter is counted iff there are Klingons |
| Engine.GameEngine.AppendAdvice | src/game/engine.py:509-512 | the strategic warning is appended iff there is one, as the last line |
| Engine.GameEngine.ProcessAITurns | src/game/engine.py:476-514 | one combat encounter is counted iff Klingons are present; the Klingons are those of the quadrant, each listed once; the actions and the AI's memory are `Decisions` over them; the shields and energy are `Struck`, the systems `Worn`, the quadrant `MovedAll` and the Klingon lines `PassNotes` over the actions; those lines open the notes; the ship is destroyed iff it was or an attack struck and its energy is gone; no other quadrant changes |
| Engine.GameEngine.AdvanceTime | src/game/engine.py:516-519 | the stardate advances by one tenth and nothing else changes |
| Engine.GameEngine.CheckEndConditions | src/game/engine.py:521-541 | the game ends iff the verdict is not ongoing, as a victory iff no Klingons remain, counting one win or one loss |
| Engine.GameEngine.Dispatch | src/game/engine.py:155-174 | the command succeeds iff its handler accepts it (`Accepts`: a phaser amount within the energy with a Klingon present, an aimed torpedo with one left, an affordable jump to a grid quadrant, an affordable shield level, a starbase within reach, a valid computer request, any scan or damage report, never an unknown word); a failed command changes nothing; phasers and torpedoes spend their energy or torpedo, remove only Klingons of the quadrant and account the reported kills; navigation pays the warp cost, enters the quadrant at sector (4, 4) and records the visit; shields are set to the level capped at the maximum and charged for the increase; docking restores the ship; reports change nothing; the clock, the record of games and the encounters are untouched |
| Engine.GameEngine.Fire | src/game/engine.py:161-164 | the shot succeeds iff `Accepts`; phasers spend the amount and torpedoes one torpedo, each leaving the other supply alone; the kills are accounted in the state and only Klingons leave the quadrant; a failed shot changes nothing |
| Engine.GameEngine.Operate | src/game/engine.py:155-168 | the command succeeds iff `Accepts`; navigation pays the warp cost, enters the quadrant at sector (4, 4) and records the visit; shields are set to the level capped at the maximum and charged for the increase; docking fills energy, shields and torpedoes and clears all damage; a failure changes nothing; the clock, the record of games and the encounters are untouched |
| Engine.GameEngine.Inquire | src/game/engine.py:157-174 | the scans and the damage report succeed, an unknown command fails with its name, the computer succeeds for exactly its valid requests, so the command succeeds iff `Accepts` |
| Engine.GameEngine.Aftermath | src/game/engine.py:176-189 | after a successful command the Klingons' actions and the AI's memory are `Decisions` over the Klingons of the ship's quadrant, the quadrant is `MovedAll` over them and their `PassNotes` open the notes; the clock advances one tenth; one more combat encounter iff Klingons are present, which the pass does not change; the game ends iff the verdict says so, counting one win or loss; the ship's quadrant, sector and visits are unchanged |
| Engine.GameEngine.KlingonsAndClock | src/game/engine.py:177-182 | the Klingons' pass as `ProcessAITurns` states it (`Decisions`, `Struck`, `Worn`, `MovedAll`, `PassNotes`, one encounter iff Klingons are present), then the clock advances one tenth; nothing else in the game state changes |
| Engine.GameEngine.RunEvents | src/game/engine.py:184-186 | the random and contextual events keep the game state valid |
| Engine.GameEngine.PlayTurn | src/game/engine.py:150-189 | the command succeeds iff its handler accepts it (`Accepts`), an unknown command failing with its name; a failed command changes nothing and the game stays on; a successful one lets the Klingons act (one more combat encounter iff Klingons are present), advances the clock one tenth and ends the game iff the verdict says so, counting one win or loss |
| Engine.GameEngine.ProcessTurn | src/game/engine.py:136-195 | an inactive game refuses the turn and changes nothing; otherwise the turn is counted and played as `PlayTurn` states: the command succeeds iff accepted, an unknown one failing with its name; a failure changes nothing else; a success counts an encounter iff Klingons are present, advances the clock and ends the game iff the verdict says so |

## Left out

- User interfaces, logging, configuration loading and the random seed are not part of this model. Configuration values are constructor parameters or constants holding the source's defaults.
- `save_game`, `load_game` and `get_game_statistics` (src/game/engine.py:569-627) do file I/O and read the wall clock. Only the `GameState` dictionary round trip is modelled.
- The exception handler of `process_turn` (src/game/engine.py:191-193) is left out, because every modelled operation is total. The retreat `TypeError` listed under Findings has its own as-written member, and the engine uses the corrected retreat.
- Trigonometry is left out. The torpedo trajectory's `cos`/`sin` is a raw list of truncated cells given as input. Only its bounds check and de-duplication are modelled. `calculate_course` and `calculate_optimal_torpedo_course` (`atan2`) are left out.
- Display text is left out, except for the short-range grid. This covers the galaxy map, the long-range display, and the status and damage reports. Messages are constructors of a `Msg`, `Message` or `Note` datatype that carry the values the text shows. The one exception is the hit count of the combat summaries, which is the corrected count (see the `Combat` lines below and Findings).
- `find_safe_position_in_quadrant` (src/game/galaxy.py:342-360) is not modelled. It makes up to 20 random tries for an empty sector and otherwise returns (4, 4). Its result is a parameter of the setup, `SetupDraws.startPosition`.
- The dictionary forms of `QuadrantData` and `Galaxy` (src/game/galaxy.py:24-35, 481-510) are part of saving and loading and are left out.
- From strategic_ai.py, `analyze_situation`, `analysis_history`, the recommendations, `_analyze_mission_pace`, `get_performance_trends` and `get_analysis_history` are left out. Only the scoring and categorising functions they combine are modelled, and the engine uses only the urgent warning.
- `get_ai_statistics` and the combat-effectiveness bookkeeping of klingon_ai.py are statistics for display and are left out.
- Python dictionary iteration order is modelled as insertion order for the galaxy's quadrants, which follow generation order, x-major, and for `active_events`, which is a sequence of entries. The order of a quadrant's objects is not modelled: `Engine.ListCells` lists the cells of one kind in an arbitrary order. So the order in which the Klingons of a quadrant take their turns, and which phaser target receives the remainder of the energy split, are not pinned to the source's insertion order.
- The stardate accumulates `0.1` in floating point in the source and is exact tenths here. After many turns the float's rounding can move the exact turn on which the clock expires.
- Combat.ExecutePhaserAttack: the summary counts each hit once, the corrected count of Findings. The source (src/game/combat.py:118) counts a critical hit twice; that count is `Combat.HitsAsWritten`, and `Combat.HitsAsWrittenCountsCriticalsTwice` states the difference.
- Combat.FirePhasers: its `PhasersFired` message carries the corrected hit count, not the source's count at src/game/combat.py:118.
- Combat.ExecuteTorpedoAttack: the summary counts each hit once, the corrected count of Findings. The source (src/game/combat.py:202) counts a critical hit twice, as `Combat.HitsAsWritten` does.
- Combat.FireTorpedoes: its `TorpedoFired` message carries the corrected hit count, not the source's count at src/game/combat.py:202.
- Galaxy.Galaxy.Generate: the Klingon and starbase draws are finite sequences, so placement stops when they run out. The source's loops (src/game/galaxy.py:117-139) draw until the totals are reached. With more than 192 Klingons or more than 64 starbases configured, those loops never end; the model stops short instead.
- Engine.GameEngine.constructor: requires `MaxStars(star_density) <= 60`, that is a star density below 7.625. A denser setting can draw more stars for a quadrant than the cells left free. The source then places fewer stars than the quadrant's star count says, and the model's consistency invariant does not hold.
- Engine.GameEngine.SetUpNewGame: has the same star-density bound as the constructor, for the same reason.
- Engine.GameEngine.GenerateGalaxy: has the same star-density bound as the constructor, for the same reason.
- Engine.FromDict: rejects a field whose value has the wrong type. Python's `cls(**data)` accepts it, because dataclasses do not check types. A missing key fails in both. An extra key cannot be represented, because the keys are the twelve fields.
- Engine.GameEngine.RunEvents: states only that the engine stays valid. The event effects themselves are stated by `Events.EventManager.CheckForEvents`: when an event fires, it is the one `EventCreated` describes for the kind `ChosenKind` draws.
- Engine.GameEngine.KlingonTurn: a Klingon that moves keeps its old key in the AI's state map, as in the source (src/game/engine.py:503-507). The model does not re-key it.
- Engine.GameEngine.FirePhasers: reports success and spends the energy even when the combat system declines to fire, as the source does. The torpedo handler likewise spends a torpedo.
- Engine.GameEngine.Dock: restores and repairs the ship but does not set the ship's `docked` flag, as the source does not (src/game/engine.py:409-413).
- Events.EventManager.CreateReinforcements: announces reinforcements without adding Klingons to the galaxy, as the source does (src/game/events.py:317).
- Events.EventManager.CreateDistressCall: takes both coordinates of the candidate quadrants from the stardate, as the source does (src/game/events.py:286-287). For any real stardate from 2267.0 on there are no candidates, and the call comes from a random quadrant.
- Events.EventManager.GenerateRandomEvent: event ids are a pair of the kind and the history length, as the source's `"<type>_<len(history)>"`. Storms and anomalies are not added to the history, so two of them can share an id. The model, like the source, then replaces the earlier entry.
- Engine.GameEngine.SetShields: charges only the increase, as the code does. A shield test in the repository expects lowering the shields to cost energy and to fail; the model follows the code.
- Engine.GameEngine.ProcessAITurns: the strategic warning that follows the Klingon lines is stated on `AppendAdvice`. ProcessAITurns itself states only that the Klingon lines open its notes, because the warning reads the whole game state and carrying it through every caller is beyond what the verifier proves within its resource limit.
- Engine.GameEngine.KlingonsAndClock: states the notes as ProcessAITurns does, with the Klingon lines first and the warning left to `AppendAdvice`.
- Engine.GameEngine.Aftermath: does not restate the ship's shields, energy, torpedoes and systems after the turn, because the events change them. `KlingonsAndClock` states them after the Klingons' pass, and `Events.EventManager.CheckForEvents` states what the events do.
- Engine.GameEngine.PlayTurn: states acceptance, failure, the clock, the encounters and the verdict. The successful command's own effects (stated on `Dispatch`) and the Klingons' decisions (stated on `Aftermath`) are not restated across the later steps of the turn, for the same resource reason.
- Engine.GameEngine.ProcessTurn: states what PlayTurn states, and no more.
- Engine.GameEngine.ProcessAITurns: the strategic advisor's `get_quadrant_summary` is read after the Klingons have moved, as in the source. Moves do not change the counts, so this is the same as before the moves.
- StrategicAI.ThreatLevel: is proved to lie in [0, 1] only when the counts and the time remaining are non-negative. Past the time limit the source's value is not clamped, and `ThreatUnboundedWhenOverdue` shows that it can exceed 1.

## Findings

| source | as written | input that shows it | evidently intended | confidence | as-written member | corrected member |
|---|---|---|---|---|---|---|
| src/game/combat.py:118 | The summary counts the events whose text contains "hit". A critical hit adds both "Critical hit on enemy" and "Phaser hit enemy", so it is counted twice. The torpedo summary at src/game/combat.py:202 does the same. | One target hit critically for 84 damage, `[Hit(84, true)]` at sector (2, 3), is reported as 2 hits. | Each hit counted once. | not executed | Combat.CriticalHitReportedTwice | Combat.Fired |
| src/ai/klingon_ai.py:211 | The tactical analysis stores `len(escape_routes)`, an int. `_find_best_retreat_direction` (src/ai/klingon_ai.py:552-554) then calls `random.choice` on that int whenever it is non-zero, which raises `TypeError`. | A defensive Klingon at (5, 5) with more than 60% damage, the player at (4, 4), and no other objects in the quadrant. (6, 6) is an escape route, so the count is non-zero. | Retreat to a randomly chosen escape route. | not executed | KlingonAI.RetreatRaisesWhenRoutesExist | KlingonAI.RetreatDirection |

=== FILE: combat.dfy ===
/**
 * The combat resolver (`CombatSystem`). It keeps no state: each attack turns
 * the attacker's position, its weapon efficiency, the quadrant layout and a
 * run of random draws into a result record. Square roots are not computed:
 * each distance arrives as an input constrained to be the exact Euclidean
 * distance (`IsDistance`). The torpedo's trigonometric path arrives as the raw
 * list of truncated cells it passes; the bounds check and the de-duplication
 * are modelled.
 */
module Combat {
  import opened Common
  import opened Galaxy

  // The defaults of the `combat.*` configuration keys.
  const PhaserMaxRange: real := 8.0
  const TorpedoMaxRange: real := 10.0
  const PhaserAccuracyBase: real := 0.8
  const TorpedoAccuracyBase: real := 0.6
  const CriticalHitChance: real := 0.1
  const CriticalHitMultiplier: real := 2.0

  /** The draws behind one shot: the hit roll, the critical roll and the damage variance. */
  datatype ShotDraw = ShotDraw(hitRoll: real, critRoll: real, variance: real)

  /** What happened to one target. */
  datatype Shot = Skipped | Missed | Hit(damage: int, critical: bool)

  datatype Weapon = Phaser | Torpedo

  /** An entry of the attack's event list. */
  datatype Event =
    | CriticalHit(weapon: Weapon, at: Coord)
    | EnemyHit(weapon: Weapon, at: Coord, damage: int)
    | EnemyDestroyed(weapon: Weapon, at: Coord)
    | ShotMissed(weapon: Weapon, at: Coord)   // "Phaser missed" / "Torpedo grazed"
    | TorpedoMissedAll

  /** The attack's summary message. */
  datatype Message =
    | NoTargetsInRange
    | PhasersTooDamaged
    | TorpedoTubesTooDamaged
    | TorpedoMissed
    | PhasersFired(hits: nat, misses: nat, destroyed: nat)
    | TorpedoFired(hits: nat, destroyed: nat)

  datatype AttackResult = AttackResult(success: bool, message: Message, events: seq<Event>,
                                       destroyed: seq<Coord>, totalDamage: int)

  /** A refused attack: no events, nothing destroyed, no damage. */
  function Failure(m: Message): (r: AttackResult)
    ensures !r.success && r.message == m && r.events == [] && r.destroyed == [] && r.totalDamage == 0
  {
    AttackResult(false, m, [], [], 0)
  }

  /** Damage at or above this destroys the target. */
  function Threshold(w: Weapon): int
  {
    if w == Phaser then 50 else 75
  }

  // ---------------------------------------------------------------------
  // Probabilities and damage
  // ---------------------------------------------------------------------

  /** `_calculate_phaser_hit_probability`. */
  function PhaserHitProbability(distance: real, energy: int, efficiency: real): (p: real)
    ensures 0.05 <= p <= 0.95
  {
    Clamp(0.05, 0.95, PhaserAccuracyBase
                      * MaxR(0.1, 1.0 - (distance / PhaserMaxRange) * 0.5)
                      * MinR(1.2, 1.0 + (energy as real / 1000.0) * 0.2)
                      * efficiency)
  }

  /** `_calculate_torpedo_hit_probability`. */
  function TorpedoHitProbability(distance: real, spread: int, efficiency: real): (p: real)
    ensures 0.1 <= p <= 0.9
  {
    Clamp(0.1, 0.9, TorpedoAccuracyBase
                    * MaxR(0.2, 1.0 - (distance / TorpedoMaxRange) * 0.3)
                    * MinR(1.3, 1.0 + (spread as real / 10.0) * 0.3)
                    * efficiency)
  }

  lemma ScaleMono(k: real, a: real, b: real)
    requires k >= 0.0 && a <= b
    ensures k * a <= k * b && a * k <= b * k
  {
    assert k * b - k * a == k * (b - a);
  }

  lemma ProductNonNegative(a: real, b: real)
    requires a >= 0.0 && b >= 0.0
    ensures a * b >= 0.0
  {
  }

  lemma ClampMono(lo: real, hi: real, u: real, v: real)
    requires lo <= hi && u <= v
    ensures Clamp(lo, hi, u) <= Clamp(lo, hi, v)
  {
  }

  /** A better-kept phaser bank never hits less often. */
  lemma PhaserHitMonotone(distance: real, energy: int, e1: real, e2: real)
    requires energy >= 0 && e1 <= e2
    ensures PhaserHitProbability(distance, energy, e1) <= PhaserHitProbability(distance, energy, e2)
  {
    var m1 := MaxR(0.1, 1.0 - (distance / PhaserMaxRange) * 0.5);
    var m2 := MinR(1.2, 1.0 + (energy as real / 1000.0) * 0.2);
    ProductNonNegative(PhaserAccuracyBase, m1);
    ProductNonNegative(PhaserAccuracyBase * m1, m2);
    ScaleMono(PhaserAccuracyBase * m1 * m2, e1, e2);
    ClampMono(0.05, 0.95, PhaserAccuracyBase * m1 * m2 * e1, PhaserAccuracyBase * m1 * m2 * e2);
  }

  /** A better-kept torpedo bay never hits less often. */
  lemma TorpedoHitMonotone(distance: real, spread: int, e1: real, e2: real)
    requires spread >= 0 && e1 <= e2
    ensures TorpedoHitProbability(distance, spread, e1) <= TorpedoHitProbability(distance, spread, e2)
  {
    var m1 := MaxR(0.2, 1.0 - (distance / TorpedoMaxRange) * 0.3);
    var m2 := MinR(1.3, 1.0 + (spread as real / 10.0) * 0.3);
    ProductNonNegative(TorpedoAccuracyBase, m1);
    ProductNonNegative(TorpedoAccuracyBase * m1, m2);
    ScaleMono(TorpedoAccuracyBase * m1 * m2, e1, e2);
    ClampMono(0.1, 0.9, TorpedoAccuracyBase * m1 * m2 * e1, TorpedoAccuracyBase * m1 * m2 * e2);
  }

  /** `_calculate_phaser_damage`: one point per 20 energy, attenuated, never below 1. */
  function PhaserDamage(energy: int, distance: real, efficiency: real, variance: real): (damage: int)
    ensures damage >= 1
  {
    MaxI(1, Trunc((energy / 20) as real
                  * MaxR(0.3, 1.0 - (distance / PhaserMaxRange) * 0.4)
                  * efficiency * variance))
  }

  /** `_calculate_torpedo_damage`: 100 attenuated, never below 10. */
  function TorpedoDamage(distance: real, efficiency: real, variance: real): (damage: int)
    ensures damage >= 10
  {
    MaxI(10, Trunc(100.0 * MaxR(0.5, 1.0 - (distance / TorpedoMaxRange) * 0.2)
                   * efficiency * variance))
  }

  /** `int(damage * critical_hit_multiplier)` on an integer damage: exactly double. */
  function Critical(damage: int): (d: int)
    ensures damage >= 0 ==> d == 2 * damage
  {
    Trunc(damage as real * CriticalHitMultiplier)
  }

  /** `calculate_optimal_phaser_energy`: `max(100, min(int(200 * (1 + d / 4)), available))`. */
  function OptimalPhaserEnergy(distance: real, available: int): (e: int)
    ensures e >= 100
    ensures available <= 100 ==> e == 100
    ensures e <= MaxI(100, available)
  {
    MaxI(100, MinI(Trunc(200.0 * (1.0 + distance / 4.0)), available))
  }

  /** More available energy never lowers the recommendation. */
  lemma OptimalPhaserEnergyMonotone(distance: real, a: int, b: int)
    requires a <= b
    ensures OptimalPhaserEnergy(distance, a) <= OptimalPhaserEnergy(distance, b)
  {
  }

  // ---------------------------------------------------------------------
  // One shot
  // ---------------------------------------------------------------------

  /** The phaser energy of target `i` out of `n`: an equal share, the remainder to the first. */
  function TargetEnergy(energy: int, n: int, i: int): int
    requires n > 0
  {
    energy / n + (if i == 0 then energy % n else 0)
  }

  /** The energy given to the first `k` of `n` targets. */
  function EnergyGiven(energy: int, n: int, k: nat): int
    requires n > 0
  {
    if k == 0 then 0 else EnergyGiven(energy, n, k - 1) + TargetEnergy(energy, n, k - 1)
  }

  /** The shares add up to the energy allocated. */
  lemma {:induction false} EnergyGivenPrefix(energy: int, n: int, k: nat)
    requires n > 0 && 1 <= k
    ensures EnergyGiven(energy, n, k) == k * (energy / n) + energy % n
  {
    if k > 1 {
      EnergyGivenPrefix(energy, n, k - 1);
    }
  }

  /** The shares of all `n` targets add up to exactly the energy allocated. */
  lemma EnergySplitExact(energy: int, n: int)
    requires n > 0
    ensures EnergyGiven(energy, n, n) == energy
  {
    EnergyGivenPrefix(energy, n, n);
  }

  /** A phaser shot at a target given `energy`: skipped without energy, else hit or miss on the roll. */
  function PhaserShot(energy: int, distance: real, efficiency: real, d: ShotDraw): (s: Shot)
    ensures s.Skipped? <==> energy <= 0
    ensures s.Hit? ==> s.damage >= 1 && (s.critical <==> d.critRoll <= CriticalHitChance)
    ensures s.Hit? <==> energy > 0 && d.hitRoll <= PhaserHitProbability(distance, energy, efficiency)
  {
    if energy <= 0 then Skipped
    else if d.hitRoll <= PhaserHitProbability(distance, energy, efficiency) then
      var damage := PhaserDamage(energy, distance, efficiency, d.variance);
      if d.critRoll <= CriticalHitChance then Hit(Critical(damage), true) else Hit(damage, false)
    else Missed
  }

  /** A torpedo shot at a candidate: a hit or a graze on the roll. */
  function TorpedoShot(distance: real, spread: int, efficiency: real, d: ShotDraw): (s: Shot)
    ensures !s.Skipped?
    ensures s.Hit? ==> s.damage >= 10 && (s.critical <==> d.critRoll <= CriticalHitChance)
    ensures s.Hit? <==> d.hitRoll <= TorpedoHitProbability(distance, spread, efficiency)
  {
    if d.hitRoll <= TorpedoHitProbability(distance, spread, efficiency) then
      var damage := TorpedoDamage(distance, efficiency, d.variance);
      if d.critRoll <= CriticalHitChance then Hit(Critical(damage), true) else Hit(damage, false)
    else Missed
  }

  // ---------------------------------------------------------------------
  // A volley: the shots at a list of targets, and what they add up to
  // ---------------------------------------------------------------------

  /** The first `k` phaser shots of a volley. */
  function PhaserShots(targets: seq<Coord>, energy: int, efficiency: real,
                       distances: seq<real>, draws: seq<ShotDraw>, k: nat): (r: seq<Shot>)
    requires |targets| > 0 && k <= |targets| && |distances| == |targets| && |draws| == |targets|
    ensures |r| == k
  {
    if k == 0 then []
    else PhaserShots(targets, energy, efficiency, distances, draws, k - 1)
         + [PhaserShot(TargetEnergy(energy, |targets|, k - 1), distances[k - 1], efficiency, draws[k - 1])]
  }

  /** The events one shot at `at` adds: a critical note, the hit, the kill; or the miss. */
  function ShotEvents(w: Weapon, at: Coord, s: Shot): (r: seq<Event>)
    ensures |r| <= 3
  {
    match s
    case Skipped => []
    case Missed => [ShotMissed(w, at)]
    case Hit(damage, critical) =>
      (if critical then [CriticalHit(w, at)] else [])
      + [EnemyHit(w, at, damage)]
      + (if damage >= Threshold(w) then [EnemyDestroyed(w, at)] else [])
  }

  /** The event list of the shots at the first `|shots|` targets. */
  function Events(w: Weapon, targets: seq<Coord>, shots: seq<Shot>): (r: seq<Event>)
    requires |shots| <= |targets|
    ensures forall k :: 0 <= k < |r| ==> !r[k].TorpedoMissedAll? && r[k].weapon == w && r[k].at in targets
  {
    if |shots| == 0 then []
    else Events(w, targets, shots[..|shots| - 1]) + ShotEvents(w, targets[|shots| - 1], shots[|shots| - 1])
  }

  /** The targets reported destroyed, in target order. */
  function Destroyed(w: Weapon, targets: seq<Coord>, shots: seq<Shot>): (r: seq<Coord>)
    requires |shots| <= |targets|
    ensures |r| <= |shots|
    ensures forall p :: p in r <==>
      exists i :: 0 <= i < |shots| && targets[i] == p && shots[i].Hit? && shots[i].damage >= Threshold(w)
  {
    if |shots| == 0 then []
    else
      var init := Destroyed(w, targets, shots[..|shots| - 1]);
      var last := shots[|shots| - 1];
      if last.Hit? && last.damage >= Threshold(w) then init + [targets[|shots| - 1]] else init
  }

  /** Distinct targets give a duplicate-free destroyed list. */
  lemma {:induction false} DestroyedDistinct(w: Weapon, targets: seq<Coord>, shots: seq<Shot>)
    requires |shots| <= |targets| && Distinct(targets)
    ensures Distinct(Destroyed(w, targets, shots))
  {
    if |shots| > 0 {
      var init := shots[..|shots| - 1];
      DestroyedDistinct(w, targets, init);
      var t := targets[|shots| - 1];
      assert t !in Destroyed(w, targets, init);
    }
  }

  /** The sum of the damage of the hits. */
  function TotalDamage(shots: seq<Shot>): int
  {
    if |shots| == 0 then 0
    else TotalDamage(shots[..|shots| - 1]) + (if shots[|shots| - 1].Hit? then shots[|shots| - 1].damage else 0)
  }

  /** The number of shots of a given outcome. */
  function Hits(shots: seq<Shot>): (n: nat)
    ensures n <= |shots|
  {
    if |shots| == 0 then 0 else Hits(shots[..|shots| - 1]) + (if shots[|shots| - 1].Hit? then 1 else 0)
  }

  function Misses(shots: seq<Shot>): (n: nat)
    ensures n <= |shots|
  {
    if |shots| == 0 then 0 else Misses(shots[..|shots| - 1]) + (if shots[|shots| - 1].Missed? then 1 else 0)
  }

  function Criticals(shots: seq<Shot>): (n: nat)
    ensures n <= Hits(shots)
  {
    if |shots| == 0 then 0
    else Criticals(shots[..|shots| - 1]) + (if shots[|shots| - 1].Hit? && shots[|shots| - 1].critical then 1 else 0)
  }

  /** Every hit of `shots` deals at least `least`. */
  predicate HitsAtLeast(shots: seq<Shot>, least: int)
  {
    forall i :: 0 <= i < |shots| && shots[i].Hit? ==> shots[i].damage >= least
  }

  /** No shot of `shots` was skipped. */
  predicate Fires(shots: seq<Shot>)
  {
    forall i :: 0 <= i < |shots| ==> !shots[i].Skipped?
  }

  /** Every hit deals at least `least`, so the total is at least `least` per hit. */
  lemma {:induction false} TotalDamageAtLeast(shots: seq<Shot>, least: int)
    requires least >= 0
    requires HitsAtLeast(shots, least)
    ensures TotalDamage(shots) >= least * Hits(shots)
  {
    if |shots| > 0 {
      var init := shots[..|shots| - 1];
      assert forall i :: 0 <= i < |init| ==> init[i] == shots[i];
      TotalDamageAtLeast(init, least);
    }
  }

  /**
   * The hit count of the summary message as the source computes it: the
   * events whose text contains "hit" ("Critical hit on enemy", "Phaser hit
   * enemy", "Critical torpedo hit", "Torpedo hit enemy").
   */
  function HitsAsWritten(events: seq<Event>): (n: nat)
    ensures n <= |events|
  {
    if |events| == 0 then 0
    else HitsAsWritten(events[..|events| - 1])
         + (if events[|events| - 1].CriticalHit? || events[|events| - 1].EnemyHit? then 1 else 0)
  }

  /** The miss count of the message: the events whose text contains "missed". */
  function MissEvents(events: seq<Event>): (n: nat)
    ensures n <= |events|
  {
    if |events| == 0 then 0
    else MissEvents(events[..|events| - 1]) + (if events[|events| - 1].ShotMissed? then 1 else 0)
  }

  lemma {:induction false} HitsAsWrittenAppend(a: seq<Event>, b: seq<Event>)
    ensures HitsAsWritten(a + b) == HitsAsWritten(a) + HitsAsWritten(b)
    ensures MissEvents(a + b) == MissEvents(a) + MissEvents(b)
    decreases |b|
  {
    if |b| == 0 {
      assert a + b == a;
    } else {
      assert (a + b)[..|a + b| - 1] == a + b[..|b| - 1];
      HitsAsWrittenAppend(a, b[..|b| - 1]);
    }
  }

  /** The counts of the events of one shot. */
  lemma ShotEventCounts(w: Weapon, at: Coord, s: Shot)
    ensures HitsAsWritten(ShotEvents(w, at, s)) == if s.Hit? then (if s.critical then 2 else 1) else 0
    ensures MissEvents(ShotEvents(w, at, s)) == if s.Missed? then 1 else 0
  {
    match s
    case Skipped =>
    case Missed =>
      assert [ShotMissed(w, at)][..0] == [];
    case Hit(damage, critical) =>
      var c: seq<Event> := if critical then [CriticalHit(w, at)] else [];
      var h := [EnemyHit(w, at, damage)];
      var k: seq<Event> := if damage >= Threshold(w) then [EnemyDestroyed(w, at)] else [];
      HitsAsWrittenAppend(c + h, k);
      HitsAsWrittenAppend(c, h);
      assert h[..0] == [];
      if critical {
        assert c[..0] == [];
      }
      if damage >= Threshold(w) {
        assert k[..0] == [];
      }
  }

  /**
   * The text count sees a critical hit twice, once in its "Critical hit"
   * note and once in the hit itself; misses are counted right.
   */
  lemma {:induction false} HitsAsWrittenCountsCriticalsTwice(w: Weapon, targets: seq<Coord>, shots: seq<Shot>)
    requires |shots| <= |targets|
    ensures HitsAsWritten(Events(w, targets, shots)) == Hits(shots) + Criticals(shots)
    ensures MissEvents(Events(w, targets, shots)) == Misses(shots)
  {
    if |shots| > 0 {
      var init := shots[..|shots| - 1];
      HitsAsWrittenCountsCriticalsTwice(w, targets, init);
      HitsAsWrittenAppend(Events(w, targets, init), ShotEvents(w, targets[|shots| - 1], shots[|shots| - 1]));
      ShotEventCounts(w, targets[|shots| - 1], shots[|shots| - 1]);
    }
  }

  /** One target, hit critically: the message would report 2 hits. */
  lemma CriticalHitReportedTwice()
    ensures var shots := [Hit(84, true)];
            HitsAsWritten(Events(Phaser, [Coord(2, 3)], shots)) == 2 && Hits(shots) == 1
  {
    var shots := [Hit(84, true)];
    HitsAsWrittenCountsCriticalsTwice(Phaser, [Coord(2, 3)], shots);
    assert shots[..0] == [];
  }

  /** Each target's shot is skipped, a hit or a miss: the counts partition the shots. */
  lemma {:induction false} ShotsPartition(shots: seq<Shot>)
    ensures Hits(shots) + Misses(shots) <= |shots|
    ensures Fires(shots) ==> Hits(shots) + Misses(shots) == |shots|
  {
    if |shots| > 0 {
      var init := shots[..|shots| - 1];
      assert forall i :: 0 <= i < |init| ==> init[i] == shots[i];
      ShotsPartition(init);
    }
  }

  /** The result of a volley that was fired: the summary counts each hit once. */
  function Fired(w: Weapon, targets: seq<Coord>, shots: seq<Shot>): (r: AttackResult)
    requires |shots| <= |targets|
    ensures r.success && r.totalDamage == TotalDamage(shots)
    ensures r.events == Events(w, targets, shots) && r.destroyed == Destroyed(w, targets, shots)
    ensures r.message == if w == Phaser then PhasersFired(Hits(shots), Misses(shots), |r.destroyed|)
                         else TorpedoFired(Hits(shots), |r.destroyed|)
  {
    var destroyed := Destroyed(w, targets, shots);
    AttackResult(true,
                 if w == Phaser then PhasersFired(Hits(shots), Misses(shots), |destroyed|)
                 else TorpedoFired(Hits(shots), |destroyed|),
                 Events(w, targets, shots), destroyed, TotalDamage(shots))
  }

  // ---------------------------------------------------------------------
  // The attacks
  // ---------------------------------------------------------------------

  /**
   * `execute_phaser_attack`: no targets or a bank at efficiency <= 0.1 fails;
   * otherwise every target with a positive share of the energy is fired at.
   */
  method ExecutePhaserAttack(shipPos: Coord, targets: seq<Coord>, energy: int, efficiency: real,
                             distances: seq<real>, draws: seq<ShotDraw>) returns (r: AttackResult)
    requires |distances| == |targets| && |draws| == |targets|
    requires forall i :: 0 <= i < |targets| ==> IsDistance(distances[i], shipPos, targets[i])
    ensures |targets| == 0 ==> r == Failure(NoTargetsInRange)
    ensures |targets| > 0 && efficiency <= 0.1 ==> r == Failure(PhasersTooDamaged)
    ensures |targets| > 0 && efficiency > 0.1 ==>
      r == Fired(Phaser, targets, PhaserShots(targets, energy, efficiency, distances, draws, |targets|))
  {
    if |targets| == 0 {
      return Failure(NoTargetsInRange);
    }
    if efficiency <= 0.1 {
      return Failure(PhasersTooDamaged);
    }
    r := FirePhasers(targets, energy, efficiency, distances, draws);
  }

  /** The loop of `execute_phaser_attack`: each target in turn, with its share of the energy. */
  method FirePhasers(targets: seq<Coord>, energy: int, efficiency: real,
                     distances: seq<real>, draws: seq<ShotDraw>) returns (r: AttackResult)
    requires |targets| > 0 && |distances| == |targets| && |draws| == |targets|
    ensures r == Fired(Phaser, targets, PhaserShots(targets, energy, efficiency, distances, draws, |targets|))
  {
    var events: seq<Event> := [];
    var destroyed: seq<Coord> := [];
    var total := 0;
    var hits, misses := 0, 0;
    ghost var shots: seq<Shot> := [];
    for i := 0 to |targets|
      invariant shots == PhaserShots(targets, energy, efficiency, distances, draws, i)
      invariant events == Events(Phaser, targets, shots)
      invariant destroyed == Destroyed(Phaser, targets, shots)
      invariant total == TotalDamage(shots)
      invariant hits == Hits(shots) && misses == Misses(shots)
    {
      var shot := PhaserShot(TargetEnergy(energy, |targets|, i), distances[i], efficiency, draws[i]);
      assert (shots + [shot])[..i] == shots;
      shots := shots + [shot];
      events := events + ShotEvents(Phaser, targets[i], shot);
      if shot.Hit? {
        total := total + shot.damage;
        hits := hits + 1;
        if shot.damage >= Threshold(Phaser) {
          destroyed := destroyed + [targets[i]];
        }
      } else if shot.Missed? {
        misses := misses + 1;
      }
    }
    r := AttackResult(true, PhasersFired(hits, misses, |destroyed|), events, destroyed, total);
  }

  /** The in-bounds cells of the raw path, each kept at its first appearance. */
  function Trajectory(raw: seq<Coord>): (r: seq<Coord>)
    ensures |r| <= |raw| && Distinct(r)
    ensures forall p :: p in r <==> p in raw && InGrid(p)
  {
    if |raw| == 0 then []
    else
      var init := Trajectory(raw[..|raw| - 1]);
      var p := raw[|raw| - 1];
      if InGrid(p) && p !in init then init + [p] else init
  }

  /** The distinct cells of `cells` that hold a klingon, in first-appearance order. */
  function Candidates(cells: seq<Coord>, objects: map<Coord, char>): (r: seq<Coord>)
    ensures |r| <= |cells| && Distinct(r)
    ensures forall p :: p in r <==> p in cells && p in objects && objects[p] == Klingon
  {
    if |cells| == 0 then []
    else
      var init := Candidates(cells[..|cells| - 1], objects);
      var p := cells[|cells| - 1];
      if p in objects && objects[p] == Klingon && p !in init then init + [p] else init
  }

  /**
   * `_calculate_torpedo_trajectory` after the trigonometry: the points
   * `raw`, in the order the nested loops produce them, filtered by the
   * bounds check and de-duplicated.
   */
  method TorpedoTrajectory(raw: seq<Coord>) returns (trajectory: seq<Coord>)
    ensures trajectory == Trajectory(raw)
  {
    trajectory := [];
    for i := 0 to |raw|
      invariant trajectory == Trajectory(raw[..i])
    {
      assert raw[..i + 1][..i] == raw[..i];
      if InGrid(raw[i]) && raw[i] !in trajectory {
        trajectory := trajectory + [raw[i]];
      }
    }
    assert raw[..|raw|] == raw;
  }

  /** The enemies on the path: the distinct cells of the trajectory holding `'K'`. */
  method EnemiesOnPath(trajectory: seq<Coord>, objects: map<Coord, char>) returns (enemies: seq<Coord>)
    ensures enemies == Candidates(trajectory, objects)
  {
    enemies := [];
    for i := 0 to |trajectory|
      invariant enemies == Candidates(trajectory[..i], objects)
    {
      assert trajectory[..i + 1][..i] == trajectory[..i];
      var p := trajectory[i];
      if p in objects && objects[p] == Klingon && p !in enemies {
        enemies := enemies + [p];
      }
    }
    assert trajectory[..|trajectory|] == trajectory;
  }

  /** The first `k` torpedo shots at the candidates. */
  function TorpedoShots(candidates: seq<Coord>, spread: int, efficiency: real,
                        distances: map<Coord, real>, draws: seq<ShotDraw>, k: nat): (r: seq<Shot>)
    requires k <= |candidates| && |candidates| <= |draws|
    requires forall p :: p in candidates ==> p in distances
    ensures |r| == k
  {
    if k == 0 then []
    else TorpedoShots(candidates, spread, efficiency, distances, draws, k - 1)
         + [TorpedoShot(distances[candidates[k - 1]], spread, efficiency, draws[k - 1])]
  }

  /**
   * `execute_torpedo_attack`: a bay at efficiency <= 0.1 fails; a path with
   * no klingon is a successful miss; otherwise each candidate is rolled for.
   */
  method ExecuteTorpedoAttack(shipPos: Coord, spread: int, efficiency: real, objects: map<Coord, char>,
                              raw: seq<Coord>, distances: map<Coord, real>, draws: seq<ShotDraw>)
    returns (r: AttackResult)
    requires |draws| >= |raw|
    requires forall p :: p in raw && InGrid(p) ==> p in distances && IsDistance(distances[p], shipPos, p)
    ensures efficiency <= 0.1 ==> r == Failure(TorpedoTubesTooDamaged)
    ensures efficiency > 0.1 ==>
      var candidates := Candidates(Trajectory(raw), objects);
      if |candidates| == 0 then r == AttackResult(true, TorpedoMissed, [TorpedoMissedAll], [], 0)
      else r == Fired(Torpedo, candidates,
                      TorpedoShots(candidates, spread, efficiency, distances, draws, |candidates|))
  {
    if efficiency <= 0.1 {
      return Failure(TorpedoTubesTooDamaged);
    }
    var trajectory := TorpedoTrajectory(raw);
    var candidates := EnemiesOnPath(trajectory, objects);
    if |candidates| == 0 {
      return AttackResult(true, TorpedoMissed, [TorpedoMissedAll], [], 0);
    }
    r := FireTorpedoes(candidates, spread, efficiency, distances, draws);
  }

  /** The loop of `execute_torpedo_attack`: each candidate in turn. */
  method FireTorpedoes(candidates: seq<Coord>, spread: int, efficiency: real,
                       distances: map<Coord, real>, draws: seq<ShotDraw>) returns (r: AttackResult)
    requires |candidates| <= |draws|
    requires forall p :: p in candidates ==> p in distances
    ensures r == Fired(Torpedo, candidates, TorpedoShots(candidates, spread, efficiency, distances, draws, |candidates|))
  {
    var events: seq<Event> := [];
    var destroyed: seq<Coord> := [];
    var total := 0;
    var hits := 0;
    ghost var shots: seq<Shot> := [];
    for i := 0 to |candidates|
      invariant shots == TorpedoShots(candidates, spread, efficiency, distances, draws, i)
      invariant events == Events(Torpedo, candidates, shots)
      invariant destroyed == Destroyed(Torpedo, candidates, shots)
      invariant total == TotalDamage(shots)
      invariant hits == Hits(shots)
    {
      var shot := TorpedoShot(distances[candidates[i]], spread, efficiency, draws[i]);
      assert (shots + [shot])[..i] == shots;
      shots := shots + [shot];
      events := events + ShotEvents(Torpedo, candidates[i], shot);
      if shot.Hit? {
        total := total + shot.damage;
        hits := hits + 1;
        if shot.damage >= Threshold(Torpedo) {
          destroyed := destroyed + [candidates[i]];
        }
      }
    }
    r := AttackResult(true, TorpedoFired(hits, |destroyed|), events, destroyed, total);
  }

  /**
   * What a fired volley promises: the destroyed list is a duplicate-free
   * list of targets, each at or above the threshold; every hit deals at
   * least the weapon's floor, so the total is at least that per hit.
   */
  lemma PhaserVolleySound(targets: seq<Coord>, energy: int, efficiency: real,
                          distances: seq<real>, draws: seq<ShotDraw>)
    requires |targets| > 0 && |distances| == |targets| && |draws| == |targets| && Distinct(targets)
    ensures var r := Fired(Phaser, targets, PhaserShots(targets, energy, efficiency, distances, draws, |targets|));
      Distinct(r.destroyed) && (forall p :: p in r.destroyed ==> p in targets)
      && r.totalDamage >= r.message.hits
      && r.message.hits + r.message.misses <= |targets|
      && r.message.misses == MissEvents(r.events)
  {
    var shots := PhaserShots(targets, energy, efficiency, distances, draws, |targets|);
    DestroyedDistinct(Phaser, targets, shots);
    PhaserShotsDamage(targets, energy, efficiency, distances, draws, |targets|);
    TotalDamageAtLeast(shots, 1);
    ShotsPartition(shots);
    HitsAsWrittenCountsCriticalsTwice(Phaser, targets, shots);
  }

  lemma TorpedoVolleySound(candidates: seq<Coord>, spread: int, efficiency: real,
                           distances: map<Coord, real>, draws: seq<ShotDraw>)
    requires |candidates| <= |draws| && Distinct(candidates)
    requires forall p :: p in candidates ==> p in distances
    ensures var r := Fired(Torpedo, candidates, TorpedoShots(candidates, spread, efficiency, distances, draws, |candidates|));
      Distinct(r.destroyed) && (forall p :: p in r.destroyed ==> p in candidates)
      && r.totalDamage >= 10 * r.message.hits
      && r.message.hits + MissEvents(r.events) == |candidates|
  {
    var shots := TorpedoShots(candidates, spread, efficiency, distances, draws, |candidates|);
    DestroyedDistinct(Torpedo, candidates, shots);
    TorpedoShotsDamage(candidates, spread, efficiency, distances, draws, |candidates|);
    TotalDamageAtLeast(shots, 10);
    ShotsPartition(shots);
    HitsAsWrittenCountsCriticalsTwice(Torpedo, candidates, shots);
  }

  lemma {:induction false} TorpedoShotsDamage(candidates: seq<Coord>, spread: int, efficiency: real,
                                              distances: map<Coord, real>, draws: seq<ShotDraw>, k: nat)
    requires k <= |candidates| && |candidates| <= |draws|
    requires forall p :: p in candidates ==> p in distances
    ensures Fires(TorpedoShots(candidates, spread, efficiency, distances, draws, k))
    ensures HitsAtLeast(TorpedoShots(candidates, spread, efficiency, distances, draws, k), 10)
  {
    if k > 0 {
      var prev := TorpedoShots(candidates, spread, efficiency, distances, draws, k - 1);
      TorpedoShotsDamage(candidates, spread, efficiency, distances, draws, k - 1);
      var last := TorpedoShot(distances[candidates[k - 1]], spread, efficiency, draws[k - 1]);
      AppendShot(prev, last, 10);
    }
  }

  lemma {:induction false} PhaserShotsDamage(targets: seq<Coord>, energy: int, efficiency: real,
                                             distances: seq<real>, draws: seq<ShotDraw>, k: nat)
    requires |targets| > 0 && k <= |targets| && |distances| == |targets| && |draws| == |targets|
    ensures HitsAtLeast(PhaserShots(targets, energy, efficiency, distances, draws, k), 1)
  {
    if k > 0 {
      var prev := PhaserShots(targets, energy, efficiency, distances, draws, k - 1);
      PhaserShotsDamage(targets, energy, efficiency, distances, draws, k - 1);
      var last := PhaserShot(TargetEnergy(energy, |targets|, k - 1), distances[k - 1], efficiency, draws[k - 1]);
      AppendShot(prev, last, 1);
    }
  }

  lemma AppendShot(shots: seq<Shot>, s: Shot, least: int)
    ensures HitsAtLeast(shots, least) && (s.Hit? ==> s.damage >= least) ==> HitsAtLeast(shots + [s], least)
    ensures Fires(shots) && !s.Skipped? ==> Fires(shots + [s])
  {
    assert forall i :: 0 <= i < |shots| ==> (shots + [s])[i] == shots[i];
  }
}

=== FILE: common.dfy ===
/**
 * Shared vocabulary of the model: optional values, grid coordinates, the
 * integer geometry the game uses and the real-number helpers that stand in
 * for Python's min/max/int() on floats.
 */
module Common {

  datatype Option<T> = None | Some(value: T)

  /** A quadrant coordinate in the galaxy or a sector position inside a quadrant. */
  datatype Coord = Coord(x: int, y: int)

  /** GALAXY_SIZE and QUADRANT_SIZE are both 8. */
  const Size: int := 8

  predicate InGrid(c: Coord) { 1 <= c.x <= Size && 1 <= c.y <= Size }

  function Abs(n: int): (r: nat)
    ensures r == n || r == -n
  {
    if n < 0 then -n else n
  }

  /** Squared Euclidean distance; the game only ever compares distances. */
  function Dist2(a: Coord, b: Coord): (d: nat)
    ensures d == 0 <==> a == b
  {
    (b.x - a.x) * (b.x - a.x) + (b.y - a.y) * (b.y - a.y)
  }

  /** `d` is the Euclidean distance between `a` and `b`. */
  predicate IsDistance(d: real, a: Coord, b: Coord)
  {
    d >= 0.0 && d * d == Dist2(a, b) as real
  }

  lemma DistanceSymmetric(a: Coord, b: Coord)
    ensures Dist2(a, b) == Dist2(b, a) && Chebyshev(a, b) == Chebyshev(b, a)
  {
  }

  /** Chebyshev distance: the number of king moves between two cells. */
  function Chebyshev(a: Coord, b: Coord): (d: nat)
    ensures Abs(b.x - a.x) <= d && Abs(b.y - a.y) <= d
    ensures d == Abs(b.x - a.x) || d == Abs(b.y - a.y)
  {
    if Abs(b.x - a.x) >= Abs(b.y - a.y) then Abs(b.x - a.x) else Abs(b.y - a.y)
  }

  /** Integer square root: the largest r with r * r <= n. */
  function ISqrt(n: nat): (r: nat)
    ensures r * r <= n < (r + 1) * (r + 1)
  {
    if n == 0 then 0
    else
      var s := ISqrt(n - 1);
      if (s + 1) * (s + 1) <= n then s + 1 else s
  }

  /**
   * `int(sqrt(d2) * 8)`: the warp energy cost of a jump whose squared length
   * is d2. It is the largest k with k * k <= 64 * d2.
   */
  function WarpCost(d2: nat): (k: nat)
    ensures k * k <= 64 * d2 < (k + 1) * (k + 1)
  {
    ISqrt(64 * d2)
  }

  /** The cost grows with the distance. */
  lemma {:induction false} WarpCostMonotone(a: nat, b: nat)
    requires a <= b
    ensures WarpCost(a) <= WarpCost(b)
  {
    if WarpCost(a) > WarpCost(b) {
      MulMono(WarpCost(b) + 1, WarpCost(a));
    }
  }

  lemma MulMono(u: nat, v: nat)
    requires u <= v
    ensures u * u <= v * v
  {
    assert u * u <= u * v <= v * v;
  }

  /** `random.randint(lo, hi)` driven by an explicit draw d. */
  function RandInt(lo: int, hi: int, d: nat): (r: int)
    requires lo <= hi
    ensures lo <= r <= hi
  {
    lo + d % (hi - lo + 1)
  }

  /** Integer division truncating toward zero, as Python's `int(a / b)`. */
  function TruncDiv(a: int, b: int): (q: int)
    requires b > 0
    ensures Abs(q) == Abs(a) / b
    ensures (a >= 0 ==> q >= 0) && (a <= 0 ==> q <= 0)
  {
    DivNat(Abs(a), b);
    if a >= 0 then a / b else -((-a) / b)
  }

  /** Euclidean division of a natural number by a positive one is a natural number. */
  lemma DivNat(x: nat, b: int)
    requires b > 0
    ensures x / b >= 0
  {
    var q, r := x / b, x % b;
    assert x == b * q + r && 0 <= r < b;
    if q < 0 {
      MulNegative(b, q);
    }
  }

  lemma MulNegative(b: int, q: int)
    requires b > 0 && q < 0
    ensures b * q <= -b
    decreases -q
  {
    assert b * q == b * (q + 1) - b;
    if q < -1 {
      MulNegative(b, q + 1);
    }
  }

  /** Python's `int(r)` on a float: truncation toward zero. */
  function Trunc(r: real): (n: int)
    ensures r >= 0.0 ==> 0 <= n && n as real <= r < n as real + 1.0
    ensures r < 0.0 ==> n <= 0 && n as real - 1.0 < r <= n as real
  {
    if r >= 0.0 then r.Floor else -((-r).Floor)
  }

  function MinR(a: real, b: real): (m: real)
    ensures m <= a && m <= b && (m == a || m == b)
  {
    if a <= b then a else b
  }

  function MaxR(a: real, b: real): (m: real)
    ensures m >= a && m >= b && (m == a || m == b)
  {
    if a >= b then a else b
  }

  function MinI(a: int, b: int): (m: int)
    ensures m <= a && m <= b && (m == a || m == b)
  {
    if a <= b then a else b
  }

  function MaxI(a: int, b: int): (m: int)
    ensures m >= a && m >= b && (m == a || m == b)
  {
    if a >= b then a else b
  }

  /** `max(lo, min(hi, v))`, the clamp the scoring code writes inline. */
  function Clamp(lo: real, hi: real, v: real): (c: real)
    requires lo <= hi
    ensures lo <= c <= hi
    ensures lo <= v <= hi ==> c == v
  {
    MaxR(lo, MinR(hi, v))
  }
}

=== FILE: engine.dfy ===
/**
 * The turn engine: the game-state record and its dictionary form, the
 * command handlers, the Klingon pass and the turn state machine that ties the
 * galaxy, the ship, the Klingon AI, the strategic advisor and the event
 * injector together.
 *
 * Stardates are kept in tenths (2267.0 is 22670, a turn is 1), so time is
 * exact. Every random draw and every square root arrives as a parameter.
 */
module Engine {
  import opened Common
  import G = Galaxy
  import S = Ship
  import C = Combat
  import K = KlingonAI
  import E = Events
  import A = StrategicAI

  /** The opening stardate, 2267.0, and the length of one turn, 0.1, in tenths. */
  const StartStardate: int := 22670
  const TurnLength: int := 1

  // ---------------------------------------------------------------------
  // The game-state record and its dictionary form
  // ---------------------------------------------------------------------

  /** `GameState`: the mission clock, the tallies and the running statistics. */
  datatype GameState = GameState(
    stardate: int, missionTimeLimit: int, score: int, difficulty: string,
    klingonsRemaining: int, starbasesRemaining: int, playerWins: int, playerLosses: int,
    totalEnergyUsed: int, totalTorpedoesFired: int, quadrantsVisited: int, combatEncounters: int)

  /** The tallies after a phaser volley: `kills` fewer klingons and `amount` more energy used. */
  function PhasersAccounted(s: GameState, kills: int, amount: int): GameState
  {
    s.(klingonsRemaining := s.klingonsRemaining - kills, totalEnergyUsed := s.totalEnergyUsed + amount)
  }

  /** The tallies after a torpedo: `kills` fewer klingons and one more torpedo fired. */
  function TorpedoAccounted(s: GameState, kills: int): GameState
  {
    s.(klingonsRemaining := s.klingonsRemaining - kills, totalTorpedoesFired := s.totalTorpedoesFired + 1)
  }

  /** A dictionary value: a stardate (in tenths), an integer or a string. */
  datatype Value = Stardate(tenths: int) | Int(n: int) | Text(s: string)

  /** The dictionary keys, one per field of `GameState`. */
  datatype Field =
    | StardateKey | MissionTimeLimitKey | ScoreKey | DifficultyKey
    | KlingonsRemainingKey | StarbasesRemainingKey | PlayerWinsKey | PlayerLossesKey
    | TotalEnergyUsedKey | TotalTorpedoesFiredKey | QuadrantsVisitedKey | CombatEncountersKey

  const AllFields: set<Field> := {
    StardateKey, MissionTimeLimitKey, ScoreKey, DifficultyKey,
    KlingonsRemainingKey, StarbasesRemainingKey, PlayerWinsKey, PlayerLossesKey,
    TotalEnergyUsedKey, TotalTorpedoesFiredKey, QuadrantsVisitedKey, CombatEncountersKey}

  lemma AllFieldsListed(f: Field)
    ensures f in AllFields
  {
    match f
    case StardateKey =>
    case MissionTimeLimitKey =>
    case ScoreKey =>
    case DifficultyKey =>
    case KlingonsRemainingKey =>
    case StarbasesRemainingKey =>
    case PlayerWinsKey =>
    case PlayerLossesKey =>
    case TotalEnergyUsedKey =>
    case TotalTorpedoesFiredKey =>
    case QuadrantsVisitedKey =>
    case CombatEncountersKey =>
  }

  /** The key as written in a saved game. */
  function KeyName(f: Field): string
  {
    match f
    case StardateKey => "stardate"
    case MissionTimeLimitKey => "mission_time_limit"
    case ScoreKey => "score"
    case DifficultyKey => "difficulty"
    case KlingonsRemainingKey => "klingons_remaining"
    case StarbasesRemainingKey => "starbases_remaining"
    case PlayerWinsKey => "player_wins"
    case PlayerLossesKey => "player_losses"
    case TotalEnergyUsedKey => "total_energy_used"
    case TotalTorpedoesFiredKey => "total_torpedoes_fired"
    case QuadrantsVisitedKey => "quadrants_visited"
    case CombatEncountersKey => "combat_encounters"
  }

  /** `to_dict` (`asdict`): one entry per field. */
  function ToDict(s: GameState): (d: map<Field, Value>)
    ensures d.Keys == AllFields
  {
    map[StardateKey := Stardate(s.stardate),
        MissionTimeLimitKey := Stardate(s.missionTimeLimit),
        ScoreKey := Int(s.score),
        DifficultyKey := Text(s.difficulty),
        KlingonsRemainingKey := Int(s.klingonsRemaining),
        StarbasesRemainingKey := Int(s.starbasesRemaining),
        PlayerWinsKey := Int(s.playerWins),
        PlayerLossesKey := Int(s.playerLosses),
        TotalEnergyUsedKey := Int(s.totalEnergyUsed),
        TotalTorpedoesFiredKey := Int(s.totalTorpedoesFired),
        QuadrantsVisitedKey := Int(s.quadrantsVisited),
        CombatEncountersKey := Int(s.combatEncounters)]
  }

  /** Every key is present with a value of its field's kind. */
  predicate WellTyped(d: map<Field, Value>)
  {
    StardateKey in d && d[StardateKey].Stardate?
    && MissionTimeLimitKey in d && d[MissionTimeLimitKey].Stardate?
    && ScoreKey in d && d[ScoreKey].Int?
    && DifficultyKey in d && d[DifficultyKey].Text?
    && KlingonsRemainingKey in d && d[KlingonsRemainingKey].Int?
    && StarbasesRemainingKey in d && d[StarbasesRemainingKey].Int?
    && PlayerWinsKey in d && d[PlayerWinsKey].Int?
    && PlayerLossesKey in d && d[PlayerLossesKey].Int?
    && TotalEnergyUsedKey in d && d[TotalEnergyUsedKey].Int?
    && TotalTorpedoesFiredKey in d && d[TotalTorpedoesFiredKey].Int?
    && QuadrantsVisitedKey in d && d[QuadrantsVisitedKey].Int?
    && CombatEncountersKey in d && d[CombatEncountersKey].Int?
  }

  /**
   * `from_dict`: the record, or nothing when a key is missing (the
   * constructor's TypeError) or a value is of the wrong kind.
   */
  function FromDict(d: map<Field, Value>): (r: Option<GameState>)
    ensures r.Some? <==> WellTyped(d)
  {
    if WellTyped(d) then
      Some(GameState(d[StardateKey].tenths, d[MissionTimeLimitKey].tenths, d[ScoreKey].n,
                     d[DifficultyKey].s, d[KlingonsRemainingKey].n, d[StarbasesRemainingKey].n,
                     d[PlayerWinsKey].n, d[PlayerLossesKey].n, d[TotalEnergyUsedKey].n,
                     d[TotalTorpedoesFiredKey].n, d[QuadrantsVisitedKey].n, d[CombatEncountersKey].n))
    else None
  }

  /** Saving then loading a state gives it back. */
  lemma DictRoundTrip(s: GameState)
    ensures FromDict(ToDict(s)) == Some(s)
  {
  }

  /** A dictionary that loads is exactly the one its state saves to. */
  lemma DictDetermines(d: map<Field, Value>)
    requires FromDict(d).Some?
    ensures ToDict(FromDict(d).value) == d
  {
    var d' := ToDict(FromDict(d).value);
    forall f | f in d
      ensures f in d'
    {
      AllFieldsListed(f);
    }
  }

  // ---------------------------------------------------------------------
  // Pure rules: ship condition, end of game, efficiency
  // ---------------------------------------------------------------------

  datatype Alert = Red | Yellow | Green

  function AlertRank(a: Alert): nat
  {
    match a
    case Red => 0
    case Yellow => 1
    case Green => 2
  }

  /**
   * `_get_ship_condition`: RED with shields down and under 1000 energy,
   * YELLOW under 2000 energy or with any damage, else GREEN.
   */
  function AlertLevel(shields: int, energy: int, damaged: bool): (a: Alert)
    ensures a == Red <==> shields <= 0 && energy < 1000
    ensures a == Green <==> energy >= 2000 && !damaged
  {
    if shields <= 0 && energy < 1000 then Red
    else if energy < 2000 || damaged then Yellow
    else Green
  }

  /** More energy or more shields never make the condition worse; repairs never do either. */
  lemma AlertMonotone(s1: int, s2: int, e1: int, e2: int, d1: bool, d2: bool)
    requires s1 <= s2 && e1 <= e2 && (d2 ==> d1)
    ensures AlertRank(AlertLevel(s1, e1, d1)) <= AlertRank(AlertLevel(s2, e2, d2))
  {
  }

  /** How a game ends, if it does. */
  datatype Ending = Ongoing | Victory | ShipLost | TimeExpired

  /**
   * `_check_game_end_conditions`: victory when no Klingons remain, else
   * defeat when the ship is destroyed, else defeat when the time is up.
   */
  function Verdict(klingonsRemaining: int, destroyed: bool, stardate: int, limit: int): (v: Ending)
    ensures v == Victory <==> klingonsRemaining <= 0
    ensures v == ShipLost <==> klingonsRemaining > 0 && destroyed
    ensures v == TimeExpired <==> klingonsRemaining > 0 && !destroyed && stardate >= limit
    ensures v == Ongoing <==> klingonsRemaining > 0 && !destroyed && stardate < limit
  {
    if klingonsRemaining <= 0 then Victory
    else if destroyed then ShipLost
    else if stardate >= limit then TimeExpired
    else Ongoing
  }

  /** Once the clock has run out, a game cannot go on, whatever else holds. */
  lemma ClockEndsGame(klingonsRemaining: int, destroyed: bool, stardate: int, limit: int)
    requires stardate >= limit
    ensures Verdict(klingonsRemaining, destroyed, stardate, limit) != Ongoing
  {
  }

  /**
   * `_calculate_efficiency_rating`: 0 before the first turn; otherwise the
   * mean of the energy thrift (against 100 a turn), the torpedo thrift
   * (against the encounters) and the share of the 64 quadrants visited,
   * clamped into [0, 1].
   */
  function EfficiencyRating(turns: int, energyUsed: int, torpedoesFired: int,
                            visited: int, encounters: int): (e: real)
    ensures 0.0 <= e <= 1.0
    ensures turns == 0 ==> e == 0.0
  {
    if turns == 0 then 0.0
    else
      var energyEfficiency := 1.0 - energyUsed as real / (turns * 100) as real;
      var torpedoEfficiency := 1.0 - torpedoesFired as real / MaxI(1, encounters) as real;
      var exploration := visited as real / 64.0;
      Clamp(0.0, 1.0, (energyEfficiency + torpedoEfficiency + exploration) / 3.0)
  }

  /** Spending less energy, firing fewer torpedoes or visiting more quadrants never lowers the rating. */
  lemma EfficiencyMonotone(turns: int, u1: int, u2: int, t1: int, t2: int, v1: int, v2: int, encounters: int)
    requires turns > 0 && u2 <= u1 && t2 <= t1 && v1 <= v2
    ensures EfficiencyRating(turns, u1, t1, v1, encounters) <= EfficiencyRating(turns, u2, t2, v2, encounters)
  {
    A.RealDivMono(u2 as real, u1 as real, (turns * 100) as real);
    A.RealDivMono(t2 as real, t1 as real, MaxI(1, encounters) as real);
    A.RealDivMono(v1 as real, v2 as real, 64.0);
  }

  /** The docking distance: `|dx| + |dy|`. */
  function Manhattan(a: Coord, b: Coord): nat
  {
    Abs(a.x - b.x) + Abs(a.y - b.y)
  }

  // ---------------------------------------------------------------------
  // Commands, draws and replies
  // ---------------------------------------------------------------------

  /** A parsed parameter: absent, not a number, or the number. */
  datatype Arg<T> = Missing | Malformed | Given(value: T)

  /** A parsed `x,y` destination. */
  datatype Destination = NoDestination | NoComma | NotNumbers | Dest(coord: Coord)

  /** The parsed `tor` parameters: fewer than two, unparsable, or a course and a spread. */
  datatype TorpedoOrder = TooFewParameters | Unparsable | Aim(course: real, spread: int)

  /** The parsed `com` parameters. */
  datatype ComputerRequest = Menu | Distance(dest: Destination) | StatusRequest | OtherFunction(name: string)

  /** A command word with its parsed parameters; `Other` is any other word. */
  datatype Command =
    | Nav(dest: Destination)
    | Srs
    | Lrs
    | Pha(amount: Arg<int>)
    | Tor(order: TorpedoOrder)
    | Shi(level: Arg<int>)
    | Dock
    | Com(request: ComputerRequest)
    | Dam
    | Other(word: string)

  /** The draws behind one Klingon hit on the ship. */
  datatype HitDraw = HitDraw(roll: real, pick: nat, severity: real)

  /**
   * Everything random in one turn, and the square root: shot `i` of a
   * volley, Klingon `i`'s decision and hit, the torpedo's path (worked out
   * from the course and spread by trigonometry) and the event draws.
   */
  datatype TurnDraws = TurnDraws(
    root: nat -> real,
    shot: nat -> C.ShotDraw,
    trajectory: seq<Coord>,
    klingon: nat -> K.Draws,
    hit: nat -> HitDraw,
    events: E.Draws)

  /** `root` is the square root on the naturals. */
  ghost predicate IsRoot(root: nat -> real)
  {
    forall n: nat :: root(n) >= 0.0 && root(n) * root(n) == n as real
  }

  /** The computer's status report. */
  datatype Status = Status(
    stardate: int, timeRemaining: int, condition: Alert, quadrant: Coord,
    energy: int, shields: int, torpedoes: int, klingonsRemaining: int, starbasesRemaining: int,
    score: int, quadrantsVisited: int, combatEncounters: int)

  /** The reply messages, one constructor per message line. */
  datatype Msg =
    | NotActive
    | UnknownCommand(name: string)
    | NeedDestination
    | BadDestinationFormat
    | InvalidQuadrant
    | InsufficientEnergy(need: int, have: int)
    | Navigated(to: Coord, cost: int)
    | ShortRangeScan(objects: map<Coord, char>, at: Coord)
    | LongRangeScan(summaries: map<Coord, G.Summary>)
    | NeedEnergyAmount
    | InvalidEnergyAmount
    | NoEnemies
    | CombatReport(report: C.Message)
    | NeedCourseAndSpread
    | NoTorpedoes
    | InvalidTorpedoParameters
    | CourseOutOfRange
    | SpreadNotPositive
    | ShieldStatus(shields: int, maxShields: int)
    | NegativeShieldLevel
    | InvalidShieldLevel
    | ShieldsSet(level: int)
    | NoStarbase
    | NotAdjacent
    | DockedWithStarbase
    | ComputerMenu
    | NeedDistanceDestination
    | DistanceTo(destination: Coord, cost: int)
    | StatusReport(status: Status)
    | UnknownFunction(name: string)
    | DamageReportReady

  /** The event lines of a reply. */
  datatype Note =
    | Entered(quadrant: Coord)
    | CombatNote(event: C.Event)
    | DockedNote
    | ResuppliedNote
    | KlingonAttacks(at: Coord, damage: int)
    | KlingonMoves(from: Coord, to: Coord)
    | StrategicNote(warning: A.Warning)
    | EventNote(message: E.Message)

  datatype Reply = Reply(success: bool, message: Msg, notes: seq<Note>)

  function CombatNotes(es: seq<C.Event>): (ns: seq<Note>)
    ensures |ns| == |es| && forall i :: 0 <= i < |es| ==> ns[i] == CombatNote(es[i])
  {
    seq(|es|, i requires 0 <= i < |es| => CombatNote(es[i]))
  }

  function EventNotes(ms: seq<E.Message>): (ns: seq<Note>)
    ensures |ns| == |ms| && forall i :: 0 <= i < |ms| ==> ns[i] == EventNote(ms[i])
  {
    seq(|ms|, i requires 0 <= i < |ms| => EventNote(ms[i]))
  }

  /** The objects of `objects` that are `removed` gone, nothing else changed, and only Klingons removed. */
  predicate OnlyKlingonsRemoved(before: map<Coord, char>, after: map<Coord, char>)
  {
    (forall p :: p in after ==> p in before && after[p] == before[p])
    && (forall p :: p in before && p !in after ==> before[p] == G.Klingon)
  }

  /**
   * The cells of `objects` holding `kind`, each once. The order is left
   * open: the source lists a dictionary in insertion order, which the
   * galaxy's maps do not record.
   */
  method ListCells(objects: map<Coord, char>, kind: char) returns (cells: seq<Coord>)
    ensures G.Distinct(cells)
    ensures forall p :: p in cells <==> p in objects && objects[p] == kind
  {
    cells := [];
    var rest := objects.Keys;
    while rest != {}
      invariant rest <= objects.Keys
      invariant G.Distinct(cells)
      invariant forall p :: p in cells <==> p in objects && objects[p] == kind && p !in rest
      decreases |rest|
    {
      var p :| p in rest;
      if objects[p] == kind {
        cells := cells + [p];
      }
      rest := rest - {p};
    }
  }

  /** `objects` without the cells listed in `cells`. */
  function Without(objects: map<Coord, char>, cells: seq<Coord>): (r: map<Coord, char>)
    ensures forall p :: p in r <==> p in objects && p !in cells
    ensures forall p :: p in r ==> r[p] == objects[p]
  {
    map p | p in objects && p !in cells :: objects[p]
  }

  /** A list of kills the galaxy can account for: each a klingon of `objects`, none twice. */
  predicate Kills(destroyed: seq<Coord>, objects: map<Coord, char>)
  {
    G.Distinct(destroyed) && forall p :: p in destroyed ==> p in objects && objects[p] == G.Klingon
  }

  /** Removing the kills one at a time: the next kill is still present, and the prefixes compose. */
  lemma KillStep(objects: map<Coord, char>, kills: seq<Coord>, i: nat)
    requires Kills(kills, objects) && i <= |kills|
    ensures i == |kills| ==> Without(objects, kills[..i]) == Without(objects, kills)
    ensures i < |kills| ==>
      var rest := Without(objects, kills[..i]);
      kills[i] in rest && rest[kills[i]] == G.Klingon
      && Without(rest, [kills[i]]) == Without(objects, kills[..i + 1])
  {
    if i < |kills| {
      assert kills[i] !in kills[..i];
      assert kills[..i + 1] == kills[..i] + [kills[i]];
    } else {
      assert kills[..i] == kills;
    }
  }

  /** Removing a list of kills removes klingons only, and only those listed. */
  lemma KillsRemoveKlingons(objects: map<Coord, char>, kills: seq<Coord>)
    requires Kills(kills, objects)
    ensures OnlyKlingonsRemoved(objects, Without(objects, kills))
    ensures forall p :: p in objects && p !in Without(objects, kills) ==> p in kills
  {
  }

  /** Two changes confined to the same quadrant make one. */
  lemma QuadrantChangesCompose(a: map<Coord, G.Quadrant>, b: map<Coord, G.Quadrant>, c: map<Coord, G.Quadrant>, q: Coord)
    requires OnlyQuadrantChanged(a, b, q) && OnlyQuadrantChanged(b, c, q)
    ensures OnlyQuadrantChanged(a, c, q)
  {
  }

  /** A galaxy that did not change changed only in any one quadrant. */
  lemma UnchangedGalaxyIsLocal(m: map<Coord, G.Quadrant>, c: Coord)
    ensures OnlyQuadrantChanged(m, m, c)
  {
  }

  /** A quadrant holds an object of `kind` exactly when its tally of them is positive. */
  lemma TallyShowsPresence(objects: map<Coord, char>, kind: char)
    ensures G.Tally(objects, kind) > 0 <==> Present(objects, kind)
  {
    if Present(objects, kind) {
      var p :| p in objects && objects[p] == kind;
      assert p in G.Cells(objects, kind);
    } else {
      assert G.Cells(objects, kind) == {};
    }
  }

  /** The clock and the record of past games, which no command handler touches. */
  predicate SameClockAndRecord(before: GameState, after: GameState)
  {
    after.stardate == before.stardate && after.missionTimeLimit == before.missionTimeLimit
    && after.playerWins == before.playerWins && after.playerLosses == before.playerLosses
  }

  /** Only the quadrant at `c` differs between the two galaxy maps. */
  ghost predicate OnlyQuadrantChanged(before: map<Coord, G.Quadrant>, after: map<Coord, G.Quadrant>, c: Coord)
  {
    (forall q :: q in after <==> q in before)
    && forall q :: q in before && q != c ==> after[q] == before[q]
  }

  /** The distances from `pos` to each of `cells`, by the square root `root`. */
  function Distances(pos: Coord, cells: seq<Coord>, root: nat -> real): (r: seq<real>)
    ensures |r| == |cells|
    ensures IsRoot(root) ==> forall i :: 0 <= i < |cells| ==> IsDistance(r[i], pos, cells[i])
  {
    var r := seq(|cells|, i requires 0 <= i < |cells| => root(Dist2(pos, cells[i])));
    assert forall i :: 0 <= i < |cells| ==> r[i] == root(Dist2(pos, cells[i]));
    r
  }

  /** The distances from `pos` to the points of a trajectory, by the square root `root`. */
  function DistanceMap(pos: Coord, raw: seq<Coord>, root: nat -> real): (r: map<Coord, real>)
    ensures forall p :: p in r <==> p in raw
    ensures forall p :: p in r ==> r[p] == root(Dist2(pos, p))
  {
    map p | p in raw :: root(Dist2(pos, p))
  }

  /** With a true square root, `root` of the squared distance is the distance. */
  lemma RootDistance(root: nat -> real, a: Coord, b: Coord)
    requires IsRoot(root)
    ensures IsDistance(root(Dist2(a, b)), a, b)
  {
    var n := Dist2(a, b);
    assert root(n) >= 0.0 && root(n) * root(n) == n as real;
  }

  /** With a true square root, every entry of the map is the distance to its point. */
  lemma DistanceMapExact(pos: Coord, raw: seq<Coord>, root: nat -> real)
    requires IsRoot(root)
    ensures forall p :: p in raw ==> IsDistance(DistanceMap(pos, raw, root)[p], pos, p)
  {
    forall p | p in raw
      ensures IsDistance(DistanceMap(pos, raw, root)[p], pos, p)
    {
      RootDistance(root, pos, p);
    }
  }

  /** The first `n` shot draws of a turn. */
  function ShotDraws(shot: nat -> C.ShotDraw, n: nat): (r: seq<C.ShotDraw>)
    ensures |r| == n && forall i :: 0 <= i < n ==> r[i] == shot(i)
  {
    seq(n, i requires 0 <= i < n => shot(i))
  }

  /** `cells` lists the cells of `objects` holding `kind`, each once, as `ListCells` does. */
  ghost predicate Lists(cells: seq<Coord>, objects: map<Coord, char>, kind: char)
  {
    G.Distinct(cells) && forall p :: p in cells <==> p in objects && objects[p] == kind
  }

  /**
   * A weapon handler's reply carries the attack's summary and one note per
   * combat event, and the quadrant has lost exactly the destroyed klingons.
   */
  predicate Reports(r: Reply, result: C.AttackResult, before: map<Coord, char>, after: map<Coord, char>)
  {
    r.message == CombatReport(result.message) && r.notes == CombatNotes(result.events)
    && after == Without(before, result.destroyed)
  }

  /**
   * `r` reports the phasers fired from `pos` at every klingon of `before`,
   * listed in some order, and `after` is `before` without those destroyed.
   */
  ghost predicate VolleyAtAll(r: Reply, pos: Coord, amount: int, efficiency: real, d: TurnDraws,
                              before: map<Coord, char>, after: map<Coord, char>)
  {
    exists enemies :: Lists(enemies, before, G.Klingon)
                      && Reports(r, PhaserOutcome(pos, enemies, amount, efficiency, d), before, after)
  }

  /**
   * What `execute_phaser_attack` returns when the ship at `pos` fires
   * `amount` at `enemies` with phasers at `efficiency`, by the turn's draws.
   */
  function PhaserOutcome(pos: Coord, enemies: seq<Coord>, amount: int, efficiency: real, d: TurnDraws): C.AttackResult
  {
    if |enemies| == 0 then C.Failure(C.NoTargetsInRange)
    else if efficiency <= 0.1 then C.Failure(C.PhasersTooDamaged)
    else C.Fired(C.Phaser, enemies, C.PhaserShots(enemies, amount, efficiency, Distances(pos, enemies, d.root),
                                                  ShotDraws(d.shot, |enemies|), |enemies|))
  }

  /**
   * What `execute_torpedo_attack` returns when the ship at `pos` fires along
   * the turn's trajectory into `objects` with tubes at `efficiency`.
   */
  function TorpedoOutcome(pos: Coord, spread: int, efficiency: real, objects: map<Coord, char>, d: TurnDraws): C.AttackResult
  {
    if efficiency <= 0.1 then C.Failure(C.TorpedoTubesTooDamaged)
    else
      var candidates := C.Candidates(C.Trajectory(d.trajectory), objects);
      if |candidates| == 0 then C.AttackResult(true, C.TorpedoMissed, [C.TorpedoMissedAll], [], 0)
      else C.Fired(C.Torpedo, candidates,
                   C.TorpedoShots(candidates, spread, efficiency, DistanceMap(pos, d.trajectory, d.root),
                                  ShotDraws(d.shot, |d.trajectory|), |candidates|))
  }

  /**
   * Whatever a phaser attack on the klingons of a quadrant returns, its
   * destroyed list is one the galaxy can account for, and the summary
   * reports its length.
   */
  lemma PhaserOutcomeKills(enemies: seq<Coord>, amount: int, efficiency: real, distances: seq<real>,
                           draws: seq<C.ShotDraw>, objects: map<Coord, char>, result: C.AttackResult)
    requires |enemies| > 0 && |distances| == |enemies| && |draws| == |enemies| && G.Distinct(enemies)
    requires forall p :: p in enemies ==> p in objects && objects[p] == G.Klingon
    requires efficiency <= 0.1 ==> result == C.Failure(C.PhasersTooDamaged)
    requires efficiency > 0.1 ==>
      result == C.Fired(C.Phaser, enemies, C.PhaserShots(enemies, amount, efficiency, distances, draws, |enemies|))
    ensures Kills(result.destroyed, objects) && ReportedKills(result.message) == |result.destroyed|
  {
    if efficiency > 0.1 {
      C.PhaserVolleySound(enemies, amount, efficiency, distances, draws);
    }
  }

  /**
   * Whatever a torpedo attack returns, its destroyed list is one the galaxy
   * can account for, every kill lies on the trajectory, and the summary
   * reports its length.
   */
  lemma TorpedoOutcomeKills(spread: int, efficiency: real, objects: map<Coord, char>, raw: seq<Coord>,
                            distances: map<Coord, real>, draws: seq<C.ShotDraw>, result: C.AttackResult)
    requires |draws| >= |raw|
    requires forall p :: p in raw && InGrid(p) ==> p in distances
    requires efficiency <= 0.1 ==> result == C.Failure(C.TorpedoTubesTooDamaged)
    requires efficiency > 0.1 ==>
      var candidates := C.Candidates(C.Trajectory(raw), objects);
      if |candidates| == 0 then result == C.AttackResult(true, C.TorpedoMissed, [C.TorpedoMissedAll], [], 0)
      else result == C.Fired(C.Torpedo, candidates,
                             C.TorpedoShots(candidates, spread, efficiency, distances, draws, |candidates|))
    ensures Kills(result.destroyed, objects) && ReportedKills(result.message) == |result.destroyed|
    ensures forall p :: p in result.destroyed ==> p in raw
  {
    if efficiency > 0.1 {
      var candidates := C.Candidates(C.Trajectory(raw), objects);
      if |candidates| > 0 {
        C.TorpedoVolleySound(candidates, spread, efficiency, distances, draws);
      }
    }
  }

  /** The number of klingons an attack's summary reports destroyed. */
  function ReportedKills(m: C.Message): (n: nat)
    ensures !(m.PhasersFired? || m.TorpedoFired?) ==> n == 0
  {
    match m
    case PhasersFired(_, _, destroyed) => destroyed
    case TorpedoFired(_, destroyed) => destroyed
    case _ => 0
  }

  /** Some sector of the quadrant holds an object of `kind`. */
  predicate Present(objects: map<Coord, char>, kind: char)
  {
    exists p :: p in objects && objects[p] == kind
  }

  /** Some starbase of the quadrant is within docking range (Manhattan distance 1) of `pos`. */
  predicate StarbaseWithin(objects: map<Coord, char>, pos: Coord)
  {
    exists b :: b in objects && objects[b] == G.Starbase && Manhattan(pos, b) <= 1
  }

  /** The starbase search of `_handle_docking`: whether there is any starbase, and one in range. */
  method LocateStarbase(objects: map<Coord, char>, pos: Coord) returns (any: bool, found: Option<Coord>)
    ensures any <==> Present(objects, G.Starbase)
    ensures found.Some? <==> StarbaseWithin(objects, pos)
    ensures found.Some? ==> found.value in objects && objects[found.value] == G.Starbase
                            && Manhattan(pos, found.value) <= 1
  {
    var bases := ListCells(objects, G.Starbase);
    any := |bases| > 0;
    if any {
      assert bases[0] in objects;
    }
    found := FindAdjacentStarbase(bases, pos);
    if found.Some? {
      assert StarbaseWithin(objects, pos);
    }
  }

  /** The first starbase within docking distance of `pos`, if any (the loop of `_handle_docking`). */
  method FindAdjacentStarbase(bases: seq<Coord>, pos: Coord) returns (found: Option<Coord>)
    ensures found.Some? ==> found.value in bases && Manhattan(pos, found.value) <= 1
    ensures found.None? <==> forall b :: b in bases ==> Manhattan(pos, b) > 1
  {
    found := None;
    for i := 0 to |bases|
      invariant forall j :: 0 <= j < i ==> Manhattan(pos, bases[j]) > 1
    {
      if Manhattan(pos, bases[i]) <= 1 {
        return Some(bases[i]);
      }
    }
  }

  // ---------------------------------------------------------------------
  // The effects of the klingons' actions
  // ---------------------------------------------------------------------

  /** An action that hits the ship: an attack with positive damage. */
  predicate Strikes(a: K.Action)
  {
    a.Attack? && a.damage > 0
  }

  /** An action that moves the unit: a move to a sector empty when the pass began. */
  predicate Relocates(a: K.Action, objects: map<Coord, char>)
  {
    a.Move? && a.target !in objects
  }

  /**
   * The ship's shields and energy after the striking attacks among
   * `actions`, each passed through `Ship.Hit` in turn.
   */
  function Struck(shields: int, energy: int, actions: seq<K.Action>): (r: (int, int))
    ensures r.0 <= shields
    ensures energy >= 0 ==> 0 <= r.1 <= energy
    ensures (forall j :: 0 <= j < |actions| ==> !Strikes(actions[j])) ==> r == (shields, energy)
  {
    if |actions| == 0 then (shields, energy)
    else
      var n := |actions| - 1;
      var prev := Struck(shields, energy, actions[..n]);
      if Strikes(actions[n]) then
        var h := S.Hit(prev.0, prev.1, actions[n].damage);
        (h.0, h.1)
      else prev
  }

  /**
   * The quadrant `q` after the relocating moves among `actions`, the j-th
   * taking the unit at `klingons[j]` to its target.
   */
  function MovedAll(q: G.Quadrant, klingons: seq<Coord>, actions: seq<K.Action>, objects: map<Coord, char>): (r: G.Quadrant)
    requires |klingons| == |actions|
    ensures r.klingons == q.klingons && r.starbases == q.starbases && r.stars == q.stars
    ensures r.coordinates == q.coordinates
    ensures (forall j :: 0 <= j < |actions| ==> !Relocates(actions[j], objects)) ==> r == q
  {
    if |actions| == 0 then q
    else
      var n := |actions| - 1;
      var prev := MovedAll(q, klingons[..n], actions[..n], objects);
      if Relocates(actions[n], objects) then G.Moved(prev, klingons[n], actions[n].target) else prev
  }

  /** One more action extends `Struck` by that action's hit, if it strikes. */
  lemma StruckStep(shields: int, energy: int, actions: seq<K.Action>, a: K.Action)
    ensures var prev := Struck(shields, energy, actions);
            Struck(shields, energy, actions + [a])
              == if Strikes(a) then (S.Hit(prev.0, prev.1, a.damage).0, S.Hit(prev.0, prev.1, a.damage).1) else prev
  {
    assert (actions + [a])[..|actions|] == actions;
  }

  /** One more action extends `MovedAll` by that action's move, if it relocates. */
  lemma MovedAllStep(q: G.Quadrant, klingons: seq<Coord>, actions: seq<K.Action>, objects: map<Coord, char>, a: K.Action)
    requires |actions| < |klingons|
    ensures var i := |actions|;
            var prev := MovedAll(q, klingons[..i], actions, objects);
            MovedAll(q, klingons[..i + 1], actions + [a], objects)
              == if Relocates(a, objects) then G.Moved(prev, klingons[i], a.target) else prev
  {
    var i := |actions|;
    assert (actions + [a])[..i] == actions;
    assert klingons[..i + 1][..i] == klingons[..i];
  }

  /**
   * One klingon's turn extends both accounts: if the shields and energy
   * were `Struck` and the quadrant `MovedAll` over the earlier actions, and
   * action `a` had its effect, they are so over the actions with `a`.
   */
  lemma TurnEffect(g0: map<Coord, G.Quadrant>, cur: Coord, klingons: seq<Coord>, actions: seq<K.Action>,
                   objects: map<Coord, char>, a: K.Action, s0: int, e0: int,
                   before: map<Coord, G.Quadrant>, after: map<Coord, G.Quadrant>, sb: int, eb: int, sa: int, ea: int)
    requires |actions| < |klingons| && cur in g0
    requires before == g0[cur := MovedAll(g0[cur], klingons[..|actions|], actions, objects)]
    requires (sb, eb) == Struck(s0, e0, actions)
    requires Strikes(a) ==> after == before && sa == S.Hit(sb, eb, a.damage).0 && ea == S.Hit(sb, eb, a.damage).1
    requires !Strikes(a) ==> sa == sb && ea == eb
    requires Relocates(a, objects) ==> after == before[cur := G.Moved(before[cur], klingons[|actions|], a.target)]
    requires !Strikes(a) && !Relocates(a, objects) ==> after == before
    ensures (sa, ea) == Struck(s0, e0, actions + [a])
    ensures after == g0[cur := MovedAll(g0[cur], klingons[..|actions| + 1], actions + [a], objects)]
  {
    StruckStep(s0, e0, actions, a);
    MovedAllStep(g0[cur], klingons, actions, objects, a);
  }

  /**
   * The note a klingon at `k` leaves for `action` when the ship stood at
   * `before` (shields, energy): the damage that passed the shields for a
   * striking attack, the move for a relocation, none otherwise.
   */
  function TurnNote(k: Coord, a: K.Action, objects: map<Coord, char>, before: (int, int)): (n: seq<Note>)
    ensures |n| <= 1 && forall x :: x in n ==> x.KlingonAttacks? || x.KlingonMoves?
    ensures |n| == 1 <==> Strikes(a) || Relocates(a, objects)
  {
    if Strikes(a) then [KlingonAttacks(k, S.Hit(before.0, before.1, a.damage).2)]
    else if Relocates(a, objects) then [KlingonMoves(k, a.target)]
    else []
  }

  /** The notes of a pass: each klingon's `TurnNote`, in turn, against the ship as the earlier attacks left it. */
  function PassNotes(shields: int, energy: int, klingons: seq<Coord>, actions: seq<K.Action>,
                     objects: map<Coord, char>): (r: seq<Note>)
    requires |klingons| == |actions|
    ensures |r| <= |actions| && forall x :: x in r ==> x.KlingonAttacks? || x.KlingonMoves?
  {
    if |actions| == 0 then []
    else
      var n := |actions| - 1;
      PassNotes(shields, energy, klingons[..n], actions[..n], objects)
      + TurnNote(klingons[n], actions[n], objects, Struck(shields, energy, actions[..n]))
  }

  /** One more klingon's turn appends its note to the pass's notes. */
  lemma PassNotesStep(shields: int, energy: int, klingons: seq<Coord>, actions: seq<K.Action>,
                      objects: map<Coord, char>, a: K.Action)
    requires |actions| < |klingons|
    ensures var i := |actions|;
            PassNotes(shields, energy, klingons[..i + 1], actions + [a], objects)
              == PassNotes(shields, energy, klingons[..i], actions, objects)
                 + TurnNote(klingons[i], a, objects, Struck(shields, energy, actions))
  {
    var i := |actions|;
    assert (actions + [a])[..i] == actions;
    assert klingons[..i + 1][..i] == klingons[..i];
  }

  /**
   * The ship's damage record after the striking attacks among `actions`,
   * the j-th with the draws `hit(j)`: each hit whose damage passed the
   * shields runs `_apply_system_damage` once.
   */
  function Worn(systems: map<S.System, real>, shields: int, energy: int, actions: seq<K.Action>,
                hit: nat -> HitDraw): (r: map<S.System, real>)
    ensures (forall j :: 0 <= j < |actions| ==> !Strikes(actions[j])) ==> r == systems
  {
    if |actions| == 0 then systems
    else
      var n := |actions| - 1;
      var prev := Worn(systems, shields, energy, actions[..n], hit);
      if Strikes(actions[n]) then
        var before := Struck(shields, energy, actions[..n]);
        var taken := S.Hit(before.0, before.1, actions[n].damage).2;
        if taken > 0 then S.Afflicted(prev, taken, hit(n).roll, hit(n).pick, hit(n).severity) else prev
      else prev
  }

  /** One more action extends `Worn` by the system damage of its hit, if it strikes and passes the shields. */
  lemma WornStep(systems: map<S.System, real>, shields: int, energy: int, actions: seq<K.Action>,
                 hit: nat -> HitDraw, a: K.Action)
    ensures var prev := Worn(systems, shields, energy, actions, hit);
            var before := Struck(shields, energy, actions);
            Worn(systems, shields, energy, actions + [a], hit)
              == if Strikes(a) && S.Hit(before.0, before.1, a.damage).2 > 0
                 then S.Afflicted(prev, S.Hit(before.0, before.1, a.damage).2,
                                  hit(|actions|).roll, hit(|actions|).pick, hit(|actions|).severity)
                 else prev
  {
    assert (actions + [a])[..|actions|] == actions;
  }

  /** Some action among `actions` hits the ship. */
  predicate AnyStrike(actions: seq<K.Action>)
  {
    exists j :: 0 <= j < |actions| && Strikes(actions[j])
  }

  /** One more action strikes the pass iff it or an earlier one strikes. */
  lemma AnyStrikeStep(actions: seq<K.Action>, a: K.Action)
    ensures AnyStrike(actions + [a]) <==> AnyStrike(actions) || Strikes(a)
  {
    if AnyStrike(actions) {
      var j :| 0 <= j < |actions| && Strikes(actions[j]);
      assert (actions + [a])[j] == actions[j];
    }
    if Strikes(a) {
      assert (actions + [a])[|actions|] == a;
    }
    if AnyStrike(actions + [a]) && !Strikes(a) {
      var j :| 0 <= j < |actions| + 1 && Strikes((actions + [a])[j]);
      assert j < |actions| && actions[j] == (actions + [a])[j];
    }
  }

  /**
   * What a Klingon pass is played against and does not change: the AI's
   * aggression setting and adaptation flag, the ship's sector, the parts of
   * the ship the AI sees that no attack changes, the klingons listed when
   * the pass began and the objects the quadrant held then.
   */
  datatype Encounter = Encounter(baseAggression: real, adaptation: bool, player: Coord, maxShields: int,
                                 torpedoes: int, klingons: seq<Coord>, objects: map<Coord, char>)

  /** The ship as a decision sees it: shields and energy as the earlier attacks of the pass left them. */
  function ViewAfter(p: Encounter, shields: int, energy: int, actions: seq<K.Action>): K.PlayerView
  {
    var now := Struck(shields, energy, actions);
    K.PlayerView(now.1, now.0, p.maxShields, p.torpedoes)
  }

  /**
   * One decision of a pass, as a value: from memory `m`, the i-th klingon
   * facing the ship `v` leaves memory `.0` and takes action `.1`.
   */
  type Step = (K.Memory, nat, K.PlayerView) -> (K.Memory, K.Action)

  /**
   * The first `n` steps of a pass, and the memory after them: step i is
   * taken from the memory the earlier steps left and from the ship as the
   * earlier attacks left it.
   */
  function Run(step: Step, p: Encounter, m0: K.Memory, shields: int, energy: int, n: nat)
    : (r: (K.Memory, seq<K.Action>))
    ensures |r.1| == n
  {
    if n == 0 then (m0, [])
    else
      var prev := Run(step, p, m0, shields, energy, n - 1);
      var next := step(prev.0, n - 1, ViewAfter(p, shields, energy, prev.1));
      (next.0, prev.1 + [next.1])
  }

  /** A step from the memory and the ship the earlier steps left extends the run by one. */
  lemma RunExtend(step: Step, p: Encounter, m0: K.Memory, shields: int, energy: int, actions: seq<K.Action>,
                  before: K.Memory, after: K.Memory, action: K.Action)
    requires (before, actions) == Run(step, p, m0, shields, energy, |actions|)
    requires (after, action) == step(before, |actions|, ViewAfter(p, shields, energy, actions))
    ensures (after, actions + [action]) == Run(step, p, m0, shields, energy, |actions| + 1)
  {
  }

  /** The first i steps of a longer run are the run of i steps. */
  lemma {:induction false} RunPrefix(step: Step, p: Encounter, m0: K.Memory, shields: int, energy: int,
                                     i: nat, n: nat)
    requires i <= n
    ensures Run(step, p, m0, shields, energy, n).1[..i] == Run(step, p, m0, shields, energy, i).1
    decreases n
  {
    var all := Run(step, p, m0, shields, energy, n).1;
    if i < n {
      RunPrefix(step, p, m0, shields, energy, i, n - 1);
      var prev := Run(step, p, m0, shields, energy, n - 1).1;
      assert all == prev + [all[n - 1]];
      assert all[..i] == prev[..i];
    } else {
      assert all[..n] == all;
    }
  }

  /**
   * Klingon i's decision (`decide_action`), with its own distance to the
   * ship and its own draws. Only a valid memory and a listed klingon
   * decide; anything else leaves the memory as it is and retreats in place.
   */
  function Decide(p: Encounter, d: TurnDraws): Step
  {
    (m: K.Memory, i: nat, v: K.PlayerView) =>
      if K.MemoryValid(m) && i < |p.klingons| then
        var k := p.klingons[i];
        var distance := d.root(Dist2(k, p.player));
        (K.Remember(m, p.baseAggression, p.adaptation, k, p.player, v, p.objects, distance, d.klingon(i)),
         K.Choice(m, p.baseAggression, k, p.player, v, p.objects, distance, d.klingon(i)))
      else (m, K.Retreat(p.player))
  }

  /**
   * The first `n` decisions of the pass, and the AI's memory after them:
   * klingon i decides from the memory the earlier decisions left and from
   * the ship as the earlier attacks left it.
   */
  function Decisions(p: Encounter, m0: K.Memory, shields: int, energy: int, d: TurnDraws, n: nat)
    : (r: (K.Memory, seq<K.Action>))
    ensures |r.1| == n
  {
    Run(Decide(p, d), p, m0, shields, energy, n)
  }

  /** A decision made from the memory and the ship the earlier decisions left extends the run by one. */
  lemma DecisionsExtend(p: Encounter, m0: K.Memory, shields: int, energy: int, d: TurnDraws, actions: seq<K.Action>,
                        before: K.Memory, after: K.Memory, action: K.Action)
    requires |actions| < |p.klingons| && K.MemoryValid(before)
    requires (before, actions) == Decisions(p, m0, shields, energy, d, |actions|)
    requires var k := p.klingons[|actions|];
             var v := ViewAfter(p, shields, energy, actions);
             var distance := d.root(Dist2(k, p.player));
             action == K.Choice(before, p.baseAggression, k, p.player, v, p.objects, distance, d.klingon(|actions|))
             && after == K.Remember(before, p.baseAggression, p.adaptation, k, p.player, v, p.objects, distance,
                                    d.klingon(|actions|))
    ensures (after, actions + [action]) == Decisions(p, m0, shields, energy, d, |actions| + 1)
  {
    RunExtend(Decide(p, d), p, m0, shields, energy, actions, before, after, action);
  }

  /** Decision n is the step `Decide` takes from where the first n - 1 decisions left the memory and the ship. */
  lemma DecisionsStep(p: Encounter, m0: K.Memory, shields: int, energy: int, d: TurnDraws, n: nat)
    requires n > 0
    ensures var prev := Decisions(p, m0, shields, energy, d, n - 1);
            var next := Decide(p, d)(prev.0, n - 1, ViewAfter(p, shields, energy, prev.1));
            Decisions(p, m0, shields, energy, d, n) == (next.0, prev.1 + [next.1])
  {
  }

  /** From a valid memory, a listed klingon's step is its decision, and the memory stays valid. */
  lemma DecideFromValid(p: Encounter, d: TurnDraws, m: K.Memory, i: nat, v: K.PlayerView)
    requires K.MemoryValid(m)
    ensures K.MemoryValid(Decide(p, d)(m, i, v).0)
    ensures i < |p.klingons| ==>
              var k := p.klingons[i];
              var distance := d.root(Dist2(k, p.player));
              Decide(p, d)(m, i, v)
                == (K.Remember(m, p.baseAggression, p.adaptation, k, p.player, v, p.objects, distance, d.klingon(i)),
                    K.Choice(m, p.baseAggression, k, p.player, v, p.objects, distance, d.klingon(i)))
  {
    if i < |p.klingons| {
      var k := p.klingons[i];
      var distance := d.root(Dist2(k, p.player));
      assert Decide(p, d)(m, i, v).0
               == K.Remember(m, p.baseAggression, p.adaptation, k, p.player, v, p.objects, distance, d.klingon(i));
    }
  }

  /** Decisions keep the memory valid. */
  lemma {:induction false} DecisionsValid(p: Encounter, m0: K.Memory, shields: int, energy: int, d: TurnDraws, n: nat)
    requires K.MemoryValid(m0)
    ensures K.MemoryValid(Decisions(p, m0, shields, energy, d, n).0)
  {
    if n > 0 {
      DecisionsValid(p, m0, shields, energy, d, n - 1);
      DecisionsStep(p, m0, shields, energy, d, n);
      var prev := Decisions(p, m0, shields, energy, d, n - 1);
      DecideFromValid(p, d, prev.0, n - 1, ViewAfter(p, shields, energy, prev.1));
    }
  }

  /** After n decisions the memory counts n more encounters when adaptation is on. */
  lemma {:induction false} DecisionsCount(p: Encounter, m0: K.Memory, shields: int, energy: int, d: TurnDraws, n: nat)
    requires K.MemoryValid(m0) && n <= |p.klingons|
    ensures Decisions(p, m0, shields, energy, d, n).0.encounters == m0.encounters + (if p.adaptation then n else 0)
  {
    if n > 0 {
      DecisionsCount(p, m0, shields, energy, d, n - 1);
      DecisionsValid(p, m0, shields, energy, d, n - 1);
      DecisionsStep(p, m0, shields, energy, d, n);
      var prev := Decisions(p, m0, shields, energy, d, n - 1);
      DecideFromValid(p, d, prev.0, n - 1, ViewAfter(p, shields, energy, prev.1));
    }
  }

  /** After n decisions a unit at a sector none of the first n klingons holds is as it was. */
  lemma {:induction false} DecisionsKeep(p: Encounter, m0: K.Memory, shields: int, energy: int, d: TurnDraws,
                                         n: nat, q: Coord)
    requires K.MemoryValid(m0) && n <= |p.klingons|
    requires forall j :: 0 <= j < n ==> p.klingons[j] != q
    ensures var m := Decisions(p, m0, shields, energy, d, n).0;
            (q in m.states <==> q in m0.states) && (q in m0.states ==> m.states[q] == m0.states[q])
  {
    if n > 0 {
      DecisionsKeep(p, m0, shields, energy, d, n - 1, q);
      DecisionsValid(p, m0, shields, energy, d, n - 1);
      DecisionsStep(p, m0, shields, energy, d, n);
      var prev := Decisions(p, m0, shields, energy, d, n - 1);
      DecideFromValid(p, d, prev.0, n - 1, ViewAfter(p, shields, energy, prev.1));
    }
  }

  /** A decision reads the memory only through the deciding unit's entry and the encounter count. */
  lemma ChoiceReadsOwnUnit(m1: K.Memory, m2: K.Memory, base: real, k: Coord, player: Coord, v: K.PlayerView,
                           objects: map<Coord, char>, distance: real, d: K.Draws)
    requires K.MemoryValid(m1) && K.MemoryValid(m2) && m1.encounters == m2.encounters
    requires (k in m1.states <==> k in m2.states) && (k in m1.states ==> m1.states[k] == m2.states[k])
    ensures K.Choice(m1, base, k, player, v, objects, distance, d) == K.Choice(m2, base, k, player, v, objects, distance, d)
  {
    assert K.UnitIn(m1, k, d.personality, base) == K.UnitIn(m2, k, d.personality, base);
  }

  /**
   * With the klingons distinct, as the listing of a quadrant makes them,
   * klingon i decides as the unit stood when the pass began, with the
   * encounter count raised by the i earlier decisions when adaptation is
   * on, against the ship as the i earlier attacks left it.
   */
  lemma DecisionsFromStart(p: Encounter, m0: K.Memory, shields: int, energy: int, d: TurnDraws)
    requires K.MemoryValid(m0) && G.Distinct(p.klingons)
    ensures var acts := Decisions(p, m0, shields, energy, d, |p.klingons|).1;
            forall i :: 0 <= i < |p.klingons| ==>
              acts[i] == K.Choice(m0.(encounters := m0.encounters + if p.adaptation then i else 0),
                                  p.baseAggression, p.klingons[i], p.player,
                                  ViewAfter(p, shields, energy, acts[..i]), p.objects,
                                  d.root(Dist2(p.klingons[i], p.player)), d.klingon(i))
  {
    var n := |p.klingons|;
    var acts := Decisions(p, m0, shields, energy, d, n).1;
    forall i | 0 <= i < n
      ensures acts[i] == K.Choice(m0.(encounters := m0.encounters + if p.adaptation then i else 0),
                                  p.baseAggression, p.klingons[i], p.player,
                                  ViewAfter(p, shields, energy, acts[..i]), p.objects,
                                  d.root(Dist2(p.klingons[i], p.player)), d.klingon(i))
    {
      RunPrefix(Decide(p, d), p, m0, shields, energy, i + 1, n);
      RunPrefix(Decide(p, d), p, m0, shields, energy, i, n);
      DecisionsValid(p, m0, shields, energy, d, i);
      DecisionsCount(p, m0, shields, energy, d, i);
      DecisionsKeep(p, m0, shields, energy, d, i, p.klingons[i]);
      var before := Decisions(p, m0, shields, energy, d, i);
      assert acts[i] == acts[..i + 1][i] == Decisions(p, m0, shields, energy, d, i + 1).1[i];
      ChoiceReadsOwnUnit(before.0, m0.(encounters := m0.encounters + if p.adaptation then i else 0),
                         p.baseAggression, p.klingons[i], p.player, ViewAfter(p, shields, energy, acts[..i]),
                         p.objects, d.root(Dist2(p.klingons[i], p.player)), d.klingon(i));
    }
  }

  /** Replacing one quadrant changes no other. */
  lemma UpdateIsLocal(m: map<Coord, G.Quadrant>, c: Coord, x: G.Quadrant)
    requires c in m
    ensures OnlyQuadrantChanged(m, m[c := x], c)
  {
  }

  // ---------------------------------------------------------------------
  // The engine
  // ---------------------------------------------------------------------

  /** The settings a new game reads. Durations are in tenths of a stardate. */
  datatype Config = Config(
    missionDuration: int, difficulty: string,
    maxEnergy: int, maxShields: int, maxTorpedoes: int,
    totalKlingons: int, totalStarbases: int, starDensity: real,
    baseAggression: real, adaptationEnabled: bool,
    randomEventChance: real, stormDrain: int)

  /** The draws of `_setup_new_game`: the galaxy's, the safe quadrant's and the start sector. */
  datatype SetupDraws = SetupDraws(
    klingonDraws: seq<(nat, nat)>, starbaseDraws: seq<(nat, nat)>, starDraws: seq<nat>,
    pick: nat, rx: nat, ry: nat, startPosition: Coord)

  /** The ship's resources are in range and its maxima positive. */
  ghost predicate Stocked(ship: S.Ship)
    reads ship
  {
    ship.maxEnergy > 0 && ship.maxShields > 0 && ship.maxTorpedoes > 0
    && ship.energy >= 0 && 0 <= ship.shields <= ship.maxShields && ship.torpedoes >= 0
  }

  class GameEngine {
    var state: GameState
    const galaxy: G.Galaxy
    const ship: S.Ship
    const ai: K.KlingonAI
    const events: E.EventManager
    var gameOver: bool
    var victory: bool
    var paused: bool
    var turnCount: nat

    /**
     * The subsystems are well formed, the ship sits in a grid quadrant, the
     * Klingon tally is the galaxy's own count, and `quadrants_visited`
     * counts the distinct quadrants the ship has entered.
     */
    ghost predicate Valid()
      reads this`state, galaxy, ship, ai, events
    {
      ship.Valid() && Stocked(ship) && InGrid(ship.currentQuadrant)
      && galaxy.Generated() && galaxy.AllConsistent()
      && ai.Valid() && events.Valid()
      && state.klingonsRemaining == galaxy.CountKlingons()
      && state.quadrantsVisited == |ship.visitedQuadrants|
    }

    /** The object map of the ship's quadrant. */
    function Here(): map<Coord, char>
      reads galaxy, ship`currentQuadrant
    {
      galaxy.QuadrantData(ship.currentQuadrant)
    }

    /** The combat resolver's phaser result for the ship as it stands. */
    function Phasers(enemies: seq<Coord>, amount: int, d: TurnDraws): C.AttackResult
      reads ship
      requires ship.Valid()
    {
      PhaserOutcome(ship.quadrantPosition, enemies, amount, ship.SystemEfficiency("phasers"), d)
    }

    /** The combat resolver's torpedo result for the ship and quadrant as they stand. */
    function Torpedoes(spread: int, d: TurnDraws): C.AttackResult
      reads galaxy, ship
      requires ship.Valid()
    {
      TorpedoOutcome(ship.quadrantPosition, spread, ship.SystemEfficiency("torpedo_tubes"), Here(), d)
    }

    /** The setting of a Klingon pass over `klingons` among `objects`, as the AI and the ship stand. */
    function EncounterOf(klingons: seq<Coord>, objects: map<Coord, char>): Encounter
      reads ship
    {
      Encounter(ai.baseAggression, ai.adaptationEnabled, ship.quadrantPosition, ship.maxShields, ship.torpedoes,
                klingons, objects)
    }

    /** The strategic advisor's urgent warning for the current state. */
    function Advice(): Option<A.Warning>
      reads this, galaxy, ship
      requires ship.Valid() && ship.maxEnergy > 0 && ship.maxShields > 0 && ship.maxTorpedoes > 0
    {
      var r := A.ReadingsOf(ship);
      var timeRemaining := (state.missionTimeLimit - state.stardate) as real / 10.0;
      var threat := A.ThreatLevel(state.klingonsRemaining, timeRemaining, r, galaxy.Summary(ship.currentQuadrant).0);
      A.UrgentWarning(r, timeRemaining, threat)
    }

    /** The strategic analysis's line of `_process_ai_turns`: its urgent warning, if there is one. */
    function AdviceNotes(): seq<Note>
      reads this, galaxy, ship
      requires ship.Valid() && ship.maxEnergy > 0 && ship.maxShields > 0 && ship.maxTorpedoes > 0
    {
      if Advice().Some? then [StrategicNote(Advice().value)] else []
    }

    /** `_get_status_report`. */
    function CurrentStatus(): Status
      reads this, galaxy, ship
      requires ship.Valid()
    {
      Status(state.stardate, state.missionTimeLimit - state.stardate,
             AlertLevel(ship.shields, ship.energy, ship.HasDamage()), ship.currentQuadrant,
             ship.energy, ship.shields, ship.torpedoes, state.klingonsRemaining, state.starbasesRemaining,
             state.score, state.quadrantsVisited, state.combatEncounters)
    }

    /**
     * `__init__`: the subsystems built from the settings, the clock at
     * 2267.0 with the limit the mission duration later, then a new game set up.
     */
    constructor (cfg: Config, setup: SetupDraws)
      requires cfg.maxEnergy > 0 && cfg.maxShields > 0 && cfg.maxTorpedoes > 0
      requires G.MaxStars(cfg.starDensity) <= 60 && |setup.starDraws| == 64
      ensures Valid()
      ensures state == GameState(StartStardate, StartStardate + cfg.missionDuration, 0, cfg.difficulty,
                                 galaxy.CountKlingons(), galaxy.CountStarbases(), 0, 0, 0, 0, 0, 0)
      ensures 0 <= state.klingonsRemaining <= MaxI(0, cfg.totalKlingons)
      ensures ship.energy == cfg.maxEnergy && ship.shields == cfg.maxShields && ship.torpedoes == cfg.maxTorpedoes
      ensures ship.quadrantPosition == setup.startPosition && ship.visitedQuadrants == {}
      ensures (exists c :: c in galaxy.quadrants && galaxy.quadrants[c].klingons == 0) ==>
                galaxy.quadrants[ship.currentQuadrant].klingons == 0
      ensures !gameOver && !victory && !paused && turnCount == 0
    {
      galaxy := new G.Galaxy(cfg.totalKlingons, cfg.totalStarbases, cfg.starDensity);
      ship := new S.Ship(cfg.maxEnergy, cfg.maxShields, cfg.maxTorpedoes);
      ai := new K.KlingonAI(cfg.baseAggression, cfg.adaptationEnabled);
      events := new E.EventManager(cfg.randomEventChance, cfg.stormDrain);
      gameOver, victory, paused, turnCount := false, false, false, 0;
      state := GameState(StartStardate, StartStardate + cfg.missionDuration, 0, cfg.difficulty,
                         0, 0, 0, 0, 0, 0, 0, 0);
      new;
      SetUpNewGame(setup);
    }

    /**
     * `_setup_new_game`: generate the galaxy, count its Klingons and
     * starbases, place the ship in a safe quadrant at the given sector, and
     * bring it to full strength.
     */
    method SetUpNewGame(setup: SetupDraws)
      requires galaxy.Valid() && G.MaxStars(galaxy.starDensity) <= 60 && |setup.starDraws| == 64
      requires ship.Valid() && ship.maxEnergy > 0 && ship.maxShields > 0 && ship.maxTorpedoes > 0
      requires ship.visitedQuadrants == {} && state.quadrantsVisited == 0
      requires ai.Valid() && events.Valid()
      modifies this`state, galaxy`quadrants, ship
      ensures Valid()
      ensures state == old(state).(klingonsRemaining := galaxy.CountKlingons(),
                                   starbasesRemaining := galaxy.CountStarbases())
      ensures 0 <= state.klingonsRemaining <= MaxI(0, galaxy.totalKlingons)
      ensures ship.energy == ship.maxEnergy && ship.shields == ship.maxShields && ship.torpedoes == ship.maxTorpedoes
      ensures ship.maxEnergy == old(ship.maxEnergy) && ship.maxShields == old(ship.maxShields)
      ensures ship.maxTorpedoes == old(ship.maxTorpedoes)
      ensures ship.quadrantPosition == setup.startPosition && ship.visitedQuadrants == {}
      ensures (exists c :: c in galaxy.quadrants && galaxy.quadrants[c].klingons == 0) ==>
                galaxy.quadrants[ship.currentQuadrant].klingons == 0
    {
      GenerateGalaxy(setup);
      ship.currentQuadrant := galaxy.FindSafeStartingQuadrant(setup.pick, setup.rx, setup.ry);
      ship.quadrantPosition := setup.startPosition;
      ship.ResetToFullStrength();
    }

    /** The galaxy half of `_setup_new_game`: generate, then take the tallies from the galaxy. */
    method GenerateGalaxy(setup: SetupDraws)
      requires galaxy.Valid() && G.MaxStars(galaxy.starDensity) <= 60 && |setup.starDraws| == 64
      modifies this`state, galaxy`quadrants
      ensures galaxy.Generated() && galaxy.AllConsistent()
      ensures state == old(state).(klingonsRemaining := galaxy.CountKlingons(),
                                   starbasesRemaining := galaxy.CountStarbases())
      ensures 0 <= state.klingonsRemaining <= MaxI(0, galaxy.totalKlingons)
    {
      var usedK, usedB := galaxy.Generate(setup.klingonDraws, setup.starbaseDraws, setup.starDraws);
      state := state.(klingonsRemaining := galaxy.CountKlingons(), starbasesRemaining := galaxy.CountStarbases());
    }

    // -------------------------------------------------------------------
    // Command handlers

    /**
     * `_handle_navigation`: a missing, malformed or off-grid destination or
     * too little energy fails and changes nothing; otherwise the warp cost
     * `int(distance * 8)` is paid, the ship enters the quadrant at sector
     * (4, 4), and a first visit is counted.
     */
    method Navigate(dest: Destination) returns (r: Reply)
      requires Valid()
      modifies this`state, ship`energy, ship`currentQuadrant, ship`quadrantPosition, ship`visitedQuadrants
      ensures Valid()
      ensures r.success <==> dest.Dest? && InGrid(dest.coord)
                             && old(ship.energy) >= WarpCost(Dist2(old(ship.currentQuadrant), dest.coord))
      ensures !r.success ==> state == old(state) && unchanged(ship) && r.notes == []
      ensures dest.NoDestination? ==> r.message == NeedDestination
      ensures dest.NoComma? ==> r.message == BadDestinationFormat
      ensures dest.NotNumbers? || (dest.Dest? && !InGrid(dest.coord)) ==> r.message == InvalidQuadrant
      ensures dest.Dest? && InGrid(dest.coord) && !r.success ==>
                r.message == InsufficientEnergy(WarpCost(Dist2(old(ship.currentQuadrant), dest.coord)), old(ship.energy))
      ensures r.success ==>
        var c := dest.coord;
        var cost := WarpCost(Dist2(old(ship.currentQuadrant), c));
        ship.currentQuadrant == c && ship.quadrantPosition == Coord(4, 4)
        && ship.energy == old(ship.energy) - cost
        && ship.visitedQuadrants == old(ship.visitedQuadrants) + {c}
        && state == old(state).(totalEnergyUsed := old(state.totalEnergyUsed) + cost,
                                quadrantsVisited := |ship.visitedQuadrants|)
        && r.message == Navigated(c, cost) && r.notes == [Entered(c)]
    {
      match dest
      case NoDestination => return Reply(false, NeedDestination, []);
      case NoComma => return Reply(false, BadDestinationFormat, []);
      case NotNumbers => return Reply(false, InvalidQuadrant, []);
      case Dest(c) =>
        if !InGrid(c) {
          return Reply(false, InvalidQuadrant, []);
        }
        var cost := WarpCost(Dist2(ship.currentQuadrant, c));
        if ship.energy < cost {
          return Reply(false, InsufficientEnergy(cost, ship.energy), []);
        }
        Travel(c, cost);
        r := Reply(true, Navigated(c, cost), [Entered(c)]);
    }

    /** The successful half of `_handle_navigation`: pay for the warp and enter quadrant `c`. */
    method Travel(c: Coord, cost: int)
      requires Valid() && InGrid(c) && 0 <= cost <= ship.energy
      modifies this`state, ship`energy, ship`currentQuadrant, ship`quadrantPosition, ship`visitedQuadrants
      ensures Valid()
      ensures ship.currentQuadrant == c && ship.quadrantPosition == Coord(4, 4)
      ensures ship.energy == old(ship.energy) - cost
      ensures ship.visitedQuadrants == old(ship.visitedQuadrants) + {c}
      ensures state == old(state).(totalEnergyUsed := old(state.totalEnergyUsed) + cost,
                                   quadrantsVisited := |ship.visitedQuadrants|)
    {
      ship.energy := ship.energy - cost;
      ship.currentQuadrant := c;
      ship.quadrantPosition := Coord(4, 4);
      var visited := ship.visitedQuadrants + {c};
      ship.visitedQuadrants := visited;
      state := state.(totalEnergyUsed := state.totalEnergyUsed + cost, quadrantsVisited := |visited|);
    }

    /**
     * `_handle_shields`: with no level, a status reply; a malformed or
     * negative level fails; otherwise the level is capped at the maximum and
     * only the increase is paid for, failing unchanged when energy is short.
     */
    method SetShields(level: Arg<int>) returns (r: Reply)
      requires Valid()
      modifies this`state, ship`energy, ship`shields
      ensures Valid()
      ensures level.Missing? ==> r == Reply(true, ShieldStatus(ship.shields, ship.maxShields), [])
      ensures level.Malformed? ==> r == Reply(false, InvalidShieldLevel, [])
      ensures level.Given? && level.value < 0 ==> r == Reply(false, NegativeShieldLevel, [])
      ensures level.Given? && level.value >= 0 ==>
        var target := MinI(level.value, ship.maxShields);
        var needed := MaxI(0, target - old(ship.shields));
        (r.success <==> needed <= old(ship.energy))
        && (r.success ==> ship.shields == target && ship.energy == old(ship.energy) - needed
                          && state == old(state).(totalEnergyUsed := old(state.totalEnergyUsed) + needed)
                          && r == Reply(true, ShieldsSet(target), []))
        && (!r.success ==> r == Reply(false, InsufficientEnergy(needed, old(ship.energy)), []))
      ensures !(level.Given? && r.success) ==> state == old(state) && unchanged(ship)
      ensures r.success && old(ship.shields) <= ship.shields ==>
                ship.energy + ship.shields == old(ship.energy) + old(ship.shields)
      ensures r.success && ship.shields < old(ship.shields) ==> ship.energy == old(ship.energy)
    {
      match level
      case Missing => return Reply(true, ShieldStatus(ship.shields, ship.maxShields), []);
      case Malformed => return Reply(false, InvalidShieldLevel, []);
      case Given(requested) =>
        if requested < 0 {
          return Reply(false, NegativeShieldLevel, []);
        }
        var target := requested;
        if target > ship.maxShields {
          target := ship.maxShields;
        }
        var needed := MaxI(0, target - ship.shields);
        if needed > ship.energy {
          return Reply(false, InsufficientEnergy(needed, ship.energy), []);
        }
        ship.energy := ship.energy - needed;
        ship.shields := target;
        state := state.(totalEnergyUsed := state.totalEnergyUsed + needed);
        r := Reply(true, ShieldsSet(target), []);
    }

    /**
     * `_handle_docking`: with a starbase at Manhattan distance at most 1 in
     * the quadrant, energy, shields and torpedoes are restored to their
     * maxima and every system repaired; the docked flag is left as it was.
     */
    method Dock() returns (r: Reply)
      requires Valid()
      modifies ship`energy, ship`shields, ship`torpedoes, ship`systems
      ensures Valid()
      ensures r.success <==> StarbaseWithin(Here(), ship.quadrantPosition)
      ensures !r.success ==> unchanged(ship) && r.notes == []
                             && r.message == if Present(Here(), G.Starbase) then NotAdjacent else NoStarbase
      ensures r.success ==> ship.energy == ship.maxEnergy && ship.shields == ship.maxShields
                            && ship.torpedoes == ship.maxTorpedoes && ship.systems == S.NoDamage()
                            && r == Reply(true, DockedWithStarbase, [DockedNote, ResuppliedNote])
    {
      ghost var here := Here();
      var any, found := LocateStarbase(Here(), ship.quadrantPosition);
      if !any {
        return Reply(false, NoStarbase, []);
      }
      if found.None? {
        return Reply(false, NotAdjacent, []);
      }
      ship.energy := ship.maxEnergy;
      ship.shields := ship.maxShields;
      ship.torpedoes := ship.maxTorpedoes;
      ship.RepairAllDamage();
      assert Here() == here;
      r := Reply(true, DockedWithStarbase, [DockedNote, ResuppliedNote]);
    }

    /**
     * `_handle_computer`: the menu, a distance and warp-cost estimate to any
     * destination (not checked against the grid), the status report, or a
     * failure for an unknown function. Nothing changes.
     */
    method Computer(request: ComputerRequest) returns (r: Reply)
      requires ship.Valid()
      ensures r.notes == []
      ensures r.success <==> request.Menu? || request.StatusRequest? || (request.Distance? && request.dest.Dest?)
      ensures request.Distance? && request.dest.Dest? ==>
                r.message == DistanceTo(request.dest.coord, WarpCost(Dist2(ship.currentQuadrant, request.dest.coord)))
      ensures request.Distance? && request.dest.NoDestination? ==> r.message == NeedDistanceDestination
      ensures request.Distance? && (request.dest.NoComma? || request.dest.NotNumbers?) ==> r.message == BadDestinationFormat
      ensures request.StatusRequest? ==> r.message == StatusReport(CurrentStatus())
      ensures request.OtherFunction? ==> r.message == UnknownFunction(request.name)
    {
      match request
      case Menu => r := Reply(true, ComputerMenu, []);
      case Distance(dest) =>
        match dest {
          case NoDestination => r := Reply(false, NeedDistanceDestination, []);
          case NoComma => r := Reply(false, BadDestinationFormat, []);
          case NotNumbers => r := Reply(false, BadDestinationFormat, []);
          case Dest(c) => r := Reply(true, DistanceTo(c, WarpCost(Dist2(ship.currentQuadrant, c))), []);
        }
      case StatusRequest => r := Reply(true, StatusReport(CurrentStatus()), []);
      case OtherFunction(name) => r := Reply(false, UnknownFunction(name), []);
    }

    /**
     * One kill of `_handle_phaser_fire` / `_handle_torpedo_fire`: the klingon
     * at `p` leaves the quadrant and the remaining count drops by one, so the
     * count still matches the galaxy.
     */
    method RemoveKlingon(p: Coord)
      requires Valid()
      requires p in Here() && Here()[p] == G.Klingon
      modifies this`state, galaxy`quadrants
      ensures Valid()
      ensures Here() == Without(old(Here()), [p])
      ensures OnlyQuadrantChanged(old(galaxy.quadrants), galaxy.quadrants, ship.currentQuadrant)
      ensures state == old(state).(klingonsRemaining := old(state.klingonsRemaining) - 1)
    {
      galaxy.RemoveKlingonAt(ship.currentQuadrant, p);
      state := state.(klingonsRemaining := state.klingonsRemaining - 1);
    }

    /** The kill loop of the weapon handlers: every destroyed klingon is removed and counted. */
    method RemoveDestroyed(destroyed: seq<Coord>)
      requires Valid() && Kills(destroyed, Here())
      modifies this`state, galaxy`quadrants
      ensures Valid()
      ensures Here() == Without(old(Here()), destroyed)
      ensures OnlyKlingonsRemoved(old(Here()), Here())
      ensures forall p :: p in old(Here()) && p !in Here() ==> p in destroyed
      ensures OnlyQuadrantChanged(old(galaxy.quadrants), galaxy.quadrants, ship.currentQuadrant)
      ensures state == old(state).(klingonsRemaining := old(state.klingonsRemaining) - |destroyed|)
    {
      KillsRemoveKlingons(Here(), destroyed);
      ghost var here := Here();
      for i := 0 to |destroyed|
        invariant Valid()
        invariant Here() == Without(here, destroyed[..i])
        invariant OnlyQuadrantChanged(old(galaxy.quadrants), galaxy.quadrants, ship.currentQuadrant)
        invariant state == old(state).(klingonsRemaining := old(state.klingonsRemaining) - i)
      {
        KillStep(here, destroyed, i);
        ghost var mid := galaxy.quadrants;
        RemoveKlingon(destroyed[i]);
        QuadrantChangesCompose(old(galaxy.quadrants), mid, galaxy.quadrants, ship.currentQuadrant);
      }
      KillStep(here, destroyed, |destroyed|);
    }

    /**
     * `_handle_phaser_fire`: the amount must be given, positive and
     * affordable, and the quadrant must hold a klingon; then the attack is
     * made, the amount is spent whether or not the phasers fire, every
     * destroyed klingon leaves the galaxy, and the reply is a success.
     */
    method FirePhasers(amount: Arg<int>, d: TurnDraws) returns (r: Reply)
      requires Valid() && IsRoot(d.root)
      modifies this`state, galaxy`quadrants, ship`energy
      ensures Valid()
      ensures r.success <==> amount.Given? && 0 < amount.value <= old(ship.energy) && old(Present(Here(), G.Klingon))
      ensures !r.success ==> state == old(state) && unchanged(ship) && unchanged(galaxy) && r.notes == []
      ensures amount.Missing? ==> r.message == NeedEnergyAmount
      ensures amount.Malformed? || (amount.Given? && amount.value <= 0) ==> r.message == InvalidEnergyAmount
      ensures amount.Given? && 0 < amount.value && old(ship.energy) < amount.value ==>
                r.message == InsufficientEnergy(amount.value, old(ship.energy))
      ensures amount.Given? && 0 < amount.value <= old(ship.energy) && !r.success ==> r.message == NoEnemies
      ensures r.success ==>
        r.message.CombatReport?
        && ship.energy == old(ship.energy) - amount.value
        && state == PhasersAccounted(old(state), ReportedKills(r.message.report), amount.value)
        && VolleyAtAll(r, old(ship.quadrantPosition), amount.value, old(ship.SystemEfficiency("phasers")), d, old(Here()), Here())
        && OnlyKlingonsRemoved(old(Here()), Here())
        && OnlyQuadrantChanged(old(galaxy.quadrants), galaxy.quadrants, ship.currentQuadrant)
    {
      if amount.Missing? {
        r := Reply(false, NeedEnergyAmount, []);
      } else if amount.Malformed? || amount.value <= 0 {
        r := Reply(false, InvalidEnergyAmount, []);
      } else if ship.energy < amount.value {
        r := Reply(false, InsufficientEnergy(amount.value, ship.energy), []);
      } else {
        r := FireAtKlingons(amount.value, d);
      }
    }

    /**
     * `_handle_phaser_fire` once the amount is known to be affordable: the
     * quadrant's klingons are listed, and with none the command fails;
     * otherwise the volley is fired at them all.
     */
    method FireAtKlingons(amount: int, d: TurnDraws) returns (r: Reply)
      requires Valid() && IsRoot(d.root) && 0 < amount <= ship.energy
      modifies this`state, galaxy`quadrants, ship`energy
      ensures Valid()
      ensures r.success <==> old(Present(Here(), G.Klingon))
      ensures !r.success ==> r == Reply(false, NoEnemies, []) && state == old(state) && unchanged(ship) && unchanged(galaxy)
      ensures r.success ==>
        r.message.CombatReport?
        && ship.energy == old(ship.energy) - amount
        && state == PhasersAccounted(old(state), ReportedKills(r.message.report), amount)
        && VolleyAtAll(r, old(ship.quadrantPosition), amount, old(ship.SystemEfficiency("phasers")), d, old(Here()), Here())
        && OnlyKlingonsRemoved(old(Here()), Here())
        && OnlyQuadrantChanged(old(galaxy.quadrants), galaxy.quadrants, ship.currentQuadrant)
    {
      var enemies := ListCells(Here(), G.Klingon);
      if |enemies| == 0 {
        assert !Present(Here(), G.Klingon);
        r := Reply(false, NoEnemies, []);
      } else {
        assert enemies[0] in Here();
        r := PhaserVolley(enemies, amount, d);
        assert Lists(enemies, old(Here()), G.Klingon)
               && Reports(r, PhaserOutcome(old(ship.quadrantPosition), enemies, amount, old(ship.SystemEfficiency("phasers")), d),
                          old(Here()), Here());
      }
    }

    /** The firing half of `_handle_phaser_fire`, at every klingon of the quadrant. */
    method PhaserVolley(enemies: seq<Coord>, amount: int, d: TurnDraws) returns (r: Reply)
      requires Valid() && IsRoot(d.root) && 0 < amount <= ship.energy
      requires |enemies| > 0 && G.Distinct(enemies)
      requires forall p :: p in enemies <==> p in Here() && Here()[p] == G.Klingon
      modifies this`state, galaxy`quadrants, ship`energy
      ensures Valid()
      ensures r.success && r.message.CombatReport?
      ensures ship.energy == old(ship.energy) - amount
      ensures state == PhasersAccounted(old(state), ReportedKills(r.message.report), amount)
      ensures OnlyKlingonsRemoved(old(Here()), Here())
      ensures OnlyQuadrantChanged(old(galaxy.quadrants), galaxy.quadrants, ship.currentQuadrant)
      ensures old(ship.SystemEfficiency("phasers")) <= 0.1 ==> r.message == CombatReport(C.PhasersTooDamaged)
      ensures Reports(r, old(Phasers(enemies, amount, d)), old(Here()), Here())
    {
      var result := PhaserAttack(enemies, amount, d);
      r := SpendPhaserEnergy(result, amount);
      assert r.message.report == result.message;
    }

    /**
     * The rest of `_handle_phaser_fire` once the attack has been resolved:
     * the amount is spent, the destroyed klingons leave the galaxy and the
     * tally, and the reply carries the summary and the combat notes.
     */
    method SpendPhaserEnergy(result: C.AttackResult, amount: int) returns (r: Reply)
      requires Valid() && 0 < amount <= ship.energy
      requires Kills(result.destroyed, Here()) && ReportedKills(result.message) == |result.destroyed|
      modifies this`state, galaxy`quadrants, ship`energy
      ensures Valid()
      ensures r.success && r.message.CombatReport? && Reports(r, result, old(Here()), Here())
      ensures ship.energy == old(ship.energy) - amount
      ensures state == PhasersAccounted(old(state), ReportedKills(result.message), amount)
      ensures OnlyKlingonsRemoved(old(Here()), Here())
      ensures forall p :: p in old(Here()) && p !in Here() ==> p in result.destroyed
      ensures OnlyQuadrantChanged(old(galaxy.quadrants), galaxy.quadrants, ship.currentQuadrant)
    {
      ghost var here := Here();
      ship.energy := ship.energy - amount;
      state := state.(totalEnergyUsed := state.totalEnergyUsed + amount);
      assert Here() == here;
      RemoveDestroyed(result.destroyed);
      r := Reply(true, CombatReport(result.message), CombatNotes(result.events));
    }

    /** `execute_phaser_attack` with the ship's position and phaser efficiency. */
    method PhaserAttack(enemies: seq<Coord>, amount: int, d: TurnDraws) returns (result: C.AttackResult)
      requires Valid() && IsRoot(d.root)
      requires |enemies| > 0 && G.Distinct(enemies)
      requires forall p :: p in enemies ==> p in Here() && Here()[p] == G.Klingon
      ensures result == Phasers(enemies, amount, d)
      ensures Kills(result.destroyed, Here()) && ReportedKills(result.message) == |result.destroyed|
      ensures ship.SystemEfficiency("phasers") <= 0.1 ==> result.message == C.PhasersTooDamaged
    {
      var pos := ship.quadrantPosition;
      var distances := Distances(pos, enemies, d.root);
      var draws := ShotDraws(d.shot, |enemies|);
      var efficiency := ship.SystemEfficiency("phasers");
      result := C.ExecutePhaserAttack(pos, enemies, amount, efficiency, distances, draws);
      PhaserOutcomeKills(enemies, amount, efficiency, distances, draws, Here(), result);
    }

    /**
     * `_handle_torpedo_fire`: two parameters, a torpedo left, numbers that
     * parse, a course in [0, 360] and a positive spread; then one torpedo is
     * spent, the attack is made along the trajectory, every destroyed
     * klingon leaves the galaxy, and the reply is a success.
     */
    method FireTorpedoes(order: TorpedoOrder, d: TurnDraws) returns (r: Reply)
      requires Valid() && IsRoot(d.root)
      modifies this`state, galaxy`quadrants, ship`torpedoes
      ensures Valid()
      ensures r.success <==> order.Aim? && old(ship.torpedoes) > 0 && 0.0 <= order.course <= 360.0 && order.spread > 0
      ensures !r.success ==> state == old(state) && unchanged(ship) && unchanged(galaxy) && r.notes == []
      ensures order.TooFewParameters? ==> r.message == NeedCourseAndSpread
      ensures !order.TooFewParameters? && old(ship.torpedoes) <= 0 ==> r.message == NoTorpedoes
      ensures order.Unparsable? && old(ship.torpedoes) > 0 ==> r.message == InvalidTorpedoParameters
      ensures order.Aim? && old(ship.torpedoes) > 0 && !(0.0 <= order.course <= 360.0) ==> r.message == CourseOutOfRange
      ensures order.Aim? && old(ship.torpedoes) > 0 && 0.0 <= order.course <= 360.0 && order.spread <= 0 ==>
                r.message == SpreadNotPositive
      ensures r.success ==>
        r.message.CombatReport?
        && ship.torpedoes == old(ship.torpedoes) - 1
        && state == TorpedoAccounted(old(state), ReportedKills(r.message.report))
        && Reports(r, old(Torpedoes(order.spread, d)), old(Here()), Here())
        && OnlyKlingonsRemoved(old(Here()), Here())
        && (forall p :: p in old(Here()) && p !in Here() ==> p in d.trajectory)
        && OnlyQuadrantChanged(old(galaxy.quadrants), galaxy.quadrants, ship.currentQuadrant)
    {
      if order.TooFewParameters? {
        return Reply(false, NeedCourseAndSpread, []);
      }
      if ship.torpedoes <= 0 {
        return Reply(false, NoTorpedoes, []);
      }
      match order
      case Unparsable => return Reply(false, InvalidTorpedoParameters, []);
      case Aim(course, spread) =>
        if !(0.0 <= course <= 360.0) {
          return Reply(false, CourseOutOfRange, []);
        }
        if spread <= 0 {
          return Reply(false, SpreadNotPositive, []);
        }
        r := TorpedoVolley(spread, d);
    }

    /** The firing half of `_handle_torpedo_fire`, along the trajectory the draws give. */
    method TorpedoVolley(spread: int, d: TurnDraws) returns (r: Reply)
      requires Valid() && IsRoot(d.root) && ship.torpedoes > 0
      modifies this`state, galaxy`quadrants, ship`torpedoes
      ensures Valid()
      ensures r.success && r.message.CombatReport?
      ensures ship.torpedoes == old(ship.torpedoes) - 1
      ensures state == TorpedoAccounted(old(state), ReportedKills(r.message.report))
      ensures OnlyKlingonsRemoved(old(Here()), Here())
      ensures forall p :: p in old(Here()) && p !in Here() ==> p in d.trajectory
      ensures OnlyQuadrantChanged(old(galaxy.quadrants), galaxy.quadrants, ship.currentQuadrant)
      ensures old(ship.SystemEfficiency("torpedo_tubes")) <= 0.1 ==> r.message == CombatReport(C.TorpedoTubesTooDamaged)
      ensures Reports(r, old(Torpedoes(spread, d)), old(Here()), Here())
    {
      var result := TorpedoAttack(spread, d);
      r := SpendTorpedo(result);
      assert r.message.report == result.message;
    }

    /**
     * The rest of `_handle_torpedo_fire` once the attack has been resolved:
     * one torpedo is spent, the destroyed klingons leave the galaxy and the
     * tally, and the reply carries the summary and the combat notes.
     */
    method SpendTorpedo(result: C.AttackResult) returns (r: Reply)
      requires Valid() && ship.torpedoes > 0
      requires Kills(result.destroyed, Here()) && ReportedKills(result.message) == |result.destroyed|
      modifies this`state, galaxy`quadrants, ship`torpedoes
      ensures Valid()
      ensures r.success && r.message.CombatReport? && Reports(r, result, old(Here()), Here())
      ensures ship.torpedoes == old(ship.torpedoes) - 1
      ensures state == TorpedoAccounted(old(state), ReportedKills(result.message))
      ensures OnlyKlingonsRemoved(old(Here()), Here())
      ensures forall p :: p in old(Here()) && p !in Here() ==> p in result.destroyed
      ensures OnlyQuadrantChanged(old(galaxy.quadrants), galaxy.quadrants, ship.currentQuadrant)
    {
      ship.torpedoes := ship.torpedoes - 1;
      state := state.(totalTorpedoesFired := state.totalTorpedoesFired + 1);
      RemoveDestroyed(result.destroyed);
      r := Reply(true, CombatReport(result.message), CombatNotes(result.events));
    }

    /** `execute_torpedo_attack` with the ship's position and torpedo-tube efficiency. */
    method TorpedoAttack(spread: int, d: TurnDraws) returns (result: C.AttackResult)
      requires Valid() && IsRoot(d.root)
      ensures result == Torpedoes(spread, d)
      ensures Kills(result.destroyed, Here()) && ReportedKills(result.message) == |result.destroyed|
      ensures forall p :: p in result.destroyed ==> p in d.trajectory
      ensures ship.SystemEfficiency("torpedo_tubes") <= 0.1 ==> result.message == C.TorpedoTubesTooDamaged
    {
      var pos := ship.quadrantPosition;
      var objects := Here();
      var distances := DistanceMap(pos, d.trajectory, d.root);
      var draws := ShotDraws(d.shot, |d.trajectory|);
      var efficiency := ship.SystemEfficiency("torpedo_tubes");
      DistanceMapExact(pos, d.trajectory, d.root);
      result := C.ExecuteTorpedoAttack(pos, spread, efficiency, objects, d.trajectory, distances, draws);
      TorpedoOutcomeKills(spread, efficiency, objects, d.trajectory, distances, draws, result);
    }

    // -------------------------------------------------------------------
    // The klingons' turn

    /** A klingon's move in the ship's quadrant: the counts, and so the galaxy total, stay as they were. */
    method MoveKlingon(from: Coord, to: Coord)
      requires Valid()
      modifies galaxy`quadrants
      ensures Valid()
      ensures galaxy.quadrants == old(galaxy.quadrants)[ship.currentQuadrant := G.Moved(old(galaxy.quadrants)[ship.currentQuadrant], from, to)]
      ensures OnlyQuadrantChanged(old(galaxy.quadrants), galaxy.quadrants, ship.currentQuadrant)
      ensures galaxy.Summary(ship.currentQuadrant) == old(galaxy.Summary(ship.currentQuadrant))
    {
      ghost var before := galaxy.quadrants;
      galaxy.MoveObject(ship.currentQuadrant, from, to);
      G.SumFrame(G.Grid(), before, galaxy.quadrants, G.Klingon);
    }

    /** A klingon's attack with positive damage: the ship takes the hit. */
    method StrikeShip(damage: int, h: HitDraw) returns (taken: int)
      requires Valid() && damage > 0
      modifies ship
      ensures Valid()
      ensures (ship.shields, ship.energy, taken) == S.Hit(old(ship.shields), old(ship.energy), damage)
      ensures taken > 0 ==> ship.systems == S.Afflicted(old(ship.systems), taken, h.roll, h.pick, h.severity)
      ensures taken <= 0 ==> ship.systems == old(ship.systems)
      ensures ship.destroyed == (old(ship.destroyed) || ship.energy <= 0)
      ensures ship.docked == old(ship.docked)
      ensures ship.torpedoes == old(ship.torpedoes) && ship.currentQuadrant == old(ship.currentQuadrant)
      ensures ship.quadrantPosition == old(ship.quadrantPosition) && ship.visitedQuadrants == old(ship.visitedQuadrants)
      ensures ship.maxEnergy == old(ship.maxEnergy) && ship.maxShields == old(ship.maxShields)
      ensures ship.maxTorpedoes == old(ship.maxTorpedoes)
    {
      taken := ship.TakeDamage(damage, h.roll, h.pick, h.severity);
      if taken > 0 {
        S.SystemDamageDetermined(old(ship.systems), ship.systems, taken, h.roll, h.pick, h.severity);
      }
    }

    /**
     * The first half of a klingon's turn in `_process_ai_turns`: the AI
     * decides, from the ship as it stands and the objects listed when the
     * pass began.
     */
    method KlingonDecides(k: Coord, objects: map<Coord, char>, d: TurnDraws, i: nat) returns (action: K.Action)
      requires Valid()
      modifies ai
      ensures Valid()
      ensures action == old(ai.Decision(k, ship.quadrantPosition,
                                        K.PlayerView(ship.energy, ship.shields, ship.maxShields, ship.torpedoes),
                                        objects, d.root(Dist2(k, ship.quadrantPosition)), d.klingon(i)))
      ensures ai.Mind() == K.Remember(old(ai.Mind()), ai.baseAggression, ai.adaptationEnabled, k, ship.quadrantPosition,
                                      K.PlayerView(ship.energy, ship.shields, ship.maxShields, ship.torpedoes),
                                      objects, d.root(Dist2(k, ship.quadrantPosition)), d.klingon(i))
      ensures ai.Statistics() == old(ai.Statistics())
    {
      var v := K.PlayerView(ship.energy, ship.shields, ship.maxShields, ship.torpedoes);
      var distance := d.root(Dist2(k, ship.quadrantPosition));
      action := ai.DecideAction(k, ship.quadrantPosition, v, objects, distance, d.klingon(i));
    }

    /**
     * The second half of a klingon's turn: an attack with positive damage
     * hits the ship, a move to a sector that was empty when the pass began
     * is made, and anything else (a retreat included) changes nothing.
     */
    method KlingonActs(k: Coord, action: K.Action, objects: map<Coord, char>, h: HitDraw) returns (note: Option<Note>)
      requires Valid()
      modifies ship, galaxy`quadrants
      ensures Valid()
      ensures Strikes(action) ==>
                galaxy.quadrants == old(galaxy.quadrants) && note.Some? && note.value.KlingonAttacks? && note.value.at == k
                && (ship.shields, ship.energy, note.value.damage) == S.Hit(old(ship.shields), old(ship.energy), action.damage)
      ensures !Strikes(action) ==> unchanged(ship)
      ensures Relocates(action, objects) ==>
                note == Some(KlingonMoves(k, action.target))
                && galaxy.quadrants == old(galaxy.quadrants)[ship.currentQuadrant :=
                                         G.Moved(old(galaxy.quadrants)[ship.currentQuadrant], k, action.target)]
      ensures !Strikes(action) && !Relocates(action, objects) ==> note.None? && galaxy.quadrants == old(galaxy.quadrants)
      ensures Strikes(action) ==>
                ship.destroyed == (old(ship.destroyed) || ship.energy <= 0)
                && ship.systems == if note.value.damage > 0
                                   then S.Afflicted(old(ship.systems), note.value.damage, h.roll, h.pick, h.severity)
                                   else old(ship.systems)
      ensures ship.docked == old(ship.docked) && ship.maxShields == old(ship.maxShields)
      ensures ship.energy <= old(ship.energy) && ship.shields <= old(ship.shields)
      ensures ship.torpedoes == old(ship.torpedoes) && ship.currentQuadrant == old(ship.currentQuadrant)
      ensures ship.quadrantPosition == old(ship.quadrantPosition) && ship.visitedQuadrants == old(ship.visitedQuadrants)
      ensures OnlyQuadrantChanged(old(galaxy.quadrants), galaxy.quadrants, ship.currentQuadrant)
      ensures galaxy.Summary(ship.currentQuadrant) == old(galaxy.Summary(ship.currentQuadrant))
    {
      note := None;
      match action
      case Attack(_, damage, _, _) =>
        if damage > 0 {
          var taken := StrikeShip(damage, h);
          note := Some(KlingonAttacks(k, taken));
        }
      case Move(target, _) =>
        if target !in objects {
          MoveKlingon(k, target);
          note := Some(KlingonMoves(k, target));
        }
      case Retreat(_) =>
    }

    /**
     * `_process_ai_turns`: with klingons in the quadrant, one more combat
     * encounter and a turn for each of them; then the strategic analysis's
     * urgent warning, if there is one. The ship takes the striking attacks
     * and the quadrant the relocating moves of the klingons listed.
     */
    method ProcessAITurns(d: TurnDraws)
      returns (notes: seq<Note>, lines: seq<Note>, klingons: seq<Coord>, actions: seq<K.Action>)
      requires Valid()
      modifies this`state, ship, ai, galaxy`quadrants
      ensures Valid()
      ensures state == old(state).(combatEncounters := old(state.combatEncounters)
                                                      + if old(Present(Here(), G.Klingon)) then 1 else 0)
      ensures G.Distinct(klingons) && forall p :: p in klingons <==> p in old(Here()) && old(Here())[p] == G.Klingon
      ensures |actions| == |klingons|
      ensures (ship.shields, ship.energy) == Struck(old(ship.shields), old(ship.energy), actions)
      ensures galaxy.quadrants == old(galaxy.quadrants)[ship.currentQuadrant :=
                MovedAll(old(galaxy.quadrants)[ship.currentQuadrant], klingons, actions, old(Here()))]
      ensures !old(Present(Here(), G.Klingon)) ==> unchanged(ship) && galaxy.quadrants == old(galaxy.quadrants)
      ensures ship.energy <= old(ship.energy) && ship.shields <= old(ship.shields)
      ensures ship.torpedoes == old(ship.torpedoes) && ship.currentQuadrant == old(ship.currentQuadrant)
      ensures ship.quadrantPosition == old(ship.quadrantPosition) && ship.visitedQuadrants == old(ship.visitedQuadrants)
      ensures OnlyQuadrantChanged(old(galaxy.quadrants), galaxy.quadrants, ship.currentQuadrant)
      ensures galaxy.Summary(ship.currentQuadrant) == old(galaxy.Summary(ship.currentQuadrant))
      ensures Present(Here(), G.Klingon) == old(Present(Here(), G.Klingon))
      ensures forall n :: n in lines ==> n.KlingonAttacks? || n.KlingonMoves?
      ensures lines == PassNotes(old(ship.shields), old(ship.energy), klingons, actions, old(Here()))
      ensures |lines| <= |notes| && notes[..|lines|] == lines
      ensures (ai.Mind(), actions)
                == Decisions(old(EncounterOf(klingons, Here())), old(ai.Mind()), old(ship.shields), old(ship.energy),
                             d, |klingons|)
      ensures ship.systems == Worn(old(ship.systems), old(ship.shields), old(ship.energy), actions, d.hit)
      ensures ship.destroyed == (old(ship.destroyed) || (AnyStrike(actions) && ship.energy <= 0))
      ensures ship.docked == old(ship.docked) && ai.Statistics() == old(ai.Statistics())
    {
      var objects;
      objects, klingons := StartPass();
      TallyShowsPresence(objects, G.Klingon);
      actions, lines := KlingonTurns(klingons, objects, d);
      TallyShowsPresence(Here(), G.Klingon);
      notes := AppendAdvice(lines);
      assert notes[..|lines|] == lines;
    }

    /**
     * The start of `_process_ai_turns`: the quadrant's objects and its
     * klingons are listed, and a quadrant with klingons counts one more
     * combat encounter.
     */
    method StartPass() returns (objects: map<Coord, char>, klingons: seq<Coord>)
      requires Valid()
      modifies this`state
      ensures Valid() && objects == Here()
      ensures state == old(state).(combatEncounters := old(state.combatEncounters)
                                                      + if Present(objects, G.Klingon) then 1 else 0)
      ensures G.Distinct(klingons) && forall p :: p in klingons <==> p in objects && objects[p] == G.Klingon
      ensures |klingons| > 0 <==> Present(objects, G.Klingon)
    {
      objects := Here();
      klingons := ListCells(objects, G.Klingon);
      if |klingons| > 0 {
        assert klingons[0] in objects;
        state := state.(combatEncounters := state.combatEncounters + 1);
      } else {
        assert !Present(objects, G.Klingon);
      }
    }

    /**
     * The end of `_process_ai_turns`: the strategic analysis's urgent
     * warning, if there is one, follows the klingons' lines.
     */
    method AppendAdvice(notes: seq<Note>) returns (r: seq<Note>)
      requires ship.Valid() && ship.maxEnergy > 0 && ship.maxShields > 0 && ship.maxTorpedoes > 0
      requires forall n :: n in notes ==> n.KlingonAttacks? || n.KlingonMoves?
      ensures r == notes + AdviceNotes()
      ensures Advice().Some? <==> |r| > 0 && r[|r| - 1].StrategicNote?
      ensures Advice().Some? ==> r[|r| - 1] == StrategicNote(Advice().value)
    {
      var advice := Advice();
      if advice.Some? {
        r := notes + [StrategicNote(advice.value)];
      } else {
        r := notes;
        if |notes| > 0 {
          assert notes[|notes| - 1] in notes;
        }
      }
    }

    /**
     * One klingon's turn of `_process_ai_turns`, the i-th of the pass over
     * `klingons`: the AI decides and the action takes effect. Starting from
     * shields and energy `Struck(s0, e0, actions)` and the quadrant
     * `MovedAll` over the earlier turns, the turn extends both by its action.
     */
    method KlingonTurn(klingons: seq<Coord>, objects: map<Coord, char>, d: TurnDraws, actions: seq<K.Action>,
                       ghost p: Encounter, ghost s0: int, ghost e0: int, ghost g0: map<Coord, G.Quadrant>,
                       ghost m0: K.Memory, ghost y0: map<S.System, real>)
      returns (action: K.Action, note: seq<Note>)
      requires Valid() && |actions| < |klingons| && ship.currentQuadrant in g0 && K.MemoryValid(m0)
      requires p == EncounterOf(klingons, objects)
      requires (ship.shields, ship.energy) == Struck(s0, e0, actions)
      requires galaxy.quadrants == g0[ship.currentQuadrant :=
                 MovedAll(g0[ship.currentQuadrant], klingons[..|actions|], actions, objects)]
      requires (ai.Mind(), actions) == Decisions(p, m0, s0, e0, d, |actions|)
      requires ship.systems == Worn(y0, s0, e0, actions, d.hit)
      modifies ship, ai, galaxy`quadrants
      ensures Valid()
      ensures (ai.Mind(), actions + [action]) == Decisions(p, m0, s0, e0, d, |actions| + 1)
      ensures ai.Statistics() == old(ai.Statistics())
      ensures ship.systems == Worn(y0, s0, e0, actions + [action], d.hit)
      ensures ship.destroyed == (old(ship.destroyed) || (Strikes(action) && ship.energy <= 0))
      ensures ship.energy <= old(ship.energy) && (!Strikes(action) ==> ship.energy == old(ship.energy))
      ensures ship.docked == old(ship.docked) && ship.maxShields == old(ship.maxShields)
      ensures (ship.shields, ship.energy) == Struck(s0, e0, actions + [action])
      ensures galaxy.quadrants == g0[ship.currentQuadrant :=
                MovedAll(g0[ship.currentQuadrant], klingons[..|actions| + 1], actions + [action], objects)]
      ensures ship.torpedoes == old(ship.torpedoes) && ship.currentQuadrant == old(ship.currentQuadrant)
      ensures ship.quadrantPosition == old(ship.quadrantPosition) && ship.visitedQuadrants == old(ship.visitedQuadrants)
      ensures note == TurnNote(klingons[|actions|], action, objects, Struck(s0, e0, actions))
    {
      action := DecidesInPass(klingons, objects, d, actions, p, s0, e0, m0);
      note := TurnTakesEffect(klingons, objects, d, actions, action, s0, e0, g0, y0);
    }

    /**
     * The decision of the i-th klingon within the pass: made from the memory
     * the earlier decisions left and the ship their actions left, it
     * extends the run of decisions by one.
     */
    method DecidesInPass(klingons: seq<Coord>, objects: map<Coord, char>, d: TurnDraws, actions: seq<K.Action>,
                         ghost p: Encounter, ghost s0: int, ghost e0: int, ghost m0: K.Memory)
      returns (action: K.Action)
      requires Valid() && |actions| < |klingons| && K.MemoryValid(m0)
      requires p == EncounterOf(klingons, objects)
      requires (ship.shields, ship.energy) == Struck(s0, e0, actions)
      requires (ai.Mind(), actions) == Decisions(p, m0, s0, e0, d, |actions|)
      modifies ai
      ensures Valid()
      ensures (ai.Mind(), actions + [action]) == Decisions(p, m0, s0, e0, d, |actions| + 1)
      ensures ai.Statistics() == old(ai.Statistics())
    {
      assert ViewAfter(p, s0, e0, actions) == K.PlayerView(ship.energy, ship.shields, ship.maxShields, ship.torpedoes);
      action := KlingonDecides(klingons[|actions|], objects, d, |actions|);
      DecisionsExtend(p, m0, s0, e0, d, actions, old(ai.Mind()), ai.Mind(), action);
    }

    /**
     * The effect of the i-th klingon's decided action within the pass:
     * starting from the ship and quadrant the earlier turns left, the
     * shields, energy, systems and quadrant are those of the turns so far
     * extended by this action.
     */
    method TurnTakesEffect(klingons: seq<Coord>, objects: map<Coord, char>, d: TurnDraws, actions: seq<K.Action>,
                           action: K.Action, ghost s0: int, ghost e0: int, ghost g0: map<Coord, G.Quadrant>,
                           ghost y0: map<S.System, real>)
      returns (note: seq<Note>)
      requires Valid() && |actions| < |klingons| && ship.currentQuadrant in g0
      requires (ship.shields, ship.energy) == Struck(s0, e0, actions)
      requires galaxy.quadrants == g0[ship.currentQuadrant :=
                 MovedAll(g0[ship.currentQuadrant], klingons[..|actions|], actions, objects)]
      requires ship.systems == Worn(y0, s0, e0, actions, d.hit)
      modifies ship, galaxy`quadrants
      ensures Valid()
      ensures ship.systems == Worn(y0, s0, e0, actions + [action], d.hit)
      ensures ship.destroyed == (old(ship.destroyed) || (Strikes(action) && ship.energy <= 0))
      ensures ship.energy <= old(ship.energy) && (!Strikes(action) ==> ship.energy == old(ship.energy))
      ensures ship.docked == old(ship.docked) && ship.maxShields == old(ship.maxShields)
      ensures (ship.shields, ship.energy) == Struck(s0, e0, actions + [action])
      ensures galaxy.quadrants == g0[ship.currentQuadrant :=
                MovedAll(g0[ship.currentQuadrant], klingons[..|actions| + 1], actions + [action], objects)]
      ensures ship.torpedoes == old(ship.torpedoes) && ship.currentQuadrant == old(ship.currentQuadrant)
      ensures ship.quadrantPosition == old(ship.quadrantPosition) && ship.visitedQuadrants == old(ship.visitedQuadrants)
      ensures note == TurnNote(klingons[|actions|], action, objects, Struck(s0, e0, actions))
    {
      var i := |actions|;
      ghost var before, sb, eb := galaxy.quadrants, ship.shields, ship.energy;
      var acted := KlingonActs(klingons[i], action, objects, d.hit(i));
      note := if acted.Some? then [acted.value] else [];
      TurnEffect(g0, ship.currentQuadrant, klingons, actions, objects, action, s0, e0,
                 before, galaxy.quadrants, sb, eb, ship.shields, ship.energy);
      WornStep(y0, s0, e0, actions, d.hit, action);
    }

    /**
     * The loop of `_process_ai_turns` over the klingons listed when the pass
     * began: the ship takes the striking attacks in turn and the quadrant
     * sees the relocating moves in turn.
     */
    method KlingonTurns(klingons: seq<Coord>, objects: map<Coord, char>, d: TurnDraws)
      returns (actions: seq<K.Action>, notes: seq<Note>)
      requires Valid()
      modifies ship, ai, galaxy`quadrants
      ensures Valid()
      ensures |actions| == |klingons| && |notes| <= |klingons|
      ensures (ship.shields, ship.energy) == Struck(old(ship.shields), old(ship.energy), actions)
      ensures galaxy.quadrants == old(galaxy.quadrants)[ship.currentQuadrant :=
                MovedAll(old(galaxy.quadrants)[ship.currentQuadrant], klingons, actions, objects)]
      ensures |klingons| == 0 ==> unchanged(ship) && galaxy.quadrants == old(galaxy.quadrants)
      ensures ship.energy <= old(ship.energy) && ship.shields <= old(ship.shields)
      ensures ship.torpedoes == old(ship.torpedoes) && ship.currentQuadrant == old(ship.currentQuadrant)
      ensures ship.quadrantPosition == old(ship.quadrantPosition) && ship.visitedQuadrants == old(ship.visitedQuadrants)
      ensures OnlyQuadrantChanged(old(galaxy.quadrants), galaxy.quadrants, ship.currentQuadrant)
      ensures galaxy.Summary(ship.currentQuadrant) == old(galaxy.Summary(ship.currentQuadrant))
      ensures forall n :: n in notes ==> n.KlingonAttacks? || n.KlingonMoves?
      ensures notes == PassNotes(old(ship.shields), old(ship.energy), klingons, actions, objects)
      ensures (ai.Mind(), actions)
                == Decisions(old(EncounterOf(klingons, objects)), old(ai.Mind()), old(ship.shields), old(ship.energy), d, |klingons|)
      ensures ship.systems == Worn(old(ship.systems), old(ship.shields), old(ship.energy), actions, d.hit)
      ensures ship.destroyed == (old(ship.destroyed) || (AnyStrike(actions) && ship.energy <= 0))
      ensures ship.docked == old(ship.docked) && ai.Statistics() == old(ai.Statistics())
    {
      actions, notes := [], [];
      ghost var p := EncounterOf(klingons, objects);
      ghost var m0 := ai.Mind();
      if |klingons| == 0 {
        return;
      }
      ghost var g0 := galaxy.quadrants;
      assert galaxy.quadrants == g0[ship.currentQuadrant := MovedAll(g0[ship.currentQuadrant], klingons[..0], actions, objects)];
      assert klingons[..|klingons|] == klingons;
      for i := 0 to |klingons|
        invariant Valid() && ship.currentQuadrant == old(ship.currentQuadrant)
        invariant |actions| == i && |notes| <= i
        invariant (ship.shields, ship.energy) == Struck(old(ship.shields), old(ship.energy), actions)
        invariant galaxy.quadrants == g0[ship.currentQuadrant :=
                    MovedAll(g0[ship.currentQuadrant], klingons[..i], actions, objects)]
        invariant ship.torpedoes == old(ship.torpedoes) && ship.maxShields == old(ship.maxShields)
        invariant ship.quadrantPosition == old(ship.quadrantPosition) && ship.visitedQuadrants == old(ship.visitedQuadrants)
        invariant notes == PassNotes(old(ship.shields), old(ship.energy), klingons[..i], actions, objects)
        invariant p == EncounterOf(klingons, objects)
        invariant (ai.Mind(), actions) == Decisions(p, m0, old(ship.shields), old(ship.energy), d, i)
        invariant ship.systems == Worn(old(ship.systems), old(ship.shields), old(ship.energy), actions, d.hit)
        invariant ship.destroyed == (old(ship.destroyed) || (AnyStrike(actions) && ship.energy <= 0))
        invariant ship.docked == old(ship.docked) && ai.Statistics() == old(ai.Statistics())
      {
        var action, note := KlingonTurn(klingons, objects, d, actions, p, old(ship.shields), old(ship.energy), g0,
                                        m0, old(ship.systems));
        PassNotesStep(old(ship.shields), old(ship.energy), klingons, actions, objects, action);
        AnyStrikeStep(actions, action);
        actions := actions + [action];
        notes := notes + note;
      }
      UpdateIsLocal(old(galaxy.quadrants), ship.currentQuadrant, galaxy.quadrants[ship.currentQuadrant]);
    }

    // -------------------------------------------------------------------
    // The turn

    /** `_advance_time`: one tenth of a stardate. */
    method AdvanceTime()
      requires Valid()
      modifies this`state
      ensures Valid()
      ensures state == old(state).(stardate := old(state.stardate) + TurnLength)
    {
      state := state.(stardate := state.stardate + TurnLength);
    }

    /**
     * `_check_game_end_conditions`: no klingons left is a victory; otherwise
     * a destroyed ship or an expired clock is a defeat. An ending sets the
     * flags and counts one win or one loss.
     */
    method CheckEndConditions()
      modifies this`state, this`gameOver, this`victory
      ensures var v := Verdict(state.klingonsRemaining, ship.IsDestroyed(), state.stardate, state.missionTimeLimit);
              (v == Ongoing ==> state == old(state) && gameOver == old(gameOver) && victory == old(victory))
              && (v == Victory ==> gameOver && victory
                                   && state == old(state).(playerWins := old(state.playerWins) + 1))
              && (v == ShipLost || v == TimeExpired ==>
                    gameOver && !victory && state == old(state).(playerLosses := old(state.playerLosses) + 1))
    {
      if state.klingonsRemaining <= 0 {
        gameOver, victory := true, true;
        state := state.(playerWins := state.playerWins + 1);
      } else if ship.IsDestroyed() {
        gameOver, victory := true, false;
        state := state.(playerLosses := state.playerLosses + 1);
      } else if state.stardate >= state.missionTimeLimit {
        gameOver, victory := true, false;
        state := state.(playerLosses := state.playerLosses + 1);
      }
    }

    /**
     * Whether the handler `process_turn` picks for `cmd` succeeds in the
     * current state: the validation each handler makes before acting. The
     * reporting commands always succeed and an unknown command never does.
     */
    predicate Accepts(cmd: Command)
      reads galaxy, ship
    {
      match cmd
      case Pha(amount) => amount.Given? && 0 < amount.value <= ship.energy && Present(Here(), G.Klingon)
      case Tor(order) => order.Aim? && ship.torpedoes > 0 && 0.0 <= order.course <= 360.0 && order.spread > 0
      case Nav(dest) => dest.Dest? && InGrid(dest.coord)
                        && ship.energy >= WarpCost(Dist2(ship.currentQuadrant, dest.coord))
      case Shi(level) => level.Missing?
                         || (level.Given? && level.value >= 0
                             && MaxI(0, MinI(level.value, ship.maxShields) - ship.shields) <= ship.energy)
      case Dock => StarbaseWithin(Here(), ship.quadrantPosition)
      case Com(request) => request.Menu? || request.StatusRequest? || (request.Distance? && request.dest.Dest?)
      case Other(_) => false
      case _ => true
    }

    /**
     * The command switch of `process_turn`: the command succeeds exactly
     * when its handler accepts it, and then has that handler's effect. A
     * command that fails changes nothing; none touches the clock or the
     * record of past games, and only the quadrant the ship started in can
     * change in the galaxy.
     */
    method Dispatch(cmd: Command, d: TurnDraws) returns (r: Reply)
      requires Valid() && IsRoot(d.root)
      modifies this`state, galaxy`quadrants, ship
      ensures Valid()
      ensures r.success <==> old(Accepts(cmd))
      ensures !r.success ==> state == old(state) && unchanged(ship) && galaxy.quadrants == old(galaxy.quadrants)
      ensures SameClockAndRecord(old(state), state) && state.combatEncounters == old(state.combatEncounters)
      ensures OnlyQuadrantChanged(old(galaxy.quadrants), galaxy.quadrants, old(ship.currentQuadrant))
      ensures cmd.Srs? || cmd.Lrs? || cmd.Dam? || cmd.Com? || cmd.Other? ==>
                state == old(state) && unchanged(ship) && galaxy.quadrants == old(galaxy.quadrants)
      ensures cmd.Srs? ==> r == Reply(true, ShortRangeScan(Here(), ship.quadrantPosition), [])
      ensures cmd.Lrs? ==> r == Reply(true, LongRangeScan(galaxy.AdjacentData(ship.currentQuadrant)), [])
      ensures cmd.Dam? ==> r == Reply(true, DamageReportReady, [])
      ensures cmd.Other? ==> r == Reply(false, UnknownCommand(cmd.word), [])
      ensures cmd.Pha? && r.success ==>
                r.message.CombatReport? && ship.energy == old(ship.energy) - cmd.amount.value
                && state == PhasersAccounted(old(state), ReportedKills(r.message.report), cmd.amount.value)
      ensures cmd.Tor? && r.success ==>
                r.message.CombatReport? && ship.torpedoes == old(ship.torpedoes) - 1
                && state == TorpedoAccounted(old(state), ReportedKills(r.message.report))
      ensures (cmd.Pha? || cmd.Tor?) && r.success ==> OnlyKlingonsRemoved(old(Here()), Here())
      ensures cmd.Nav? && r.success ==>
                var cost := WarpCost(Dist2(old(ship.currentQuadrant), cmd.dest.coord));
                ship.currentQuadrant == cmd.dest.coord && ship.quadrantPosition == Coord(4, 4)
                && ship.energy == old(ship.energy) - cost
                && ship.visitedQuadrants == old(ship.visitedQuadrants) + {cmd.dest.coord}
                && r.message == Navigated(cmd.dest.coord, cost)
      ensures !cmd.Nav? ==> ship.currentQuadrant == old(ship.currentQuadrant)
                            && ship.quadrantPosition == old(ship.quadrantPosition)
                            && ship.visitedQuadrants == old(ship.visitedQuadrants)
      ensures cmd.Shi? && cmd.level.Given? && r.success ==>
                ship.shields == MinI(cmd.level.value, ship.maxShields)
                && ship.energy == old(ship.energy) - MaxI(0, ship.shields - old(ship.shields))
      ensures cmd.Dock? && r.success ==>
                ship.energy == ship.maxEnergy && ship.shields == ship.maxShields
                && ship.torpedoes == ship.maxTorpedoes && ship.systems == S.NoDamage()
    {
      if cmd.Pha? || cmd.Tor? {
        r := Fire(cmd, d);
      } else if cmd.Nav? || cmd.Shi? || cmd.Dock? {
        r := Operate(cmd);
        UnchangedGalaxyIsLocal(galaxy.quadrants, old(ship.currentQuadrant));
      } else {
        r := Inquire(cmd);
        UnchangedGalaxyIsLocal(galaxy.quadrants, ship.currentQuadrant);
      }
    }

    /** The weapon commands of `process_turn`. */
    method Fire(cmd: Command, d: TurnDraws) returns (r: Reply)
      requires Valid() && IsRoot(d.root) && (cmd.Pha? || cmd.Tor?)
      modifies this`state, galaxy`quadrants, ship`energy, ship`torpedoes
      ensures Valid()
      ensures r.success <==> old(Accepts(cmd))
      ensures !r.success ==> state == old(state) && unchanged(ship) && galaxy.quadrants == old(galaxy.quadrants)
      ensures SameClockAndRecord(old(state), state)
      ensures OnlyQuadrantChanged(old(galaxy.quadrants), galaxy.quadrants, ship.currentQuadrant)
      ensures cmd.Pha? ==> ship.torpedoes == old(ship.torpedoes)
      ensures cmd.Tor? ==> ship.energy == old(ship.energy)
      ensures cmd.Pha? && r.success ==>
                r.message.CombatReport? && ship.energy == old(ship.energy) - cmd.amount.value
                && state == PhasersAccounted(old(state), ReportedKills(r.message.report), cmd.amount.value)
      ensures cmd.Tor? && r.success ==>
                r.message.CombatReport? && ship.torpedoes == old(ship.torpedoes) - 1
                && state == TorpedoAccounted(old(state), ReportedKills(r.message.report))
      ensures r.success ==> OnlyKlingonsRemoved(old(Here()), Here())
    {
      ghost var accepted := Accepts(cmd);
      if cmd.Pha? {
        assert accepted <==> cmd.amount.Given? && 0 < cmd.amount.value <= ship.energy && Present(Here(), G.Klingon);
        r := FirePhasers(cmd.amount, d);
      } else {
        assert accepted <==> cmd.order.Aim? && ship.torpedoes > 0 && 0.0 <= cmd.order.course <= 360.0
                             && cmd.order.spread > 0;
        r := FireTorpedoes(cmd.order, d);
      }
    }

    /** The commands of `process_turn` that change the ship but not the galaxy. */
    method Operate(cmd: Command) returns (r: Reply)
      requires Valid() && (cmd.Nav? || cmd.Shi? || cmd.Dock?)
      modifies this`state, ship`energy, ship`shields, ship`torpedoes, ship`systems,
               ship`currentQuadrant, ship`quadrantPosition, ship`visitedQuadrants
      ensures Valid()
      ensures r.success <==> old(Accepts(cmd))
      ensures !r.success ==> state == old(state) && unchanged(ship)
      ensures SameClockAndRecord(old(state), state) && state.combatEncounters == old(state.combatEncounters)
      ensures cmd.Nav? && r.success ==>
                var cost := WarpCost(Dist2(old(ship.currentQuadrant), cmd.dest.coord));
                ship.currentQuadrant == cmd.dest.coord && ship.quadrantPosition == Coord(4, 4)
                && ship.energy == old(ship.energy) - cost
                && ship.visitedQuadrants == old(ship.visitedQuadrants) + {cmd.dest.coord}
                && r.message == Navigated(cmd.dest.coord, cost)
      ensures !cmd.Nav? ==> ship.currentQuadrant == old(ship.currentQuadrant)
                            && ship.quadrantPosition == old(ship.quadrantPosition)
                            && ship.visitedQuadrants == old(ship.visitedQuadrants)
      ensures cmd.Shi? && cmd.level.Given? && r.success ==>
                ship.shields == MinI(cmd.level.value, ship.maxShields)
                && ship.energy == old(ship.energy) - MaxI(0, ship.shields - old(ship.shields))
      ensures cmd.Dock? && r.success ==>
                ship.energy == ship.maxEnergy && ship.shields == ship.maxShields
                && ship.torpedoes == ship.maxTorpedoes && ship.systems == S.NoDamage()
    {
      ghost var accepted := Accepts(cmd);
      match cmd
      case Nav(dest) =>
        assert accepted <==> dest.Dest? && InGrid(dest.coord)
                             && ship.energy >= WarpCost(Dist2(ship.currentQuadrant, dest.coord));
        r := Navigate(dest);
      case Shi(level) =>
        r := SetShields(level);
      case Dock =>
        assert accepted <==> StarbaseWithin(Here(), ship.quadrantPosition);
        r := Dock();
    }

    /** The commands of `process_turn` that only report. */
    method Inquire(cmd: Command) returns (r: Reply)
      requires Valid() && !(cmd.Nav? || cmd.Shi? || cmd.Dock? || cmd.Pha? || cmd.Tor?)
      ensures cmd.Srs? ==> r == Reply(true, ShortRangeScan(Here(), ship.quadrantPosition), [])
      ensures cmd.Lrs? ==> r == Reply(true, LongRangeScan(galaxy.AdjacentData(ship.currentQuadrant)), [])
      ensures cmd.Dam? ==> r == Reply(true, DamageReportReady, [])
      ensures cmd.Other? ==> r == Reply(false, UnknownCommand(cmd.word), [])
      ensures cmd.Com? ==> (r.success <==> cmd.request.Menu? || cmd.request.StatusRequest?
                                           || (cmd.request.Distance? && cmd.request.dest.Dest?))
      ensures r.success <==> Accepts(cmd)
    {
      match cmd
      case Srs => r := Reply(true, ShortRangeScan(Here(), ship.quadrantPosition), []);
      case Lrs => r := Reply(true, LongRangeScan(galaxy.AdjacentData(ship.currentQuadrant)), []);
      case Com(request) => r := Computer(request);
      case Dam => r := Reply(true, DamageReportReady, []);
      case Other(word) => r := Reply(false, UnknownCommand(word), []);
    }

    /**
     * What `process_turn` does after a successful command: the klingons'
     * turn, the clock, the random and contextual events, and the end check.
     * The klingons' decisions and moves stand as the pass made them, since
     * the events act on the ship alone; a quadrant that holds klingons at
     * the end held them when the pass began, and counted one more encounter.
     */
    method Aftermath(d: TurnDraws)
      returns (notes: seq<Note>, lines: seq<Note>, klingons: seq<Coord>, actions: seq<K.Action>)
      requires Valid() && !gameOver
      modifies this`state, this`gameOver, this`victory, galaxy`quadrants, ship, ai, events
      ensures Valid()
      ensures state == old(state).(stardate := old(state.stardate) + TurnLength,
                                   combatEncounters := old(state.combatEncounters)
                                                       + if Present(Here(), G.Klingon) then 1 else 0,
                                   playerWins := state.playerWins, playerLosses := state.playerLosses)
      ensures Present(Here(), G.Klingon) == old(Present(Here(), G.Klingon))
      ensures var v := Verdict(state.klingonsRemaining, ship.IsDestroyed(), state.stardate, state.missionTimeLimit);
              gameOver == (v != Ongoing) && (gameOver ==> (victory <==> v == Victory))
              && (!gameOver ==> victory == old(victory))
              && state.playerWins + state.playerLosses == old(state.playerWins + state.playerLosses) + (if gameOver then 1 else 0)
      ensures G.Distinct(klingons) && forall p :: p in klingons <==> p in old(Here()) && old(Here())[p] == G.Klingon
      ensures |actions| == |klingons|
      ensures (ai.Mind(), actions)
                == Decisions(old(EncounterOf(klingons, Here())), old(ai.Mind()), old(ship.shields), old(ship.energy),
                             d, |klingons|)
      ensures galaxy.quadrants == old(galaxy.quadrants)[ship.currentQuadrant :=
                MovedAll(old(galaxy.quadrants)[ship.currentQuadrant], klingons, actions, old(Here()))]
      ensures lines == PassNotes(old(ship.shields), old(ship.energy), klingons, actions, old(Here()))
      ensures |lines| <= |notes| && notes[..|lines|] == lines
      ensures ship.currentQuadrant == old(ship.currentQuadrant) && ship.quadrantPosition == old(ship.quadrantPosition)
      ensures ship.visitedQuadrants == old(ship.visitedQuadrants) && ai.Statistics() == old(ai.Statistics())
    {
      ghost var before := Here();
      TallyShowsPresence(before, G.Klingon);
      notes, lines, klingons, actions := KlingonsAndClock(d);
      TallyShowsPresence(Here(), G.Klingon);
      var eventNotes := RunEvents(d);
      notes := notes + eventNotes;
      CheckEndConditions();
    }

    /** The klingons' turn, then one tick of the clock. */
    method KlingonsAndClock(d: TurnDraws)
      returns (notes: seq<Note>, lines: seq<Note>, klingons: seq<Coord>, actions: seq<K.Action>)
      requires Valid()
      modifies this`state, galaxy`quadrants, ship, ai
      ensures Valid()
      ensures state == old(state).(stardate := state.stardate, combatEncounters := state.combatEncounters)
      ensures state.stardate == old(state.stardate) + TurnLength
      ensures state.combatEncounters == old(state.combatEncounters) + if old(Present(Here(), G.Klingon)) then 1 else 0
      ensures G.Distinct(klingons) && forall p :: p in klingons <==> p in old(Here()) && old(Here())[p] == G.Klingon
      ensures |actions| == |klingons|
      ensures (ship.shields, ship.energy) == Struck(old(ship.shields), old(ship.energy), actions)
      ensures galaxy.quadrants == old(galaxy.quadrants)[ship.currentQuadrant :=
                MovedAll(old(galaxy.quadrants)[ship.currentQuadrant], klingons, actions, old(Here()))]
      ensures !old(Present(Here(), G.Klingon)) ==> unchanged(ship) && galaxy.quadrants == old(galaxy.quadrants)
      ensures ship.torpedoes == old(ship.torpedoes) && ship.currentQuadrant == old(ship.currentQuadrant)
      ensures ship.quadrantPosition == old(ship.quadrantPosition) && ship.visitedQuadrants == old(ship.visitedQuadrants)
      ensures ship.energy <= old(ship.energy) && ship.shields <= old(ship.shields)
      ensures galaxy.Summary(ship.currentQuadrant) == old(galaxy.Summary(ship.currentQuadrant))
      ensures lines == PassNotes(old(ship.shields), old(ship.energy), klingons, actions, old(Here()))
      ensures forall n :: n in lines ==> n.KlingonAttacks? || n.KlingonMoves?
      ensures |lines| <= |notes| && notes[..|lines|] == lines
      ensures (ai.Mind(), actions)
                == Decisions(old(EncounterOf(klingons, Here())), old(ai.Mind()), old(ship.shields), old(ship.energy),
                             d, |klingons|)
      ensures ship.systems == Worn(old(ship.systems), old(ship.shields), old(ship.energy), actions, d.hit)
      ensures ship.destroyed == (old(ship.destroyed) || (AnyStrike(actions) && ship.energy <= 0))
      ensures ship.docked == old(ship.docked) && ai.Statistics() == old(ai.Statistics())
    {
      notes, lines, klingons, actions := ProcessAITurns(d);
      AdvanceTime();
    }

    /** `check_for_events` on the ship, with the clock and the quadrant's starbases as context. */
    method RunEvents(d: TurnDraws) returns (notes: seq<Note>)
      requires Valid()
      modifies ship`energy, ship`shields, ship`torpedoes, ship`systems, events
      ensures Valid()
    {
      var ctx := E.Context(state.klingonsRemaining, state.stardate as real / 10.0,
                           (state.missionTimeLimit - state.stardate) as real / 10.0,
                           galaxy.Summary(ship.currentQuadrant).1);
      var msgs := events.CheckForEvents(ctx, ship, d.events);
      assert Stocked(ship);
      notes := EventNotes(msgs);
    }

    /**
     * `process_turn` on a game in play: the turn is counted and the command
     * handled, succeeding exactly when its handler accepts it (an unknown
     * command never does); only a successful command lets the klingons act,
     * the clock advance, events happen and the game end.
     */
    method PlayTurn(cmd: Command, d: TurnDraws) returns (r: Reply)
      requires Valid() && IsRoot(d.root) && !gameOver
      modifies this`state, this`gameOver, this`victory, galaxy`quadrants, ship, ai, events
      ensures Valid()
      ensures r.success <==> old(Accepts(cmd))
      ensures cmd.Other? ==> r == Reply(false, UnknownCommand(cmd.word), [])
      ensures cmd.Srs? ==> r.message == ShortRangeScan(old(Here()), old(ship.quadrantPosition))
      ensures !r.success ==>
                state == old(state) && unchanged(ship) && galaxy.quadrants == old(galaxy.quadrants)
                && !gameOver && victory == old(victory)
      ensures r.success ==>
                state.stardate == old(state.stardate) + TurnLength
                && state.missionTimeLimit == old(state.missionTimeLimit)
                && var v := Verdict(state.klingonsRemaining, ship.IsDestroyed(), state.stardate, state.missionTimeLimit);
                   gameOver == (v != Ongoing) && (gameOver ==> (victory <==> v == Victory))
                   && state.playerWins + state.playerLosses
                      == old(state.playerWins + state.playerLosses) + (if gameOver then 1 else 0)
      ensures r.success ==>
                state.combatEncounters == old(state.combatEncounters) + (if Present(Here(), G.Klingon) then 1 else 0)
    {
      r := Dispatch(cmd, d);
      if r.success {
        var notes, lines, klingons, actions := Aftermath(d);
        r := r.(notes := r.notes + notes);
      }
    }

    /**
     * `process_turn`: refused while the game is over or paused, and
     * otherwise played as `PlayTurn` says. The galaxy total always matches
     * the remaining count.
     */
    method ProcessTurn(cmd: Command, d: TurnDraws) returns (r: Reply)
      requires Valid() && IsRoot(d.root)
      modifies this, galaxy`quadrants, ship, ai, events
      ensures Valid() && paused == old(paused)
      ensures old(gameOver || paused) ==>
                r == Reply(false, NotActive, []) && state == old(state) && turnCount == old(turnCount)
                && gameOver == old(gameOver) && victory == old(victory)
                && unchanged(ship) && galaxy.quadrants == old(galaxy.quadrants)
      ensures !old(gameOver || paused) ==> turnCount == old(turnCount) + 1 && (r.success <==> old(Accepts(cmd)))
      ensures !old(gameOver || paused) && cmd.Other? ==> r == Reply(false, UnknownCommand(cmd.word), [])
      ensures !old(gameOver || paused) && cmd.Srs? ==>
                r.message == ShortRangeScan(old(Here()), old(ship.quadrantPosition))
      ensures !old(gameOver || paused) && !r.success ==>
                state == old(state) && unchanged(ship) && galaxy.quadrants == old(galaxy.quadrants)
                && !gameOver && victory == old(victory)
      ensures !old(gameOver || paused) && r.success ==>
                state.stardate == old(state.stardate) + TurnLength
                && state.missionTimeLimit == old(state.missionTimeLimit)
                && var v := Verdict(state.klingonsRemaining, ship.IsDestroyed(), state.stardate, state.missionTimeLimit);
                   gameOver == (v != Ongoing) && (gameOver ==> (victory <==> v == Victory))
                   && state.playerWins + state.playerLosses
                      == old(state.playerWins + state.playerLosses) + (if gameOver then 1 else 0)
      ensures !old(gameOver || paused) && r.success ==>
                state.combatEncounters == old(state.combatEncounters) + (if Present(Here(), G.Klingon) then 1 else 0)
    {
      if gameOver || paused {
        return Reply(false, NotActive, []);
      }
      r := PlayTurn(cmd, d);
      turnCount := turnCount + 1;
    }
  }
}

=== FILE: events.dfy ===
/**
 * The event injector: a cooldown counter, the active events (solar storms
 * that count down and drain energy each turn, anomalies that act once), a
 * history of one-off events, weighted random choice of a new event, and
 * contextual warnings.
 *
 * `active_events` is a dict whose iteration order is insertion order; it is
 * modelled as a sequence of (id, event) entries in that order. Event ids are
 * `"<type>_<len(event_history)>"`, modelled as a pair of the type and the
 * history length. Every random draw is a field of `Draws`.
 */
module Events {
  import opened Common
  import Ship

  // ---------------------------------------------------------------------
  // Event kinds and weights
  // ---------------------------------------------------------------------

  datatype EventType =
    | SolarStorm | SpaceAnomaly | DistressCall | KlingonReinforcements
    | StarbaseEmergency | EquipmentMalfunction | Discovery | DiplomaticEncounter

  /** The kinds in the order of the base-weight table. */
  const EventTypes: seq<EventType> :=
    [SolarStorm, SpaceAnomaly, DistressCall, KlingonReinforcements,
     StarbaseEmergency, EquipmentMalfunction, Discovery, DiplomaticEncounter]

  /** What the weights depend on: the game and the ship's quadrant. */
  datatype Context = Context(klingonsRemaining: int, stardate: real, timeRemaining: real, localStarbases: int)

  function BaseWeight(kind: EventType): real
  {
    match kind
    case SolarStorm => 0.2
    case SpaceAnomaly => 0.15
    case DistressCall => 0.1
    case KlingonReinforcements => 0.1
    case StarbaseEmergency => 0.05
    case EquipmentMalfunction => 0.15
    case Discovery => 0.1
    case DiplomaticEncounter => 0.05
  }

  /**
   * One entry of `_calculate_event_weights`: reinforcements ×1.5 above 10
   * klingons and ×0.5 below 5, malfunctions ×2 on a damaged ship, starbase
   * emergencies ×3 with a starbase in the quadrant, discoveries ×0.3 with
   * less than 10 stardates left.
   */
  function Weight(kind: EventType, ctx: Context, damaged: bool): (w: real)
    ensures w > 0.0
    ensures kind == KlingonReinforcements ==>
              w == (if ctx.klingonsRemaining > 10 then 0.15 else if ctx.klingonsRemaining < 5 then 0.05 else 0.1)
    ensures kind == EquipmentMalfunction ==> w == (if damaged then 0.3 else 0.15)
    ensures kind == StarbaseEmergency ==> w == (if ctx.localStarbases > 0 then 0.15 else 0.05)
    ensures kind == Discovery ==> w == (if ctx.timeRemaining < 10.0 then 0.03 else 0.1)
    ensures kind in {SolarStorm, SpaceAnomaly, DistressCall, DiplomaticEncounter} ==> w == BaseWeight(kind)
  {
    var base := BaseWeight(kind);
    match kind
    case KlingonReinforcements =>
      if ctx.klingonsRemaining > 10 then base * 1.5 else if ctx.klingonsRemaining < 5 then base * 0.5 else base
    case EquipmentMalfunction => if damaged then base * 2.0 else base
    case StarbaseEmergency => if ctx.localStarbases > 0 then base * 3.0 else base
    case Discovery => if ctx.timeRemaining < 10.0 then base * 0.3 else base
    case _ => base
  }

  /** `_calculate_event_weights`, in table order. */
  function Weights(ctx: Context, damaged: bool): (ws: seq<real>)
    ensures |ws| == |EventTypes|
    ensures forall i :: 0 <= i < |ws| ==> ws[i] == Weight(EventTypes[i], ctx, damaged) && ws[i] > 0.0
  {
    seq(|EventTypes|, i requires 0 <= i < |EventTypes| => Weight(EventTypes[i], ctx, damaged))
  }

  /** The sum of the first `n` weights. */
  function Prefix(ws: seq<real>, n: nat): real
    requires n <= |ws|
  {
    if n == 0 then 0.0 else Prefix(ws, n - 1) + ws[n - 1]
  }

  /**
   * `random.choices` with one draw `x = random() * total`: the first index
   * whose running total exceeds `x` (a bisection over the running totals),
   * never past the last index.
   */
  function Choose(ws: seq<real>, x: real, from: nat): (i: nat)
    requires from < |ws|
    ensures from <= i < |ws|
    ensures forall j :: from < j <= i ==> Prefix(ws, j) <= x
    ensures i < |ws| - 1 ==> x < Prefix(ws, i + 1)
    decreases |ws| - from
  {
    if from == |ws| - 1 || x < Prefix(ws, from + 1) then from else Choose(ws, x, from + 1)
  }

  /** With positive weights a running total only grows. */
  lemma {:induction false} PrefixMonotone(ws: seq<real>, m: nat, n: nat)
    requires m <= n <= |ws|
    requires forall i :: 0 <= i < |ws| ==> ws[i] > 0.0
    ensures Prefix(ws, m) <= Prefix(ws, n)
    decreases n - m
  {
    if m < n {
      PrefixMonotone(ws, m, n - 1);
    }
  }

  /**
   * A draw in [0, total) lands in the band of the chosen kind: between the
   * running totals before and after it, so each kind is chosen for a share
   * of the draws equal to its weight.
   */
  lemma ChosenBand(ws: seq<real>, x: real)
    requires |ws| > 0 && 0.0 <= x < Prefix(ws, |ws|)
    ensures var i := Choose(ws, x, 0); Prefix(ws, i) <= x < Prefix(ws, i + 1)
  {
    var i := Choose(ws, x, 0);
  }

  /**
   * The kind `_generate_random_event` picks: `random.choices` over the
   * weights, with the draw `choice` in [0, 1) scaled to the total weight.
   */
  function ChosenKind(ctx: Context, damaged: bool, choice: real): EventType
  {
    var ws := Weights(ctx, damaged);
    EventTypes[Choose(ws, choice * Prefix(ws, |ws|), 0)]
  }

  // ---------------------------------------------------------------------
  // Random draws and messages
  // ---------------------------------------------------------------------

  /** Every random draw one call of `check_for_events` can make. */
  datatype Draws = Draws(
    trigger: real, choice: real,
    duration: nat, anomaly: nat, shipType: nat, nearby: nat, quadrantX: nat, quadrantY: nat,
    reinforcements: nat, emergency: nat, system: nat, extraDamage: real, discovery: nat, species: nat,
    lowEnergyRoll: real, timeRoll: real, victoryRoll: real)

  datatype Anomaly = TemporalDistortion | GravitationalAnomaly | SubspaceInterference | QuantumFluctuation

  const Anomalies: seq<Anomaly> := [TemporalDistortion, GravitationalAnomaly, SubspaceInterference, QuantumFluctuation]

  /** The discoveries: energy boost 300, torpedo resupply 2, technology upgrade, shield enhancement 200. */
  datatype Find = AncientArtifact | SupplyCache | DerelictShip | MineralDeposit

  const Finds: seq<Find> := [AncientArtifact, SupplyCache, DerelictShip, MineralDeposit]

  /** The systems a malfunction can hit. */
  const MalfunctionSystems: seq<Ship.System> :=
    [Ship.WarpEngines, Ship.ImpulseEngines, Ship.Phasers, Ship.TorpedoTubes, Ship.Sensors]

  /** The messages, one constructor per kind of line (indices pick from the source's name lists). */
  datatype Message =
    | StormContinues(lost: int)
    | StormDrainsRemaining(lost: int)
    | StormSubsiding
    | SensorsAffected
    | StormDetected(drain: int, duration: int)
    | AnomalyDetected(anomaly: Anomaly)
    | DistressReceived(shipType: nat, from: (real, real))
    | ReinforcementsDetected(count: int, at: Coord)
    | EmergencyReported(emergency: nat)
    | MalfunctionReported(system: Ship.System)
    | Discovered(find: Find)
    | DiplomaticContact(species: nat)
    | LowEnergyWarning
    | TimeCriticalWarning(timeLeft: real)
    | FewKlingonsWarning(klingonsLeft: int)

  // ---------------------------------------------------------------------
  // Active events
  // ---------------------------------------------------------------------

  datatype EventId = EventId(kind: EventType, serial: nat)

  datatype ActiveEvent = Storm(duration: int, energyDrain: int) | AnomalyEvent(anomaly: Anomaly)

  datatype ActiveEntry = ActiveEntry(id: EventId, event: ActiveEvent)

  /** `active_events[id] = event`: replaces the entry with that id in place, or appends. */
  function Insert(entries: seq<ActiveEntry>, e: ActiveEntry): (r: seq<ActiveEntry>)
    ensures e in r
    ensures |r| <= |entries| + 1
    ensures forall x :: x in r ==> x == e || x in entries
  {
    if |entries| == 0 then [e]
    else if entries[0].id == e.id then [e] + entries[1..]
    else [entries[0]] + Insert(entries[1..], e)
  }

  /**
   * `_process_solar_storm`: a quarter of the storm's drain (floor division)
   * is lost, or all that is left when that is not more than the drain.
   */
  function StormTick(energy: int, energyDrain: int): (r: (int, Message))
    ensures r.0 >= 0
    ensures energy > energyDrain / 4 ==> r.0 == energy - energyDrain / 4 && r.1 == StormContinues(energyDrain / 4)
    ensures energy <= energyDrain / 4 ==> r.0 == 0 && r.1 == StormDrainsRemaining(energy)
  {
    var drain := energyDrain / 4;
    if energy > drain then (energy - drain, StormContinues(drain))
    else (0, StormDrainsRemaining(energy))
  }

  /** From non-negative energy a storm takes exactly the smaller of the energy and its per-turn drain. */
  lemma StormTakesAtMostItsDrain(energy: int, energyDrain: int)
    requires energy >= 0 && energyDrain >= 0
    ensures energy - StormTick(energy, energyDrain).0 == MinI(energy, energyDrain / 4)
  {
  }

  /** The energy after the storms among `entries` have drained it, in order. */
  function Drained(entries: seq<ActiveEntry>, energy: int): int
  {
    if |entries| == 0 then energy
    else
      var before := Drained(entries[..|entries| - 1], energy);
      match entries[|entries| - 1].event
      case Storm(_, drain) => StormTick(before, drain).0
      case AnomalyEvent(_) => before
  }

  /** The lines one entry contributes, given the energy when it is processed. */
  function EntryMessages(e: ActiveEntry, energy: int): seq<Message>
  {
    match e.event
    case Storm(duration, drain) => [StormTick(energy, drain).1] + (if duration - 1 <= 0 then [StormSubsiding] else [])
    case AnomalyEvent(a) => if a == SubspaceInterference then [SensorsAffected] else []
  }

  function TickMessages(entries: seq<ActiveEntry>, energy: int): seq<Message>
  {
    if |entries| == 0 then []
    else
      var init := entries[..|entries| - 1];
      TickMessages(init, energy) + EntryMessages(entries[|entries| - 1], Drained(init, energy))
  }

  /** What one entry leaves behind after a pass: a storm one turn shorter if it has turns left. */
  function Countdown(e: ActiveEntry): seq<ActiveEntry>
  {
    match e.event
    case Storm(duration, drain) => if duration - 1 <= 0 then [] else [ActiveEntry(e.id, Storm(duration - 1, drain))]
    case AnomalyEvent(_) => []
  }

  /** The entries left after one pass: storms one turn shorter that have not run out; no anomaly. */
  function Survivors(entries: seq<ActiveEntry>): seq<ActiveEntry>
  {
    if |entries| == 0 then [] else Survivors(entries[..|entries| - 1]) + Countdown(entries[|entries| - 1])
  }

  /** The entry a survivor was one turn earlier. */
  function Earlier(s: ActiveEntry): ActiveEntry
    requires s.event.Storm?
  {
    ActiveEntry(s.id, Storm(s.event.duration + 1, s.event.energyDrain))
  }

  predicate Survives(s: ActiveEntry, entries: seq<ActiveEntry>)
  {
    s.event.Storm? && s.event.duration >= 1 && Earlier(s) in entries
  }

  lemma CountdownMember(e: ActiveEntry, s: ActiveEntry)
    ensures s in Countdown(e) <==> Survives(s, [e])
  {
  }

  /**
   * Exactly the storms that still had more than one turn to run survive,
   * each one turn shorter; anomalies never do; there are never more
   * survivors than entries.
   */
  lemma {:induction false} SurvivorsCountDown(entries: seq<ActiveEntry>)
    ensures |Survivors(entries)| <= |entries|
    ensures forall s :: s in Survivors(entries) <==> Survives(s, entries)
  {
    if |entries| > 0 {
      var init := entries[..|entries| - 1];
      var last := entries[|entries| - 1];
      SurvivorsCountDown(init);
      assert entries == init + [last];
      forall s
        ensures s in Survivors(entries) <==> Survives(s, entries)
      {
        CountdownMember(last, s);
      }
    }
  }

  /** Once any storm has been processed, energy is not negative. */
  lemma {:induction false} DrainedNonNegative(entries: seq<ActiveEntry>, energy: int)
    requires energy >= 0 || exists i :: 0 <= i < |entries| && entries[i].event.Storm?
    ensures Drained(entries, energy) >= 0
  {
    if |entries| > 0 {
      var init := entries[..|entries| - 1];
      if !entries[|entries| - 1].event.Storm? {
        if energy < 0 {
          var i :| 0 <= i < |entries| && entries[i].event.Storm?;
          assert init[i].event.Storm?;
        }
        DrainedNonNegative(init, energy);
      }
    }
  }

  // ---------------------------------------------------------------------
  // Contextual events
  // ---------------------------------------------------------------------

  /**
   * `_check_contextual_events`: low energy when 0 < energy < 500 (10%), time
   * critical when 0 < remaining < 5 (20%), few klingons when 1 to 3 remain
   * (15%), in that order.
   */
  function ContextualEvents(energy: int, timeRemaining: real, klingonsRemaining: int, d: Draws): (r: seq<Message>)
    ensures LowEnergyWarning in r <==> 0 < energy < 500 && d.lowEnergyRoll < 0.1
    ensures (exists t :: TimeCriticalWarning(t) in r) <==> 0.0 < timeRemaining < 5.0 && d.timeRoll < 0.2
    ensures (exists k :: FewKlingonsWarning(k) in r) <==> 0 < klingonsRemaining <= 3 && d.victoryRoll < 0.15
    ensures |r| <= 3
  {
    (if 0 < energy < 500 && d.lowEnergyRoll < 0.1 then [LowEnergyWarning] else [])
    + (if 0.0 < timeRemaining < 5.0 && d.timeRoll < 0.2 then [TimeCriticalWarning(timeRemaining)] else [])
    + (if 0 < klingonsRemaining <= 3 && d.victoryRoll < 0.15 then [FewKlingonsWarning(klingonsRemaining)] else [])
  }

  // ---------------------------------------------------------------------
  // History
  // ---------------------------------------------------------------------

  datatype HistoryEntry =
    | DistressEntry(shipType: nat, quadrant: (real, real), stardate: real)
    | EmergencyEntry(emergency: nat)
    | DiplomaticEntry(species: nat, stardate: real)

  /**
   * The candidate distress quadrants as `_create_distress_call_event`
   * computes them: both coordinates are the stardate plus an offset, kept
   * when inside 1..8.
   */
  method NearbyAsWritten(stardate: real) returns (nearby: seq<(real, real)>)
    ensures forall i :: 0 <= i < |nearby| ==>
              1.0 <= nearby[i].0 <= 8.0 && 1.0 <= nearby[i].1 <= 8.0
              && -1.0 <= nearby[i].0 - stardate <= 1.0 && -1.0 <= nearby[i].1 - stardate <= 1.0
    ensures stardate > 9.0 || stardate < 0.0 ==> nearby == []
  {
    nearby := [];
    for dx := -1 to 2
      invariant stardate > 9.0 || stardate < 0.0 ==> nearby == []
      invariant forall i :: 0 <= i < |nearby| ==>
                  1.0 <= nearby[i].0 <= 8.0 && 1.0 <= nearby[i].1 <= 8.0
                  && -1.0 <= nearby[i].0 - stardate <= 1.0 && -1.0 <= nearby[i].1 - stardate <= 1.0
    {
      for dy := -1 to 2
        invariant stardate > 9.0 || stardate < 0.0 ==> nearby == []
        invariant forall i :: 0 <= i < |nearby| ==>
                    1.0 <= nearby[i].0 <= 8.0 && 1.0 <= nearby[i].1 <= 8.0
                    && -1.0 <= nearby[i].0 - stardate <= 1.0 && -1.0 <= nearby[i].1 - stardate <= 1.0
      {
        if dx == 0 && dy == 0 {
          continue;
        }
        var q := (stardate + dx as real, stardate + dy as real);
        if 1.0 <= q.0 <= 8.0 && 1.0 <= q.1 <= 8.0 {
          nearby := nearby + [q];
        }
      }
    }
  }

  // ---------------------------------------------------------------------
  // The event manager
  // ---------------------------------------------------------------------

  /** The minimum number of turns between random events. */
  const MinCooldown: int := 5

  class EventManager {
    /** `events.random_event_chance` and `events.solar_storm.energy_drain`. */
    const randomEventChance: real
    const stormDrain: int
    /** `event_cooldown`: turns since the last random event. */
    var cooldown: int
    /** `active_events`, in insertion order. */
    var active: seq<ActiveEntry>
    /** `event_history`. */
    var history: seq<HistoryEntry>

    /**
     * A storm has at most `5 - cooldown` turns left and an anomaly is only
     * active on the turn it appeared, so by the time the cooldown allows a
     * new event nothing is active, and at most one event ever is.
     */
    ghost predicate Valid()
      reads this
    {
      cooldown >= 0 && |active| <= 1
      && forall i :: 0 <= i < |active| ==>
           (active[i].event.Storm? ==> 1 <= active[i].event.duration <= MinCooldown - cooldown)
           && (active[i].event.AnomalyEvent? ==> cooldown == 0)
    }

    constructor (randomEventChance: real, stormDrain: int)
      ensures Valid()
      ensures this.randomEventChance == randomEventChance && this.stormDrain == stormDrain
      ensures cooldown == 0 && active == [] && history == []
    {
      this.randomEventChance := randomEventChance;
      this.stormDrain := stormDrain;
      cooldown := 0;
      active := [];
      history := [];
    }

    /**
     * `check_for_events`: one more turn on the cooldown, the active events
     * processed, a random event when the cooldown has reached 5 and the
     * trigger draw is below the chance (which resets the cooldown), then the
     * contextual warnings.
     */
    method CheckForEvents(ctx: Context, ship: Ship.Ship, d: Draws) returns (msgs: seq<Message>)
      requires Valid() && ship.Valid()
      modifies this, ship`energy, ship`shields, ship`torpedoes, ship`systems
      ensures Valid() && ship.Valid()
      ensures old(0 <= ship.shields <= ship.maxShields) ==> 0 <= ship.shields <= ship.maxShields
      ensures old(ship.torpedoes) >= 0 && ship.maxTorpedoes >= 0 ==> ship.torpedoes >= 0
      ensures var fired := old(cooldown) + 1 >= MinCooldown && d.trigger < randomEventChance;
              cooldown == (if fired then 0 else old(cooldown) + 1)
              && (!fired ==> history == old(history) && active == Survivors(old(active))
                             && ship.energy == Drained(old(active), old(ship.energy))
                             && Snapshot(ship) == old(Snapshot(ship)).(energy := Drained(old(active), old(ship.energy))))
      ensures old(cooldown) + 1 >= MinCooldown && d.trigger < randomEventChance ==>
                var kind := ChosenKind(ctx, old(ship.HasDamage()), d.choice);
                EventCreated(kind, EventId(kind, |old(history)|), ctx, d, stormDrain,
                             ship.maxEnergy, ship.maxTorpedoes, ship.maxShields, [], active, old(history), history,
                             old(Snapshot(ship)).(energy := Drained(old(active), old(ship.energy))), Snapshot(ship))
      ensures |history| <= |old(history)| + 1
      ensures old(ship.energy) >= 0 && ship.maxEnergy >= 0 ==> ship.energy >= 0
      ensures var contextual := ContextualEvents(ship.energy, ctx.timeRemaining, ctx.klingonsRemaining, d);
              |contextual| <= |msgs| && msgs[|msgs| - |contextual|..] == contextual
      ensures var ticks := TickMessages(old(active), old(ship.energy));
              |ticks| <= |msgs| && msgs[..|ticks|] == ticks
      ensures var ticks := TickMessages(old(active), old(ship.energy));
              var contextual := ContextualEvents(ship.energy, ctx.timeRemaining, ctx.klingonsRemaining, d);
              if old(cooldown) + 1 >= MinCooldown && d.trigger < randomEventChance
              then |msgs| > |ticks| + |contextual|
              else msgs == ticks + contextual
    {
      cooldown := cooldown + 1;
      msgs := ProcessActiveEvents(ship);
      CountdownKeepsValid(old(active), old(cooldown));
      assert Snapshot(ship) == old(Snapshot(ship)).(energy := Drained(old(active), old(ship.energy)));
      assert ship.HasDamage() == old(ship.HasDamage());
      var created := RandomEvent(ctx, ship, d);
      msgs := msgs + created;
      var contextual := ContextualEvents(ship.energy, ctx.timeRemaining, ctx.klingonsRemaining, d);
      msgs := msgs + contextual;
    }

    /**
     * The random-event half of `check_for_events`, once the cooldown has
     * counted up and the active events are processed: an event is created,
     * and the cooldown reset, when the cooldown has reached 5 and the trigger
     * draw is below the chance; otherwise nothing changes.
     */
    method RandomEvent(ctx: Context, ship: Ship.Ship, d: Draws) returns (created: seq<Message>)
      requires ship.Valid() && cooldown >= 1 && |active| <= 1 && (cooldown >= MinCooldown ==> active == [])
      requires forall i :: 0 <= i < |active| ==>
                 active[i].event.Storm? && 1 <= active[i].event.duration <= MinCooldown - cooldown
      modifies this`cooldown, this`active, this`history, ship`energy, ship`shields, ship`torpedoes, ship`systems
      ensures Valid() && ship.Valid()
      ensures !(old(cooldown) >= MinCooldown && d.trigger < randomEventChance) ==>
                created == [] && cooldown == old(cooldown) && active == old(active) && history == old(history)
                && Snapshot(ship) == old(Snapshot(ship))
      ensures old(cooldown) >= MinCooldown && d.trigger < randomEventChance ==>
                var kind := ChosenKind(ctx, old(ship.HasDamage()), d.choice);
                cooldown == 0 && |created| > 0
                && EventCreated(kind, EventId(kind, |old(history)|), ctx, d, stormDrain,
                                ship.maxEnergy, ship.maxTorpedoes, ship.maxShields, [], active, old(history), history,
                                old(Snapshot(ship)), Snapshot(ship))
      ensures |history| <= |old(history)| + 1
      ensures old(ship.energy) >= 0 && ship.maxEnergy >= 0 ==> ship.energy >= 0
      ensures old(0 <= ship.shields <= ship.maxShields) ==> 0 <= ship.shields <= ship.maxShields
      ensures old(ship.torpedoes) >= 0 && ship.maxTorpedoes >= 0 ==> ship.torpedoes >= 0
    {
      created := [];
      if cooldown >= MinCooldown && d.trigger < randomEventChance {
        created := GenerateRandomEvent(ctx, ship, d);
        if |created| > 0 {
          cooldown := 0;
        }
      }
    }

    /** After a pass at cooldown `c + 1`, what was valid at `c` is valid again. */
    lemma CountdownKeepsValid(entries: seq<ActiveEntry>, c: int)
      requires c >= 0 && |entries| <= 1
      requires forall i :: 0 <= i < |entries| ==>
                 (entries[i].event.Storm? ==> 1 <= entries[i].event.duration <= MinCooldown - c)
                 && (entries[i].event.AnomalyEvent? ==> c == 0)
      ensures var s := Survivors(entries);
              |s| <= 1
              && forall i :: 0 <= i < |s| ==> s[i].event.Storm? && 1 <= s[i].event.duration <= MinCooldown - (c + 1)
    {
      SurvivorsCountDown(entries);
      var s := Survivors(entries);
      forall i | 0 <= i < |s|
        ensures s[i].event.Storm? && 1 <= s[i].event.duration <= MinCooldown - (c + 1)
      {
        assert s[i] in s;
        assert Earlier(s[i]) in entries;
      }
    }

    /** `_process_active_events`: each entry processed in order, then the finished ones deleted. */
    method ProcessActiveEvents(ship: Ship.Ship) returns (msgs: seq<Message>)
      modifies this`active, ship`energy
      ensures active == Survivors(old(active))
      ensures ship.energy == Drained(old(active), old(ship.energy))
      ensures msgs == TickMessages(old(active), old(ship.energy))
    {
      ghost var energy0 := ship.energy;
      var entries := active;
      var kept := [];
      msgs := [];
      for i := 0 to |entries|
        invariant kept == Survivors(entries[..i])
        invariant ship.energy == Drained(entries[..i], energy0)
        invariant msgs == TickMessages(entries[..i], energy0)
      {
        var e := entries[i];
        assert entries[..i + 1][..i] == entries[..i];
        match e.event {
          case Storm(duration, drain) =>
            var tick := StormTick(ship.energy, drain);
            msgs := msgs + [tick.1];
            ship.energy := tick.0;
            if duration - 1 <= 0 {
              msgs := msgs + [StormSubsiding];
            } else {
              kept := kept + [ActiveEntry(e.id, Storm(duration - 1, drain))];
            }
          case AnomalyEvent(a) =>
            if a == SubspaceInterference {
              msgs := msgs + [SensorsAffected];
            }
        }
      }
      assert entries[..|entries|] == entries;
      active := kept;
    }

    /** `_generate_random_event`: a kind chosen by weight, then created. */
    method GenerateRandomEvent(ctx: Context, ship: Ship.Ship, d: Draws) returns (msgs: seq<Message>)
      requires ship.Valid()
      modifies this`active, this`history, ship`energy, ship`shields, ship`torpedoes, ship`systems
      ensures ship.Valid() && |msgs| > 0
      ensures |history| <= |old(history)| + 1
      ensures |active| <= |old(active)| + 1
      ensures forall x :: x in active ==> x in old(active) || (x.event.Storm? && 2 <= x.event.duration <= 5)
                                          || x.event.AnomalyEvent?
      ensures old(ship.energy) >= 0 && ship.maxEnergy >= 0 ==> ship.energy >= 0
      ensures old(0 <= ship.shields <= ship.maxShields) ==> 0 <= ship.shields <= ship.maxShields
      ensures old(ship.torpedoes) >= 0 && ship.maxTorpedoes >= 0 ==> ship.torpedoes >= 0
      ensures var kind := ChosenKind(ctx, old(ship.HasDamage()), d.choice);
              EventCreated(kind, EventId(kind, |old(history)|), ctx, d, stormDrain,
                           ship.maxEnergy, ship.maxTorpedoes, ship.maxShields,
                           old(active), active, old(history), history, old(Snapshot(ship)), Snapshot(ship))
    {
      var kind := ChosenKind(ctx, ship.HasDamage(), d.choice);
      var id := EventId(kind, |history|);
      match kind {
        case SolarStorm => msgs := CreateSolarStorm(id, ship, d);
        case SpaceAnomaly => msgs := CreateSpaceAnomaly(id, d);
        case DistressCall => msgs := CreateDistressCall(ctx, d);
        case KlingonReinforcements => msgs := CreateReinforcements(d);
        case StarbaseEmergency => msgs := CreateStarbaseEmergency(d);
        case EquipmentMalfunction => msgs := CreateEquipmentMalfunction(ship, d);
        case Discovery => msgs := CreateDiscovery(ship, d);
        case DiplomaticEncounter => msgs := CreateDiplomaticEncounter(ctx, d);
      }
    }

    /** `_create_solar_storm_event`: a storm of 2 to 5 turns registered, and its full drain taken at once. */
    method CreateSolarStorm(id: EventId, ship: Ship.Ship, d: Draws) returns (msgs: seq<Message>)
      modifies this`active, ship`energy
      ensures var duration := RandInt(2, 5, d.duration);
              active == Insert(old(active), ActiveEntry(id, Storm(duration, stormDrain)))
              && 2 <= duration <= 5
              && msgs == [StormDetected(stormDrain, duration)]
      ensures ship.energy == MaxI(0, old(ship.energy) - stormDrain)
    {
      var duration := RandInt(2, 5, d.duration);
      active := Insert(active, ActiveEntry(id, Storm(duration, stormDrain)));
      ship.energy := MaxI(0, ship.energy - stormDrain);
      msgs := [StormDetected(stormDrain, duration)];
    }

    /** `_create_space_anomaly_event`: one of four anomalies registered. */
    method CreateSpaceAnomaly(id: EventId, d: Draws) returns (msgs: seq<Message>)
      modifies this`active
      ensures var a := Anomalies[d.anomaly % 4];
              active == Insert(old(active), ActiveEntry(id, AnomalyEvent(a))) && msgs == [AnomalyDetected(a)]
    {
      var a := Anomalies[d.anomaly % 4];
      active := Insert(active, ActiveEntry(id, AnomalyEvent(a)));
      msgs := [AnomalyDetected(a)];
    }

    /**
     * `_create_distress_call_event`: the call comes from a candidate quadrant
     * if any, else from a random one, and is recorded in the history.
     */
    method CreateDistressCall(ctx: Context, d: Draws) returns (msgs: seq<Message>)
      modifies this`history
      ensures |history| == |old(history)| + 1 && history[..|old(history)|] == old(history)
      ensures history[|history| - 1].DistressEntry? && history[|history| - 1].shipType == d.shipType % 4
      ensures ctx.stardate > 9.0 ==>
                history[|history| - 1].quadrant == (RandInt(1, 8, d.quadrantX) as real, RandInt(1, 8, d.quadrantY) as real)
      ensures msgs == [DistressReceived(d.shipType % 4, history[|history| - 1].quadrant)]
    {
      var shipType := d.shipType % 4;
      var nearby := NearbyAsWritten(ctx.stardate);
      var quadrant;
      if |nearby| > 0 {
        quadrant := nearby[d.nearby % |nearby|];
      } else {
        quadrant := (RandInt(1, 8, d.quadrantX) as real, RandInt(1, 8, d.quadrantY) as real);
      }
      history := history + [DistressEntry(shipType, quadrant, ctx.stardate)];
      msgs := [DistressReceived(shipType, quadrant)];
    }

    /** `_create_klingon_reinforcements_event`: announced only; nothing in the game changes. */
    method CreateReinforcements(d: Draws) returns (msgs: seq<Message>)
      ensures msgs == [ReinforcementsDetected(RandInt(1, 3, d.reinforcements),
                                              Coord(RandInt(1, 8, d.quadrantX), RandInt(1, 8, d.quadrantY)))]
    {
      var quadrant := Coord(RandInt(1, 8, d.quadrantX), RandInt(1, 8, d.quadrantY));
      var count := RandInt(1, 3, d.reinforcements);
      msgs := [ReinforcementsDetected(count, quadrant)];
    }

    /** `_create_starbase_emergency_event`: one of four emergencies, recorded in the history. */
    method CreateStarbaseEmergency(d: Draws) returns (msgs: seq<Message>)
      modifies this`history
      ensures history == old(history) + [EmergencyEntry(d.emergency % 4)]
      ensures msgs == [EmergencyReported(d.emergency % 4)]
    {
      history := history + [EmergencyEntry(d.emergency % 4)];
      msgs := [EmergencyReported(d.emergency % 4)];
    }

    /**
     * `_create_equipment_malfunction_event`: one of five systems gets the
     * extra damage, capped at 1.
     */
    method CreateEquipmentMalfunction(ship: Ship.Ship, d: Draws) returns (msgs: seq<Message>)
      requires ship.Valid()
      modifies ship`systems
      ensures ship.Valid()
      ensures var s := MalfunctionSystems[d.system % 5];
              ship.systems == old(ship.systems)[s := MinR(1.0, old(ship.systems)[s] + d.extraDamage)]
              && msgs == [MalfunctionReported(s)]
    {
      var s := MalfunctionSystems[d.system % 5];
      ship.systems := ship.systems[s := MinR(1.0, ship.systems[s] + d.extraDamage)];
      msgs := [MalfunctionReported(s)];
    }

    /**
     * `_create_discovery_event`: energy +300, torpedoes +2 or shields +200,
     * each capped at its maximum, or nothing for the technology upgrade.
     */
    method CreateDiscovery(ship: Ship.Ship, d: Draws) returns (msgs: seq<Message>)
      modifies ship`energy, ship`torpedoes, ship`shields
      ensures var f := Finds[d.discovery % 4];
              DiscoveryApplied(f, old(ship.energy), old(ship.torpedoes), old(ship.shields),
                               ship.maxEnergy, ship.maxTorpedoes, ship.maxShields,
                               ship.energy, ship.torpedoes, ship.shields)
              && msgs == [Discovered(f)]
    {
      var f := Finds[d.discovery % 4];
      match f {
        case AncientArtifact => ship.energy := MinI(ship.maxEnergy, ship.energy + 300);
        case SupplyCache => ship.torpedoes := MinI(ship.maxTorpedoes, ship.torpedoes + 2);
        case DerelictShip =>
        case MineralDeposit => ship.shields := MinI(ship.maxShields, ship.shields + 200);
      }
      msgs := [Discovered(f)];
    }

    /** `_create_diplomatic_encounter_event`: one of five species, recorded in the history. */
    method CreateDiplomaticEncounter(ctx: Context, d: Draws) returns (msgs: seq<Message>)
      modifies this`history
      ensures history == old(history) + [DiplomaticEntry(d.species % 5, ctx.stardate)]
      ensures msgs == [DiplomaticContact(d.species % 5)]
    {
      history := history + [DiplomaticEntry(d.species % 5, ctx.stardate)];
      msgs := [DiplomaticContact(d.species % 5)];
    }
  }

  /** The ship's resources an event can change. */
  datatype Resources = Resources(energy: int, shields: int, torpedoes: int, systems: map<Ship.System, real>)

  /** The resources of `ship` as they stand. */
  function Snapshot(ship: Ship.Ship): Resources
    reads ship
  {
    Resources(ship.energy, ship.shields, ship.torpedoes, ship.systems)
  }

  /**
   * What creating an event of `kind` with id `id` does: the active events go
   * from `a0` to `a1`, the history from `h0` to `h1` and the ship's
   * resources from `r0` to `r1`. Anything the kind does not name stays.
   */
  predicate EventCreated(kind: EventType, id: EventId, ctx: Context, d: Draws, stormDrain: int,
                         maxEnergy: int, maxTorpedoes: int, maxShields: int,
                         a0: seq<ActiveEntry>, a1: seq<ActiveEntry>, h0: seq<HistoryEntry>, h1: seq<HistoryEntry>,
                         r0: Resources, r1: Resources)
  {
    match kind
    case SolarStorm =>
      a1 == Insert(a0, ActiveEntry(id, Storm(RandInt(2, 5, d.duration), stormDrain)))
      && h1 == h0 && r1 == r0.(energy := MaxI(0, r0.energy - stormDrain))
    case SpaceAnomaly =>
      a1 == Insert(a0, ActiveEntry(id, AnomalyEvent(Anomalies[d.anomaly % 4]))) && h1 == h0 && r1 == r0
    case DistressCall =>
      a1 == a0 && r1 == r0 && |h1| == |h0| + 1 && h1[..|h0|] == h0
      && h1[|h0|].DistressEntry? && h1[|h0|].shipType == d.shipType % 4
      && (ctx.stardate > 9.0 ==> h1[|h0|].quadrant == (RandInt(1, 8, d.quadrantX) as real, RandInt(1, 8, d.quadrantY) as real))
    case KlingonReinforcements =>
      a1 == a0 && h1 == h0 && r1 == r0
    case StarbaseEmergency =>
      a1 == a0 && h1 == h0 + [EmergencyEntry(d.emergency % 4)] && r1 == r0
    case EquipmentMalfunction =>
      var s := MalfunctionSystems[d.system % 5];
      s in r0.systems && a1 == a0 && h1 == h0
      && r1 == r0.(systems := r0.systems[s := MinR(1.0, r0.systems[s] + d.extraDamage)])
    case Discovery =>
      a1 == a0 && h1 == h0 && r1.systems == r0.systems
      && DiscoveryApplied(Finds[d.discovery % 4], r0.energy, r0.torpedoes, r0.shields,
                          maxEnergy, maxTorpedoes, maxShields, r1.energy, r1.torpedoes, r1.shields)
    case DiplomaticEncounter =>
      a1 == a0 && h1 == h0 + [DiplomaticEntry(d.species % 5, ctx.stardate)] && r1 == r0
  }

  /** What a discovery does to the three resources. */
  predicate DiscoveryApplied(f: Find, energy: int, torpedoes: int, shields: int,
                             maxEnergy: int, maxTorpedoes: int, maxShields: int,
                             energy': int, torpedoes': int, shields': int)
  {
    match f
    case AncientArtifact => energy' == MinI(maxEnergy, energy + 300) && torpedoes' == torpedoes && shields' == shields
    case SupplyCache => torpedoes' == MinI(maxTorpedoes, torpedoes + 2) && energy' == energy && shields' == shields
    case DerelictShip => energy' == energy && torpedoes' == torpedoes && shields' == shields
    case MineralDeposit => shields' == MinI(maxShields, shields + 200) && energy' == energy && torpedoes' == torpedoes
  }

  /** A discovery never takes anything away and never pushes a resource past its maximum. */
  lemma DiscoveryCapped(f: Find, energy: int, torpedoes: int, shields: int,
                        maxEnergy: int, maxTorpedoes: int, maxShields: int,
                        energy': int, torpedoes': int, shields': int)
    requires DiscoveryApplied(f, energy, torpedoes, shields, maxEnergy, maxTorpedoes, maxShields,
                              energy', torpedoes', shields')
    requires energy <= maxEnergy && torpedoes <= maxTorpedoes && shields <= maxShields
    ensures energy <= energy' <= maxEnergy && torpedoes <= torpedoes' <= maxTorpedoes && shields <= shields' <= maxShields
  {
  }

  /** A malfunction with extra damage in [0.1, 0.3] keeps the damage in [0, 1], raising it by at most 0.3. */
  lemma MalfunctionBounded(current: real, extra: real)
    requires 0.0 <= current <= 1.0 && 0.1 <= extra <= 0.3
    ensures current <= MinR(1.0, current + extra) <= 1.0
    ensures MinR(1.0, current + extra) - current <= 0.3
    ensures current <= 0.9 ==> MinR(1.0, current + extra) >= current + 0.1
  {
  }
}

=== FILE: galaxy.dfy ===
/**
 * The galaxy: an 8x8 grid of quadrants, each with object counts and a sparse
 * map from sector position to object kind.
 *
 * The central invariant is that a quadrant's three count fields equal the
 * number of map entries of the matching kind (`QuadrantConsistent`). The
 * value-level operations `Removed`, `Added` and `Moved` specify the class
 * mutators and are proved to keep it.
 */
module Galaxy {
  import opened Common

  const Klingon: char := 'K'
  const Starbase: char := 'B'
  const Star: char := '*'
  const Enterprise: char := 'E'
  const Empty: char := '.'
  const MaxKlingonsPerQuadrant: int := 3

  /** QuadrantData: coordinates, the three counts and the position -> kind map. */
  datatype Quadrant = Quadrant(
    coordinates: Coord,
    klingons: int,
    starbases: int,
    stars: int,
    objects: map<Coord, char>)

  /** (klingons, starbases, stars), as the long-range scan reports a quadrant. */
  type Summary = (int, int, int)

  function EmptyQuadrant(c: Coord): Quadrant
  {
    Quadrant(c, 0, 0, 0, map[])
  }

  predicate Tracked(kind: char) { kind == Klingon || kind == Starbase || kind == Star }

  /** The count field that tracks `kind`; kinds without a count read as 0. */
  function CountField(q: Quadrant, kind: char): int
  {
    if kind == Klingon then q.klingons
    else if kind == Starbase then q.starbases
    else if kind == Star then q.stars
    else 0
  }

  /** The positions of a quadrant holding `kind`. */
  function Cells(objects: map<Coord, char>, kind: char): set<Coord>
  {
    set p | p in objects && objects[p] == kind
  }

  /** The number of map entries holding `kind`. */
  function Tally(objects: map<Coord, char>, kind: char): nat
  {
    |Cells(objects, kind)|
  }

  /** The count fields agree with the object map. */
  predicate QuadrantConsistent(q: Quadrant)
  {
    q.klingons == Tally(q.objects, Klingon)
    && q.starbases == Tally(q.objects, Starbase)
    && q.stars == Tally(q.objects, Star)
  }

  // ---------------------------------------------------------------------
  // Counting lemmas

  lemma CardRemove<T>(s: set<T>, x: T)
    requires x in s
    ensures |s - {x}| == |s| - 1
  {
    assert s == (s - {x}) + {x};
  }

  lemma {:induction false} TallyDelete(objects: map<Coord, char>, pos: Coord, kind: char)
    ensures Tally(objects - {pos}, kind)
            == Tally(objects, kind) - (if pos in objects && objects[pos] == kind then 1 else 0)
  {
    var before, after := Cells(objects, kind), Cells(objects - {pos}, kind);
    assert after == before - {pos};
    if pos in objects && objects[pos] == kind {
      CardRemove(before, pos);
    } else {
      assert after == before;
    }
  }

  lemma {:induction false} TallyInsert(objects: map<Coord, char>, pos: Coord, kind: char, k: char)
    requires pos !in objects
    ensures Tally(objects[pos := kind], k) == Tally(objects, k) + (if k == kind then 1 else 0)
  {
    var before, after := Cells(objects, k), Cells(objects[pos := kind], k);
    if k == kind {
      assert after == before + {pos};
    } else {
      assert after == before;
    }
  }

  // ---------------------------------------------------------------------
  // Value-level mutators

  /** remove_object_from_quadrant on one quadrant. */
  function Removed(q: Quadrant, pos: Coord): (r: Quadrant)
    ensures r.coordinates == q.coordinates
    ensures r.objects.Keys == q.objects.Keys - {pos}
    ensures forall p :: p in r.objects ==> r.objects[p] == q.objects[p]
    ensures forall k :: Tracked(k) ==>
      CountField(r, k) == if pos in q.objects && q.objects[pos] == k
                          then MaxI(0, CountField(q, k) - 1) else CountField(q, k)
  {
    if pos !in q.objects then q
    else
      var kind := q.objects[pos];
      var q' := q.(objects := q.objects - {pos});
      if kind == Klingon then q'.(klingons := MaxI(0, q.klingons - 1))
      else if kind == Starbase then q'.(starbases := MaxI(0, q.starbases - 1))
      else if kind == Star then q'.(stars := MaxI(0, q.stars - 1))
      else q'
  }

  /** add_object_to_quadrant on one quadrant: an invalid position changes nothing. */
  function Added(q: Quadrant, pos: Coord, kind: char): (r: Quadrant)
    ensures !InGrid(pos) ==> r == q
    ensures InGrid(pos) ==> r.coordinates == q.coordinates && r.objects == q.objects[pos := kind]
    ensures InGrid(pos) ==> forall k :: Tracked(k) ==>
      CountField(r, k) == CountField(Removed(q, pos), k) + (if k == kind then 1 else 0)
  {
    if !InGrid(pos) then q
    else
      var base := Removed(q, pos);
      var q' := base.(objects := base.objects[pos := kind]);
      if kind == Klingon then q'.(klingons := base.klingons + 1)
      else if kind == Starbase then q'.(starbases := base.starbases + 1)
      else if kind == Star then q'.(stars := base.stars + 1)
      else q'
  }

  /** move_object_in_quadrant on one quadrant: acts only from an occupied to a free cell. */
  function Moved(q: Quadrant, from: Coord, to: Coord): (r: Quadrant)
    ensures r.klingons == q.klingons && r.starbases == q.starbases && r.stars == q.stars
    ensures r.coordinates == q.coordinates
    ensures !(from in q.objects && to !in q.objects) ==> r == q
    ensures from in q.objects && to !in q.objects ==>
      from !in r.objects && to in r.objects && r.objects[to] == q.objects[from]
      && forall p :: p != from && p != to ==>
           (p in r.objects <==> p in q.objects) && (p in r.objects ==> r.objects[p] == q.objects[p])
  {
    if from in q.objects && to !in q.objects then
      q.(objects := (q.objects - {from})[to := q.objects[from]])
    else q
  }

  lemma {:induction false} RemovedConsistent(q: Quadrant, pos: Coord)
    requires QuadrantConsistent(q)
    ensures QuadrantConsistent(Removed(q, pos))
  {
    var r := Removed(q, pos);
    assert r.objects == q.objects - {pos};
    TallyDelete(q.objects, pos, Klingon);
    TallyDelete(q.objects, pos, Starbase);
    TallyDelete(q.objects, pos, Star);
    assert Tracked(Klingon) && Tracked(Starbase) && Tracked(Star);
  }

  lemma {:induction false} AddedConsistent(q: Quadrant, pos: Coord, kind: char)
    requires QuadrantConsistent(q)
    ensures QuadrantConsistent(Added(q, pos, kind))
  {
    if InGrid(pos) {
      var base := Removed(q, pos);
      RemovedConsistent(q, pos);
      assert pos !in base.objects;
      var r := Added(q, pos, kind);
      assert r.objects == base.objects[pos := kind];
      TallyInsert(base.objects, pos, kind, Klingon);
      TallyInsert(base.objects, pos, kind, Starbase);
      TallyInsert(base.objects, pos, kind, Star);
      assert Tracked(Klingon) && Tracked(Starbase) && Tracked(Star);
    }
  }

  lemma {:induction false} MovedConsistent(q: Quadrant, from: Coord, to: Coord)
    requires QuadrantConsistent(q)
    ensures QuadrantConsistent(Moved(q, from, to))
  {
    if from in q.objects && to !in q.objects {
      var kind := q.objects[from];
      var mid := q.objects - {from};
      assert to !in mid;
      assert Moved(q, from, to).objects == mid[to := kind];
      forall k | Tracked(k)
        ensures Tally(mid[to := kind], k) == Tally(q.objects, k)
      {
        TallyDelete(q.objects, from, k);
        TallyInsert(mid, to, kind, k);
      }
    }
  }

  // ---------------------------------------------------------------------
  // The grid and sums over it

  /** Every grid cell, in the order `generate` inserts quadrants (x outer, y inner). */
  function Grid(): (g: seq<Coord>)
    ensures |g| == 64
  {
    seq(64, i => Coord(i / 8 + 1, i % 8 + 1))
  }

  /** The position of a grid cell in `Grid()`. */
  function GridIndex(c: Coord): (i: int)
    ensures InGrid(c) ==> 0 <= i < 64
  {
    (c.x - 1) * 8 + (c.y - 1)
  }

  /** `c` comes before cell (x, y) in grid order. */
  predicate Before(c: Coord, x: int, y: int)
  {
    c.x < x || (c.x == x && c.y < y)
  }

  predicate Distinct(s: seq<Coord>)
  {
    forall i, j :: 0 <= i < j < |s| ==> s[i] != s[j]
  }

  lemma GridCell(i: int)
    requires 0 <= i < 64
    ensures InGrid(Grid()[i])
    ensures Grid()[i] == Coord(i / 8 + 1, i % 8 + 1)
    ensures GridIndex(Grid()[i]) == i
  {
    assert i == (i / 8) * 8 + i % 8;
  }

  lemma {:induction false} GridExact(c: Coord)
    ensures c in Grid() <==> InGrid(c)
  {
    if InGrid(c) {
      var i := (c.x - 1) * 8 + (c.y - 1);
      assert i / 8 == c.x - 1 && i % 8 == c.y - 1;
      assert Grid()[i] == c;
    }
    if c in Grid() {
      var i :| 0 <= i < 64 && Grid()[i] == c;
      GridCell(i);
    }
  }

  lemma GridInjective(i: int, j: int)
    requires 0 <= i < 64 && 0 <= j < 64 && i != j
    ensures Grid()[i] != Grid()[j]
  {
    GridCell(i);
    GridCell(j);
    assert i == (i / 8) * 8 + i % 8 && j == (j / 8) * 8 + j % 8;
  }

  lemma GridDistinct()
    ensures Distinct(Grid())
  {
    forall i, j | 0 <= i < j < 64
      ensures Grid()[i] != Grid()[j]
    {
      GridInjective(i, j);
    }
  }

  /** The 64 sector positions of a quadrant, built row by row as the source does. */
  method AllPositions() returns (cells: set<Coord>)
    ensures |cells| == 64
    ensures forall c :: c in cells <==> InGrid(c)
  {
    cells := {};
    var x := 1;
    while x <= Size
      invariant 1 <= x <= Size + 1
      invariant |cells| == (x - 1) * Size
      invariant forall c :: c in cells <==> 1 <= c.x < x && 1 <= c.y <= Size
    {
      var y := 1;
      while y <= Size
        invariant 1 <= y <= Size + 1
        invariant |cells| == (x - 1) * Size + (y - 1)
        invariant forall c :: c in cells <==> (1 <= c.x < x && 1 <= c.y <= Size) || (c.x == x && 1 <= c.y < y)
      {
        assert Coord(x, y) !in cells;
        cells := cells + {Coord(x, y)};
        y := y + 1;
      }
      x := x + 1;
    }
  }

  /** The sum of the `kind` count over the quadrants at `cs` (missing quadrants add 0). */
  function Sum(cs: seq<Coord>, m: map<Coord, Quadrant>, kind: char): int
  {
    if |cs| == 0 then 0
    else (if cs[0] in m then CountField(m[cs[0]], kind) else 0) + Sum(cs[1..], m, kind)
  }

  /** `m` and `m'` have the same keys. */
  ghost predicate SameKeys<V>(m: map<Coord, V>, m': map<Coord, V>)
  {
    forall c :: c in m <==> c in m'
  }

  lemma {:induction false} SumFrame(cs: seq<Coord>, m: map<Coord, Quadrant>, m': map<Coord, Quadrant>, kind: char)
    requires SameKeys(m, m')
    requires forall c :: c in m ==> CountField(m[c], kind) == CountField(m'[c], kind)
    ensures Sum(cs, m, kind) == Sum(cs, m', kind)
  {
    if |cs| > 0 {
      SumFrame(cs[1..], m, m', kind);
    }
  }

  lemma {:induction false} SumFrameOutside(cs: seq<Coord>, m: map<Coord, Quadrant>, c: Coord, q: Quadrant, kind: char)
    requires c in m && c !in cs
    ensures Sum(cs, m[c := q], kind) == Sum(cs, m, kind)
  {
    if |cs| > 0 {
      SumFrameOutside(cs[1..], m, c, q, kind);
    }
  }

  /** Replacing one quadrant changes the sum by exactly the change of its count. */
  lemma {:induction false} SumUpdate(cs: seq<Coord>, m: map<Coord, Quadrant>, c: Coord, q: Quadrant, kind: char)
    requires Distinct(cs) && c in m
    ensures Sum(cs, m[c := q], kind)
            == Sum(cs, m, kind) + (if c in cs then CountField(q, kind) - CountField(m[c], kind) else 0)
  {
    if |cs| > 0 {
      assert Distinct(cs[1..]);
      if cs[0] == c {
        assert c !in cs[1..];
        SumFrameOutside(cs[1..], m, c, q, kind);
      } else {
        SumUpdate(cs[1..], m, c, q, kind);
      }
    }
  }

  lemma {:induction false} SumZero(cs: seq<Coord>, m: map<Coord, Quadrant>, kind: char)
    requires forall c :: c in m ==> CountField(m[c], kind) == 0
    ensures Sum(cs, m, kind) == 0
  {
    if |cs| > 0 {
      SumZero(cs[1..], m, kind);
    }
  }

  // ---------------------------------------------------------------------
  // Object placement inside one quadrant

  /**
   * One of the three placement loops of `_generate_quadrant_objects`: `count`
   * times, if a cell is still available, take one (any one: the random choice
   * is left open) and put `kind` there.
   */
  method PlaceObjects(available: set<Coord>, objects: map<Coord, char>, count: int, kind: char)
    returns (rest: set<Coord>, placed: map<Coord, char>)
    ensures forall p :: p in rest ==> p in available
    ensures |available| - |rest| == MinI(MaxI(count, 0), |available|)
    ensures forall p :: p in placed <==> p in objects || (p in available && p !in rest)
    ensures forall p :: p in objects && !(p in available && p !in rest) ==> placed[p] == objects[p]
    ensures forall p :: p in available && p !in rest ==> placed[p] == kind
    ensures Disjoint(available, objects) ==>
      Disjoint(rest, placed)
      && Tally(placed, kind) == Tally(objects, kind) + MinI(MaxI(count, 0), |available|)
      && forall k :: k != kind ==> Tally(placed, k) == Tally(objects, k)
  {
    rest, placed := available, objects;
    var i := 0;
    while i < count
      invariant 0 <= i <= MaxI(count, 0)
      invariant rest <= available
      invariant |available| - |rest| == MinI(i, |available|)
      invariant forall p :: p in placed <==> p in objects || (p in available && p !in rest)
      invariant forall p :: p in objects && !(p in available && p !in rest) ==> placed[p] == objects[p]
      invariant forall p :: p in available && p !in rest ==> placed[p] == kind
      invariant Disjoint(available, objects) ==>
        Disjoint(rest, placed)
        && Tally(placed, kind) == Tally(objects, kind) + MinI(i, |available|)
        && forall k :: k != kind ==> Tally(placed, k) == Tally(objects, k)
    {
      if |rest| > 0 {
        var pos :| pos in rest;
        if Disjoint(available, objects) {
          assert pos !in placed;
          forall k ensures Tally(placed[pos := kind], k) == Tally(placed, k) + (if k == kind then 1 else 0) {
            TallyInsert(placed, pos, kind, k);
          }
        }
        CardRemove(rest, pos);
        rest := rest - {pos};
        placed := placed[pos := kind];
      }
      i := i + 1;
    }
  }

  /** No cell of `a` holds an object. */
  predicate Disjoint(a: set<Coord>, objects: map<Coord, char>)
  {
    forall p :: p in a ==> p !in objects
  }

  /** The three placement loops, run from an empty map over the 64 cells, lay a quadrant out. */
  lemma PlacementsLaidOut(q: Quadrant, available: set<Coord>,
                          a1: set<Coord>, o1: map<Coord, char>, a2: set<Coord>, o2: map<Coord, char>,
                          a3: set<Coord>, o3: map<Coord, char>)
    requires |q.objects| == 0 && |available| == 64
    requires forall c :: c in available ==> InGrid(c)
    requires forall p :: p in a1 ==> p in available
    requires |available| - |a1| == MinI(MaxI(q.klingons, 0), |available|)
    requires forall p :: p in o1 <==> p in q.objects || (p in available && p !in a1)
    requires Disjoint(available, q.objects) ==>
      Disjoint(a1, o1)
      && Tally(o1, Klingon) == Tally(q.objects, Klingon) + MinI(MaxI(q.klingons, 0), |available|)
      && forall k :: k != Klingon ==> Tally(o1, k) == Tally(q.objects, k)
    requires forall p :: p in a2 ==> p in a1
    requires |a1| - |a2| == MinI(MaxI(q.starbases, 0), |a1|)
    requires forall p :: p in o2 <==> p in o1 || (p in a1 && p !in a2)
    requires Disjoint(a1, o1) ==>
      Disjoint(a2, o2)
      && Tally(o2, Starbase) == Tally(o1, Starbase) + MinI(MaxI(q.starbases, 0), |a1|)
      && forall k :: k != Starbase ==> Tally(o2, k) == Tally(o1, k)
    requires forall p :: p in a3 ==> p in a2
    requires |a2| - |a3| == MinI(MaxI(q.stars, 0), |a2|)
    requires forall p :: p in o3 <==> p in o2 || (p in a2 && p !in a3)
    requires Disjoint(a2, o2) ==>
      Disjoint(a3, o3)
      && Tally(o3, Star) == Tally(o2, Star) + MinI(MaxI(q.stars, 0), |a2|)
      && forall k :: k != Star ==> Tally(o3, k) == Tally(o2, k)
    ensures LaidOut(q.(objects := o3))
  {
    var nk := MinI(MaxI(q.klingons, 0), 64);
    var nb := MinI(MaxI(q.starbases, 0), 64 - nk);
    EmptyTallies(q.objects);
    PlacedStep(available, q.objects, a1, o1, q.klingons, Klingon, 64, 0, 0, 0);
    PlacedStep(a1, o1, a2, o2, q.starbases, Starbase, 64 - nk, nk, 0, 0);
    PlacedStep(a2, o2, a3, o3, q.stars, Star, 64 - nk - nb, nk, nb, 0);
    forall p | p in o3 ensures InGrid(p) {
      assert p in available;
    }
  }

  lemma EmptyTallies(objects: map<Coord, char>)
    requires |objects| == 0
    ensures forall p :: p !in objects
    ensures Tally(objects, Klingon) == 0 && Tally(objects, Starbase) == 0 && Tally(objects, Star) == 0
  {
    assert objects.Keys == {};
    assert Cells(objects, Klingon) == {} && Cells(objects, Starbase) == {} && Cells(objects, Star) == {};
  }

  /**
   * One call of `PlaceObjects` on free cells disjoint from the objects, in
   * terms of the number of free cells and the three tallies before it.
   */
  lemma PlacedStep(a: set<Coord>, o: map<Coord, char>, a': set<Coord>, o': map<Coord, char>,
                   count: int, kind: char, free: int, tk: int, tb: int, ts: int)
    requires kind == Klingon || kind == Starbase || kind == Star
    requires |a| == free && Disjoint(a, o)
    requires Tally(o, Klingon) == tk && Tally(o, Starbase) == tb && Tally(o, Star) == ts
    requires |a| - |a'| == MinI(MaxI(count, 0), |a|)
    requires Disjoint(a, o) ==>
      Disjoint(a', o')
      && Tally(o', kind) == Tally(o, kind) + MinI(MaxI(count, 0), |a|)
      && forall k :: k != kind ==> Tally(o', k) == Tally(o, k)
    ensures Disjoint(a', o') && |a'| == free - MinI(MaxI(count, 0), free)
    ensures Tally(o', Klingon) == tk + (if kind == Klingon then MinI(MaxI(count, 0), free) else 0)
    ensures Tally(o', Starbase) == tb + (if kind == Starbase then MinI(MaxI(count, 0), free) else 0)
    ensures Tally(o', Star) == ts + (if kind == Star then MinI(MaxI(count, 0), free) else 0)
  {
  }

  /** The number of stars a quadrant may get: `max(1, int(8 * star_density))`. */
  function MaxStars(starDensity: real): (n: int)
    ensures n >= 1
  {
    MaxI(1, Trunc(8.0 * starDensity))
  }

  /**
   * The layout `_generate_quadrant_objects` produces from an empty map: all
   * objects on grid cells, Klingons first, then starbases, then stars, each
   * kind as many as its count while free cells remain.
   */
  predicate LaidOut(q: Quadrant)
  {
    var nk := MinI(MaxI(q.klingons, 0), 64);
    var nb := MinI(MaxI(q.starbases, 0), 64 - nk);
    (forall p :: p in q.objects ==> InGrid(p))
    && Tally(q.objects, Klingon) == nk
    && Tally(q.objects, Starbase) == nb
    && Tally(q.objects, Star) == MinI(MaxI(q.stars, 0), 64 - nk - nb)
  }

  /** A freshly generated quadrant at `c`: bounded counts, objects laid out to match them. */
  predicate Fresh(q: Quadrant, c: Coord, maxStars: int)
  {
    q.coordinates == c
    && 0 <= q.klingons <= MaxKlingonsPerQuadrant
    && 0 <= q.starbases <= 1
    && 1 <= q.stars <= maxStars
    && (forall p :: p in q.objects ==> InGrid(p))
    && Tally(q.objects, Klingon) == q.klingons
    && Tally(q.objects, Starbase) == q.starbases
    && Tally(q.objects, Star) == MinI(q.stars, 64 - q.klingons - q.starbases)
  }

  /** A quadrant after the three distributions of `generate`, before its layout. */
  predicate Populated(q: Quadrant, c: Coord, maxStars: int)
  {
    q.coordinates == c && |q.objects| == 0
    && 0 <= q.klingons <= MaxKlingonsPerQuadrant
    && 0 <= q.starbases <= 1
    && 1 <= q.stars <= maxStars
  }

  /**
   * The three distributions of `generate`, composed: from empty quadrants
   * they leave every quadrant `Populated`, and the galaxy-wide Klingon and
   * starbase sums equal the numbers placed.
   */
  lemma PopulateSteps(empty: map<Coord, Quadrant>, afterK: map<Coord, Quadrant>, afterB: map<Coord, Quadrant>,
                      afterS: map<Coord, Quadrant>, maxStars: int, pk: nat, pb: nat)
    requires forall c :: c in empty ==> empty[c] == EmptyQuadrant(c)
    requires Sum(Grid(), empty, Klingon) == 0 && Sum(Grid(), empty, Starbase) == 0
    requires SameKeys(empty, afterK) && SameKeys(afterK, afterB) && SameKeys(afterB, afterS)
    requires Sum(Grid(), afterK, Klingon) == Sum(Grid(), empty, Klingon) + pk
    requires forall c :: c in afterK ==>
      SameExcept(empty[c], afterK[c], Klingon)
      && empty[c].klingons <= afterK[c].klingons
      && (empty[c].klingons <= MaxKlingonsPerQuadrant ==> afterK[c].klingons <= MaxKlingonsPerQuadrant)
    requires Sum(Grid(), afterB, Starbase) == Sum(Grid(), afterK, Starbase) + pb
    requires forall c :: c in afterB ==>
      SameExcept(afterK[c], afterB[c], Starbase)
      && (afterB[c].starbases == afterK[c].starbases
          || (afterK[c].starbases == 0 && afterB[c].starbases == 1))
    requires forall c :: c in afterS ==>
      SameExcept(afterB[c], afterS[c], Star) && 1 <= afterS[c].stars <= maxStars
    ensures forall c :: c in afterS ==> Populated(afterS[c], c, maxStars)
    ensures Sum(Grid(), afterS, Klingon) == pk && Sum(Grid(), afterS, Starbase) == pb
  {
    SumFrame(Grid(), afterK, empty, Starbase);
    SumFrame(Grid(), afterS, afterK, Klingon);
    SumFrame(Grid(), afterS, afterB, Starbase);
  }

  /** The layout step of `generate`: a `Populated` quadrant, once laid out, is `Fresh`. */
  lemma FreshStep(c: Coord, p: Quadrant, q: Quadrant, maxStars: int)
    requires Populated(p, c, maxStars)
    requires SameCounts(p, q) && LaidOut(q)
    ensures Fresh(q, c, maxStars)
  {
  }

  /** Laying out the quadrant at `c` extends the laid-out prefix of the grid by `c`. */
  lemma LaidOutStep(populated: map<Coord, Quadrant>, prev: map<Coord, Quadrant>, now: map<Coord, Quadrant>,
                    c: Coord, maxStars: int)
    requires SameKeys(populated, prev) && c in prev && c in now && now == prev[c := now[c]]
    requires forall c' :: c' in prev ==> SameCounts(populated[c'], prev[c'])
    requires forall c' :: c' in prev ==>
      if Before(c', c.x, c.y) then Fresh(prev[c'], c', maxStars) else prev[c'] == populated[c']
    requires SameCounts(prev[c], now[c]) && Fresh(now[c], c, maxStars)
    ensures SameKeys(populated, now)
    ensures forall c' :: c' in now ==> SameCounts(populated[c'], now[c'])
    ensures forall c' :: c' in now ==>
      if Before(c', c.x, c.y + 1) then Fresh(now[c'], c', maxStars) else now[c'] == populated[c']
  {
    forall c' | c' in now
      ensures if Before(c', c.x, c.y + 1) then Fresh(now[c'], c', maxStars) else now[c'] == populated[c']
    {
      if c' != c {
        assert now[c'] == prev[c'];
      }
    }
  }

  /** With at most 60 stars per quadrant, every star fits, so a fresh quadrant is consistent. */
  lemma ConsistentWhenFresh(m: map<Coord, Quadrant>, maxStars: int)
    requires forall c :: c in m ==> Fresh(m[c], c, maxStars)
    ensures maxStars <= 60 ==> forall c :: c in m ==> QuadrantConsistent(m[c])
  {
  }

  /** `a` and `b` differ at most in the count field of `kind`. */
  predicate SameExcept(a: Quadrant, b: Quadrant, kind: char)
  {
    a.coordinates == b.coordinates && a.objects == b.objects
    && (kind != Klingon ==> a.klingons == b.klingons)
    && (kind != Starbase ==> a.starbases == b.starbases)
    && (kind != Star ==> a.stars == b.stars)
  }

  /** `a` and `b` differ at most in their object maps. */
  predicate SameCounts(a: Quadrant, b: Quadrant)
  {
    a.coordinates == b.coordinates
    && a.klingons == b.klingons && a.starbases == b.starbases && a.stars == b.stars
  }

  class Galaxy {
    var quadrants: map<Coord, Quadrant>
    var totalKlingons: int
    var totalStarbases: int
    var starDensity: real

    /** Only grid coordinates are ever keys. */
    ghost predicate Valid()
      reads this
    {
      forall c :: c in quadrants ==> InGrid(c)
    }

    /** After `generate`: every grid coordinate holds a quadrant. */
    ghost predicate Generated()
      reads this
    {
      forall c :: c in quadrants <==> InGrid(c)
    }

    ghost predicate AllConsistent()
      reads this
    {
      forall c :: c in quadrants ==> QuadrantConsistent(quadrants[c])
    }

    constructor (totalKlingons: int, totalStarbases: int, starDensity: real)
      ensures quadrants == map[]
      ensures this.totalKlingons == totalKlingons && this.totalStarbases == totalStarbases
      ensures this.starDensity == starDensity
    {
      this.quadrants := map[];
      this.totalKlingons := totalKlingons;
      this.totalStarbases := totalStarbases;
      this.starDensity := starDensity;
    }

    // -------------------------------------------------------------------
    // Generation

    /**
     * `_distribute_klingons`: draw a quadrant, add a Klingon if it holds
     * fewer than 3. The draws are finite, so the loop also stops when they
     * run out; it returns how many Klingons it placed and draws it used.
     */
    method DistributeKlingons(draws: seq<(nat, nat)>) returns (placed: nat, used: nat)
      requires Generated()
      modifies this`quadrants
      ensures SameKeys(old(quadrants), quadrants)
      ensures used <= |draws|
      ensures placed <= MaxI(0, totalKlingons)
      ensures placed == MaxI(0, totalKlingons) || used == |draws|
      ensures Sum(Grid(), quadrants, Klingon) == old(Sum(Grid(), quadrants, Klingon)) + placed
      ensures forall c :: c in quadrants ==>
        SameExcept(old(quadrants)[c], quadrants[c], Klingon)
        && old(quadrants)[c].klingons <= quadrants[c].klingons
        && (old(quadrants)[c].klingons <= MaxKlingonsPerQuadrant ==> quadrants[c].klingons <= MaxKlingonsPerQuadrant)
    {
      GridDistinct();
      placed, used := 0, 0;
      while placed < totalKlingons && used < |draws|
        invariant used <= |draws|
        invariant placed <= MaxI(0, totalKlingons)
        invariant SameKeys(old(quadrants), quadrants)
        invariant Sum(Grid(), quadrants, Klingon) == old(Sum(Grid(), quadrants, Klingon)) + placed
        invariant forall c :: c in quadrants ==>
          SameExcept(old(quadrants)[c], quadrants[c], Klingon)
          && old(quadrants)[c].klingons <= quadrants[c].klingons
          && (old(quadrants)[c].klingons <= MaxKlingonsPerQuadrant ==> quadrants[c].klingons <= MaxKlingonsPerQuadrant)
      {
        var c := Coord(RandInt(1, Size, draws[used].0), RandInt(1, Size, draws[used].1));
        used := used + 1;
        var q := quadrants[c];
        if q.klingons < MaxKlingonsPerQuadrant {
          var q' := q.(klingons := q.klingons + 1);
          GridExact(c);
          SumUpdate(Grid(), quadrants, c, q', Klingon);
          quadrants := quadrants[c := q'];
          placed := placed + 1;
        }
      }
    }

    /** `_distribute_starbases`: draw a quadrant, give it a starbase if it has none. */
    method DistributeStarbases(draws: seq<(nat, nat)>) returns (placed: nat, used: nat)
      requires Generated()
      modifies this`quadrants
      ensures SameKeys(old(quadrants), quadrants)
      ensures used <= |draws|
      ensures placed <= MaxI(0, totalStarbases)
      ensures placed == MaxI(0, totalStarbases) || used == |draws|
      ensures Sum(Grid(), quadrants, Starbase) == old(Sum(Grid(), quadrants, Starbase)) + placed
      ensures forall c :: c in quadrants ==>
        SameExcept(old(quadrants)[c], quadrants[c], Starbase)
        && (quadrants[c].starbases == old(quadrants)[c].starbases
            || (old(quadrants)[c].starbases == 0 && quadrants[c].starbases == 1))
    {
      GridDistinct();
      placed, used := 0, 0;
      while placed < totalStarbases && used < |draws|
        invariant used <= |draws|
        invariant placed <= MaxI(0, totalStarbases)
        invariant SameKeys(old(quadrants), quadrants)
        invariant Sum(Grid(), quadrants, Starbase) == old(Sum(Grid(), quadrants, Starbase)) + placed
        invariant forall c :: c in quadrants ==>
          SameExcept(old(quadrants)[c], quadrants[c], Starbase)
          && (quadrants[c].starbases == old(quadrants)[c].starbases
              || (old(quadrants)[c].starbases == 0 && quadrants[c].starbases == 1))
      {
        var c := Coord(RandInt(1, Size, draws[used].0), RandInt(1, Size, draws[used].1));
        used := used + 1;
        var q := quadrants[c];
        if q.starbases == 0 {
          var q' := q.(starbases := 1);
          GridExact(c);
          SumUpdate(Grid(), quadrants, c, q', Starbase);
          quadrants := quadrants[c := q'];
          placed := placed + 1;
        }
      }
    }

    /**
     * `_distribute_stars`: every quadrant, in grid order, gets
     * `randint(1, MaxStars)` stars; draw i goes to the quadrant at grid index i.
     */
    method DistributeStars(draws: seq<nat>)
      requires Generated() && |draws| == 64
      modifies this`quadrants
      ensures SameKeys(old(quadrants), quadrants)
      ensures forall c :: c in quadrants ==>
        SameExcept(old(quadrants)[c], quadrants[c], Star)
        && quadrants[c].stars == RandInt(1, MaxStars(starDensity), draws[GridIndex(c)])
    {
      var maxStars := MaxStars(starDensity);
      for x := 1 to Size + 1
        invariant SameKeys(old(quadrants), quadrants)
        invariant forall c :: c in quadrants ==>
          if c.x < x then
            SameExcept(old(quadrants)[c], quadrants[c], Star)
            && quadrants[c].stars == RandInt(1, maxStars, draws[GridIndex(c)])
          else quadrants[c] == old(quadrants)[c]
      {
        for y := 1 to Size + 1
          invariant SameKeys(old(quadrants), quadrants)
          invariant forall c :: c in quadrants ==>
            if Before(c, x, y) then
              SameExcept(old(quadrants)[c], quadrants[c], Star)
              && quadrants[c].stars == RandInt(1, maxStars, draws[GridIndex(c)])
            else quadrants[c] == old(quadrants)[c]
        {
          var c := Coord(x, y);
          var q := quadrants[c];
          quadrants := quadrants[c := q.(stars := RandInt(1, maxStars, draws[(x - 1) * Size + (y - 1)]))];
        }
      }
    }

    /**
     * `_generate_quadrant_objects`: place the quadrant's Klingons, then its
     * starbases, then its stars, each on a distinct free cell while any is left.
     */
    method GenerateQuadrantObjects(c: Coord)
      requires c in quadrants
      modifies this`quadrants
      ensures c in quadrants && quadrants == old(quadrants)[c := quadrants[c]]
      ensures SameCounts(old(quadrants)[c], quadrants[c])
      ensures forall p :: p in quadrants[c].objects ==> p in old(quadrants)[c].objects || InGrid(p)
      ensures |old(quadrants)[c].objects| == 0 ==> LaidOut(quadrants[c])
    {
      var q := quadrants[c];
      var available := AllPositions();
      var a1, o1 := PlaceObjects(available, q.objects, q.klingons, Klingon);
      var a2, o2 := PlaceObjects(a1, o1, q.starbases, Starbase);
      var a3, o3 := PlaceObjects(a2, o2, q.stars, Star);
      if |q.objects| == 0 {
        PlacementsLaidOut(q, available, a1, o1, a2, o2, a3, o3);
      }
      quadrants := quadrants[c := q.(objects := o3)];
    }

    /** The first step of `generate`: an empty quadrant at every grid coordinate. */
    method CreateEmptyQuadrants()
      requires Valid()
      modifies this`quadrants
      ensures Generated()
      ensures forall c :: c in quadrants ==> quadrants[c] == EmptyQuadrant(c)
      ensures CountKlingons() == 0 && CountStarbases() == 0
    {
      for x := 1 to Size + 1
        invariant Valid()
        invariant forall c :: InGrid(c) && c.x < x ==> c in quadrants && quadrants[c] == EmptyQuadrant(c)
      {
        for y := 1 to Size + 1
          invariant Valid()
          invariant forall c :: InGrid(c) && Before(c, x, y) ==> c in quadrants && quadrants[c] == EmptyQuadrant(c)
        {
          quadrants := quadrants[Coord(x, y) := EmptyQuadrant(Coord(x, y))];
        }
      }
      SumZero(Grid(), quadrants, Klingon);
      SumZero(Grid(), quadrants, Starbase);
    }

    /**
     * The last step of `generate`: lay out the objects of every quadrant, in
     * grid order, leaving the counts and so the galaxy-wide sums unchanged.
     */
    method LayOutQuadrants(maxStars: int)
      requires Generated()
      requires forall c :: c in quadrants ==> Populated(quadrants[c], c, maxStars)
      modifies this`quadrants
      ensures Generated()
      ensures forall c :: c in quadrants ==> Fresh(quadrants[c], c, maxStars)
      ensures maxStars <= 60 ==> AllConsistent()
      ensures CountKlingons() == old(CountKlingons()) && CountStarbases() == old(CountStarbases())
    {
      ghost var populated := quadrants;
      for x := 1 to Size + 1
        invariant SameKeys(populated, quadrants)
        invariant forall c :: c in quadrants ==> SameCounts(populated[c], quadrants[c])
        invariant forall c :: c in quadrants ==>
          if c.x < x then Fresh(quadrants[c], c, maxStars) else quadrants[c] == populated[c]
      {
        LayOutRow(x, populated, maxStars);
      }
      ConsistentWhenFresh(quadrants, maxStars);
      SumFrame(Grid(), quadrants, populated, Klingon);
      SumFrame(Grid(), quadrants, populated, Starbase);
    }

    /** One row of `LayOutQuadrants`: the quadrants (x, 1) to (x, 8), in order. */
    method LayOutRow(x: int, ghost populated: map<Coord, Quadrant>, maxStars: int)
      requires 1 <= x <= Size && SameKeys(populated, quadrants)
      requires forall c :: c in populated <==> InGrid(c)
      requires forall c :: c in populated ==> Populated(populated[c], c, maxStars)
      requires forall c :: c in quadrants ==> SameCounts(populated[c], quadrants[c])
      requires forall c :: c in quadrants ==>
        if c.x < x then Fresh(quadrants[c], c, maxStars) else quadrants[c] == populated[c]
      modifies this`quadrants
      ensures SameKeys(populated, quadrants)
      ensures forall c :: c in quadrants ==> SameCounts(populated[c], quadrants[c])
      ensures forall c :: c in quadrants ==>
        if c.x < x + 1 then Fresh(quadrants[c], c, maxStars) else quadrants[c] == populated[c]
    {
      for y := 1 to Size + 1
        invariant SameKeys(populated, quadrants)
        invariant forall c :: c in quadrants ==> SameCounts(populated[c], quadrants[c])
        invariant forall c :: c in quadrants ==>
          if Before(c, x, y) then Fresh(quadrants[c], c, maxStars) else quadrants[c] == populated[c]
      {
        ghost var prev := quadrants;
        var c := Coord(x, y);
        GenerateQuadrantObjects(c);
        FreshStep(c, prev[c], quadrants[c], maxStars);
        LaidOutStep(populated, prev, quadrants, c, maxStars);
      }
    }

    /**
     * `generate`: create the 64 empty quadrants in grid order, distribute
     * Klingons, starbases and stars, then lay out each quadrant's objects.
     * The Klingon and starbase totals are reached unless the draws run out.
     */
    method Generate(klingonDraws: seq<(nat, nat)>, starbaseDraws: seq<(nat, nat)>, starDraws: seq<nat>)
      returns (usedK: nat, usedB: nat)
      requires Valid() && |starDraws| == 64
      modifies this`quadrants
      ensures Generated()
      ensures forall c :: c in quadrants ==> Fresh(quadrants[c], c, MaxStars(starDensity))
      ensures MaxStars(starDensity) <= 60 ==> AllConsistent()
      ensures 0 <= CountKlingons() <= MaxI(0, totalKlingons)
      ensures 0 <= CountStarbases() <= MaxI(0, totalStarbases)
      ensures usedK <= |klingonDraws| && usedB <= |starbaseDraws|
      ensures CountKlingons() == MaxI(0, totalKlingons) || usedK == |klingonDraws|
      ensures CountStarbases() == MaxI(0, totalStarbases) || usedB == |starbaseDraws|
    {
      CreateEmptyQuadrants();
      var pk, pb;
      pk, pb, usedK, usedB := Populate(klingonDraws, starbaseDraws, starDraws);
      LayOutQuadrants(MaxStars(starDensity));
    }

    /** The three distributions of `generate`, applied to the empty quadrants. */
    method Populate(klingonDraws: seq<(nat, nat)>, starbaseDraws: seq<(nat, nat)>, starDraws: seq<nat>)
      returns (pk: nat, pb: nat, uk: nat, ub: nat)
      requires Generated() && |starDraws| == 64
      requires forall c :: c in quadrants ==> quadrants[c] == EmptyQuadrant(c)
      requires CountKlingons() == 0 && CountStarbases() == 0
      modifies this`quadrants
      ensures Generated()
      ensures forall c :: c in quadrants ==> Populated(quadrants[c], c, MaxStars(starDensity))
      ensures CountKlingons() == pk <= MaxI(0, totalKlingons)
      ensures CountStarbases() == pb <= MaxI(0, totalStarbases)
      ensures uk <= |klingonDraws| && (pk == MaxI(0, totalKlingons) || uk == |klingonDraws|)
      ensures ub <= |starbaseDraws| && (pb == MaxI(0, totalStarbases) || ub == |starbaseDraws|)
    {
      ghost var empty := quadrants;
      pk, uk := DistributeKlingons(klingonDraws);
      ghost var afterK := quadrants;
      pb, ub := DistributeStarbases(starbaseDraws);
      ghost var afterB := quadrants;
      DistributeStars(starDraws);
      PopulateSteps(empty, afterK, afterB, quadrants, MaxStars(starDensity), pk, pb);
    }

    /** The number of Klingons summed over all quadrants (count_klingons). */
    function CountKlingons(): int
      reads this
    {
      Sum(Grid(), quadrants, Klingon)
    }

    /** The number of starbases summed over all quadrants (count_starbases). */
    function CountStarbases(): int
      reads this
    {
      Sum(Grid(), quadrants, Starbase)
    }

    // -------------------------------------------------------------------
    // Mutators

    /** `remove_object` of a klingon in a generated galaxy: the galaxy's klingon total drops by one. */
    method RemoveKlingonAt(qc: Coord, pos: Coord)
      requires Generated() && AllConsistent() && InGrid(qc)
      requires pos in QuadrantData(qc) && QuadrantData(qc)[pos] == Klingon
      modifies this`quadrants
      ensures quadrants == old(quadrants)[qc := Removed(old(quadrants)[qc], pos)]
      ensures Generated() && AllConsistent()
      ensures CountKlingons() == old(CountKlingons()) - 1
    {
      ghost var before := quadrants;
      assert pos in Cells(before[qc].objects, Klingon);
      RemoveObject(qc, pos);
      GridDistinct();
      GridExact(qc);
      SumUpdate(Grid(), before, qc, quadrants[qc], Klingon);
    }

    /**
     * remove_object_from_quadrant: delete the entry and decrement the count of
     * its kind, never below 0. An unknown quadrant or empty cell changes nothing.
     */
    method RemoveObject(qc: Coord, pos: Coord)
      modifies this`quadrants
      ensures qc in old(quadrants) ==> quadrants == old(quadrants)[qc := Removed(old(quadrants)[qc], pos)]
      ensures qc !in old(quadrants) ==> quadrants == old(quadrants)
      ensures old(Valid()) ==> Valid()
      ensures old(AllConsistent()) ==> AllConsistent()
    {
      if qc in quadrants {
        var q := quadrants[qc];
        if pos in q.objects {
          var kind := q.objects[pos];
          q := q.(objects := q.objects - {pos});
          if kind == Klingon {
            q := q.(klingons := MaxI(0, q.klingons - 1));
          } else if kind == Starbase {
            q := q.(starbases := MaxI(0, q.starbases - 1));
          } else if kind == Star {
            q := q.(stars := MaxI(0, q.stars - 1));
          }
          if QuadrantConsistent(quadrants[qc]) {
            RemovedConsistent(quadrants[qc], pos);
          }
          quadrants := quadrants[qc := q];
        }
      }
    }

    /**
     * add_object_to_quadrant: on a known quadrant and a valid position,
     * replace any occupant (as a removal) and add `kind`, counting it if it is
     * a Klingon, starbase or star.
     */
    method AddObject(qc: Coord, pos: Coord, kind: char)
      modifies this`quadrants
      ensures qc in old(quadrants) ==> quadrants == old(quadrants)[qc := Added(old(quadrants)[qc], pos, kind)]
      ensures qc !in old(quadrants) ==> quadrants == old(quadrants)
      ensures old(Valid()) ==> Valid()
      ensures old(AllConsistent()) ==> AllConsistent()
    {
      if qc in quadrants && InGrid(pos) {
        ghost var before := quadrants[qc];
        if pos in quadrants[qc].objects {
          RemoveObject(qc, pos);
        }
        var q := quadrants[qc];
        q := q.(objects := q.objects[pos := kind]);
        if kind == Klingon {
          q := q.(klingons := q.klingons + 1);
        } else if kind == Starbase {
          q := q.(starbases := q.starbases + 1);
        } else if kind == Star {
          q := q.(stars := q.stars + 1);
        }
        if QuadrantConsistent(before) {
          AddedConsistent(before, pos, kind);
        }
        quadrants := quadrants[qc := q];
      }
    }

    /** move_object_in_quadrant: only from an occupied cell to an empty one; counts never change. */
    method MoveObject(qc: Coord, from: Coord, to: Coord)
      modifies this`quadrants
      ensures qc in old(quadrants) ==> quadrants == old(quadrants)[qc := Moved(old(quadrants)[qc], from, to)]
      ensures qc !in old(quadrants) ==> quadrants == old(quadrants)
      ensures old(Valid()) ==> Valid()
      ensures old(AllConsistent()) ==> AllConsistent()
    {
      if qc in quadrants {
        var q := quadrants[qc];
        if from in q.objects && to !in q.objects {
          var kind := q.objects[from];
          if QuadrantConsistent(q) {
            MovedConsistent(q, from, to);
          }
          q := q.(objects := (q.objects - {from})[to := kind]);
          quadrants := quadrants[qc := q];
        }
      }
    }

    // -------------------------------------------------------------------
    // Queries

    /** get_quadrant_summary: the three counts, (0, 0, 0) for an unknown quadrant. */
    function Summary(c: Coord): Summary
      reads this
    {
      if c in quadrants then (quadrants[c].klingons, quadrants[c].starbases, quadrants[c].stars)
      else (0, 0, 0)
    }

    /**
     * get_quadrant_data: a copy of the object map, empty for an unknown
     * quadrant. On a consistent quadrant its tallies are the summary.
     */
    function QuadrantData(c: Coord): (objects: map<Coord, char>)
      reads this
      ensures c !in quadrants ==> objects == map[]
      ensures (c in quadrants ==> QuadrantConsistent(quadrants[c])) ==>
        Summary(c) == (Tally(objects, Klingon), Tally(objects, Starbase), Tally(objects, Star))
    {
      if c in quadrants then quadrants[c].objects else map[]
    }

    /** get_adjacent_quadrant_data: the summary of every valid quadrant within one step, centre included. */
    function AdjacentData(center: Coord): (r: map<Coord, Summary>)
      reads this
      ensures forall c :: c in r <==> InGrid(c) && Chebyshev(center, c) <= 1
      ensures forall c :: c in r ==> r[c] == Summary(c)
    {
      map c | c in Neighbourhood(center) :: Summary(c)
    }

    /** The starbase test of find_safe_starting_quadrant: here or in an adjacent summary. */
    predicate HasNearbyStarbase(c: Coord)
      reads this
    {
      (c in quadrants && quadrants[c].starbases > 0)
      || exists n :: n in Neighbourhood(c) && Summary(n).1 > 0
    }

    predicate IsSafeStart(c: Coord)
      reads this
    {
      c in quadrants && quadrants[c].klingons == 0 && HasNearbyStarbase(c)
    }

    /** The safe quadrants among `cs`, in order. */
    function SafeQuadrants(cs: seq<Coord>): (r: seq<Coord>)
      reads this
      ensures forall c :: c in r <==> c in cs && IsSafeStart(c)
    {
      if |cs| == 0 then []
      else (if IsSafeStart(cs[0]) then [cs[0]] else []) + SafeQuadrants(cs[1..])
    }

    /** The Klingon-free quadrants among `cs`, in order. */
    function FreeQuadrants(cs: seq<Coord>): (r: seq<Coord>)
      reads this
      ensures forall c :: c in r <==> c in cs && c in quadrants && quadrants[c].klingons == 0
    {
      if |cs| == 0 then []
      else (if cs[0] in quadrants && quadrants[cs[0]].klingons == 0 then [cs[0]] else [])
           + FreeQuadrants(cs[1..])
    }

    /**
     * find_safe_starting_quadrant: a random safe quadrant if any, else a random
     * Klingon-free one, else a random coordinate. `random.choice(xs)` is
     * `xs[pick % |xs|]`.
     */
    function FindSafeStartingQuadrant(pick: nat, rx: nat, ry: nat): (r: Coord)
      reads this
      requires Valid()
      ensures InGrid(r)
      ensures (exists c :: IsSafeStart(c)) ==> IsSafeStart(r)
      ensures (exists c :: c in quadrants && quadrants[c].klingons == 0) ==>
        r in quadrants && quadrants[r].klingons == 0
    {
      GridMembership();
      var safe := SafeQuadrants(Grid());
      if |safe| > 0 then safe[pick % |safe|]
      else
        var free := FreeQuadrants(Grid());
        if |free| > 0 then free[pick % |free|]
        else Coord(RandInt(1, Size, rx), RandInt(1, Size, ry))
    }

    /** The quadrants holding a starbase, among `cs`, in order. */
    function StarbaseQuadrants(cs: seq<Coord>): (r: seq<Coord>)
      reads this
      ensures forall c :: c in r <==> c in cs && c in quadrants && quadrants[c].starbases > 0
    {
      if |cs| == 0 then []
      else (if cs[0] in quadrants && quadrants[cs[0]].starbases > 0 then [cs[0]] else [])
           + StarbaseQuadrants(cs[1..])
    }

    /**
     * get_nearest_starbase: None iff no quadrant has a starbase; otherwise a
     * starbase quadrant at minimal distance (the first one on ties, see
     * NearestIndex).
     */
    function NearestStarbase(from: Coord): (r: Option<Coord>)
      reads this
      requires Valid()
      ensures r.None? <==> forall c :: c in quadrants ==> quadrants[c].starbases <= 0
      ensures r.Some? ==>
        r.value in quadrants && quadrants[r.value].starbases > 0
        && forall c :: c in quadrants && quadrants[c].starbases > 0 ==> Dist2(from, r.value) <= Dist2(from, c)
    {
      GridMembership();
      var bases := StarbaseQuadrants(Grid());
      var k := NearestIndex(from, bases);
      if k < 0 then None else Some(bases[k])
    }
  }

  lemma GridMembership()
    ensures forall c :: c in Grid() <==> InGrid(c)
  {
    forall c ensures c in Grid() <==> InGrid(c) { GridExact(c); }
  }

  /**
   * The scan of get_nearest_starbase over `cs`: the index of the first element
   * at minimal distance from `from`, or -1 for an empty list.
   */
  function NearestIndex(from: Coord, cs: seq<Coord>): (k: int)
    ensures -1 <= k < |cs|
    ensures k == -1 <==> |cs| == 0
    ensures k >= 0 ==> forall j :: 0 <= j < |cs| ==> Dist2(from, cs[k]) <= Dist2(from, cs[j])
    ensures k >= 0 ==> forall j :: 0 <= j < k ==> Dist2(from, cs[j]) > Dist2(from, cs[k])
  {
    if |cs| == 0 then -1
    else
      var k := NearestIndex(from, cs[..|cs| - 1]);
      if k == -1 || Dist2(from, cs[|cs| - 1]) < Dist2(from, cs[k]) then |cs| - 1 else k
  }

  /** The nine (dx, dy) offsets in the order the adjacency scan visits them. */
  function Offsets(): seq<(int, int)>
  {
    [(-1, -1), (-1, 0), (-1, 1), (0, -1), (0, 0), (0, 1), (1, -1), (1, 0), (1, 1)]
  }

  function Shifted(center: Coord, offsets: seq<(int, int)>): seq<Coord>
  {
    if |offsets| == 0 then []
    else
      var c := Coord(center.x + offsets[0].0, center.y + offsets[0].1);
      (if InGrid(c) then [c] else []) + Shifted(center, offsets[1..])
  }

  lemma {:induction false} ShiftedMembers(center: Coord, offsets: seq<(int, int)>)
    ensures forall c :: c in Shifted(center, offsets) <==>
      InGrid(c) && (c.x - center.x, c.y - center.y) in offsets
  {
    if |offsets| > 0 {
      ShiftedMembers(center, offsets[1..]);
      assert offsets == [offsets[0]] + offsets[1..];
    }
  }

  /** The offsets are exactly the steps of at most one in each direction. */
  lemma OffsetsExact(dx: int, dy: int)
    ensures (dx, dy) in Offsets() <==> -1 <= dx <= 1 && -1 <= dy <= 1
  {
    if -1 <= dx <= 1 && -1 <= dy <= 1 {
      assert Offsets()[(dx + 1) * 3 + (dy + 1)] == (dx, dy);
    }
  }

  lemma NeighbourhoodMembers(center: Coord)
    ensures forall c :: c in Shifted(center, Offsets()) <==> InGrid(c) && Chebyshev(center, c) <= 1
  {
    ShiftedMembers(center, Offsets());
    forall c
      ensures c in Shifted(center, Offsets()) <==> InGrid(c) && Chebyshev(center, c) <= 1
    {
      var dx, dy := c.x - center.x, c.y - center.y;
      OffsetsExact(dx, dy);
      ChebyshevWithinOne(center, c);
      assert c in Shifted(center, Offsets()) <==> InGrid(c) && (dx, dy) in Offsets();
    }
  }

  lemma ChebyshevWithinOne(a: Coord, b: Coord)
    ensures Chebyshev(a, b) <= 1 <==> -1 <= b.x - a.x <= 1 && -1 <= b.y - a.y <= 1
  {
  }

  /** The valid quadrants within one step of `center`, centre included, in scan order. */
  function Neighbourhood(center: Coord): (r: seq<Coord>)
    ensures forall c :: c in r <==> InGrid(c) && Chebyshev(center, c) <= 1
  {
    NeighbourhoodMembers(center);
    Shifted(center, Offsets())
  }

  // ---------------------------------------------------------------------
  // The short-range display (format_quadrant_display)
  // ---------------------------------------------------------------------

  const DisplayHeader: string := "     1   2   3   4   5   6   7   8"
  const DisplayRule: string := "   +---+---+---+---+---+---+---+---+"

  /** What a sector shows: the ship, else its object, else empty space. */
  function SectorSymbol(objects: map<Coord, char>, enterprise: Coord, pos: Coord): char
  {
    if pos == enterprise then Enterprise
    else if pos in objects then objects[pos]
    else Empty
  }

  /** The row label " y |" for a one-digit row number. */
  function RowLabel(y: int): (r: string)
    requires 1 <= y <= 8
    ensures |r| == 4
  {
    [' ', ('0' as int + y) as char, ' ', '|']
  }

  /** The first `n` cells of row `y`, each " s |". */
  function RowCells(objects: map<Coord, char>, enterprise: Coord, y: int, n: nat): (r: string)
    ensures |r| == 4 * n
  {
    if n == 0 then []
    else RowCells(objects, enterprise, y, n - 1) + [' ', SectorSymbol(objects, enterprise, Coord(n, y)), ' ', '|']
  }

  /** The display down to the rule under row `n`: header, rule, then each row and its rule. */
  function DisplayLines(objects: map<Coord, char>, enterprise: Coord, n: nat): (r: string)
    requires n <= 8
    ensures |r| == 71 + 74 * n
  {
    if n == 0 then DisplayHeader + "\n" + DisplayRule
    else DisplayLines(objects, enterprise, n - 1) + "\n" + RowLabel(n) + RowCells(objects, enterprise, n, 8)
         + "\n" + DisplayRule
  }

  /** Cell `x` of a row holds the sector's symbol at offset 4x - 3. */
  lemma {:induction false} RowCellsShow(objects: map<Coord, char>, enterprise: Coord, y: int, n: nat, x: int)
    requires 1 <= x <= n
    ensures RowCells(objects, enterprise, y, n)[4 * x - 3] == SectorSymbol(objects, enterprise, Coord(x, y))
  {
    if x < n {
      RowCellsShow(objects, enterprise, y, n - 1, x);
    }
  }

  /**
   * Reading the display back: for every row already drawn, the character at
   * offset 74y + 4x - 1 is what sector (x, y) shows.
   */
  lemma {:induction false} DisplayShowsSectors(objects: map<Coord, char>, enterprise: Coord, n: nat, x: int, y: int)
    requires n <= 8 && 1 <= x <= 8 && 1 <= y <= n
    ensures DisplayLines(objects, enterprise, n)[74 * y + 4 * x - 1] == SectorSymbol(objects, enterprise, Coord(x, y))
  {
    if y < n {
      DisplayShowsSectors(objects, enterprise, n - 1, x, y);
      DisplayKeepsEarlierRows(objects, enterprise, n, 74 * y + 4 * x - 1);
    } else {
      DisplayShowsLastRow(objects, enterprise, n, x);
    }
  }

  /** Drawing row `n` leaves everything above it as it was. */
  lemma DisplayKeepsEarlierRows(objects: map<Coord, char>, enterprise: Coord, n: nat, i: int)
    requires 1 <= n <= 8 && 0 <= i < 71 + 74 * (n - 1)
    ensures DisplayLines(objects, enterprise, n)[i] == DisplayLines(objects, enterprise, n - 1)[i]
  {
  }

  /** Row `n` sits right after the display down to row n - 1 and one newline. */
  lemma DisplayShowsLastRow(objects: map<Coord, char>, enterprise: Coord, n: nat, x: int)
    requires 1 <= n <= 8 && 1 <= x <= 8
    ensures DisplayLines(objects, enterprise, n)[74 * n + 4 * x - 1] == SectorSymbol(objects, enterprise, Coord(x, n))
  {
    var prev := DisplayLines(objects, enterprise, n - 1);
    var row := RowLabel(n) + RowCells(objects, enterprise, n, 8);
    var head := prev + "\n";
    var i := |head| + 4 * x + 1;
    assert i == 74 * n + 4 * x - 1;
    RowCellsShow(objects, enterprise, n, 8, x);
    AppendedAt(head, row, "\n" + DisplayRule, i);
  }

  /** Indexing into the middle part of a three-way concatenation. */
  lemma AppendedAt(a: string, b: string, c: string, i: int)
    requires |a| <= i < |a| + |b|
    ensures (a + b + c)[i] == b[i - |a|]
  {
  }

  /** `format_quadrant_display`: the header, then each row built cell by cell, each under a rule. */
  method FormatQuadrantDisplay(objects: map<Coord, char>, enterprise: Coord) returns (text: string)
    ensures text == DisplayLines(objects, enterprise, 8)
    ensures |text| == 663
    ensures forall x, y :: 1 <= x <= 8 && 1 <= y <= 8 ==>
              text[74 * y + 4 * x - 1] == SectorSymbol(objects, enterprise, Coord(x, y))
  {
    text := DisplayHeader + "\n" + DisplayRule;
    for y := 1 to 9
      invariant text == DisplayLines(objects, enterprise, y - 1)
    {
      var row := DisplayRow(objects, enterprise, y);
      text := text + "\n" + row + "\n" + DisplayRule;
    }
    DisplayShowsAllSectors(objects, enterprise);
  }

  /** One row of `format_quadrant_display`: the label, then the eight cells left to right. */
  method DisplayRow(objects: map<Coord, char>, enterprise: Coord, y: int) returns (row: string)
    requires 1 <= y <= 8
    ensures row == RowLabel(y) + RowCells(objects, enterprise, y, 8)
  {
    row := RowLabel(y);
    for x := 1 to 9
      invariant row == RowLabel(y) + RowCells(objects, enterprise, y, x - 1)
    {
      var symbol := if Coord(x, y) == enterprise then Enterprise
                    else if Coord(x, y) in objects then objects[Coord(x, y)]
                    else Empty;
      row := row + [' ', symbol, ' ', '|'];
    }
  }

  lemma DisplayShowsAllSectors(objects: map<Coord, char>, enterprise: Coord)
    ensures forall x, y :: 1 <= x <= 8 && 1 <= y <= 8 ==>
              DisplayLines(objects, enterprise, 8)[74 * y + 4 * x - 1] == SectorSymbol(objects, enterprise, Coord(x, y))
  {
    forall x, y | 1 <= x <= 8 && 1 <= y <= 8
      ensures DisplayLines(objects, enterprise, 8)[74 * y + 4 * x - 1] == SectorSymbol(objects, enterprise, Coord(x, y))
    {
      DisplayShowsSectors(objects, enterprise, 8, x, y);
    }
  }
}

=== FILE: klingon_ai.dfy ===
/**
 * The Klingon tactical AI (`KlingonAI`). It keeps one `KlingonState` per
 * tracked unit in a map keyed by the unit's sector position, a running model
 * of the player and combat statistics. Each decision analyses the quadrant
 * (distance, allies, cover, flanking partners, escape routes), updates the
 * unit's fear and aggression and lets its personality pick an action.
 *
 * Random draws (the personality pick, the damage variance, the `choice`
 * calls) are parameters. The Euclidean distance to the player is an input
 * constrained by `IsDistance`; every other distance comparison is made on
 * squared integers, which orders cells exactly as the square roots do.
 */
module KlingonAI {
  import opened Common
  import opened Galaxy

  datatype Personality = Aggressive | Defensive | Tactical | Berserker | Commander

  /** `random.choice(list(KlingonPersonality))`, in the enumeration's order. */
  function PersonalityAt(pick: nat): Personality
  {
    [Aggressive, Defensive, Tactical, Berserker, Commander][pick % 5]
  }

  /** The defaults of `ai.klingon.base_health` and `ai.klingon.base_energy`. */
  const BaseHealth: int := 100
  const BaseEnergy: int := 200

  /** `player_behavior['aggression_level']`: initialised to 0.5 and never updated. */
  const PlayerAggression: real := 0.5

  datatype KlingonState = KlingonState(
    position: Coord,
    health: int,
    maxHealth: int,
    energy: int,
    personality: Personality,
    aggression: real,
    fear: real,
    lastAction: string,
    turnsSinceDamage: int,
    playerHitAccuracy: real)

  predicate IsDamaged(k: KlingonState) { k.health < k.maxHealth }

  /** `damage_percentage`: the fraction of the hull lost. */
  function DamageFraction(k: KlingonState): (f: real)
    requires k.maxHealth > 0
    ensures 0 <= k.health <= k.maxHealth ==> 0.0 <= f <= 1.0
    ensures f == 0.0 <==> !IsDamaged(k) && k.health == k.maxHealth
    ensures f > 0.0 <==> IsDamaged(k)
  {
    RatioFacts(k.health as real, k.maxHealth as real);
    1.0 - k.health as real / k.maxHealth as real
  }

  /** How a ratio with a positive denominator compares with 0 and 1. */
  lemma RatioFacts(h: real, m: real)
    requires m > 0.0
    ensures h / m == 1.0 <==> h == m
    ensures h / m < 1.0 <==> h < m
    ensures 0.0 <= h <= m ==> 0.0 <= h / m <= 1.0
  {
    var q := h / m;
    assert q * m == h;
    assert m - h == (1.0 - q) * m;
    if q < 1.0 {
      PositiveProduct(1.0 - q, m);
    } else if q > 1.0 {
      PositiveProduct(q - 1.0, m);
    }
    if q < 0.0 {
      PositiveProduct(-q, m);
    }
  }

  lemma PositiveProduct(a: real, b: real)
    requires a > 0.0 && b > 0.0
    ensures a * b > 0.0
  {
  }

  /** A tracked unit: a live hull no larger than its maximum, fear in [0, 1]. */
  predicate StateValid(k: KlingonState)
  {
    0 < k.health <= k.maxHealth && 0.0 <= k.fear <= 1.0
  }

  // ---------------------------------------------------------------------
  // Spawning (_initialize_klingon_state)
  // ---------------------------------------------------------------------

  function HealthModifier(p: Personality): real
  {
    match p
    case Berserker => 0.8
    case Defensive => 1.2
    case Commander => 1.1
    case _ => 1.0
  }

  function AggressionFor(p: Personality, baseAggression: real): real
  {
    match p
    case Berserker => 0.9
    case Defensive => 0.4
    case Commander => 0.6
    case Tactical => 0.7
    case Aggressive => baseAggression
  }

  /** The state of a freshly spawned unit of personality `p` at `pos`. */
  function Spawned(pos: Coord, p: Personality, baseAggression: real): (k: KlingonState)
    ensures k.position == pos && k.personality == p
    ensures k.health == k.maxHealth && StateValid(k) && !IsDamaged(k)
    ensures k.maxHealth == (match p
                            case Berserker => 80
                            case Defensive => 120
                            case Commander => 110
                            case _ => 100)
    ensures k.energy == BaseEnergy && k.fear == 0.0 && k.lastAction == "spawn"
    ensures k.turnsSinceDamage == 0 && k.playerHitAccuracy == 0.5
    ensures k.aggression == (if p == Aggressive then baseAggression else AggressionFor(p, 0.0))
  {
    var health := Trunc(BaseHealth as real * HealthModifier(p));
    KlingonState(pos, health, health, BaseEnergy, p, AggressionFor(p, baseAggression),
                 0.0, "spawn", 0, 0.5)
  }

  // ---------------------------------------------------------------------
  // The player as the AI sees it
  // ---------------------------------------------------------------------

  /** The fields of the player's ship the AI reads. */
  datatype PlayerView = PlayerView(energy: int, shields: int, maxShields: int, torpedoes: int)

  predicate PlayerWellFormed(v: PlayerView)
  {
    v.energy >= 0 && 0 <= v.shields <= v.maxShields && v.torpedoes >= 0
  }

  /** `shields / max_shields`, or 0 when the maximum is not positive. */
  function ShieldRatio(v: PlayerView): (r: real)
    ensures v.maxShields <= 0 ==> r == 0.0
    ensures PlayerWellFormed(v) ==> 0.0 <= r <= 1.0
    ensures v.maxShields > 0 && v.shields == v.maxShields ==> r == 1.0
  {
    if v.maxShields > 0 then v.shields as real / v.maxShields as real else 0.0
  }

  /**
   * `_assess_player_threat`: energy, shields and torpedoes, each saturating
   * at 3000, 1500 and 10, weighted 0.4/0.3/0.3; after more than five
   * encounters the learned aggression (0.5) scales it by 0.75.
   */
  function PlayerThreat(v: PlayerView, encounters: int): (t: real)
    ensures t <= 1.0
    ensures v.energy >= 0 && v.shields >= 0 && v.torpedoes >= 0 ==> t >= 0.0
    ensures encounters > 5 ==> t <= 0.75
    ensures encounters <= 5 && v.energy >= 3000 && v.shields >= 1500 && v.torpedoes >= 10 ==> t == 1.0
  {
    var energyThreat := MinR(1.0, v.energy as real / 3000.0);
    var shieldThreat := MinR(1.0, v.shields as real / 1500.0);
    var weaponThreat := MinR(1.0, v.torpedoes as real / 10.0);
    var total := energyThreat * 0.4 + shieldThreat * 0.3 + weaponThreat * 0.3;
    var adjusted := if encounters > 5 then total * (0.5 + PlayerAggression * 0.5) else total;
    MinR(1.0, adjusted)
  }

  /**
   * `_calculate_optimal_combat_range`: 3, one farther against strong shields
   * (ratio above 0.7), one closer against weak ones (below 0.3).
   */
  function OptimalRange(v: PlayerView): (r: real)
    ensures r == 4.0 <==> ShieldRatio(v) > 0.7
    ensures r == 2.0 <==> ShieldRatio(v) < 0.3
    ensures r == 3.0 <==> 0.3 <= ShieldRatio(v) <= 0.7
    ensures 1.0 <= r <= 6.0
  {
    var ratio := ShieldRatio(v);
    var range := if ratio > 0.7 then 4.0 else if ratio < 0.3 then 2.0 else 3.0;
    MaxR(1.0, MinR(6.0, range))
  }

  // ---------------------------------------------------------------------
  // Line of sight (_check_for_cover)
  // ---------------------------------------------------------------------

  /**
   * The i-th of the `steps` cells sampled on the line from `from` to `to`:
   * each coordinate advances by `int(delta * i / steps)`, truncated toward zero.
   */
  function Sample(from: Coord, to: Coord, i: int): Coord
    requires Chebyshev(from, to) > 0
  {
    var steps := Chebyshev(from, to);
    Coord(from.x + TruncDiv((to.x - from.x) * i, steps),
          from.y + TruncDiv((to.y - from.y) * i, steps))
  }

  predicate StarAt(objects: map<Coord, char>, c: Coord)
  {
    c in objects && objects[c] == Star
  }

  /** A star lies on one of the sampled cells strictly between the two ships. */
  predicate HasCover(from: Coord, to: Coord, objects: map<Coord, char>)
  {
    Chebyshev(from, to) > 1
    && exists i :: 1 <= i < Chebyshev(from, to) && StarAt(objects, Sample(from, to, i))
  }

  /**
   * The sampled line starts at `from` and ends at `to`, and its i-th cell is
   * exactly i king moves from `from`: the samples strictly between are the
   * intermediate cells, in order.
   */
  lemma SampleLine(from: Coord, to: Coord, i: int)
    requires 0 <= i <= Chebyshev(from, to) && Chebyshev(from, to) > 0
    ensures Sample(from, to, 0) == from && Sample(from, to, Chebyshev(from, to)) == to
    ensures Chebyshev(from, Sample(from, to, i)) == i
  {
    var steps := Chebyshev(from, to);
    var dx, dy := to.x - from.x, to.y - from.y;
    TruncDivExact(dx, steps);
    TruncDivExact(dy, steps);
    ScaledStep(dx, i, steps);
    ScaledStep(dy, i, steps);
  }

  /** Scaling a delta by all of its steps gives it back. */
  lemma TruncDivExact(delta: int, steps: int)
    requires steps > 0
    ensures TruncDiv(delta * steps, steps) == delta
  {
    if delta >= 0 {
      MulLe(0, delta, steps);
      DivOfMultiple(delta, steps);
    } else {
      MulLe(0, -delta, steps);
      assert (-delta) * steps == -(delta * steps);
      DivOfMultiple(-delta, steps);
    }
  }

  /**
   * Moving `i` of `steps` steps along a delta no longer than `steps` covers
   * at most `i`, and exactly `i` along a delta of full length.
   */
  lemma ScaledStep(delta: int, i: int, steps: int)
    requires 0 <= i <= steps && Abs(delta) <= steps && steps > 0
    ensures Abs(TruncDiv(delta * i, steps)) <= i
    ensures Abs(delta) == steps ==> Abs(TruncDiv(delta * i, steps)) == i
  {
    var a := Abs(delta);
    if delta >= 0 {
      MulLe(0, delta, i);
    } else {
      MulLe(0, -delta, i);
      assert (-delta) * i == -(delta * i);
    }
    assert Abs(delta * i) == a * i;
    MulLe(a, steps, i);
    DivBound(a * i, steps, i);
    if a == steps {
      DivOfMultiple(i, steps);
    }
  }

  lemma MulLe(a: int, b: int, c: int)
    requires 0 <= a <= b && c >= 0
    ensures a * c <= b * c
  {
  }

  lemma DivBound(x: int, b: int, i: int)
    requires b > 0 && 0 <= x <= b * i
    ensures x / b <= i
  {
  }

  lemma DivOfMultiple(a: int, b: int)
    requires b > 0
    ensures (a * b) / b == a
  {
    var q, r := (a * b) / b, (a * b) % b;
    assert a * b == q * b + r && 0 <= r < b;
    if q > a {
      MulLe(1, q - a, b);
    } else if q < a {
      MulLe(1, a - q, b);
    }
  }

  /** `_check_for_cover`. */
  method CheckForCover(from: Coord, to: Coord, objects: map<Coord, char>) returns (cover: bool)
    ensures cover == HasCover(from, to, objects)
  {
    var dx := to.x - from.x;
    var dy := to.y - from.y;
    var steps := MaxI(Abs(dx), Abs(dy));
    if steps <= 1 {
      return false;
    }
    for i := 1 to steps
      invariant forall j :: 1 <= j < i ==> !StarAt(objects, Sample(from, to, j))
    {
      var check := Coord(from.x + TruncDiv(dx * i, steps), from.y + TruncDiv(dy * i, steps));
      assert check == Sample(from, to, i);
      if check in objects && objects[check] == Star {
        return true;
      }
    }
    return false;
  }

  // ---------------------------------------------------------------------
  // Flanking (_are_flanking_positions, _check_flanking_opportunity)
  // ---------------------------------------------------------------------

  /** The two positions lie on opposite sides of the target: their offsets have a negative dot product. */
  predicate AreFlanking(a: Coord, b: Coord, target: Coord)
  {
    (a.x - target.x) * (b.x - target.x) + (a.y - target.y) * (b.y - target.y) < 0
  }

  /** Flanking is symmetric, and needs two distinct positions both away from the target. */
  lemma FlankingSymmetric(a: Coord, b: Coord, target: Coord)
    ensures AreFlanking(a, b, target) <==> AreFlanking(b, a, target)
    ensures AreFlanking(a, b, target) ==> a != b && a != target && b != target
  {
    if a == b {
      var u, w := a.x - target.x, a.y - target.y;
      assert u * u >= 0 && w * w >= 0;
    }
  }

  /** Another Klingon in the quadrant flanks the target together with the unit at `k`. */
  predicate FlankingOpportunity(k: Coord, target: Coord, objects: map<Coord, char>)
  {
    exists ally :: ally in objects && objects[ally] == Klingon && ally != k && AreFlanking(k, ally, target)
  }

  /** `_check_flanking_opportunity`; the order the allies are tried in does not affect the answer. */
  method CheckFlankingOpportunity(k: Coord, target: Coord, objects: map<Coord, char>) returns (r: bool)
    ensures r == FlankingOpportunity(k, target, objects)
  {
    var allies := set p | p in objects && objects[p] == Klingon && p != k;
    assert forall p :: p in objects && objects[p] == Klingon && p != k ==> p in allies;
    if allies == {} {
      return false;
    }
    var rest := allies;
    while rest != {}
      invariant rest <= allies
      invariant forall p :: p in allies && p !in rest ==> !AreFlanking(k, p, target)
      decreases |rest|
    {
      var ally :| ally in rest;
      if AreFlanking(k, ally, target) {
        return true;
      }
      rest := rest - {ally};
    }
    return false;
  }

  // ---------------------------------------------------------------------
  // Escape routes (_find_escape_routes)
  // ---------------------------------------------------------------------

  /** The cell at offset (dx, dy) from `k`. */
  function Offset(k: Coord, dx: int, dy: int): Coord
  {
    Coord(k.x + dx, k.y + dy)
  }

  /** A cell the unit at `k` can flee to from `player`: adjacent, in the grid, empty and strictly farther away. */
  predicate IsEscapeRoute(k: Coord, player: Coord, objects: map<Coord, char>, c: Coord)
  {
    c != k && Abs(c.x - k.x) <= 1 && Abs(c.y - k.y) <= 1 && Keeps(k, player, objects, c)
  }

  /** The test each scanned neighbour must pass: in the grid, empty, strictly farther from the player. */
  predicate Keeps(k: Coord, player: Coord, objects: map<Coord, char>, c: Coord)
  {
    InGrid(c) && c !in objects && Dist2(c, player) > Dist2(k, player)
  }

  /**
   * The cells of row `dx` of the 3x3 scan around `k` with dy below `dyEnd`
   * that pass `keep`; the centre is skipped.
   */
  function RowScan(k: Coord, keep: Coord -> bool, dx: int, dyEnd: int): seq<Coord>
    requires -1 <= dyEnd <= 2
    decreases dyEnd + 1
  {
    if dyEnd == -1 then []
    else
      var c := Offset(k, dx, dyEnd - 1);
      RowScan(k, keep, dx, dyEnd - 1) + (if !(dx == 0 && dyEnd - 1 == 0) && keep(c) then [c] else [])
  }

  /** The cells kept in the rows with dx below `dxEnd`, row by row. */
  function GridScan(k: Coord, keep: Coord -> bool, dxEnd: int): seq<Coord>
    requires -1 <= dxEnd <= 2
    decreases dxEnd + 1
  {
    if dxEnd == -1 then []
    else GridScan(k, keep, dxEnd - 1) + RowScan(k, keep, dxEnd - 1, 2)
  }

  /** The routes `_find_escape_routes` returns, in its dx-major scan order. */
  function EscapeRoutes(k: Coord, player: Coord, objects: map<Coord, char>): seq<Coord>
  {
    GridScan(k, EscapeTest(k, player, objects), 2)
  }

  lemma DistinctConcat(a: seq<Coord>, b: seq<Coord>)
    requires Distinct(a) && Distinct(b)
    requires forall c :: c in a ==> c !in b
    ensures Distinct(a + b)
  {
    forall i, j | 0 <= i < j < |a + b|
      ensures (a + b)[i] != (a + b)[j]
    {
      if i < |a| && j >= |a| {
        assert (a + b)[i] in a && (a + b)[j] == b[j - |a|];
      }
    }
  }

  lemma {:induction false} RowScanMembers(k: Coord, keep: Coord -> bool, dx: int, dyEnd: int)
    requires -1 <= dyEnd <= 2
    ensures forall c :: c in RowScan(k, keep, dx, dyEnd) <==>
              c.x == k.x + dx && k.y - 1 <= c.y < k.y + dyEnd && c != k && keep(c)
  {
    if dyEnd > -1 {
      RowScanMembers(k, keep, dx, dyEnd - 1);
    }
  }

  lemma {:induction false} RowScanShape(k: Coord, keep: Coord -> bool, dx: int, dyEnd: int)
    requires -1 <= dyEnd <= 2
    ensures Distinct(RowScan(k, keep, dx, dyEnd))
    ensures |RowScan(k, keep, dx, dyEnd)| <= dyEnd + 1 - (if dx == 0 && dyEnd >= 1 then 1 else 0)
  {
    if dyEnd > -1 {
      RowScanShape(k, keep, dx, dyEnd - 1);
      RowScanMembers(k, keep, dx, dyEnd - 1);
      var prev := RowScan(k, keep, dx, dyEnd - 1);
      var next := RowScan(k, keep, dx, dyEnd)[|prev|..];
      assert RowScan(k, keep, dx, dyEnd) == prev + next;
      DistinctConcat(prev, next);
    }
  }

  lemma {:induction false} GridScanMembers(k: Coord, keep: Coord -> bool, dxEnd: int)
    requires -1 <= dxEnd <= 2
    ensures forall c :: c in GridScan(k, keep, dxEnd) <==>
              k.x - 1 <= c.x < k.x + dxEnd && k.y - 1 <= c.y <= k.y + 1 && c != k && keep(c)
  {
    if dxEnd > -1 {
      var prev := GridScan(k, keep, dxEnd - 1);
      var row := RowScan(k, keep, dxEnd - 1, 2);
      GridScanMembers(k, keep, dxEnd - 1);
      RowScanMembers(k, keep, dxEnd - 1, 2);
      forall c
        ensures c in GridScan(k, keep, dxEnd) <==>
                k.x - 1 <= c.x < k.x + dxEnd && k.y - 1 <= c.y <= k.y + 1 && c != k && keep(c)
      {
        assert GridScan(k, keep, dxEnd) == prev + row;
        assert c in prev + row <==> c in prev || c in row;
      }
    }
  }

  lemma {:induction false} GridScanShape(k: Coord, keep: Coord -> bool, dxEnd: int)
    requires -1 <= dxEnd <= 2
    ensures Distinct(GridScan(k, keep, dxEnd))
    ensures |GridScan(k, keep, dxEnd)| <= 3 * (dxEnd + 1) - (if dxEnd >= 1 then 1 else 0)
  {
    if dxEnd > -1 {
      var prev := GridScan(k, keep, dxEnd - 1);
      var row := RowScan(k, keep, dxEnd - 1, 2);
      GridScanShape(k, keep, dxEnd - 1);
      RowScanShape(k, keep, dxEnd - 1, 2);
      assert forall c :: c in prev ==> c !in row by {
        GridScanMembers(k, keep, dxEnd - 1);
        RowScanMembers(k, keep, dxEnd - 1, 2);
      }
      DistinctConcat(prev, row);
      assert GridScan(k, keep, dxEnd) == prev + row;
    }
  }

  /**
   * Every returned route is an adjacent, in-bounds, unoccupied cell strictly
   * farther from the player, every such cell is returned, none twice, and
   * there are at most 8.
   */
  lemma EscapeRoutesSound(k: Coord, player: Coord, objects: map<Coord, char>)
    ensures forall c :: c in EscapeRoutes(k, player, objects) <==> IsEscapeRoute(k, player, objects, c)
    ensures Distinct(EscapeRoutes(k, player, objects))
    ensures |EscapeRoutes(k, player, objects)| <= 8
  {
    GridScanMembers(k, EscapeTest(k, player, objects), 2);
    GridScanShape(k, EscapeTest(k, player, objects), 2);
  }

  /** The neighbour test of `_find_escape_routes` as a function value. */
  function EscapeTest(k: Coord, player: Coord, objects: map<Coord, char>): Coord -> bool
  {
    c => Keeps(k, player, objects, c)
  }

  /** `_find_escape_routes`: the outer loop over dx. */
  method FindEscapeRoutes(k: Coord, player: Coord, objects: map<Coord, char>) returns (routes: seq<Coord>)
    ensures routes == EscapeRoutes(k, player, objects)
  {
    routes := [];
    for dx := -1 to 2
      invariant routes == GridScan(k, EscapeTest(k, player, objects), dx)
    {
      var row := ScanRow(k, player, objects, dx);
      routes := routes + row;
    }
  }

  /** The inner loop over dy of `_find_escape_routes`, for one dx. */
  method ScanRow(k: Coord, player: Coord, objects: map<Coord, char>, dx: int) returns (row: seq<Coord>)
    ensures row == RowScan(k, EscapeTest(k, player, objects), dx, 2)
  {
    row := [];
    for dy := -1 to 2
      invariant row == RowScan(k, EscapeTest(k, player, objects), dx, dy)
    {
      if dx == 0 && dy == 0 {
        continue;
      }
      var cell := Coord(k.x + dx, k.y + dy);
      if 1 <= cell.x <= Size && 1 <= cell.y <= Size && cell !in objects {
        if Dist2(cell, player) > Dist2(k, player) {
          row := row + [cell];
        }
      }
    }
  }

  // ---------------------------------------------------------------------
  // The tactical picture (_analyze_tactical_situation)
  // ---------------------------------------------------------------------

  datatype Analysis = Analysis(
    distance: real,
    allies: int,
    starbases: int,
    threat: real,
    cover: bool,
    flanking: bool,
    escapeRoutes: seq<Coord>,
    optimalRange: real,
    shieldStatus: real)

  /** What the analysis of the unit at `k` facing the player at `player` finds. */
  function Analyze(k: Coord, player: Coord, v: PlayerView, objects: map<Coord, char>,
                   distance: real, encounters: int): Analysis
  {
    Analysis(distance,
             Tally(objects, Klingon) - 1,
             Tally(objects, Starbase),
             PlayerThreat(v, encounters),
             HasCover(k, player, objects),
             FlankingOpportunity(k, player, objects),
             EscapeRoutes(k, player, objects),
             OptimalRange(v),
             ShieldRatio(v))
  }

  // ---------------------------------------------------------------------
  // Emotions (_update_emotional_state)
  // ---------------------------------------------------------------------

  /**
   * Fear grows with damage, the player's threat and isolation; aggression
   * gains personality bonuses and loses 0.3 per unit of fear, never below 0.1.
   */
  function Emotions(k: KlingonState, a: Analysis): (r: KlingonState)
    requires k.maxHealth > 0
    ensures r == k.(fear := r.fear, aggression := r.aggression)
    ensures r.fear <= 1.0 && r.aggression >= 0.1
    ensures 0 <= k.health <= k.maxHealth && a.threat >= 0.0 ==> 0.0 <= r.fear
    ensures 0 <= k.health <= k.maxHealth && a.threat >= 0.0 && a.allies == 0 ==> 0.2 <= r.fear
  {
    var fear := MinR(1.0, DamageFraction(k) * 0.5 + a.threat * 0.3 + (if a.allies == 0 then 0.2 else 0.0));
    var boosted := k.aggression
      + (if k.personality == Berserker && IsDamaged(k) then 0.2 else 0.0)
      + (if k.personality == Commander && a.allies > 0 then 0.1 else 0.0)
      + (if k.personality == Commander && a.flanking then 0.15 else 0.0);
    k.(fear := fear, aggression := MaxR(0.1, boosted - fear * 0.3))
  }

  /**
   * Only berserkers and commanders can gain aggression: for the other
   * personalities each update can only lower it (to no less than 0.1), and
   * a berserker's bonus needs damage.
   */
  lemma AggressionNeverRises(k: KlingonState, a: Analysis)
    requires k.maxHealth > 0 && 0 <= k.health <= k.maxHealth && a.threat >= 0.0
    ensures k.personality !in {Berserker, Commander} ==> Emotions(k, a).aggression <= MaxR(0.1, k.aggression)
    ensures k.personality == Berserker ==> Emotions(k, a).aggression <= MaxR(0.1, k.aggression + 0.2)
    ensures k.personality == Berserker && !IsDamaged(k) ==> Emotions(k, a).aggression <= MaxR(0.1, k.aggression)
  {
  }

  // ---------------------------------------------------------------------
  // Actions and strategies
  // ---------------------------------------------------------------------

  datatype Action =
    | Attack(power: int, damage: int, coordinated: bool, flanking: bool)
    | Move(target: Coord, away: bool)
    | Retreat(target: Coord)

  /** The `action` string recorded as the unit's last action. */
  function ActionName(a: Action): string
  {
    match a
    case Attack(_, _, _, _) => "attack"
    case Move(_, _) => "move"
    case Retreat(_) => "retreat"
  }

  /** The random draws behind one decision. */
  datatype Draws = Draws(personality: nat, variance: real, route: nat, dx: nat, dy: nat)

  /** `random.choice([-1, 0, 1])`. */
  function Step(d: nat): int { d % 3 - 1 }

  /** A random adjacent (or the same) cell, clamped into 1..8 on both axes. */
  function RandomAdjacent(pos: Coord, dx: nat, dy: nat): (c: Coord)
    ensures InGrid(c)
    ensures InGrid(pos) ==> Abs(c.x - pos.x) <= 1 && Abs(c.y - pos.y) <= 1
  {
    Coord(MaxI(1, MinI(Size, pos.x + Step(dx))), MaxI(1, MinI(Size, pos.y + Step(dy))))
  }

  /**
   * `_calculate_attack_damage`: a tenth of the power, reduced by 10% per
   * sector beyond the first (to no less than half), times the variance, at
   * least 1.
   */
  function AttackDamage(power: int, distance: real, variance: real): (r: int)
    ensures r >= 1
    ensures power < 10 && variance >= 0.0 ==> r == 1
  {
    var base := power / 10;
    var modifier := MaxR(0.5, 1.0 - (distance - 1.0) * 0.1);
    ScaledBounds(base as real, modifier, variance);
    MaxI(1, Trunc(Scaled(base as real, modifier, variance)))
  }

  /** From one sector out, the damage is at most 1.2 times a tenth of the power (or 1). */
  lemma AttackDamageAtMost(power: int, distance: real, variance: real)
    requires power >= 0 && distance >= 1.0 && 0.0 <= variance <= 1.2
    ensures AttackDamage(power, distance, variance) as real <= MaxR(1.0, (power / 10) as real * 1.2)
  {
    var modifier := MaxR(0.5, 1.0 - (distance - 1.0) * 0.1);
    ScaledBounds((power / 10) as real, modifier, variance);
  }

  /** The base damage times its distance and variance factors. */
  function Scaled(b: real, m: real, v: real): real
  {
    b * m * v
  }

  /** The sign of the scaled damage, and the bound 1.2 * b for factors in [0, 1] and [0, 1.2]. */
  lemma ScaledBounds(b: real, m: real, v: real)
    ensures b >= 0.0 && m >= 0.0 && v >= 0.0 ==> Scaled(b, m, v) >= 0.0
    ensures b <= 0.0 && m >= 0.0 && v >= 0.0 ==> Scaled(b, m, v) <= 0.0
    ensures b >= 0.0 && 0.0 <= m <= 1.0 && 0.0 <= v <= 1.2 ==> Scaled(b, m, v) <= b * 1.2
  {
    if b >= 0.0 && m >= 0.0 && v >= 0.0 {
      ScaledNonNegative(b, m, v);
    }
    if b <= 0.0 && m >= 0.0 && v >= 0.0 {
      ScaledNonPositive(b, m, v);
    }
    if b >= 0.0 && 0.0 <= m <= 1.0 && 0.0 <= v <= 1.2 {
      ScaledAtMost(b, m, v);
    }
  }

  lemma ScaledNonNegative(b: real, m: real, v: real)
    requires b >= 0.0 && m >= 0.0 && v >= 0.0
    ensures Scaled(b, m, v) >= 0.0
  {
    NonNegativeProduct(b, m);
    NonNegativeProduct(b * m, v);
  }

  lemma ScaledNonPositive(b: real, m: real, v: real)
    requires b <= 0.0 && m >= 0.0 && v >= 0.0
    ensures Scaled(b, m, v) <= 0.0
  {
    NonPositiveProduct(b, m);
    NonPositiveProduct(b * m, v);
  }

  lemma ScaledAtMost(b: real, m: real, v: real)
    requires b >= 0.0 && 0.0 <= m <= 1.0 && 0.0 <= v <= 1.2
    ensures Scaled(b, m, v) <= b * 1.2
  {
    var bm := b * m;
    ProductBelow(m, 1.0, b);
    assert bm <= b;
    ProductBelow(bm, b, v);
    ProductBelow(v, 1.2, b);
  }

  lemma NonNegativeProduct(x: real, y: real)
    requires x >= 0.0 && y >= 0.0
    ensures x * y >= 0.0
  {
  }

  lemma NonPositiveProduct(x: real, y: real)
    requires x <= 0.0 && y >= 0.0
    ensures x * y <= 0.0
  {
  }

  /** Multiplying by a non-negative factor keeps the order. */
  lemma ProductBelow(x: real, y: real, c: real)
    requires x <= y && c >= 0.0
    ensures x * c <= y * c && c * x <= c * y
  {
  }

  /** An attack of `power`, its damage drawn once. */
  function Strike(power: int, distance: real, d: Draws): Action
  {
    Attack(power, AttackDamage(power, distance, d.variance), false, false)
  }

  /** `_find_best_retreat_direction`: one of the escape routes, or a clamped random step when there is none. */
  function RetreatDirection(pos: Coord, routes: seq<Coord>, d: Draws): (c: Coord)
    ensures |routes| > 0 ==> c in routes
    ensures |routes| == 0 ==> InGrid(c) && (InGrid(pos) ==> Abs(c.x - pos.x) <= 1 && Abs(c.y - pos.y) <= 1)
  {
    if |routes| > 0 then routes[d.route % |routes|] else RandomAdjacent(pos, d.dx, d.dy)
  }

  /** What `random.choice` does when handed the route count instead of the list. */
  datatype Raised<T> = Returned(value: T) | TypeError

  /**
   * `_find_best_retreat_direction` as written: the analysis holds the number
   * of escape routes, and `random.choice` on a non-zero number raises.
   */
  function RetreatAsWritten(pos: Coord, routeCount: int, d: Draws): (r: Raised<Coord>)
    ensures r.TypeError? <==> routeCount != 0
    ensures r.Returned? ==> r.value == RandomAdjacent(pos, d.dx, d.dy)
  {
    if routeCount != 0 then TypeError else Returned(RandomAdjacent(pos, d.dx, d.dy))
  }

  /**
   * A badly damaged defensive unit at (5, 5), with the player at (4, 4) in an
   * otherwise empty quadrant, has escape routes; the code as written raises
   * on it, the corrected retreat moves to one of them.
   */
  lemma RetreatRaisesWhenRoutesExist(d: Draws)
    ensures RetreatAsWritten(Coord(5, 5), |EscapeRoutes(Coord(5, 5), Coord(4, 4), map[Coord(5, 5) := Klingon])|, d).TypeError?
    ensures RetreatDirection(Coord(5, 5), EscapeRoutes(Coord(5, 5), Coord(4, 4), map[Coord(5, 5) := Klingon]), d)
            in EscapeRoutes(Coord(5, 5), Coord(4, 4), map[Coord(5, 5) := Klingon])
  {
    var objects := map[Coord(5, 5) := Klingon];
    var routes := EscapeRoutes(Coord(5, 5), Coord(4, 4), objects);
    EscapeRoutesSound(Coord(5, 5), Coord(4, 4), objects);
    assert IsEscapeRoute(Coord(5, 5), Coord(4, 4), objects, Coord(6, 6));
    assert Coord(6, 6) in routes;
    assert |routes| > 0;
  }

  function MoveAway(pos: Coord, d: Draws): Action { Move(RandomAdjacent(pos, d.dx, d.dy), true) }

  function MoveCloser(pos: Coord, d: Draws): Action { Move(RandomAdjacent(pos, d.dx, d.dy), false) }

  /** Retreat when more than 60% damaged; keep between 3 and 5 sectors; attack with 30% of the energy. */
  function DefensiveStrategy(k: KlingonState, a: Analysis, d: Draws): (r: Action)
    requires k.maxHealth > 0
    ensures r.Retreat? <==> DamageFraction(k) > 0.6
    ensures r.Move? <==> DamageFraction(k) <= 0.6 && (a.distance < 3.0 || a.distance > 5.0)
    ensures r.Move? ==> (r.away <==> a.distance < 3.0)
    ensures r.Attack? ==> r.power == Trunc(k.energy as real * 0.3) && !r.coordinated && !r.flanking
  {
    if DamageFraction(k) > 0.6 then Retreat(RetreatDirection(k.position, a.escapeRoutes, d))
    else if a.distance < 3.0 then MoveAway(k.position, d)
    else if a.distance > 5.0 then MoveCloser(k.position, d)
    else Strike(Trunc(k.energy as real * 0.3), a.distance, d)
  }

  /** Close in beyond 2 sectors, otherwise attack with 80% of the energy. */
  function BerserkerStrategy(k: KlingonState, a: Analysis, d: Draws): (r: Action)
    ensures r.Move? <==> a.distance > 2.0
    ensures r.Move? ==> !r.away
    ensures r.Attack? ==> r.power == Trunc(k.energy as real * 0.8) && !r.coordinated && !r.flanking
    ensures !r.Retreat?
  {
    if a.distance > 2.0 then MoveCloser(k.position, d)
    else Strike(Trunc(k.energy as real * 0.8), a.distance, d)
  }

  /** Re-range when more than one sector off the optimal range, otherwise attack harder against a stronger threat. */
  function TacticalStrategy(k: KlingonState, a: Analysis, d: Draws): (r: Action)
    ensures r.Move? <==> a.distance - a.optimalRange > 1.0 || a.optimalRange - a.distance > 1.0
    ensures r.Move? ==> (r.away <==> a.distance < a.optimalRange)
    ensures r.Attack? ==> r.power == Trunc(k.energy as real * 0.5 * (1.0 + a.threat * 0.5))
    ensures r.Attack? ==> !r.coordinated && !r.flanking
    ensures !r.Retreat?
  {
    var offRange := a.distance - a.optimalRange;
    if offRange > 1.0 || -offRange > 1.0 then
      if a.distance < a.optimalRange then MoveAway(k.position, d) else MoveCloser(k.position, d)
    else
      Strike(Trunc(k.energy as real * 0.5 * (1.0 + a.threat * 0.5)), a.distance, d)
  }

  /** Close in beyond 3 sectors, otherwise attack with 70% of the energy. */
  function AggressiveStrategy(k: KlingonState, a: Analysis, d: Draws): (r: Action)
    ensures r.Move? <==> a.distance > 3.0
    ensures r.Move? ==> !r.away
    ensures r.Attack? ==> r.power == Trunc(k.energy as real * 0.7) && !r.coordinated && !r.flanking
    ensures !r.Retreat?
  {
    if a.distance > 3.0 then MoveCloser(k.position, d)
    else Strike(Trunc(k.energy as real * 0.7), a.distance, d)
  }

  /** `_flanking_attack`: 60% of the energy and a quarter more damage. */
  function FlankingAttack(k: KlingonState, a: Analysis, d: Draws): (r: Action)
    ensures r.Attack? && r.flanking && !r.coordinated
    ensures r.power == Trunc(k.energy as real * 0.6)
    ensures r.damage >= AttackDamage(r.power, a.distance, d.variance) + AttackDamage(r.power, a.distance, d.variance) / 4
  {
    var power := Trunc(k.energy as real * 0.6);
    var base := AttackDamage(power, a.distance, d.variance);
    Attack(power, base + Trunc(base as real * 0.25), false, true)
  }

  /** Flank when possible, coordinate with allies, otherwise fight tactically. */
  function CommanderStrategy(k: KlingonState, a: Analysis, d: Draws): (r: Action)
    ensures a.flanking ==> r.Attack? && r.flanking
    ensures !a.flanking && a.allies > 0 ==> r.Attack? && r.coordinated && r.power == Trunc(k.energy as real * 0.6)
    ensures !a.flanking && a.allies <= 0 ==> r == TacticalStrategy(k, a, d)
    ensures !r.Retreat?
  {
    if a.flanking then FlankingAttack(k, a, d)
    else if a.allies > 0 then
      var power := Trunc(k.energy as real * 0.6);
      Attack(power, AttackDamage(power, a.distance, d.variance), true, false)
    else TacticalStrategy(k, a, d)
  }

  /** `_choose_action`: dispatch on the personality. */
  function ChooseAction(k: KlingonState, a: Analysis, d: Draws): (r: Action)
    requires k.maxHealth > 0
    ensures r.Attack? ==> r.damage >= 1
    ensures r.Retreat? ==> k.personality == Defensive && DamageFraction(k) > 0.6
    ensures r.Retreat? && |a.escapeRoutes| > 0 ==> r.target in a.escapeRoutes
    ensures r.Attack? && r.flanking ==> k.personality == Commander && a.flanking
    ensures r.Attack? && r.coordinated ==> k.personality == Commander && a.allies > 0
    ensures r.Attack? && k.personality == Berserker ==> a.distance <= 2.0
    ensures r.Attack? && k.personality == Aggressive ==> a.distance <= 3.0
    ensures r.Attack? && k.personality == Defensive ==> 3.0 <= a.distance <= 5.0
    ensures r.Attack? && k.personality == Tactical ==> -1.0 <= a.distance - a.optimalRange <= 1.0
  {
    match k.personality
    case Defensive => DefensiveStrategy(k, a, d)
    case Berserker => BerserkerStrategy(k, a, d)
    case Commander => CommanderStrategy(k, a, d)
    case Tactical => TacticalStrategy(k, a, d)
    case Aggressive => AggressiveStrategy(k, a, d)
  }

  /** Every move and retreat lands in the grid within one step of the unit (escape routes included). */
  lemma ActionStaysLocal(k: KlingonState, player: Coord, v: PlayerView, objects: map<Coord, char>,
                         distance: real, encounters: int, d: Draws)
    requires k.maxHealth > 0 && InGrid(k.position)
    ensures var r := ChooseAction(k, Analyze(k.position, player, v, objects, distance, encounters), d);
            !r.Attack? ==> InGrid(r.target) && Abs(r.target.x - k.position.x) <= 1 && Abs(r.target.y - k.position.y) <= 1
  {
    var a := Analyze(k.position, player, v, objects, distance, encounters);
    EscapeRoutesSound(k.position, player, objects);
    assert forall c :: c in a.escapeRoutes ==> Near(k.position, c);
    ChosenTargetNear(k, a, d);
  }

  /** `c` is a grid square within one step of `pos`. */
  predicate Near(pos: Coord, c: Coord)
  {
    InGrid(c) && Abs(c.x - pos.x) <= 1 && Abs(c.y - pos.y) <= 1
  }

  /** The strategies only ever move to a random neighbour or to one of the given escape routes. */
  lemma ChosenTargetNear(k: KlingonState, a: Analysis, d: Draws)
    requires k.maxHealth > 0 && InGrid(k.position)
    requires forall c :: c in a.escapeRoutes ==> Near(k.position, c)
    ensures var r := ChooseAction(k, a, d); !r.Attack? ==> Near(k.position, r.target)
  {
  }

  /** An attack never spends more than the unit's energy, whatever the player's threat in [0, 1]. */
  lemma AttackPowerWithinEnergy(k: KlingonState, a: Analysis, d: Draws)
    requires k.maxHealth > 0 && k.energy >= 0 && 0.0 <= a.threat <= 1.0
    ensures ChooseAction(k, a, d).Attack? ==> 0 <= ChooseAction(k, a, d).power <= k.energy
  {
    match k.personality
    case Defensive =>
    case Berserker =>
    case Commander =>
      if !a.flanking && a.allies <= 0 {
        TacticalPowerWithinEnergy(k, a, d);
      }
    case Tactical =>
      TacticalPowerWithinEnergy(k, a, d);
    case Aggressive =>
  }

  lemma TacticalPowerWithinEnergy(k: KlingonState, a: Analysis, d: Draws)
    requires k.energy >= 0 && 0.0 <= a.threat <= 1.0
    ensures TacticalStrategy(k, a, d).Attack? ==> 0 <= TacticalStrategy(k, a, d).power <= k.energy
  {
    var e := k.energy as real;
    var x := e * 0.5 * (1.0 + a.threat * 0.5);
    TacticalPowerBound(e, a.threat);
    assert 0.0 <= x <= e;
    assert 0 <= Trunc(x) && Trunc(x) as real <= x;
    assert Trunc(x) <= k.energy;
    if TacticalStrategy(k, a, d).Attack? {
      assert TacticalStrategy(k, a, d).power == Trunc(x);
    }
  }

  lemma TacticalPowerBound(e: real, t: real)
    requires e >= 0.0 && 0.0 <= t <= 1.0
    ensures 0.0 <= e * 0.5 * (1.0 + t * 0.5) <= e
  {
    var half := e * 0.5;
    assert half * (1.0 + t * 0.5) == half + half * t * 0.5;
    assert half * t <= half;
  }

  // ---------------------------------------------------------------------
  // The moving average of the player's shield use
  // ---------------------------------------------------------------------

  /** The blended estimate stays between the old estimate and the new sample. */
  lemma ShieldUsageBlend(usage: real, sample: real)
    ensures MinR(usage, sample) <= usage * 0.9 + sample * 0.1 <= MaxR(usage, sample)
  {
  }

  // ---------------------------------------------------------------------
  // The AI object
  // ---------------------------------------------------------------------

  /** The unit after `decide_action` records `action`: its name, and one more turn without damage. */
  function Recorded(unit: KlingonState, action: Action): (r: KlingonState)
    ensures r == unit.(lastAction := r.lastAction, turnsSinceDamage := r.turnsSinceDamage)
    ensures r.lastAction == ActionName(action) && r.turnsSinceDamage == unit.turnsSinceDamage + 1
  {
    unit.(lastAction := ActionName(action), turnsSinceDamage := unit.turnsSinceDamage + 1)
  }

  /** A second update of the same key replaces the first. */
  lemma Overwritten(m: map<Coord, KlingonState>, k: Coord, first: KlingonState, second: KlingonState)
    ensures m[k := first][k := second] == m[k := second]
  {
  }

  /**
   * What `decide_action` reads and writes besides the combat statistics:
   * `klingon_states` and the player model's encounter count and shield usage.
   */
  datatype Memory = Memory(states: map<Coord, KlingonState>, encounters: int, usage: real)

  /** Every remembered unit has a positive hull maximum, as `Emotions` needs. */
  predicate MemoryValid(m: Memory)
  {
    forall p :: p in m.states ==> m.states[p].maxHealth > 0
  }

  /** The unit remembered at `k`, or the one `_initialize_klingon_state` spawns there with personality draw `pick`. */
  function UnitIn(m: Memory, k: Coord, pick: nat, baseAggression: real): (u: KlingonState)
    requires MemoryValid(m)
    ensures u.maxHealth > 0 && u.position == (if k in m.states then m.states[k].position else k)
  {
    if k in m.states then m.states[k] else Spawned(k, PersonalityAt(pick), baseAggression)
  }

  /**
   * The action `decide_action` chooses for the unit at `k` from memory `m`:
   * the unit's emotions are updated from the analysis (whose threat
   * estimate uses the remembered encounter count) and its personality picks.
   */
  function Choice(m: Memory, baseAggression: real, k: Coord, player: Coord, v: PlayerView,
                  objects: map<Coord, char>, distance: real, d: Draws): Action
    requires MemoryValid(m)
  {
    var a := Analyze(k, player, v, objects, distance, m.encounters);
    ChooseAction(Emotions(UnitIn(m, k, d.personality, baseAggression), a), a, d)
  }

  /**
   * The memory after that decision: the unit at `k` is stored with its
   * updated emotions and its action recorded, every other unit is kept, and
   * the player model learns from `v` only when adaptation is enabled.
   */
  function Remember(m: Memory, baseAggression: real, adaptation: bool, k: Coord, player: Coord, v: PlayerView,
                    objects: map<Coord, char>, distance: real, d: Draws): (r: Memory)
    requires MemoryValid(m)
    ensures MemoryValid(r) && k in r.states
    ensures r.states[k].lastAction == ActionName(Choice(m, baseAggression, k, player, v, objects, distance, d))
    ensures forall p :: p != k && p in m.states ==> p in r.states && r.states[p] == m.states[p]
    ensures forall p :: p != k && p in r.states ==> p in m.states
    ensures r.encounters == m.encounters + (if adaptation then 1 else 0)
    ensures adaptation ==> r.usage == m.usage * 0.9 + ShieldRatio(v) * 0.1
    ensures !adaptation ==> r.usage == m.usage
  {
    var a := Analyze(k, player, v, objects, distance, m.encounters);
    var unit := Emotions(UnitIn(m, k, d.personality, baseAggression), a);
    Memory(m.states[k := Recorded(unit, Choice(m, baseAggression, k, player, v, objects, distance, d))],
           if adaptation then m.encounters + 1 else m.encounters,
           if adaptation then m.usage * 0.9 + ShieldRatio(v) * 0.1 else m.usage)
  }

  class KlingonAI {
    /** `klingon_states`, keyed by the position the unit had when first seen. */
    var states: map<Coord, KlingonState>
    /** `ai.klingon.base_aggression` and `ai.klingon.adaptation_enabled`. */
    const baseAggression: real
    const adaptationEnabled: bool
    /** `player_behavior['total_encounters']` and `['shield_usage_pattern']`. */
    var totalEncounters: int
    var shieldUsagePattern: real
    /** `combat_stats`. */
    var shotsFired: int
    var hits: int
    var damageDealt: int
    var damageReceived: int
    var shipsDestroyed: int

    ghost predicate Valid()
      reads this
    {
      (forall p :: p in states ==> StateValid(states[p]) && states[p].position == p)
      && 0 <= hits <= shotsFired && 0 <= shipsDestroyed && 0 <= totalEncounters
      && 0.0 <= shieldUsagePattern <= 1.0
    }

    /** The units and the player model, as a value. */
    function Mind(): (m: Memory)
      reads this
      ensures Valid() ==> MemoryValid(m)
    {
      Memory(states, totalEncounters, shieldUsagePattern)
    }

    /** `combat_stats`, as a value. */
    function Statistics(): (int, int, int, int, int)
      reads this
    {
      (shotsFired, hits, damageDealt, damageReceived, shipsDestroyed)
    }

    /** The unit at `k`, or the one `_initialize_klingon_state` spawns there with personality draw `pick`. */
    function Current(k: Coord, pick: nat): (u: KlingonState)
      reads this
      requires Valid()
      ensures StateValid(u) && u.position == k
    {
      UnitIn(Mind(), k, pick, baseAggression)
    }

    /** The unit at `k` with its emotions updated from the analysis `decide_action` makes. */
    function Updated(k: Coord, player: Coord, v: PlayerView, objects: map<Coord, char>,
                     distance: real, pick: nat): (u: KlingonState)
      reads this
      requires Valid()
      ensures u.position == k && (PlayerWellFormed(v) ==> StateValid(u))
    {
      Emotions(Current(k, pick), Analyze(k, player, v, objects, distance, totalEncounters))
    }

    /** The action `decide_action` chooses for the unit at `k`. */
    function Decision(k: Coord, player: Coord, v: PlayerView, objects: map<Coord, char>,
                      distance: real, d: Draws): Action
      reads this
      requires Valid()
    {
      Choice(Mind(), baseAggression, k, player, v, objects, distance, d)
    }

    constructor (baseAggression: real, adaptationEnabled: bool)
      ensures Valid()
      ensures states == map[] && totalEncounters == 0 && shieldUsagePattern == 0.5
      ensures shotsFired == 0 && hits == 0 && damageDealt == 0 && damageReceived == 0 && shipsDestroyed == 0
      ensures this.baseAggression == baseAggression && this.adaptationEnabled == adaptationEnabled
    {
      this.baseAggression := baseAggression;
      this.adaptationEnabled := adaptationEnabled;
      states := map[];
      totalEncounters := 0;
      shieldUsagePattern := 0.5;
      shotsFired, hits, damageDealt, damageReceived, shipsDestroyed := 0, 0, 0, 0, 0;
    }

    /** `_initialize_klingon_state`. */
    method InitializeKlingonState(pos: Coord, pick: nat)
      modifies this
      ensures states == old(states)[pos := Spawned(pos, PersonalityAt(pick), baseAggression)]
      ensures totalEncounters == old(totalEncounters) && shieldUsagePattern == old(shieldUsagePattern)
      ensures shotsFired == old(shotsFired) && hits == old(hits) && shipsDestroyed == old(shipsDestroyed)
      ensures damageDealt == old(damageDealt) && damageReceived == old(damageReceived)
      ensures old(Valid()) ==> Valid()
    {
      states := states[pos := Spawned(pos, PersonalityAt(pick), baseAggression)];
    }

    /** `_analyze_tactical_situation`. */
    method AnalyzeSituation(k: Coord, player: Coord, v: PlayerView, objects: map<Coord, char>, distance: real)
      returns (a: Analysis)
      ensures a == Analyze(k, player, v, objects, distance, totalEncounters)
    {
      var cover := CheckForCover(k, player, objects);
      var flanking := CheckFlankingOpportunity(k, player, objects);
      var routes := FindEscapeRoutes(k, player, objects);
      a := Analysis(distance, Tally(objects, Klingon) - 1, Tally(objects, Starbase),
                    PlayerThreat(v, totalEncounters), cover, flanking, routes,
                    OptimalRange(v), ShieldRatio(v));
    }

    /** `_update_player_behavior_model`. */
    method UpdatePlayerBehavior(v: PlayerView)
      modifies this
      ensures totalEncounters == old(totalEncounters) + 1
      ensures shieldUsagePattern == old(shieldUsagePattern) * 0.9 + ShieldRatio(v) * 0.1
      ensures states == old(states)
      ensures shotsFired == old(shotsFired) && hits == old(hits) && shipsDestroyed == old(shipsDestroyed)
      ensures damageDealt == old(damageDealt) && damageReceived == old(damageReceived)
      ensures old(Valid()) && PlayerWellFormed(v) ==> Valid()
    {
      ShieldUsageBlend(shieldUsagePattern, ShieldRatio(v));
      totalEncounters := totalEncounters + 1;
      shieldUsagePattern := shieldUsagePattern * 0.9 + ShieldRatio(v) * 0.1;
    }

    /**
     * `decide_action`: spawn the unit's state on first sight, analyse,
     * update its emotions, let its personality choose, learn from the
     * player, and record the action.
     */
    method DecideAction(k: Coord, player: Coord, v: PlayerView, objects: map<Coord, char>,
                        distance: real, d: Draws) returns (action: Action)
      requires Valid()
      modifies this
      ensures action == old(Decision(k, player, v, objects, distance, d))
      ensures states == old(states)[k := Recorded(old(Updated(k, player, v, objects, distance, d.personality)), action)]
      ensures Mind() == Remember(old(Mind()), baseAggression, adaptationEnabled, k, player, v, objects, distance, d)
      ensures adaptationEnabled ==> totalEncounters == old(totalEncounters) + 1
                                    && shieldUsagePattern == old(shieldUsagePattern) * 0.9 + ShieldRatio(v) * 0.1
      ensures !adaptationEnabled ==> totalEncounters == old(totalEncounters)
                                     && shieldUsagePattern == old(shieldUsagePattern)
      ensures shotsFired == old(shotsFired) && hits == old(hits) && shipsDestroyed == old(shipsDestroyed)
      ensures damageDealt == old(damageDealt) && damageReceived == old(damageReceived)
      ensures PlayerWellFormed(v) ==> Valid()
    {
      ghost var s0 := states;
      ghost var before := Current(k, d.personality);
      ghost var after := Updated(k, player, v, objects, distance, d.personality);
      var unit;
      unit, action := Deliberate(k, player, v, objects, distance, d);
      assert unit == after;
      Learn(v);
      RecordAction(k, unit, action);
      Overwritten(s0, k, before, Recorded(unit, action));
    }

    /** The player model learns from `v` only when adaptation is enabled. */
    method Learn(v: PlayerView)
      modifies this
      ensures adaptationEnabled ==> totalEncounters == old(totalEncounters) + 1
                                    && shieldUsagePattern == old(shieldUsagePattern) * 0.9 + ShieldRatio(v) * 0.1
      ensures !adaptationEnabled ==> totalEncounters == old(totalEncounters)
                                     && shieldUsagePattern == old(shieldUsagePattern)
      ensures states == old(states)
      ensures shotsFired == old(shotsFired) && hits == old(hits) && shipsDestroyed == old(shipsDestroyed)
      ensures damageDealt == old(damageDealt) && damageReceived == old(damageReceived)
      ensures old(Valid()) && PlayerWellFormed(v) ==> Valid()
    {
      if adaptationEnabled {
        UpdatePlayerBehavior(v);
      }
    }

    /**
     * The first part of `decide_action`: the unit, spawned when new, its
     * emotions updated from the analysis, and the action it chooses.
     */
    method Deliberate(k: Coord, player: Coord, v: PlayerView, objects: map<Coord, char>,
                      distance: real, d: Draws) returns (unit: KlingonState, action: Action)
      requires Valid()
      modifies this
      ensures unit == old(Updated(k, player, v, objects, distance, d.personality))
      ensures action == old(Decision(k, player, v, objects, distance, d))
      ensures states == old(states)[k := old(Current(k, d.personality))]
      ensures unit.position == k && (PlayerWellFormed(v) ==> StateValid(unit))
      ensures totalEncounters == old(totalEncounters) && shieldUsagePattern == old(shieldUsagePattern)
      ensures shotsFired == old(shotsFired) && hits == old(hits) && shipsDestroyed == old(shipsDestroyed)
      ensures damageDealt == old(damageDealt) && damageReceived == old(damageReceived)
      ensures Valid()
    {
      ghost var before := Current(k, d.personality);
      ghost var after := Updated(k, player, v, objects, distance, d.personality);
      ghost var chosen := Decision(k, player, v, objects, distance, d);
      if k !in states {
        InitializeKlingonState(k, d.personality);
      }
      unit := states[k];
      assert unit == before;
      var a := AnalyzeSituation(k, player, v, objects, distance);
      unit := Emotions(unit, a);
      assert unit == after;
      action := ChooseAction(unit, a, d);
      assert action == chosen;
    }

    /** The bookkeeping at the end of `decide_action`: the chosen action's name and one more quiet turn. */
    method RecordAction(k: Coord, unit: KlingonState, action: Action)
      modifies this
      ensures states == old(states)[k := Recorded(unit, action)]
      ensures totalEncounters == old(totalEncounters) && shieldUsagePattern == old(shieldUsagePattern)
      ensures shotsFired == old(shotsFired) && hits == old(hits) && shipsDestroyed == old(shipsDestroyed)
      ensures damageDealt == old(damageDealt) && damageReceived == old(damageReceived)
      ensures old(Valid()) && StateValid(unit) && unit.position == k ==> Valid()
    {
      states := states[k := Recorded(unit, action)];
    }

    /**
     * `report_combat_result`: an unknown position is ignored; otherwise the
     * statistics grow, the unit loses hull (never below 0) and is forgotten
     * once its hull is gone.
     */
    method ReportCombatResult(pos: Coord, hit: bool, dealt: int, received: int)
      requires Valid()
      modifies this
      ensures Valid()
      ensures totalEncounters == old(totalEncounters) && shieldUsagePattern == old(shieldUsagePattern)
      ensures pos !in old(states) ==>
                states == old(states) && shotsFired == old(shotsFired) && hits == old(hits)
                && damageDealt == old(damageDealt) && damageReceived == old(damageReceived)
                && shipsDestroyed == old(shipsDestroyed)
      ensures pos in old(states) ==>
                shotsFired == old(shotsFired) + 1 && hits == old(hits) + (if hit then 1 else 0)
                && damageDealt == old(damageDealt) + dealt && damageReceived == old(damageReceived) + received
      ensures pos in old(states) ==>
                var unit := old(states)[pos];
                var hurt := if received > 0 then unit.(health := MaxI(0, unit.health - received), turnsSinceDamage := 0)
                            else unit;
                if hurt.health <= 0 then states == old(states) - {pos} && shipsDestroyed == old(shipsDestroyed) + 1
                else states == old(states)[pos := hurt] && shipsDestroyed == old(shipsDestroyed)
    {
      if pos !in states {
        return;
      }
      var unit := states[pos];
      damageDealt := damageDealt + dealt;
      damageReceived := damageReceived + received;
      if hit {
        hits := hits + 1;
      }
      shotsFired := shotsFired + 1;
      if received > 0 {
        unit := unit.(health := MaxI(0, unit.health - received), turnsSinceDamage := 0);
      }
      if unit.health <= 0 {
        shipsDestroyed := shipsDestroyed + 1;
        states := states - {pos};
      } else {
        states := states[pos := unit];
      }
    }
  }
}

=== FILE: ship.dfy ===
/**
 * The Enterprise: integer resources (energy, shields, torpedoes), a damage
 * level in [0, 1] for each of eight named systems, and the operations that
 * damage, repair and restore them.
 *
 * The systems record is addressed by name (`getattr`/`setattr` on a system
 * name), so it is modelled as a map from name to damage whose keys are the
 * eight names. Randomness (`random.random`, `random.choice`,
 * `random.uniform`) is passed in as parameters.
 */
module Ship {
  import opened Common

  /** The eight fields of `ShipSystems`. */
  datatype System =
    | WarpEngines | ImpulseEngines | Phasers | TorpedoTubes
    | Shields | Sensors | Computer | LifeSupport

  /** The field name of a system, as `getattr`/`setattr` use it. */
  function Name(s: System): string
  {
    match s
    case WarpEngines => "warp_engines"
    case ImpulseEngines => "impulse_engines"
    case Phasers => "phasers"
    case TorpedoTubes => "torpedo_tubes"
    case Shields => "shields"
    case Sensors => "sensors"
    case Computer => "computer"
    case LifeSupport => "life_support"
  }

  /** `hasattr(self.systems, name)`: the system a name denotes, if any. */
  function Lookup(name: string): (r: Option<System>)
    ensures r.Some? ==> Name(r.value) == name
  {
    if name == "warp_engines" then Some(WarpEngines)
    else if name == "impulse_engines" then Some(ImpulseEngines)
    else if name == "phasers" then Some(Phasers)
    else if name == "torpedo_tubes" then Some(TorpedoTubes)
    else if name == "shields" then Some(Shields)
    else if name == "sensors" then Some(Sensors)
    else if name == "computer" then Some(Computer)
    else if name == "life_support" then Some(LifeSupport)
    else None
  }

  /** Every system is found under its own name. */
  lemma LookupName(s: System)
    ensures Lookup(Name(s)) == Some(s)
  {
  }

  /** The systems in declaration order (the order of `to_dict`). */
  const SystemNames: seq<System> := [WarpEngines, ImpulseEngines, Phasers, TorpedoTubes,
                                     Shields, Sensors, Computer, LifeSupport]

  /** The order `_get_repair_priority` walks the systems in, most critical first. */
  const PriorityOrder: seq<System> := [LifeSupport, WarpEngines, Shields, Phasers,
                                       TorpedoTubes, Sensors, ImpulseEngines, Computer]

  /** `SystemNames` lists every system. */
  lemma AllSystemsListed()
    ensures forall s: System :: s in SystemNames
  {
    forall s: System ensures s in SystemNames {
      match s
      case WarpEngines => assert SystemNames[0] == s;
      case ImpulseEngines => assert SystemNames[1] == s;
      case Phasers => assert SystemNames[2] == s;
      case TorpedoTubes => assert SystemNames[3] == s;
      case Shields => assert SystemNames[4] == s;
      case Sensors => assert SystemNames[5] == s;
      case Computer => assert SystemNames[6] == s;
      case LifeSupport => assert SystemNames[7] == s;
    }
  }

  /** A fresh `ShipSystems()`: every system undamaged. */
  function NoDamage(): (m: map<System, real>)
    ensures forall s :: s in m && m[s] == 0.0
  {
    AllSystemsListed();
    map s: System | s in SystemNames :: 0.0
  }

  /** Every damage level lies in [0, 1]. */
  ghost predicate WellFormed(systems: map<System, real>)
  {
    (forall s :: s in systems)
    && (forall s :: 0.0 <= systems[s] <= 1.0)
  }

  /** `max(0, 1 - damage)`: 1.0 undamaged, 0.0 destroyed. */
  function Efficiency(systems: map<System, real>, s: System): (e: real)
    requires s in systems
    ensures 0.0 <= e
    ensures 0.0 <= systems[s] <= 1.0 ==> e == 1.0 - systems[s]
  {
    MaxR(0.0, 1.0 - systems[s])
  }

  /** `get_system_efficiency` by name: 1.0 for a name that is not a system. */
  function EfficiencyByName(systems: map<System, real>, name: string): (e: real)
    requires forall s :: s in systems
    ensures Lookup(name).None? ==> e == 1.0
    ensures Lookup(name).Some? ==> e == Efficiency(systems, Lookup(name).value)
  {
    match Lookup(name)
    case None => 1.0
    case Some(s) => Efficiency(systems, s)
  }

  /** A system counts as usable when its efficiency exceeds 0.1, i.e. its damage is below 0.9. */
  lemma EfficiencyThreshold(systems: map<System, real>, s: System)
    requires s in systems
    ensures Efficiency(systems, s) > 0.1 <==> systems[s] < 0.9
  {
  }

  /** More damage never gives more efficiency. */
  lemma EfficiencyMonotone(a: map<System, real>, b: map<System, real>, s: System)
    requires s in a && s in b && a[s] <= b[s]
    ensures Efficiency(b, s) <= Efficiency(a, s)
  {
  }

  /** `min(0.8, damage / 100)`: the chance that a hit also damages a system. */
  function DamageChance(amount: int): (p: real)
    ensures p <= 0.8
    ensures amount >= 0 ==> 0.0 <= p
    ensures amount >= 80 ==> p == 0.8
  {
    MinR(0.8, amount as real / 100.0)
  }

  /**
   * The resource part of `take_damage`: the shields absorb what they can,
   * the rest comes off the energy. Returns the new shields, the new energy
   * and the damage that got through the shields (the method's return value).
   */
  function Hit(shields: int, energy: int, amount: int): (r: (int, int, int))
    ensures amount <= 0 ==> r == (shields, energy, 0)
    ensures amount > 0 && shields >= amount ==> r == (shields - amount, energy, 0)
    ensures amount > 0 && 0 < shields < amount ==> r.0 == 0 && r.2 == amount - shields
    ensures amount > 0 && shields <= 0 ==> r.0 == shields && r.2 == amount
    ensures amount > 0 && shields < amount ==> r.1 == MaxI(0, energy - r.2)
    ensures r.2 >= 0 && r.1 <= MaxI(energy, 0)
  {
    if amount <= 0 then (shields, energy, 0)
    else
      var absorbed := if shields > 0 then MinI(shields, amount) else 0;
      var through := amount - absorbed;
      var energy' := if through > 0 then energy - MinI(energy, through) else energy;
      (shields - absorbed, energy', through)
  }

  /**
   * What gets through the shields is the part of the hit they could not
   * absorb: shields lost plus damage through make up the whole hit.
   */
  lemma HitConserves(shields: int, energy: int, amount: int)
    requires shields >= 0 && amount > 0
    ensures shields - Hit(shields, energy, amount).0 + Hit(shields, energy, amount).2 == amount
    ensures Hit(shields, energy, amount).0 >= 0
  {
  }

  /**
   * The energy lost can be less than the damage reported: the return value
   * is the damage past the shields, not the energy actually drained.
   */
  lemma HitMayOverstateLoss()
    ensures Hit(0, 10, 50).2 == 50 && 10 - Hit(0, 10, 50).1 == 10
  {
  }

  /** The damage level `_apply_system_damage` gives a system: `min(1.0, current + severity)`. */
  function Worsened(current: real, severity: real): (d: real)
    ensures d <= 1.0
    ensures d <= current + severity
    ensures current + severity <= 1.0 ==> d == current + severity
  {
    MinR(1.0, current + severity)
  }

  /** The strings `_get_overall_condition` returns, best to worst. */
  datatype Condition = Excellent | Good | Fair | Poor | Critical | Destroyed

  /** `_get_overall_condition`'s bands, by the average damage of the eight systems. */
  function ConditionOf(destroyed: bool, avgDamage: real): (c: Condition)
    ensures destroyed <==> c == Destroyed
    ensures !destroyed ==> (c == Excellent <==> avgDamage < 0.1)
    ensures !destroyed ==> (c == Good <==> 0.1 <= avgDamage < 0.3)
    ensures !destroyed ==> (c == Fair <==> 0.3 <= avgDamage < 0.6)
    ensures !destroyed ==> (c == Poor <==> 0.6 <= avgDamage < 0.8)
    ensures !destroyed ==> (c == Critical <==> avgDamage >= 0.8)
  {
    if destroyed then Destroyed
    else if avgDamage < 0.1 then Excellent
    else if avgDamage < 0.3 then Good
    else if avgDamage < 0.6 then Fair
    else if avgDamage < 0.8 then Poor
    else Critical
  }

  /** The position of a condition from best (0) to worst. */
  function ConditionRank(c: Condition): nat
  {
    match c
    case Excellent => 0
    case Good => 1
    case Fair => 2
    case Poor => 3
    case Critical => 4
    case Destroyed => 5
  }

  /** A higher average damage never reports a better condition. */
  lemma ConditionMonotone(destroyed: bool, a: real, b: real)
    requires a <= b
    ensures ConditionRank(ConditionOf(destroyed, a)) <= ConditionRank(ConditionOf(destroyed, b))
  {
  }

  /** The damage of the named systems, summed. */
  function TotalDamage(names: seq<System>, systems: map<System, real>): (t: real)
    requires forall i :: 0 <= i < |names| ==> names[i] in systems
  {
    if |names| == 0 then 0.0
    else systems[names[0]] + TotalDamage(names[1..], systems)
  }

  /** With every damage in [0, 1], the total lies in [0, |names|]. */
  lemma {:induction false} TotalDamageBounds(names: seq<System>, systems: map<System, real>)
    requires forall i :: 0 <= i < |names| ==> names[i] in systems
    requires forall n :: n in systems ==> 0.0 <= systems[n] <= 1.0
    ensures 0.0 <= TotalDamage(names, systems) <= |names| as real
  {
    if |names| > 0 {
      TotalDamageBounds(names[1..], systems);
    }
  }

  /** The total grows with every system's damage. */
  lemma {:induction false} TotalDamageMonotone(names: seq<System>, a: map<System, real>, b: map<System, real>)
    requires forall i :: 0 <= i < |names| ==> names[i] in a && names[i] in b && a[names[i]] <= b[names[i]]
    ensures TotalDamage(names, a) <= TotalDamage(names, b)
  {
    if |names| > 0 {
      TotalDamageMonotone(names[1..], a, b);
    }
  }

  /** The priority labels of the repair list. */
  datatype Priority = PriorityCritical | PriorityHigh | PriorityMedium | PriorityLow

  /** The repair priority label of a damaged system. */
  function PriorityLabel(damage: real): (p: Priority)
    ensures p == PriorityCritical <==> damage > 0.8
    ensures p == PriorityHigh <==> 0.5 < damage <= 0.8
    ensures p == PriorityMedium <==> 0.2 < damage <= 0.5
    ensures p == PriorityLow <==> damage <= 0.2
  {
    if damage > 0.8 then PriorityCritical
    else if damage > 0.5 then PriorityHigh
    else if damage > 0.2 then PriorityMedium
    else PriorityLow
  }

  /** The damaged systems among `order`, in that order. */
  function Damaged(order: seq<System>, systems: map<System, real>): (r: seq<System>)
    requires forall i :: 0 <= i < |order| ==> order[i] in systems
    ensures forall s :: s in r <==> s in order && systems[s] > 0.0
    ensures |r| <= |order|
  {
    if |order| == 0 then []
    else
      var last := order[|order| - 1];
      var init := Damaged(order[..|order| - 1], systems);
      if systems[last] > 0.0 then init + [last] else init
  }

  /** Extending the prefix of `order` by one system extends `Damaged` by it, if it is damaged. */
  lemma DamagedStep(order: seq<System>, i: int, systems: map<System, real>)
    requires 0 <= i < |order|
    requires forall j :: 0 <= j < |order| ==> order[j] in systems
    ensures Damaged(order[..i + 1], systems)
      == if systems[order[i]] > 0.0 then Damaged(order[..i], systems) + [order[i]] else Damaged(order[..i], systems)
  {
    assert order[..i + 1][..i] == order[..i];
  }

  /** `Damaged` keeps the relative order of `order`: it picks out a subsequence. */
  lemma {:induction false} DamagedIsSubsequence(order: seq<System>, systems: map<System, real>)
    requires forall i :: 0 <= i < |order| ==> order[i] in systems
    ensures IsSubsequence(Damaged(order, systems), order)
  {
    if |order| > 0 {
      var init := order[..|order| - 1];
      DamagedIsSubsequence(init, systems);
      var r := Damaged(order, systems);
      if systems[order[|order| - 1]] > 0.0 {
        assert r[..|r| - 1] == Damaged(init, systems);
      } else {
        SubsequenceExtend(r, init, order[|order| - 1]);
      }
    }
  }

  /** A subsequence of `t` is a subsequence of `t` with one more element. */
  lemma {:induction false} SubsequenceExtend(s: seq<System>, t: seq<System>, x: System)
    requires IsSubsequence(s, t)
    ensures IsSubsequence(s, t + [x])
    decreases |t|, 1
  {
    assert (t + [x])[..|t|] == t;
    if |s| > 0 && s[|s| - 1] == x {
      SubsequenceDropLast(s, t);
    }
  }

  /** Dropping the last element of a subsequence leaves a subsequence. */
  lemma {:induction false} SubsequenceDropLast(s: seq<System>, t: seq<System>)
    requires |s| > 0 && IsSubsequence(s, t)
    ensures IsSubsequence(s[..|s| - 1], t)
    decreases |t|, 0
  {
    var t' := t[..|t| - 1];
    assert t' + [t[|t| - 1]] == t;
    if s[|s| - 1] == t[|t| - 1] {
      SubsequenceExtend(s[..|s| - 1], t', t[|t| - 1]);
    } else {
      SubsequenceDropLast(s, t');
      SubsequenceExtend(s[..|s| - 1], t', t[|t| - 1]);
    }
  }

  /** `s` is obtained from `t` by deleting elements (compared from the back). */
  predicate IsSubsequence(s: seq<System>, t: seq<System>)
    decreases |t|
  {
    if |s| == 0 then true
    else if |t| == 0 then false
    else if s[|s| - 1] == t[|t| - 1] then IsSubsequence(s[..|s| - 1], t[..|t| - 1])
    else IsSubsequence(s, t[..|t| - 1])
  }

  /** One entry of the repair list. */
  datatype RepairItem = RepairItem(system: System, damage: real, priority: Priority)

  function ItemNames(items: seq<RepairItem>): (r: seq<System>)
    ensures |r| == |items|
    ensures forall i :: 0 <= i < |items| ==> r[i] == items[i].system
  {
    if |items| == 0 then [] else [items[0].system] + ItemNames(items[1..])
  }

  /** An entry of the repair list gives the system's current damage and its priority label. */
  predicate Describes(item: RepairItem, systems: map<System, real>)
  {
    item.system in systems && item.damage == systems[item.system] && item.priority == PriorityLabel(item.damage)
  }

  /** The repair list for the systems of `order`: an entry for each damaged one, in order. */
  function RepairItems(order: seq<System>, systems: map<System, real>): (r: seq<RepairItem>)
    requires forall i :: 0 <= i < |order| ==> order[i] in systems
    ensures |r| <= |order|
  {
    if |order| == 0 then []
    else
      var last := order[|order| - 1];
      var init := RepairItems(order[..|order| - 1], systems);
      if systems[last] > 0.0 then init + [RepairItem(last, systems[last], PriorityLabel(systems[last]))]
      else init
  }

  /** The repair list names exactly the damaged systems, in order, and each entry describes its system. */
  lemma {:induction false} RepairItemsSound(order: seq<System>, systems: map<System, real>)
    requires forall i :: 0 <= i < |order| ==> order[i] in systems
    ensures ItemNames(RepairItems(order, systems)) == Damaged(order, systems)
    ensures forall k :: 0 <= k < |RepairItems(order, systems)| ==> Describes(RepairItems(order, systems)[k], systems)
  {
    if |order| > 0 {
      var last := order[|order| - 1];
      var init := RepairItems(order[..|order| - 1], systems);
      RepairItemsSound(order[..|order| - 1], systems);
      if systems[last] > 0.0 {
        ItemNamesAppend(init, RepairItem(last, systems[last], PriorityLabel(systems[last])));
      }
    }
  }

  /** Extending the prefix of `order` by one system extends the repair list by its entry, if it is damaged. */
  lemma RepairItemsStep(order: seq<System>, i: int, systems: map<System, real>)
    requires 0 <= i < |order|
    requires forall j :: 0 <= j < |order| ==> order[j] in systems
    ensures RepairItems(order[..i + 1], systems)
      == if systems[order[i]] > 0.0
         then RepairItems(order[..i], systems) + [RepairItem(order[i], systems[order[i]], PriorityLabel(systems[order[i]]))]
         else RepairItems(order[..i], systems)
  {
    assert order[..i + 1][..i] == order[..i];
  }

  lemma ItemNamesAppend(items: seq<RepairItem>, item: RepairItem)
    ensures ItemNames(items + [item]) == ItemNames(items) + [item.system]
  {
  }

  class Ship {
    var maxEnergy: int
    var maxShields: int
    var maxTorpedoes: int
    var energy: int
    var shields: int
    var torpedoes: int
    var currentQuadrant: Coord
    var quadrantPosition: Coord
    var visitedQuadrants: set<Coord>
    var systems: map<System, real>
    var docked: bool
    var destroyed: bool

    /** The record of system damage has an entry for each of the eight systems. */
    ghost predicate Valid()
      reads this
    {
      forall s: System :: s in systems
    }

    /** A new ship: full resources, at sector (4, 4) of quadrant (1, 1), undamaged. */
    constructor (maxEnergy: int, maxShields: int, maxTorpedoes: int)
      ensures Valid() && WellFormed(systems)
      ensures this.maxEnergy == maxEnergy && this.maxShields == maxShields && this.maxTorpedoes == maxTorpedoes
      ensures energy == maxEnergy && shields == maxShields && torpedoes == maxTorpedoes
      ensures currentQuadrant == Coord(1, 1) && quadrantPosition == Coord(4, 4) && visitedQuadrants == {}
      ensures systems == NoDamage() && !docked && !destroyed
    {
      this.maxEnergy, this.maxShields, this.maxTorpedoes := maxEnergy, maxShields, maxTorpedoes;
      energy, shields, torpedoes := maxEnergy, maxShields, maxTorpedoes;
      currentQuadrant, quadrantPosition, visitedQuadrants := Coord(1, 1), Coord(4, 4), {};
      systems := NoDamage();
      docked, destroyed := false, false;
    }

    /** `reset_to_full_strength`: maxima restored, damage cleared, neither docked nor destroyed. */
    method ResetToFullStrength()
      modifies this
      ensures Valid() && WellFormed(systems)
      ensures energy == maxEnergy && shields == maxShields && torpedoes == maxTorpedoes
      ensures systems == NoDamage() && !docked && !destroyed
      ensures maxEnergy == old(maxEnergy) && maxShields == old(maxShields) && maxTorpedoes == old(maxTorpedoes)
      ensures currentQuadrant == old(currentQuadrant) && quadrantPosition == old(quadrantPosition)
      ensures visitedQuadrants == old(visitedQuadrants)
    {
      energy, shields, torpedoes := maxEnergy, maxShields, maxTorpedoes;
      systems := NoDamage();
      docked, destroyed := false, false;
    }

    /**
     * `take_damage`: the shields absorb first, the rest drains energy (never
     * below zero) and may damage one system; the ship is destroyed once its
     * energy is gone. `roll`, `pick` and `severity` are the random draws of
     * `_apply_system_damage`.
     */
    method TakeDamage(amount: int, roll: real, pick: nat, severity: real) returns (taken: int)
      requires Valid()
      modifies this
      ensures Valid()
      ensures (shields, energy, taken) == Hit(old(shields), old(energy), amount)
      ensures amount <= 0 ==> destroyed == old(destroyed) && systems == old(systems)
      ensures amount > 0 ==> destroyed == (old(destroyed) || energy <= 0)
      ensures taken <= 0 ==> systems == old(systems)
      ensures taken > 0 ==> SystemDamageStep(old(systems), systems, taken, roll, pick, severity)
      ensures torpedoes == old(torpedoes) && docked == old(docked)
      ensures maxEnergy == old(maxEnergy) && maxShields == old(maxShields) && maxTorpedoes == old(maxTorpedoes)
      ensures currentQuadrant == old(currentQuadrant) && quadrantPosition == old(quadrantPosition)
      ensures visitedQuadrants == old(visitedQuadrants)
    {
      if amount <= 0 {
        return 0;
      }
      var damage := amount;
      if shields > 0 {
        var absorption := MinI(shields, damage);
        shields := shields - absorption;
        damage := damage - absorption;
      }
      if damage > 0 {
        var energyDamage := MinI(energy, damage);
        energy := energy - energyDamage;
        ApplySystemDamage(damage, roll, pick, severity);
      }
      if energy <= 0 {
        destroyed := true;
      }
      return damage;
    }

    /**
     * `_apply_system_damage`: with probability `min(0.8, amount / 100)` (the
     * draw `roll` falls below it) one system, chosen by `pick`, gets
     * `severity` more damage, capped at 1.0.
     */
    method ApplySystemDamage(amount: int, roll: real, pick: nat, severity: real)
      requires Valid()
      modifies this`systems
      ensures Valid()
      ensures SystemDamageStep(old(systems), systems, amount, roll, pick, severity)
    {
      if roll < DamageChance(amount) {
        var picked := SystemNames[pick % |SystemNames|];
        systems := systems[picked := Worsened(systems[picked], severity)];
      }
    }

    /**
     * `repair_system`: the named system loses `amount` damage, never going
     * below 0; a name that is not a system changes nothing.
     */
    method RepairSystem(name: string, amount: real)
      requires Valid()
      modifies this`systems
      ensures Valid()
      ensures Lookup(name).None? ==> systems == old(systems)
      ensures Lookup(name).Some? ==>
        var s := Lookup(name).value;
        systems[s] == MaxR(0.0, old(systems)[s] - amount)
        && (forall t :: t != s ==> systems[t] == old(systems)[t])
      ensures WellFormed(old(systems)) && amount >= 0.0 ==>
        WellFormed(systems) && forall t :: systems[t] <= old(systems)[t]
    {
      match Lookup(name) {
        case None =>
        case Some(s) =>
          systems := systems[s := MaxR(0.0, systems[s] - amount)];
      }
    }

    /** `repair_all_damage`: every system back to no damage. */
    method RepairAllDamage()
      modifies this`systems
      ensures systems == NoDamage() && Valid() && WellFormed(systems)
    {
      systems := NoDamage();
    }

    /** `dock_with_starbase`: docked, resources at their maxima, all damage repaired. */
    method DockWithStarbase()
      modifies this
      ensures docked && energy == maxEnergy && shields == maxShields && torpedoes == maxTorpedoes
      ensures systems == NoDamage() && Valid() && WellFormed(systems)
      ensures destroyed == old(destroyed)
      ensures maxEnergy == old(maxEnergy) && maxShields == old(maxShields) && maxTorpedoes == old(maxTorpedoes)
      ensures currentQuadrant == old(currentQuadrant) && quadrantPosition == old(quadrantPosition)
      ensures visitedQuadrants == old(visitedQuadrants)
    {
      docked := true;
      energy, shields, torpedoes := maxEnergy, maxShields, maxTorpedoes;
      RepairAllDamage();
    }

    /** `undock`. */
    method Undock()
      modifies this`docked
      ensures !docked
    {
      docked := false;
    }

    /** `has_damage`: some system has positive damage. */
    predicate HasDamage()
      reads this
      requires Valid()
      ensures HasDamage() <==> exists s: System :: systems[s] > 0.0
    {
      AllSystemsListed();
      exists s :: s in SystemNames && systems[s] > 0.0
    }

    /** `is_destroyed`: flagged destroyed, or out of energy. */
    predicate IsDestroyed()
      reads this
    {
      destroyed || energy <= 0
    }

    /** `get_system_efficiency`. */
    function SystemEfficiency(name: string): (e: real)
      reads this
      requires Valid()
      ensures WellFormed(systems) ==> 0.0 <= e <= 1.0
      ensures Lookup(name).None? ==> e == 1.0
    {
      EfficiencyByName(systems, name)
    }

    /** `can_use_warp`: warp engines below 0.9 damage and more than 100 energy. */
    predicate CanUseWarp()
      reads this
      requires Valid()
      ensures CanUseWarp() <==> systems[WarpEngines] < 0.9 && energy > 100
    {
      EfficiencyThreshold(systems, WarpEngines);
      assert Lookup("warp_engines") == Some(WarpEngines);
      SystemEfficiency("warp_engines") > 0.1 && energy > 100
    }

    /** `can_use_phasers`: phasers below 0.9 damage and more than 50 energy. */
    predicate CanUsePhasers()
      reads this
      requires Valid()
      ensures CanUsePhasers() <==> systems[Phasers] < 0.9 && energy > 50
    {
      EfficiencyThreshold(systems, Phasers);
      assert Lookup("phasers") == Some(Phasers);
      SystemEfficiency("phasers") > 0.1 && energy > 50
    }

    /** `can_use_torpedoes`: torpedo tubes below 0.9 damage and a torpedo left. */
    predicate CanUseTorpedoes()
      reads this
      requires Valid()
      ensures CanUseTorpedoes() <==> systems[TorpedoTubes] < 0.9 && torpedoes > 0
    {
      EfficiencyThreshold(systems, TorpedoTubes);
      assert Lookup("torpedo_tubes") == Some(TorpedoTubes);
      SystemEfficiency("torpedo_tubes") > 0.1 && torpedoes > 0
    }

    /** `can_use_sensors`: sensors below 0.9 damage. */
    predicate CanUseSensors()
      reads this
      requires Valid()
      ensures CanUseSensors() <==> systems[Sensors] < 0.9
    {
      EfficiencyThreshold(systems, Sensors);
      assert Lookup("sensors") == Some(Sensors);
      SystemEfficiency("sensors") > 0.1
    }

    /** `_get_overall_condition`: DESTROYED first, otherwise the band of the average damage. */
    function OverallCondition(): (c: Condition)
      reads this
      requires Valid()
      ensures destroyed <==> c == Destroyed
      ensures !destroyed ==> (c == Excellent <==> TotalDamage(SystemNames, systems) < 0.8)
      ensures !destroyed ==> (c == Good <==> 0.8 <= TotalDamage(SystemNames, systems) < 2.4)
      ensures !destroyed ==> (c == Fair <==> 2.4 <= TotalDamage(SystemNames, systems) < 4.8)
      ensures !destroyed ==> (c == Poor <==> 4.8 <= TotalDamage(SystemNames, systems) < 6.4)
      ensures !destroyed ==> (c == Critical <==> TotalDamage(SystemNames, systems) >= 6.4)
    {
      ConditionOf(destroyed, TotalDamage(SystemNames, systems) / 8.0)
    }

    /**
     * `_get_repair_priority`: the damaged systems in priority order, each
     * with its damage and priority label.
     */
    method RepairPriority() returns (items: seq<RepairItem>)
      requires Valid()
      ensures items == RepairItems(PriorityOrder, systems)
      ensures ItemNames(items) == Damaged(PriorityOrder, systems)
      ensures forall i :: 0 <= i < |items| ==> Describes(items[i], systems)
    {
      var order := PriorityOrder;
      items := [];
      for i := 0 to |order|
        invariant items == RepairItems(order[..i], systems)
      {
        var system := order[i];
        var damage := systems[system];
        RepairItemsStep(order, i, systems);
        if damage > 0.0 {
          items := items + [RepairItem(system, damage, PriorityLabel(damage))];
        }
      }
      assert order[..|order|] == order;
      RepairItemsSound(order, systems);
    }
  }

  /**
   * One run of `_apply_system_damage` from `before` to `after`: when the roll
   * falls below the damage chance, the picked system gets worse (capped at
   * 1.0) and nothing else changes; otherwise nothing changes at all.
   */
  ghost predicate SystemDamageStep(before: map<System, real>, after: map<System, real>,
                                   amount: int, roll: real, pick: nat, severity: real)
  {
    var picked := SystemNames[pick % |SystemNames|];
    (forall s :: s in after <==> s in before)
    && (forall s :: s in after && s != picked ==> after[s] == before[s])
    && (roll < DamageChance(amount) && picked in before ==> after[picked] == Worsened(before[picked], severity))
    && (roll >= DamageChance(amount) && picked in before ==> after[picked] == before[picked])
  }

  /** The damage record one run of `_apply_system_damage` leaves behind. */
  function Afflicted(before: map<System, real>, amount: int, roll: real, pick: nat, severity: real)
    : (after: map<System, real>)
    ensures SystemDamageStep(before, after, amount, roll, pick, severity)
  {
    var picked := SystemNames[pick % |SystemNames|];
    if roll < DamageChance(amount) && picked in before then before[picked := Worsened(before[picked], severity)]
    else before
  }

  /** A run of `_apply_system_damage` has exactly one outcome, the one `Afflicted` gives. */
  lemma SystemDamageDetermined(before: map<System, real>, after: map<System, real>,
                               amount: int, roll: real, pick: nat, severity: real)
    requires SystemDamageStep(before, after, amount, roll, pick, severity)
    ensures after == Afflicted(before, amount, roll, pick, severity)
  {
    var other := Afflicted(before, amount, roll, pick, severity);
    assert forall s :: s in after <==> s in other;
    assert forall s :: s in after ==> after[s] == other[s];
  }

  /**
   * `_apply_system_damage` changes at most one system, raises it by at most
   * the severity (0.5 at most) and leaves every level within [0, 1].
   */
  lemma SystemDamageBounded(before: map<System, real>, after: map<System, real>,
                            amount: int, roll: real, pick: nat, severity: real)
    requires WellFormed(before) && 0.1 <= severity <= 0.5
    requires SystemDamageStep(before, after, amount, roll, pick, severity)
    ensures WellFormed(after)
    ensures forall s :: before[s] <= after[s] <= before[s] + 0.5
    ensures forall s, t :: after[s] != before[s] && after[t] != before[t] ==> s == t
  {
  }
}

=== FILE: strategic_ai.dfy ===
/**
 * The strategic advisor: threat, condition, readiness and efficiency scores
 * clamped to fixed ranges, threshold categorisers, urgent warnings in a fixed
 * priority order, a greedy nearest-first route through target quadrants, the
 * warp energy that route costs, and the trend of a score history.
 *
 * The advisor only reads the ship; what it reads is gathered once into a
 * `Readings` value (`ReadingsOf`), so the scores are pure functions of values.
 * Times are stardates as reals.
 */
module StrategicAI {
  import opened Common
  import Ship

  // ---------------------------------------------------------------------
  // What the advisor reads from the ship
  // ---------------------------------------------------------------------

  /**
   * The ship's resources and maxima, `is_destroyed()`, `has_damage()`, the
   * average damage over the eight systems, and the phaser and torpedo
   * efficiencies and `can_use_*` predicates.
   */
  datatype Readings = Readings(
    energy: int, maxEnergy: int, shields: int, maxShields: int,
    torpedoes: int, maxTorpedoes: int,
    destroyed: bool, damaged: bool, avgDamage: real,
    phaserEfficiency: real, torpedoEfficiency: real,
    phasersReady: bool, torpedoesReady: bool)

  /** The readings of a ship. */
  function ReadingsOf(ship: Ship.Ship): (r: Readings)
    reads ship
    requires ship.Valid()
    ensures r.destroyed == ship.IsDestroyed() && r.damaged == ship.HasDamage()
    ensures r.phasersReady == ship.CanUsePhasers() && r.torpedoesReady == ship.CanUseTorpedoes()
  {
    Ship.AllSystemsListed();
    Readings(ship.energy, ship.maxEnergy, ship.shields, ship.maxShields,
             ship.torpedoes, ship.maxTorpedoes,
             ship.IsDestroyed(), ship.HasDamage(),
             Ship.TotalDamage(Ship.SystemNames, ship.systems) / 8.0,
             ship.SystemEfficiency("phasers"), ship.SystemEfficiency("torpedo_tubes"),
             ship.CanUsePhasers(), ship.CanUseTorpedoes())
  }

  /** The maxima the ratios divide by are positive. */
  predicate HasMaxima(r: Readings)
  {
    r.maxEnergy > 0 && r.maxShields > 0 && r.maxTorpedoes > 0
  }

  function Ratio(current: int, maximum: int): (r: real)
    requires maximum > 0
    ensures current >= maximum ==> r >= 1.0
    ensures current <= 0 ==> r <= 0.0
    ensures 0 <= current <= maximum ==> 0.0 <= r <= 1.0
  {
    current as real / maximum as real
  }

  /** Dividing by a positive amount keeps the order. */
  lemma RealDivMono(a: real, b: real, m: real)
    requires m > 0.0 && a <= b
    ensures a / m <= b / m
  {
    assert b / m - a / m == (b - a) / m;
  }

  /** A ratio's percentage reaches `t` exactly when the numerator reaches `t` percent of the denominator. */
  lemma PercentCompare(x: real, m: real, t: real)
    requires m > 0.0
    ensures (x / m) * 100.0 >= t <==> x * 100.0 >= t * m
  {
    var q := x / m;
    assert q * m == x;
    assert (q * 100.0 - t) * m == x * 100.0 - t * m;
  }

  // ---------------------------------------------------------------------
  // Scores
  // ---------------------------------------------------------------------

  /**
   * `_assess_ship_condition`: 0 for a destroyed ship, otherwise the
   * 0.4/0.3/0.3 blend of energy ratio, shield ratio and undamaged fraction,
   * clamped to [0, 1].
   */
  function ShipCondition(r: Readings): (c: real)
    requires HasMaxima(r)
    ensures 0.0 <= c <= 1.0
    ensures r.destroyed ==> c == 0.0
  {
    if r.destroyed then 0.0
    else Clamp(0.0, 1.0, Ratio(r.energy, r.maxEnergy) * 0.4 + Ratio(r.shields, r.maxShields) * 0.3
                         + (1.0 - r.avgDamage) * 0.3)
  }

  /** A ship that is not destroyed is in no worse condition with more energy, everything else equal. */
  lemma ConditionMonotoneInEnergy(r: Readings, more: int)
    requires HasMaxima(r) && !r.destroyed && more >= r.energy
    ensures ShipCondition(r) <= ShipCondition(r.(energy := more))
  {
    RealDivMono(r.energy as real, more as real, r.maxEnergy as real);
  }

  /**
   * `_assess_threat_level`: 0.4 of the klingon pressure (remaining / 15,
   * capped at 1), 0.3 of the time pressure (1 - remaining time / 30, floored
   * at 0), 0.2 of the ship's lack of condition and 0.1 of the local
   * pressure (local klingons / 3, capped at 1).
   */
  function ThreatLevel(klingonsRemaining: int, timeRemaining: real, r: Readings, localKlingons: int): (t: real)
    requires HasMaxima(r)
    ensures klingonsRemaining >= 0 && timeRemaining >= 0.0 && localKlingons >= 0 ==> 0.0 <= t <= 1.0
    ensures timeRemaining >= 30.0 && klingonsRemaining == 0 && localKlingons == 0 ==> t == 0.2 * (1.0 - ShipCondition(r))
  {
    MinR(1.0, klingonsRemaining as real / 15.0) * 0.4
    + MaxR(0.0, 1.0 - timeRemaining / 30.0) * 0.3
    + (1.0 - ShipCondition(r)) * 0.2
    + MinR(1.0, localKlingons as real / 3.0) * 0.1
  }

  /** More klingons, here or anywhere, never lower the threat. */
  lemma ThreatMonotone(k1: int, k2: int, time: real, r: Readings, l1: int, l2: int)
    requires HasMaxima(r) && k1 <= k2 && l1 <= l2
    ensures ThreatLevel(k1, time, r, l1) <= ThreatLevel(k2, time, r, l2)
  {
    assert k1 as real / 15.0 <= k2 as real / 15.0;
    assert l1 as real / 3.0 <= l2 as real / 3.0;
  }

  /** Past the time limit the threat is no longer bounded by 1. */
  lemma ThreatUnboundedWhenOverdue(r: Readings)
    requires HasMaxima(r)
    ensures ThreatLevel(15, -30.0, r, 3) > 1.0
  {
  }

  /**
   * `_assess_combat_readiness`: 0 for a destroyed ship, otherwise the
   * 0.4/0.4/0.2 blend of the best usable weapon's efficiency, the energy
   * reserve (per 1000, capped at 1) and the shield ratio, clamped to [0, 1].
   */
  function CombatReadiness(r: Readings): (c: real)
    requires HasMaxima(r)
    ensures 0.0 <= c <= 1.0
    ensures r.destroyed ==> c == 0.0
  {
    if r.destroyed then 0.0
    else
      var weapon := MaxR(if r.phasersReady then r.phaserEfficiency else 0.0,
                         if r.torpedoesReady then r.torpedoEfficiency else 0.0);
      Clamp(0.0, 1.0, weapon * 0.4 + MinR(1.0, r.energy as real / 1000.0) * 0.4
                      + Ratio(r.shields, r.maxShields) * 0.2)
  }

  /** With no usable weapon and shields no higher than their maximum, readiness is at most 0.6. */
  lemma UnarmedReadinessAtMost(r: Readings)
    requires HasMaxima(r) && !r.phasersReady && !r.torpedoesReady && r.shields <= r.maxShields
    ensures CombatReadiness(r) <= 0.6
  {
    assert Ratio(r.shields, r.maxShields) <= 1.0;
  }

  /**
   * `_assess_tactical_advantage`: +0.3 with a local starbase, -0.2 for each
   * klingon beyond the first, plus 0.4 of the condition's distance from 0.5,
   * clamped to [-1, 1].
   */
  function TacticalAdvantage(r: Readings, localKlingons: int, localStarbases: int): (a: real)
    requires HasMaxima(r)
    ensures -1.0 <= a <= 1.0
    ensures localKlingons >= 8 && localStarbases <= 0 ==> a == -1.0
  {
    var base := (if localStarbases > 0 then 0.3 else 0.0)
                - (if localKlingons > 1 then 0.2 * (localKlingons - 1) as real else 0.0);
    Clamp(-1.0, 1.0, base + (ShipCondition(r) - 0.5) * 0.4)
  }

  /** Each extra enemy in the quadrant can only lower the advantage; a local starbase can only raise it. */
  lemma AdvantageMonotone(r: Readings, k1: int, k2: int, b1: int, b2: int)
    requires HasMaxima(r) && k1 <= k2 && (b1 > 0 ==> b2 > 0)
    ensures TacticalAdvantage(r, k2, b1) <= TacticalAdvantage(r, k1, b2)
  {
  }

  /**
   * `_calculate_efficiency_rating`: 0.3 of the time efficiency (1 - elapsed
   * / 30, floored at 0), 0.3 of the resource efficiency (1 - energy per
   * visited quadrant / 1000, floored at 0) and 0.4 of the combat efficiency
   * (klingons destroyed per encounter, capped at 1, and 0.5 with no
   * encounter yet), clamped to [0, 1].
   */
  function Efficiency(stardate: real, energyUsed: int, quadrantsVisited: int, combatEncounters: int,
                      klingonsRemaining: int): (e: real)
    ensures 0.0 <= e <= 1.0
  {
    var timeEfficiency := MaxR(0.0, 1.0 - (stardate - 2267.0) / 30.0);
    var resourceEfficiency := MaxR(0.0, 1.0 - (energyUsed as real / MaxI(1, quadrantsVisited) as real) / 1000.0);
    var combatEfficiency := if combatEncounters > 0
                            then MinR(1.0, (15 - klingonsRemaining) as real / combatEncounters as real)
                            else 0.5;
    Clamp(0.0, 1.0, timeEfficiency * 0.3 + resourceEfficiency * 0.3 + combatEfficiency * 0.4)
  }

  /** Destroying another klingon never lowers the rating. */
  lemma EfficiencyRewardsKills(stardate: real, energyUsed: int, visited: int, encounters: int, remaining: int)
    ensures Efficiency(stardate, energyUsed, visited, encounters, remaining)
            <= Efficiency(stardate, energyUsed, visited, encounters, remaining - 1)
  {
    if encounters > 0 {
      assert (15 - remaining) as real / encounters as real <= (15 - (remaining - 1)) as real / encounters as real;
    }
  }

  // ---------------------------------------------------------------------
  // Categorisers
  // ---------------------------------------------------------------------

  /**
   * The four bands every categoriser uses, best first. For resource levels
   * they read excellent/good/low/critical, for the overall resource status
   * excellent/good/fair/poor, for time ample/adequate/limited/critical and
   * for progress excellent/good/fair/poor.
   */
  datatype Band = Top | Upper | Lower | Bottom

  function BandRank(b: Band): nat
  {
    match b
    case Top => 3
    case Upper => 2
    case Lower => 1
    case Bottom => 0
  }

  /** The band of `v` against the descending thresholds `hi`, `mid`, `lo`. */
  function BandOf(v: real, hi: real, mid: real, lo: real): (b: Band)
    requires lo <= mid <= hi
    ensures b == Top <==> v >= hi
    ensures b == Upper <==> mid <= v < hi
    ensures b == Lower <==> lo <= v < mid
    ensures b == Bottom <==> v < lo
  {
    if v >= hi then Top else if v >= mid then Upper else if v >= lo then Lower else Bottom
  }

  /** A larger value never falls in a lower band. */
  lemma BandMonotone(v: real, w: real, hi: real, mid: real, lo: real)
    requires lo <= mid <= hi && v <= w
    ensures BandRank(BandOf(v, hi, mid, lo)) <= BandRank(BandOf(w, hi, mid, lo))
  {
  }

  /** `_categorize_resource_level`: the percentage of the maximum against 75/50/25. */
  function ResourceLevel(current: int, maximum: int): (b: Band)
    requires maximum > 0
    ensures b == Top <==> 4 * current >= 3 * maximum
    ensures b == Upper <==> 2 * current >= maximum && 4 * current < 3 * maximum
    ensures b == Lower <==> 4 * current >= maximum && 2 * current < maximum
    ensures b == Bottom <==> 4 * current < maximum
    ensures current >= maximum ==> b == Top
    ensures current <= 0 ==> b == Bottom
  {
    PercentCompare(current as real, maximum as real, 75.0);
    PercentCompare(current as real, maximum as real, 50.0);
    PercentCompare(current as real, maximum as real, 25.0);
    BandOf(Ratio(current, maximum) * 100.0, 75.0, 50.0, 25.0)
  }

  /** `_assess_overall_resource_status`: the mean of the three ratios against 0.75/0.5/0.25. */
  function OverallResourceStatus(r: Readings): (b: Band)
    requires HasMaxima(r)
    ensures b == Top <==> Ratio(r.energy, r.maxEnergy) + Ratio(r.shields, r.maxShields) + Ratio(r.torpedoes, r.maxTorpedoes) >= 2.25
    ensures b == Upper <==> 1.5 <= Ratio(r.energy, r.maxEnergy) + Ratio(r.shields, r.maxShields) + Ratio(r.torpedoes, r.maxTorpedoes) < 2.25
    ensures b == Lower <==> 0.75 <= Ratio(r.energy, r.maxEnergy) + Ratio(r.shields, r.maxShields) + Ratio(r.torpedoes, r.maxTorpedoes) < 1.5
    ensures b == Bottom <==> Ratio(r.energy, r.maxEnergy) + Ratio(r.shields, r.maxShields) + Ratio(r.torpedoes, r.maxTorpedoes) < 0.75
    ensures r.energy >= r.maxEnergy && r.shields >= r.maxShields && r.torpedoes >= r.maxTorpedoes ==> b == Top
    ensures r.energy <= 0 && r.shields <= 0 && r.torpedoes <= 0 ==> b == Bottom
  {
    BandOf((Ratio(r.energy, r.maxEnergy) + Ratio(r.shields, r.maxShields) + Ratio(r.torpedoes, r.maxTorpedoes)) / 3.0,
           0.75, 0.5, 0.25)
  }

  /** `_categorize_time_status`: the remaining-time percentage against 75/50/25. */
  function TimeStatus(timePercent: real): (b: Band)
    ensures b == Top <==> timePercent >= 75.0
    ensures b == Upper <==> 50.0 <= timePercent < 75.0
    ensures b == Lower <==> 25.0 <= timePercent < 50.0
    ensures b == Bottom <==> timePercent < 25.0
  {
    BandOf(timePercent, 75.0, 50.0, 25.0)
  }

  /** `_categorize_progress_status`: the fraction of klingons destroyed against 0.8/0.6/0.4. */
  function ProgressStatus(progress: real): (b: Band)
    ensures b == Top <==> progress >= 0.8
    ensures b == Upper <==> 0.6 <= progress < 0.8
    ensures b == Lower <==> 0.4 <= progress < 0.6
    ensures b == Bottom <==> progress < 0.4
  {
    BandOf(progress, 0.8, 0.6, 0.4)
  }

  // ---------------------------------------------------------------------
  // Urgent warnings
  // ---------------------------------------------------------------------

  datatype Warning =
    | EnergyCritical           // "CRITICAL: Energy reserves dangerously low!"
    | SystemsFailing           // "CRITICAL: Ship systems failing!"
    | TimeExpiring(left: real) // "CRITICAL: Mission time expires in ... stardates!"
    | ExtremeDanger            // "WARNING: Extreme danger detected!"

  /** `_check_urgent_warnings`: the first condition that holds, in fixed priority order. */
  function UrgentWarning(r: Readings, timeRemaining: real, threat: real): (w: Option<Warning>)
    ensures w == Some(EnergyCritical) <==> r.energy < 200
    ensures w == Some(SystemsFailing) <==> r.energy >= 200 && r.destroyed
    ensures w.Some? && w.value.TimeExpiring? <==> r.energy >= 200 && !r.destroyed && timeRemaining < 3.0
    ensures w.Some? && w.value.TimeExpiring? ==> w.value.left == timeRemaining
    ensures w == Some(ExtremeDanger) <==> r.energy >= 200 && !r.destroyed && timeRemaining >= 3.0 && threat > 0.8
    ensures w == None <==> r.energy >= 200 && !r.destroyed && timeRemaining >= 3.0 && threat <= 0.8
  {
    if r.energy < 200 then Some(EnergyCritical)
    else if r.destroyed then Some(SystemsFailing)
    else if timeRemaining < 3.0 then Some(TimeExpiring(timeRemaining))
    else if threat > 0.8 then Some(ExtremeDanger)
    else None
  }

  /**
   * A higher-priority condition masks every lower one: once energy is low
   * the other inputs do not matter, and once the ship is failing neither
   * time nor threat does.
   */
  lemma WarningPriority(r: Readings, t1: real, t2: real, h1: real, h2: real)
    ensures r.energy < 200 ==> UrgentWarning(r, t1, h1) == UrgentWarning(r.(destroyed := !r.destroyed), t2, h2)
    ensures r.destroyed ==> UrgentWarning(r, t1, h1) == UrgentWarning(r, t2, h2)
    ensures t1 < 3.0 && t2 < 3.0 && t1 == t2 ==> UrgentWarning(r, t1, h1) == UrgentWarning(r, t2, h2)
  {
  }

  // ---------------------------------------------------------------------
  // The greedy route
  // ---------------------------------------------------------------------

  /**
   * The index of the first target at minimal distance from `from`: the one
   * the inner loop of `get_optimal_route` settles on, since it replaces its
   * candidate only on a strictly smaller distance. Distances compare as
   * their squares.
   */
  function Nearest(from: Coord, targets: seq<Coord>): (i: nat)
    requires |targets| > 0
    ensures i < |targets|
    ensures forall j :: 0 <= j < |targets| ==> Dist2(from, targets[i]) <= Dist2(from, targets[j])
    ensures forall j :: 0 <= j < i ==> Dist2(from, targets[i]) < Dist2(from, targets[j])
  {
    if |targets| == 1 then 0
    else
      var rest := Nearest(from, targets[..|targets| - 1]);
      if Dist2(from, targets[|targets| - 1]) < Dist2(from, targets[rest]) then |targets| - 1 else rest
  }

  /** The sequence with index `i` removed. */
  function RemoveAt(s: seq<Coord>, i: nat): (r: seq<Coord>)
    requires i < |s|
    ensures |r| == |s| - 1
    ensures multiset(r) + multiset{s[i]} == multiset(s)
  {
    assert s == s[..i] + [s[i]] + s[i + 1..];
    s[..i] + s[i + 1..]
  }

  /**
   * The route the greedy loop builds: go to the nearest remaining target,
   * drop it, repeat. `remaining_targets.remove` drops the first element equal
   * to the chosen one, which is the chosen one itself: an earlier equal
   * element would have been at the same distance and chosen first.
   */
  function GreedyRoute(from: Coord, targets: seq<Coord>): seq<Coord>
    decreases |targets|
  {
    if |targets| == 0 then []
    else
      var i := Nearest(from, targets);
      [targets[i]] + GreedyRoute(targets[i], RemoveAt(targets, i))
  }

  /** The greedy route visits every target exactly as often as it is listed. */
  lemma {:induction false} GreedyRoutePermutes(from: Coord, targets: seq<Coord>)
    ensures |GreedyRoute(from, targets)| == |targets|
    ensures multiset(GreedyRoute(from, targets)) == multiset(targets)
    decreases |targets|
  {
    if |targets| > 0 {
      var i := Nearest(from, targets);
      GreedyRoutePermutes(targets[i], RemoveAt(targets, i));
    }
  }

  /**
   * Each leg goes to a nearest target among those not yet visited: the
   * first stop is no farther from the start than any stop, and the rest of
   * the route is nearest-first from there.
   */
  predicate NearestFirst(from: Coord, r: seq<Coord>)
    decreases |r|
  {
    |r| == 0
    || ((forall k :: 0 <= k < |r| ==> Dist2(from, r[0]) <= Dist2(from, r[k])) && NearestFirst(r[0], r[1..]))
  }

  /** The greedy route is nearest-first. */
  lemma {:induction false} GreedyRouteNearestFirst(from: Coord, targets: seq<Coord>)
    ensures NearestFirst(from, GreedyRoute(from, targets))
    decreases |targets|
  {
    if |targets| > 0 {
      var i := Nearest(from, targets);
      var rest := RemoveAt(targets, i);
      var tail := GreedyRoute(targets[i], rest);
      var r := GreedyRoute(from, targets);
      assert r == [targets[i]] + tail;
      GreedyRouteNearestFirst(targets[i], rest);
      GreedyRoutePermutes(targets[i], rest);
      forall k | 0 <= k < |r|
        ensures Dist2(from, r[0]) <= Dist2(from, r[k])
      {
        if k > 0 {
          assert r[k] == tail[k - 1];
          assert r[k] in multiset(rest);
          assert r[k] in multiset(targets);
          var j :| 0 <= j < |targets| && targets[j] == r[k];
        }
      }
      assert r[1..] == tail;
    }
  }

  /** One turn of the greedy loop moves the nearest target from the remaining route to the route built. */
  lemma GreedyStep(route: seq<Coord>, current: Coord, remaining: seq<Coord>)
    requires |remaining| > 0
    ensures var i := Nearest(current, remaining);
            route + GreedyRoute(current, remaining)
            == (route + [remaining[i]]) + GreedyRoute(remaining[i], RemoveAt(remaining, i))
  {
  }

  /**
   * `get_optimal_route`: the greedy nearest-first order of the targets,
   * without the start.
   */
  method GetOptimalRoute(start: Coord, targets: seq<Coord>) returns (route: seq<Coord>)
    ensures route == GreedyRoute(start, targets)
  {
    route := [];
    if |targets| == 0 {
      return;
    }
    var current := start;
    var remaining := targets;
    while |remaining| > 0
      invariant route + GreedyRoute(current, remaining) == GreedyRoute(start, targets)
      decreases |remaining|
    {
      var nearest := FindNearest(current, remaining);
      var next := remaining[nearest];
      GreedyStep(route, current, remaining);
      route := route + [next];
      current := next;
      remaining := RemoveAt(remaining, nearest);
    }
  }

  /** The inner loop of `get_optimal_route`: the first target at the smallest distance. */
  method FindNearest(current: Coord, remaining: seq<Coord>) returns (nearest: nat)
    requires |remaining| > 0
    ensures nearest == Nearest(current, remaining)
  {
    nearest := 0;
    var minDistance := Dist2(current, remaining[0]);
    for j := 1 to |remaining|
      invariant nearest == Nearest(current, remaining[..j])
      invariant minDistance == Dist2(current, remaining[nearest])
    {
      assert remaining[..j + 1][..j] == remaining[..j];
      if Dist2(current, remaining[j]) < minDistance {
        minDistance := Dist2(current, remaining[j]);
        nearest := j;
      }
    }
    assert remaining[..|remaining|] == remaining;
  }

  // ---------------------------------------------------------------------
  // Route energy
  // ---------------------------------------------------------------------

  /** The warp energy of a route: `int(distance * 8)` summed over consecutive stops. */
  function RouteCost(route: seq<Coord>): nat
  {
    if |route| < 2 then 0
    else RouteCost(route[..|route| - 1]) + WarpCost(Dist2(route[|route| - 2], route[|route| - 1]))
  }

  /** Joining two routes costs both plus the leg between them. */
  lemma {:induction false} RouteCostJoin(a: seq<Coord>, b: seq<Coord>)
    requires |a| > 0 && |b| > 0
    ensures RouteCost(a + b) == RouteCost(a) + WarpCost(Dist2(a[|a| - 1], b[0])) + RouteCost(b)
    decreases |b|
  {
    if |b| == 1 {
      assert (a + b)[..|a + b| - 1] == a;
    } else {
      var b' := b[..|b| - 1];
      assert (a + b)[..|a + b| - 1] == a + b';
      RouteCostJoin(a, b');
      assert b[..|b| - 1] == b';
    }
  }

  /** `estimate_energy_needed`: 0 for fewer than two stops, else the summed leg costs. */
  method EstimateEnergyNeeded(route: seq<Coord>) returns (total: int)
    ensures total == RouteCost(route)
    ensures |route| < 2 ==> total == 0
  {
    if |route| < 2 {
      return 0;
    }
    total := 0;
    for i := 0 to |route| - 1
      invariant total == RouteCost(route[..i + 1])
    {
      assert route[..i + 2][..i + 1] == route[..i + 1];
      total := total + WarpCost(Dist2(route[i], route[i + 1]));
    }
    assert route[..|route|] == route;
  }

  // ---------------------------------------------------------------------
  // Trends
  // ---------------------------------------------------------------------

  datatype Trend = Improving | Declining | Stable

  function Sum(s: seq<real>): real
  {
    if |s| == 0 then 0.0 else Sum(s[..|s| - 1]) + s[|s| - 1]
  }

  function Mean(s: seq<real>): real
    requires |s| > 0
  {
    Sum(s) / |s| as real
  }

  /** Adding `c` to every value adds `c` to the mean. */
  lemma MeanShift(s: seq<real>, t: seq<real>, c: real)
    requires |s| == |t| > 0 && forall i :: 0 <= i < |s| ==> t[i] == s[i] + c
    ensures Mean(t) == Mean(s) + c
  {
    SumShift(s, t, c);
    var n := |s| as real;
    assert Sum(t) == Sum(s) + n * c;
    assert (Sum(s) + n * c) / n == Sum(s) / n + c;
  }

  /**
   * `_calculate_trend`: the mean of the second half (the larger half when
   * the count is odd) minus the mean of the first, against ±0.1.
   */
  function CalculateTrend(values: seq<real>): (t: Trend)
    ensures |values| < 2 ==> t == Stable
  {
    if |values| < 2 then Stable
    else
      var h := |values| / 2;
      var difference := Mean(values[h..]) - Mean(values[..h]);
      if difference > 0.1 then Improving
      else if difference < -0.1 then Declining
      else Stable
  }

  /** Adding `c` to each of `n` values adds `n * c` to their sum. */
  lemma {:induction false} SumShift(s: seq<real>, t: seq<real>, c: real)
    requires |s| == |t| && forall i :: 0 <= i < |s| ==> t[i] == s[i] + c
    ensures Sum(t) == Sum(s) + |s| as real * c
  {
    if |s| > 0 {
      SumShift(s[..|s| - 1], t[..|t| - 1], c);
    }
  }

  /** Shifting every value by the same amount leaves the trend unchanged. */
  lemma TrendShiftInvariant(values: seq<real>, shifted: seq<real>, c: real)
    requires |values| == |shifted| && forall i :: 0 <= i < |values| ==> shifted[i] == values[i] + c
    ensures CalculateTrend(shifted) == CalculateTrend(values)
  {
    if |values| >= 2 {
      var h := |values| / 2;
      MeanShift(values[h..], shifted[h..], c);
      MeanShift(values[..h], shifted[..h], c);
    }
  }

  /** A constant history is stable. */
  lemma ConstantIsStable(values: seq<real>, c: real)
    requires forall i :: 0 <= i < |values| ==> values[i] == c
    ensures CalculateTrend(values) == Stable
  {
    var zeros := seq(|values|, i => 0.0);
    SumZero(zeros[|values| / 2..]);
    SumZero(zeros[..|values| / 2]);
    TrendShiftInvariant(zeros, values, c);
  }

  lemma {:induction false} SumZero(s: seq<real>)
    requires forall i :: 0 <= i < |s| ==> s[i] == 0.0
    ensures Sum(s) == 0.0
  {
    if |s| > 0 {
      SumZero(s[..|s| - 1]);
    }
  }
}
